=== FILE: README.md ===
# svelte-infile-components, modelled in Dafny

svelte-infile-components lets one `.svelte` file hold several components. The main component comes first. Every further one follows a marker: a line `---` between two line breaks, then `<template id="Name">`. An older marker instead puts `name=Name` on the line after the dashes. Another module in the same file imports such a component with `import Name from 'infile:Name'`.

This project models the string and sequence logic that makes that work:

- **Splitter** (`split_segments`, in the current marker form and in the older `name=` form). It cuts a file into snippets at every marker. It regroups the snippets, using a strict JavaScript parser, until each group parses. It turns each group into a segment with a name, a header, a text and its offsets in the file.
- **Name analysis** (`parse_utils.ts`, `parse_helpers.ts`). It reads the top level of a syntax tree to find the names a segment declares, imports and exports.
- **Virtual module filenames of the TypeScript plugin.** These cover `split` with a limit, the query, hash and base64 module-name serializers, base64, UTF-8 and percent-encoding, and the encoder/decoder wrapping them.
- **The TypeScript plugin's segment registry, snapshots and routing.** Snapshots blank every segment but one. Routing sends definition, reference, rename and highlight queries at a position inside a segment to that segment's virtual file, then maps the answers back.
- **The vite plugin.** Its id scheme `\0infile:<importer>!Name` and the hooks `resolveId`, `load`, `transform` and `handleHotUpdate`, plus the segment lookup helpers of `segment_helpers.ts`.
- **The language server's two refactorings.**
  - Extract a selection into an in-file component.
  - Move the in-file component around the cursor into its own file.
  - Both refactorings are modelled as written and, separately, with the defects listed under "## Findings" corrected (the members ending in `Fixed`).
  - Extract, then move (module `ExtractMove`): the corrected parse finds the component extraction appends, and so does the parse as written when the document held no `\n---\n` anywhere before. Moving that component out writes back the extracted text, with the `dedent` as written and with the corrected one.

Foreign functions become parameters of the functions that call them. These are:

- the acorn parsers;
- the host's path normaliser and MD5;
- the real TypeScript language service and host;
- the editor's `isRangeInTag`;
- the import-path rewriter `updateRelativeImports`.

The model states only what the modelled code does with these functions' results. Regular expressions become functions. Each one decides whether, and where, the expression matches, with the backtracking the regular-expression engine does.

Where the repository's prose description and its code differ, the model follows the code:

- With the `<template id>` marker, a segment's text is everything after the dashes, the `<template …>` tag included.
- Segment names are not checked for uniqueness.
- The separator-error test of `checkDashedError` looks up the reported line in the whole input, not in the group being parsed.

## Model

| member | source | states |
|---|---|---|
| TsUtils.SplitLimit | packages/ts-plugin/src/utils.ts:5-14 | joining the result with the separator gives the input back; with no limit, or a limit above the number of pieces, the result is the plain split; with a limit in range it has exactly `limit` elements, the first `limit - 1` being the first pieces of the plain split |
| TsUtils.SplitTwo | packages/ts-plugin/src/utils.ts:5-14 | with limit 2, `a + sep + b` where `a` holds no separator splits into exactly `[a, b]`, whatever separators `b` holds |
| TsUtils.SplitTwoNoSep | packages/ts-plugin/src/utils.ts:5-14 | with limit 2, a string without the separator stays one piece |
| TsUtils.Omit | packages/ts-plugin/src/utils.ts:20-35 | the result's keys are the object's keys minus the omitted ones, each kept key maps to its original value, and distinct keys stay distinct |
| TsUtils.Replace | packages/ts-plugin/src/utils.ts:37-54 | the key list is unchanged; the given key maps to the new value if it was present, and stays absent otherwise; every other key keeps its value |
| TsUtils.ReplaceSame | packages/ts-plugin/src/utils.ts:37-54 | replacing a present key by its own value gives back the same object |
| TsUtils.ReplaceAbsent | packages/ts-plugin/src/utils.ts:37-54 | replacing a key the object lacks changes nothing: the key is not added |
| TsUtils.GetProperty | packages/ts-plugin/src/utils.ts:68-73 | a value exactly when the key is one of the object's own keys, and then the value stored under it; inherited keys are not modelled |
| Base64.EncodeBytes | packages/ts-plugin/src/utils/base64.ts:2-4 | unpadded base 64 of n bytes has 4·⌊n/3⌋ + (0, 2, 3) digits for n mod 3 = (0, 1, 2), all from the alphabet of section 4 of RFC 4648, none `=` or `_` |
| Base64.DecodeBytes | packages/ts-plugin/src/utils/base64.ts:7-9 | unpadded input of m digits decodes to 3·⌊m/4⌋ + (0, 0, 1, 2) bytes |
| Base64.DecodeEncodeBytes | packages/ts-plugin/src/utils/base64.ts:2-9 | decoding the unpadded encoding of any byte sequence gives it back |
| Base64.Encode | packages/ts-plugin/src/utils/base64.ts:2-4 | the UTF-8 bytes of the input in base 64 with every `=` removed; no `_` or `=` in the output |
| Base64.Decode | packages/ts-plugin/src/utils/base64.ts:7-9 | the input read as base 64, then as UTF-8; never longer than the input |
| Base64.DecodeEncode | packages/ts-plugin/src/utils/base64.ts:2-9 | `decodeBase64(encodeBase64(s)) == s` for every string |
| Utf8.EncodeChar | packages/ts-plugin/src/utils/base64.ts:3 | one to four bytes, one byte exactly for code points below 0x80, the lead byte announcing the length, the rest continuation bytes |
| Utf8.DecodeEncodeString | packages/ts-plugin/src/utils/base64.ts:3-8 | strict UTF-8 decoding of the encoding of any string gives it back |
| Utf8.EncodeStringAppend | packages/ts-plugin/src/utils/base64.ts:3 | the encoding of a concatenation is the concatenation of the encodings |
| Percent.EncodeComponent | packages/ts-plugin/src/moduleName_serializers.ts:10 | `encodeURIComponent`: unreserved characters kept, all others as `%XX` escapes of their UTF-8 bytes; the output is never shorter and holds no `&` or `?` |
| Percent.DecodeComponent | packages/ts-plugin/src/moduleName_serializers.ts:28 | `decodeURIComponent`, failing where the escapes are malformed; never longer than the input |
| Percent.DecodeEncode | packages/ts-plugin/src/moduleName_serializers.ts:10-28 | decoding the encoding of any string gives it back |
| ModuleNameSerializers.FromParam | packages/ts-plugin/src/moduleName_serializers.ts:18 | the capture of `from=([^&]*)`: present exactly when the text holds `from=`, and free of `&` |
| ModuleNameSerializers.Deserialize | packages/ts-plugin/src/moduleName_serializers.ts:14-51 | the query form fails exactly when there is no `?` (where the source calls `match` on undefined), and otherwise its name is the text before the first `?`; the hash form always succeeds with a prefix of the input as its file part; the hash and base64 forms have no name exactly when there is no `__` |
| ModuleNameSerializers.QueryRoundTrip | packages/ts-plugin/src/moduleName_serializers.ts:8-29 | for a name without `?` whose serialised form normalisation leaves unchanged, deserialising the query form gives back the name and the file |
| ModuleNameSerializers.FromParamOf | packages/ts-plugin/src/moduleName_serializers.ts:10-18 | the parameter string the query form writes gives its encoded file back |
| ModuleNameSerializers.HashRoundTrip | packages/ts-plugin/src/moduleName_serializers.ts:36-51 | for every name, deserialising the hash form gives the name and the digest of the file, since the digest has no `_` |
| ModuleNameSerializers.Base64RoundTrip | packages/ts-plugin/src/moduleName_serializers.ts:61-76 | for every name and file, deserialising the base64 form gives both back exactly |
| VirtualCodec.Encode | packages/ts-plugin/src/plugin.ts:1175-1189 | every encoded filename is virtual, and after the virtual root it is the serialisation of the containing file and the name without its leading `infile:` |
| VirtualCodec.Decode | packages/ts-plugin/src/plugin.ts:1191-1211 | the original file decoded is shorter than the filename; with recursion it is never itself virtual |
| VirtualCodec.DecodeEncode | packages/ts-plugin/src/plugin.ts:1175-1211 | decoding an encoded filename gives the name, without `infile:` and one trailing `.js`, and the containing file back, whenever the serializer round-trips them |
| VirtualCodec.DecodeNested | packages/ts-plugin/src/plugin.ts:1191-1211 | a segment imported from inside a virtual module: recursive decoding gives the outer name and the real file, non-recursive decoding the outer name and the inner virtual filename |
| VirtualCodec.DecodeEncodeBase64 | packages/ts-plugin/src/plugin.ts:1175-1211 | with the base64 serializer every name and real file round-trip |
| Markers.SkipWhitespace | packages/core/dist/split_segments.js:8 | the `\s*` run of the template marker: every character skipped is whitespace and the one it stops at is not |
| Markers.FindChar | packages/core/dist/split_segments.js:8 | the `[^>]*` run of the template marker: no `>` before the result, and a `>` at it unless the text ended |
| Markers.FindLineTerminator | src/lib/vite-plugin/core/split_segments.ts:8 | the `.*` of the name-line marker: no line terminator before the result, one at it unless the text ended |
| Markers.LastIdAttr | packages/core/dist/split_segments.js:8 | the greedy `[^>]*` backtracks to the last `id="` inside the tag: the result is an `id="…">` position and none lies after it |
| Markers.IdValue | packages/core/dist/split_segments.js:8 | the `name` group holds no `"` and is followed by `">` |
| Markers.TemplateMatchAt | packages/core/dist/split_segments.js:8 | a template-marker match at `i` starts with the dashes, its header is the dashes group, its name holds no quote |
| Markers.NameLineMatchAt | src/lib/vite-plugin/core/split_segments.ts:8 | a name-line match at `i` is the whole line `\n---\nname=<name>\n`, its name has no line terminator, and the header is the whole match |
| Markers.NoMatchInSpec | packages/core/dist/split_segments.js:72 | "no match in [lo, hi)" means no match at any position of that range |
| Markers.SearchFrom | packages/core/dist/split_segments.js:72 | the leftmost match from `k` on: a match at its index and none before it; none means none anywhere after `k` |
| Markers.Search | packages/core/dist/split_segments.js:217 | `String.match` of the marker: the leftmost match, which starts with the dashes |
| Markers.SearchIndex | packages/core/dist/split_segments.js:72 | `String.search` of the marker: the index of a place where the dashes occur |
| Markers.SearchIndexAgrees | packages/core/dist/split_segments.js:72 | `search` and `match` agree: both miss together, and `search` gives the index of the match |
| Markers.SearchSpec | packages/core/dist/split_segments.js:217 | `match` finds the leftmost match, and finds none exactly when no position matches |
| Markers.NameLineRecognised | src/lib/vite-plugin/core/split_segments.ts:8 | every written name line `\n---\nname=x\n` with a single-line name is matched with name `x` and that line as header |
| Markers.TemplateRecognised | packages/core/dist/split_segments.js:8 | every dashes + whitespace + `<template id="x">` with a plain name `x` is matched with name `x` |
| Splitter.SplitCodeIntoSnippets | packages/core/dist/split_segments.js:70-107 | no snippets exactly when the marker is not found; otherwise at least two |
| Splitter.CutFromJoin | packages/core/dist/split_segments.js:78-105 | the snippets cut from the text, joined with the dashes, give that text back |
| Splitter.SnippetsTile | packages/core/dist/split_segments.js:70-107 | the snippets rebuild the input: joined with the dashes they give it back, start at 0, end at its end, and each next one starts five characters after the previous one ends |
| Splitter.GroupByValidJavascript | packages/core/dist/split_segments.js:112-190 | on success every group is complete |
| Splitter.StepShaped | packages/core/dist/split_segments.js:117-170 | one reducer step keeps the groups' shape and appends the snippet to their concatenation |
| Splitter.FoldShaped | packages/core/dist/split_segments.js:114-176 | the whole reduction keeps the shape and its groups concatenate to the snippets fed in |
| Splitter.GroupsPartition | packages/core/dist/split_segments.js:112-190 | grouping fails exactly when the last group is held open by a separator error, with that error; on success the non-empty groups partition the snippets in order and each was closed by a parse that succeeded or failed for another reason than the separator |
| Splitter.FirstIncomplete | packages/core/dist/split_segments.js:182-188 | the group reported is an incomplete one; none means every group is complete |
| Splitter.Analyse | packages/core/dist/split_segments.js:199-213 | the segment carries the given name, header, text and range, and fails exactly when the analysis of its text fails |
| Splitter.NameAnalysis | packages/core/dist/split_segments.js:200-203 | analysing a segment's text fails exactly when some export statement of its tree has no case, and then with `UnreachableError` |
| Splitter.SegmentOf | packages/core/dist/split_segments.js:195-247 | group 0 gives the unnamed main segment over its snippets; any other group gives name, header and text from the marker matched in dashes + its text, starting where the previous group ended; a failed match raises `cannot extract segment name` |
| Splitter.GroupIntoSegments | packages/core/dist/split_segments.js:195-247 | one segment per group |
| Splitter.SplitSegments | packages/core/dist/split_segments.js:26-68 | the main segment is the first segment of the list |
| Splitter.SegmentsContiguous | packages/core/dist/split_segments.js:228-231 | the segments follow one another without gap or overlap from 0 to the end of the input |
| Splitter.SegmentsNamed | packages/core/dist/split_segments.js:216-229 | every segment after the first starts at the dashes, and its name, header and text come from the leftmost marker in its own range |
| Splitter.MainSegment | packages/core/dist/split_segments.js:198-214 | the main segment is unnamed, has no header and holds the input up to its end |
| Splitter.GroupedSplits | src/lib/vite-plugin/core/split_segments.ts:231-290 | when the marker is found, a successful split tiles the input with the main segment first and every other segment named by its marker, for either marker syntax |
| Splitter.SplitTiles | packages/core/dist/split_segments.js:26-68 | every successful split tiles the input as above; with no marker found there is a single segment, the whole input |
| Splitter.TemplateSegmentText | packages/core/dist/split_segments.js:216-231 | with the template marker the header is just the dashes, so header + text is the segment's range of the input |
| ParseUtils.CheckInvalid | packages/core/src/parse_utils.ts:36-48 | `null` exactly when the strict parse accepts, the parser's error exactly when it throws an `Error`, and a thrown `unrecognized reason` exactly when it throws anything else |
| ParseUtils.CheckValid | packages/core/src/parse_utils.ts:50-52 | valid exactly when the strict parse accepts; fails only when the check itself throws |
| ParseUtils.Select | packages/core/src/parse_utils.ts:68-73 | the generator loop keeps exactly the top-level statements the test accepts, never more than the body holds |
| ParseUtils.DeclarationKinds | packages/core/src/parse_utils.ts:105-107 | imports, exports, variable, function and class declarations all have a type ending in `Declaration`; any other statement is yielded exactly when its type name ends so |
| ParseUtils.GeneratorsYieldDeclarations | packages/core/src/parse_utils.ts:63-141 | every import and every export statement yielded is also yielded by `findingDeclarations`, and no statement is both an import and an export |
| ParseHelpers.IdentifierDeclarators | packages/core/src/parse_helpers.ts:81-87 | the declarators kept are exactly those whose `id` is an identifier, by name |
| ParseHelpers.ImportLocals | packages/core/src/parse_helpers.ts:95-107 | one local name per import specifier, the specifier's `local`, in order |
| ParseHelpers.ImportLocalsSpec | packages/core/src/parse_helpers.ts:95-107 | a name is found on an import exactly when some specifier binds it locally |
| ParseHelpers.ExportSpecifierLocals | packages/core/src/parse_helpers.ts:133-140 | `export { a as b }` contributes local names only from specifiers whose local and exported parts are identifiers |
| ParseHelpers.ExportSpecifierLocalsSpec | packages/core/src/parse_helpers.ts:133-140 | a name is contributed exactly when some specifier has it as identifier `local` with an identifier `exported` |
| ParseHelpers.LocalNamesOfSpec | packages/core/src/parse_helpers.ts:79-154 | the names one statement contributes are exactly the names it binds, stated case by case on the syntax |
| ParseHelpers.LocalNamesOfAllSpec | packages/core/src/parse_helpers.ts:78-154 | the loop over statements finds a name exactly when one of them binds it |
| ParseHelpers.DeclaresIsDeclaration | packages/core/src/parse_helpers.ts:78 | a statement that binds a name has a type ending in `Declaration`, so the walk never skips it |
| ParseHelpers.FindLocalDeclaredNamesSpec | packages/core/src/parse_helpers.ts:62-157 | `findLocalDeclaredNames` finds a name exactly when some top-level statement binds it |
| ParseHelpers.ImportNameOf | packages/core/src/parse_helpers.ts:192-209 | the tuple keeps the local name and the specifier; the imported name is present exactly for `{ a as b }` with an identifier `a`, and is then `a` |
| ParseHelpers.ImportNamesOf | packages/core/src/parse_helpers.ts:191-210 | one tuple per specifier, in order: the i-th is the i-th specifier's local name, the specifier, and the imported name exactly for `{ a as b }` |
| ParseHelpers.ImportNamesAreLocalNames | packages/core/src/parse_helpers.ts:178-214 | the local names `findImportNames` gives are, in order, the names `findLocalDeclaredNames` finds on import specifiers |
| ParseHelpers.SpecifierTuple | packages/core/src/parse_helpers.ts:296-309 | the map callback gives a tuple exactly when local and exported are identifiers, and then it is `(a, b)` for `export { a as b }`; otherwise `undefined`, never `null` |
| ParseHelpers.FilterNullish | packages/core/src/parse_helpers.ts:312 | `.filter(guard)` keeps exactly the values the guard accepts |
| ParseHelpers.SpecifierTuplesAsWritten | packages/core/src/parse_helpers.ts:294-313 | the written filter removes `null` only |
| ParseHelpers.SpecifierTuplesKeepUndefined | packages/core/src/parse_helpers.ts:294-313 | `export { "a b" as c }` leaves an `undefined` entry among the export tuples |
| ParseHelpers.SpecifierTuples | packages/core/src/parse_helpers.ts:294-313 | the corrected filter keeps exactly the tuples of specifiers with identifier local and exported names |
| ParseHelpers.DeclaratorTuples | packages/core/src/parse_helpers.ts:273-278 | exported declarators carry no exported name and point at their statement |
| ParseHelpers.ExtractExportNameTuples | packages/core/src/parse_helpers.ts:258-345 | with the corrected specifier filter: succeeds exactly on the export forms that have a case and raises `UnreachableError` on the rest; every tuple points at its statement; `export default` gives one `default` tuple whose local is the identifier, the literal's raw text, the assigned identifier, or `""` for a call; a function or class declaration gives `(id, none)`; a variable declaration gives its identifier declarators with no exported name; `export { ... }` gives the specifier tuples; `export *` gives `[source, '*']` |
| ParseHelpers.FindExportNames | packages/core/src/parse_helpers.ts:217-253 | with the corrected specifier filter: succeeds exactly when every top-level export statement has a case; the only failure is `UnreachableError`; on success the tuples are exactly those the top-level export statements give |
| ParseHelpers.DeclaratorTuplesLocals | packages/core/src/parse_helpers.ts:273-278 | the exported declarators have the same local names that `findLocalDeclaredNames` finds for them |
| ParseHelpers.SpecifierTuplesLocals | packages/core/src/parse_helpers.ts:294-313 | the corrected specifier tuples have the same local names `findLocalDeclaredNames` finds on them |
| ParseHelpers.ExportedLocalsAreDeclared | packages/core/src/parse_helpers.ts:258-335 | with the corrected specifier filter: a named export, or `export default a = ...`, exports exactly the local names `findLocalDeclaredNames` finds on it |
| ParseHelpers.ImportAtFrom | packages/core/src/parse_helpers.ts:360-368 | the first import at or after `k` whose range holds the position; none means no such import remains |
| ParseHelpers.FindImportDeclarationAt | packages/core/src/parse_helpers.ts:356-370 | the first top-level import whose range holds the position; `null` exactly when there is none |
| SegmentHelpers.FindVirtualSegmentTuples | packages/vite-plugin/src/lib/core/segment_helpers.ts:3-14 | one tuple per piece after the first of the split on the dashes |
| SegmentHelpers.TupleOfSpec | packages/vite-plugin/src/lib/core/segment_helpers.ts:7-11 | each tuple's code is the trimmed piece (its lines rejoined), and its name is the first line of that without a leading `name=` |
| SegmentHelpers.TupleOfNamed | packages/vite-plugin/src/lib/core/segment_helpers.ts:7-11 | a piece written `name=X` on its first line gives the tuple named `X` with the piece as code |
| SegmentHelpers.SkipWord | packages/vite-plugin/src/lib/core/segment_helpers.ts:26 | the `\w+` run: word characters up to the result, none at it |
| SegmentHelpers.AssignmentAt | packages/vite-plugin/src/lib/core/segment_helpers.ts:26 | a match of `name\s*=\s*(\w+)` at `i`: a non-empty word name that ends the match |
| SegmentHelpers.AssignmentFrom | packages/vite-plugin/src/lib/core/segment_helpers.ts:26 | `match` finds the leftmost assignment, and none exactly when no position matches |
| SegmentHelpers.AssignmentAtShape | packages/vite-plugin/src/lib/core/segment_helpers.ts:26 | a match is `name`, white space, `=`, white space, then the word |
| SegmentHelpers.CopyMatches | packages/vite-plugin/src/lib/core/segment_helpers.ts:26 | any copy of a match's text is itself a match, so the first occurrence of the matched text is the match |
| SegmentHelpers.ReplaceAtMatch | packages/vite-plugin/src/lib/core/segment_helpers.ts:30 | replacing the first occurrence of the matched text removes exactly the match |
| SegmentHelpers.Chunks | packages/vite-plugin/src/lib/core/segment_helpers.ts:23 | one trimmed chunk per piece of the split on `---` |
| SegmentHelpers.FindInChunks | packages/vite-plugin/src/lib/core/segment_helpers.ts:25-35 | found exactly when some chunk declares the name, and then under that name |
| SegmentHelpers.FindInChunksFirst | packages/vite-plugin/src/lib/core/segment_helpers.ts:25-33 | when chunk k is the first chunk declaring the name, the result is that name with chunk k's declaration cut out where it was matched, trimmed |
| SegmentHelpers.FindVirtualSegmentFromFileContent1 | packages/vite-plugin/src/lib/core/segment_helpers.ts:19-36 | found exactly when some chunk of the content declares the name, and then under that name |
| SegmentHelpers.FirstNamed | packages/vite-plugin/src/lib/core/segment_helpers.ts:54-61 | the first segment with the name; none means no segment has it |
| SegmentHelpers.FindVirtualSegmentFromFileContent | packages/vite-plugin/src/lib/core/segment_helpers.ts:41-64 | fails exactly when the split fails; otherwise the text of the first segment after the main one that has the name, or none exactly when no such segment has it |
| SegmentManager.Save | packages/ts-plugin/src/plugin.ts:1086-1088 | the file's list is replaced wholesale, every other file keeps its list, the key order is kept and a new file goes last, and distinct keys stay distinct |
| SegmentManager.FirstKeyWhere | packages/ts-plugin/src/plugin.ts:1096-1101 | the first key in insertion order that passes the test; none means no key passes |
| SegmentManager.Load | packages/ts-plugin/src/plugin.ts:1090-1103 | by name, the list or `null`; by test, the list stored under a key that passes, and `null` exactly when no key passes |
| SegmentManager.FirstKeyLookup | packages/ts-plugin/src/plugin.ts:1096-1098 | `get` on the first passing key returns that entry's list |
| SegmentManager.FindByName | packages/ts-plugin/src/plugin.ts:1110 | the first segment with the name; none exactly when no segment has it |
| SegmentManager.GetSegmentFromFile | packages/ts-plugin/src/plugin.ts:1105-1111 | a segment with the asked name, the first such in the file's list; `null` exactly when the file or such a segment is missing |
| SegmentManager.FindContaining | packages/ts-plugin/src/plugin.ts:1125-1131 | the first segment with `start <= pos < end`; none exactly when no segment contains the position |
| SegmentManager.FindSegmentWithIndexFromPos | packages/ts-plugin/src/plugin.ts:1116-1133 | `[segment, i]` with the segment at `i` the first containing the position; `[null, -1]` exactly when the file is missing or nothing contains it |
| SegmentManager.ContiguousCovers | packages/ts-plugin/src/plugin.ts:1125-1131 | in segments that tile a text, a position of the text at or after a segment's start lies in that or a later segment |
| SegmentManager.ContiguousOrdered | packages/ts-plugin/src/plugin.ts:1125-1131 | in tiling segments, an earlier segment ends before a later one starts |
| SegmentManager.PositionInSplit | packages/ts-plugin/src/plugin.ts:1116-1133 | for a split file every position is found, and the segment found is the only one containing it |
| SegmentManager.GetOtherSegments | packages/ts-plugin/src/plugin.ts:1135-1145 | the file's segments but the one at `index`, the others in their order: one fewer, the same multiset less that one, and position `k` holding segment `k` before `index` and segment `k + 1` from it on; all of them when the index is out of range; fails (the source throws) when the file is missing |
| SegmentSnapshot.Blanked | packages/ts-plugin/src/plugin.ts:335 | `replace(/./g, ' ')` keeps the length |
| SegmentSnapshot.BlankedSpec | packages/ts-plugin/src/plugin.ts:335 | line terminators stay where they are and every other character becomes a space |
| SegmentSnapshot.BlankedAppend | packages/ts-plugin/src/plugin.ts:341-345 | blanking two stretches is blanking their concatenation |
| SegmentSnapshot.BlankedIdempotent | packages/ts-plugin/src/plugin.ts:335 | blanking a blanked text changes nothing |
| SegmentSnapshot.Transform | packages/ts-plugin/src/plugin.ts:334-345 | the result is as long as the content before the segment, the header, the text and the content after it together |
| SegmentSnapshot.TransformLayout | packages/ts-plugin/src/plugin.ts:325-346 | given the file, the result is as long as the file, holds the segment text at its own offsets, blanks everything else, and keeps every line terminator in place |
| SegmentSnapshot.HeadersAndTextsOfTiling | packages/ts-plugin/src/plugin.ts:331 | headers and texts of tiling segments rejoin to the file from the first one's start |
| SegmentSnapshot.TemplateSplitSpans | packages/ts-plugin/src/plugin.ts:250-262 | every segment of a `<template id>` split has header and text equal to the file over its range |
| SegmentSnapshot.TextsOnlyMisplaces | packages/ts-plugin/src/plugin.ts:331 | in `"a\n---\nb\n---\nc"` the written fallback gives the last segment a 9-character view with `c` at 8, while the file has it at 12; the corrected fallback gives 13 characters with `c` at 12 |
| SegmentSnapshot.FixedSnapshotOfSplit | packages/ts-plugin/src/plugin.ts:325-346 | with the corrected fallback, every segment of a split is shown at its own offsets in a view as long as the file, the fallback being the file itself |
| SegmentSnapshot.SnapshotOfSplit | packages/ts-plugin/src/plugin.ts:311 | the main file's view, built with the file passed in, is the file with everything but the main segment blanked |
| SegmentSnapshot.FindNameSeparator | packages/ts-plugin/src/plugin.ts:1070 | the leftmost place where a line starts with `---` followed by a `name=` line; none means nowhere |
| SegmentSnapshot.TransformCode | packages/ts-plugin/src/plugin.ts:1062-1081 | keeps the length; unchanged without a marker; otherwise exactly the matched `---\nname=...` stretch up to the end of its line becomes spaces |
| SegmentSnapshot.TransformCodeRemovesFirst | packages/ts-plugin/src/plugin.ts:1070-1080 | after the transform no marker starts before the end of the blanked one |
| ServiceProxy.CustomResolve | packages/ts-plugin/src/plugin.ts:158-184 | a resolution exactly for `infile:` specifiers: a virtual filename with the `.ts` extension |
| ServiceProxy.ResolveModuleNames | packages/ts-plugin/src/plugin.ts:114-199 | the host's answer for files under `/node_modules/`, `/.svelte-kit/`, `svelte/` or not ending in `.svelte`; otherwise one result per specifier, the custom resolution where there is one and the host's at the same index elsewhere |
| ServiceProxy.ResolvedDecodes | packages/ts-plugin/src/plugin.ts:158-184 | an `infile:X` import of a `.svelte` file resolves to a filename that decodes back to `X` and the importing file |
| ServiceProxy.ServeVirtual | packages/ts-plugin/src/plugin.ts:223-281 | fails exactly when the filename does not decode; a snapshot only when the decoded file is registered and has a segment of the decoded name, and then the first such segment shown, as written, in the registered segments' texts joined without their headers |
| ServiceProxy.ServeVirtualFixed | packages/ts-plugin/src/plugin.ts:223-281 | the same failures and lookups, with the corrected fallback: the segment shown in the registered segments' headers and texts, which rebuild the file |
| ServiceProxy.VirtualSegment | packages/ts-plugin/src/plugin.ts:231-255 | fails exactly when the filename does not decode; names a segment only of a registered file and only the first one with the decoded name; nothing when the file or the name is unknown |
| ServiceProxy.ServeReal | packages/ts-plugin/src/plugin.ts:283-323 | fails exactly when the split fails; with at most one segment the host's text comes back and the registry is untouched; otherwise the segments are registered under the file and the main segment's view is served |
| ServiceProxy.GetScriptSnapshot | packages/ts-plugin/src/plugin.ts:203-323 | skipped directories keep the host's snapshot; a virtual filename is served from the registry as written, without changing it; a real file with a host snapshot is split and served; one without gets none |
| ServiceProxy.RealFileSnapshot | packages/ts-plugin/src/plugin.ts:283-323 | a real file with named segments is registered under its name and shown as the main text followed by the rest blanked, as long as the file |
| ServiceProxy.MainSnapshot | packages/ts-plugin/src/plugin.ts:311 | the main segment's view is its text followed by the rest of the file blanked, as long as the file |
| ServiceProxy.VirtualFileSnapshot | packages/ts-plugin/src/plugin.ts:223-281 | once a file is registered, the virtual filename of one of its segments is served, as written, as that segment shown in the segment texts joined without their headers |
| ServiceProxy.VirtualFileSnapshotFixed | packages/ts-plugin/src/plugin.ts:223-281 | with the corrected fallback, the same filename is served as the file with everything but that segment blanked, as long as the file, with the segment text at its own offsets |
| ServiceProxy.VirtualTarget | packages/ts-plugin/src/plugin.ts:89-106 | a target exactly when the segment at the position has a non-empty name, and then that segment with its encoded virtual filename |
| ServiceProxy.FindReferences | packages/ts-plugin/src/plugin.ts:639-689 | the service's own answer when it has one; without a named segment at the position, nothing; otherwise the virtual file's answer with every definition and reference moved to the decoded file, spans unchanged |
| ServiceProxy.FindReferencesInFile | packages/ts-plugin/src/plugin.ts:650-686 | the fallback's references land in the real file that was asked |
| ServiceProxy.FindRenameLocations | packages/ts-plugin/src/plugin.ts:751-815 | the same fallback: each location of the virtual file's answer moved to the decoded file, nothing else changed |
| ServiceProxy.VirtualFiles | packages/ts-plugin/src/plugin.ts:849-851 | one virtual filename per file to search |
| ServiceProxy.GetDocumentHighlights | packages/ts-plugin/src/plugin.ts:820-873 | the same fallback, asking the segment's virtual file with the files to search mapped to their virtual names, each highlight moved to the decoded file |
| ServiceProxy.MapDefinitionEntry | packages/ts-plugin/src/plugin.ts:590-633 | a definition outside virtual files is unchanged; a changed one came from a virtual file and is moved to the decoded file with `contextSpan` a copy of `textSpan`, `failedAliasResolution` false and `containerName` the quoted file name without `.js`; fails exactly when a virtual filename does not decode |
| ServiceProxy.MapDefinitions | packages/ts-plugin/src/plugin.ts:569-573 | one mapped definition per definition, succeeding exactly when each one does |
| ServiceProxy.MarkVerified | packages/ts-plugin/src/plugin.ts:532-537 | every definition marked `unverified: false`, nothing else changed |
| ServiceProxy.GetDefinitionAndBoundSpan | packages/ts-plugin/src/plugin.ts:503-636 | nothing when no segment contains the position; a named segment is asked through its virtual file with `unverified` false, the main one through the file; the bound span is kept and the definitions are mapped back |
| ServiceProxy.DefinitionInSegment | packages/ts-plugin/src/plugin.ts:590-633 | a definition placed in a registered segment's virtual file is reported in the real file at the span the service gave, named after that file |
| VitePlugin.ResolveId | packages/vite-plugin/src/lib/plugin.ts:26-70 | `null` for ignored sources and importers and for sources without `infile:`; throws exactly for an `infile:` source whose importer is missing or the empty string; otherwise the id ends in importer + `!` + the name, and carries the `\0infile:` prefix exactly once |
| VitePlugin.StripSvelte | packages/vite-plugin/src/lib/plugin.ts:106 | the result is the input or the input less its last seven characters, and a prefix of it |
| VitePlugin.ParseId | packages/vite-plugin/src/lib/plugin.ts:99-106 | the first `!`-piece after the prefix is the importer, the last one less `.svelte` is the name |
| VitePlugin.Load | packages/vite-plugin/src/lib/plugin.ts:75-139 | `null` for ids of other plugins and unknown importers; text only when the id is not too nested and the search finds a non-empty segment under a non-empty name, and then that text; `too many nestings` only for ids with five `svelte!` on a line |
| VitePlugin.ParseResolvedId | packages/vite-plugin/src/lib/plugin.ts:60-106 | a first-level id gives back its importer and name |
| VitePlugin.ResolveThenParse | packages/vite-plugin/src/lib/plugin.ts:60-106 | `resolveId` then `load`'s parsing gives back the importer and the name it was resolved from, less `.svelte` |
| VitePlugin.NestedResolve | packages/vite-plugin/src/lib/plugin.ts:60-106 | an import inside a virtual module keeps one prefix, and its id parses to the real file and the innermost name |
| VitePlugin.TemplateBounds | packages/vite-plugin/src/lib/plugin.ts:167-169 | where the pattern matches, the code is white space, the opening tag up to its first `>`, the content, `</template>`, then white space |
| VitePlugin.InnerContent | packages/vite-plugin/src/lib/plugin.ts:167-174 | a capture exactly when the pattern matches, and the code is then white space, the opening tag without `>` inside, `>`, the capture, `</template>`, white space |
| VitePlugin.Transform | packages/vite-plugin/src/lib/plugin.ts:146-224 | ignored ids pass unchanged; a virtual id yields the template content or `cannot find inner content`; a real file yields the main segment's text and is recorded exactly when it has more than one segment; nothing else changes the recorded contents |
| VitePlugin.TransformThenLoad | packages/vite-plugin/src/lib/plugin.ts:26-224 | once a `.svelte` file with segments is transformed, resolving and loading `infile:name` from it serves the text of its first later segment of that name |
| VitePlugin.FoundSegment | packages/vite-plugin/src/lib/plugin.ts:119-122 | the search of a split file finds the first later segment with the name |
| VitePlugin.LoadServes | packages/vite-plugin/src/lib/plugin.ts:99-138 | an id whose importer is recorded and whose segment is found and non-empty loads that segment's text |
| VitePlugin.FilterPrefixed | packages/vite-plugin/src/lib/plugin.ts:240-242 | exactly the ids that start with the prefix, none added |
| VitePlugin.HandleHotUpdate | packages/vite-plugin/src/lib/plugin.ts:233-257 | fails exactly when there are no modules but some module ids; with neither, does nothing; reloads exactly the module ids that carry the changed file's virtual prefix when there are any; otherwise invalidates the first module exactly when some module is virtual |
| RefactorText.TouchingWhitespaceCutsNoWord | packages/language-server/src/plugins/svelte/features/getCodeActions/infileRefactorings.ts:190-202 | a selection passes the intended whitespace test exactly when the character before it (if any) and the character after it (if any) are not word characters, whatever the selection holds |
| RefactorText.TouchingWhitespaceAsWrittenMisjudgesEnd | packages/language-server/src/plugins/svelte/features/getCodeActions/infileRefactorings.ts:197-199 | the end test as written rejects a selection of the whole of "ab" and accepts one ending inside the word, the opposite of the intended test |
| RefactorText.WithExt | packages/language-server/src/plugins/svelte/features/getCodeActions/infileRefactorings.ts:92-94 | the path ends in `.svelte` |
| RefactorText.WithDot | packages/language-server/src/plugins/svelte/features/getCodeActions/infileRefactorings.ts:95-97 | the path starts with `.` and ends with the given path |
| RefactorText.ComponentPath | packages/language-server/src/plugins/svelte/features/getCodeActions/infileRefactorings.ts:91-97 | the normalised path starts with `.`, ends in `.svelte`, and ends with the given path (plus `.svelte` when that was missing) |
| RefactorText.ComponentPathIdempotent | packages/language-server/src/plugins/svelte/features/getCodeActions/infileRefactorings.ts:91-97 | normalising a normalised path changes nothing |
| RefactorText.ComponentName | packages/language-server/src/plugins/svelte/features/getCodeActions/infileRefactorings.ts:99 | the component name never contains `.svelte` |
| RefactorText.NameOfComponentPath | packages/language-server/src/plugins/svelte/features/getCodeActions/infileRefactorings.ts:91-99 | for a plain name without dots, with or without a directory and with or without `.svelte`, the name taken from the normalised path is the name itself |
| RefactorText.Substring | packages/language-server/src/plugins/svelte/features/getCodeActions/infileRefactorings.ts:166 | `substring` gives the slice between its two offsets, swapping them when the first is larger |
| RefactorText.InsertByStart | packages/language-server/src/plugins/svelte/features/getCodeActions/infileRefactorings.ts:144 | inserting into a sorted list keeps it sorted and adds exactly the new piece |
| RefactorText.SortByStart | packages/language-server/src/plugins/svelte/features/getCodeActions/infileRefactorings.ts:144 | the pieces come out sorted by offset and are a permutation of the input |
| RefactorText.Present | packages/language-server/src/plugins/svelte/features/getCodeActions/infileRefactorings.ts:143 | exactly the pieces with a non-negative offset are kept |
| RefactorText.Indent | packages/language-server/src/plugins/svelte/features/getCodeActions/infileRefactorings.ts:153 | one line out per line in, each with two spaces in front |
| RefactorText.NewText | packages/language-server/src/plugins/svelte/features/getCodeActions/infileRefactorings.ts:137-146 | the body is the concatenation of the texts of the present pieces, in an order sorted by offset that permutes them |
| RefactorText.TagPiece | packages/language-server/src/plugins/svelte/features/getCodeActions/infileRefactorings.ts:171-186 | a missing tag is the empty piece at offset -1; a present tag's piece sits at the tag's start |
| RefactorText.ExtractPieces | packages/language-server/src/plugins/svelte/features/getCodeActions/infileRefactorings.ts:137-142 | four pieces, the first the selected text plus a blank line at the selection's start |
| RefactorText.ImportEdit | packages/language-server/src/plugins/svelte/features/getCodeActions/infileRefactorings.ts:120-127 | an insertion (empty range) of the import at the content start of the script, else of the module script, else a new script tag at the top |
| RefactorText.Extract | packages/language-server/src/plugins/svelte/features/getCodeActions/infileRefactorings.ts:78-188 | "Invalid selection range" exactly when the whitespace test as written rejects the selection or it lies in a script or style tag; otherwise three edits: the selection replaced by the component tag, the import, and the template appended at the end of the document |
| RefactorText.ExtractFixed | packages/language-server/src/plugins/svelte/features/getCodeActions/infileRefactorings.ts:78-202 | the same edits, with "Invalid selection range" exactly when the selection cuts a word or lies in a script or style tag |
| RefactorText.ExtractWholeWord | packages/language-server/src/plugins/svelte/features/getCodeActions/infileRefactorings.ts:190-202 | selecting the whole of a one-word document: the extraction as written refuses it, the corrected one extracts it |
| RefactorText.IndentOf | packages/language-server/src/plugins/svelte/features/getCodeActions/infileRefactorings.ts:355 | the leading white space is white space and is followed by a non-white-space character or the end of the line |
| RefactorText.BlankLineTrim | packages/language-server/src/plugins/svelte/features/getCodeActions/infileRefactorings.ts:354 | a line counts as blank exactly when trimming leaves nothing |
| RefactorText.MinIndent | packages/language-server/src/plugins/svelte/features/getCodeActions/infileRefactorings.ts:352-358 | no value exactly when no line is counted; otherwise the indentation of some counted line, and no larger than any counted line's |
| RefactorText.DedentLinesAsWritten | packages/language-server/src/plugins/svelte/features/getCodeActions/infileRefactorings.ts:350-360 | as written, every line loses the smallest positive indentation, and every line becomes empty when no line is indented |
| RefactorText.SliceLine | packages/language-server/src/plugins/svelte/features/getCodeActions/infileRefactorings.ts:359 | cutting no more than a line's indentation, or anything off a blank line, removes white space only |
| RefactorText.DedentLinesSpec | packages/language-server/src/plugins/svelte/features/getCodeActions/infileRefactorings.ts:350-360 | the intended dedent removes leading white space only, the same amount from every non-blank line, and leaves some non-blank line starting with other than white space |
| RefactorText.DedentAsWrittenLosesText | packages/language-server/src/plugins/svelte/features/getCodeActions/infileRefactorings.ts:357-358 | as written, a margin line followed by a line indented by two loses its first two characters, and a text with no indented line comes out empty; the intended dedent leaves both alone |
| RefactorText.DedentZero | packages/language-server/src/plugins/svelte/features/getCodeActions/infileRefactorings.ts:350-360 | when some non-blank line is at the margin, the intended dedent changes nothing |
| RefactorText.ExtractThenMove | packages/language-server/src/plugins/svelte/features/getCodeActions/infileRefactorings.ts:148-156 | dedenting, with `dedent` as written, and trimming the template body that extraction writes gives back the trimmed extracted text, which is what a move of that component writes to the new file |
| RefactorText.ExtractThenMoveFixed | packages/language-server/src/plugins/svelte/features/getCodeActions/infileRefactorings.ts:148-156 | the same with the corrected `dedent` |
| MoveComponent.FrontAt | packages/language-server/src/plugins/svelte/features/getCodeActions/infileRefactorings.ts:432 | a front match at an index starts with the dashes there, has only white space before `<template`, and its tag group ends at the first `>` after `<template` |
| MoveComponent.FirstFront | packages/language-server/src/plugins/svelte/features/getCodeActions/infileRefactorings.ts:430-432 | the leftmost index from which the front pattern matches, and no match at all when none is found |
| MoveComponent.LastFront | packages/language-server/src/plugins/svelte/features/getCodeActions/infileRefactorings.ts:430-432 | the rightmost index below a bound at which the front pattern matches, and no match at all when none is found |
| MoveComponent.FrontBefore | packages/language-server/src/plugins/svelte/features/getCodeActions/infileRefactorings.ts:430-433 | no front match exactly when the pattern matches nowhere before the cursor; as written the leftmost match, corrected the nearest one |
| MoveComponent.QuoteEnd | packages/language-server/src/plugins/svelte/features/getCodeActions/infileRefactorings.ts:443 | the first quote from an index, found only when no line terminator comes before it |
| MoveComponent.IdAt | packages/language-server/src/plugins/svelte/features/getCodeActions/infileRefactorings.ts:443 | a name is captured only where `id=` occurs at a word boundary |
| MoveComponent.IdFrom | packages/language-server/src/plugins/svelte/features/getCodeActions/infileRefactorings.ts:443 | the name captured at the leftmost index where the name pattern matches, and none when it matches nowhere |
| MoveComponent.Assemble | packages/language-server/src/plugins/svelte/features/getCodeActions/infileRefactorings.ts:435-454 | a component is found exactly when there is a front match, a `</template>` after the cursor and an `id` in the tag; it starts at the chosen marker before the cursor and ends after the first `</template>` after the cursor; its text is its range of the document, holding the dashes, a template tag whose `id` is the name, the inner text and the closing tag |
| MoveComponent.Parse | packages/language-server/src/plugins/svelte/features/getCodeActions/infileRefactorings.ts:429-462 | null in exactly the three cases of the source: no front match before the cursor, no `</template>` after it, no `id` in the tag; a component found starts at the chosen marker, lies around the cursor, its text is its range of the document, and it has the shape of a component whose name and inner text it reports |
| MoveComponent.ShapeOf | packages/language-server/src/plugins/svelte/features/getCodeActions/infileRefactorings.ts:438-454 | the range from the front match to the first `</template>` after the cursor reads as dashes, white space, a template tag naming the component, the inner text and the closing tag |
| MoveComponent.ParseMarker | packages/language-server/src/plugins/svelte/features/getCodeActions/infileRefactorings.ts:430-433 | a found component starts at a marker; as written no marker lies before it, corrected no marker lies between it and the cursor |
| MoveComponent.LastByStart | packages/language-server/src/plugins/svelte/features/getCodeActions/infileRefactorings.ts:408-411 | no tag exactly for an empty list; otherwise a tag of the list with the greatest start |
| MoveComponent.PresentTags | packages/language-server/src/plugins/svelte/features/getCodeActions/infileRefactorings.ts:400-407 | exactly the present ones among the script, module script and style tags |
| MoveComponent.CurrentComponent | packages/language-server/src/plugins/svelte/features/getCodeActions/infileRefactorings.ts:394-414 | as written: a cursor before the end of the script or style tag that sorts last by start gets nothing; otherwise it gets what the leftmost-marker parse finds |
| MoveComponent.BetweenTagsNothing | packages/language-server/src/plugins/svelte/features/getCodeActions/infileRefactorings.ts:402-412 | script at [0, 50), style at [60, 100), cursor 55: nothing, as written and corrected |
| MoveComponent.CurrentComponentFixed | packages/language-server/src/plugins/svelte/features/getCodeActions/infileRefactorings.ts:394-433 | the same with the parse from the marker nearest the cursor |
| MoveComponent.SpecifierFrom | packages/language-server/src/plugins/svelte/features/getCodeActions/infileRefactorings.ts:313 | the first quote followed by `infile:` and then a closing quote on the same line, with no line terminator before it; no match exactly when every such quote lies past a line terminator |
| MoveComponent.ImportAt | packages/language-server/src/plugins/svelte/features/getCodeActions/infileRefactorings.ts:313 | an import match at an index reads `import` there, then a quote, `infile:`, the specifier and a quote |
| MoveComponent.ImportRecognised | packages/language-server/src/plugins/svelte/features/getCodeActions/infileRefactorings.ts:313 | `import`, a quote-free rest of the line that does not continue the word, and `'infile:name'` is matched there, with specifier `name` |
| MoveComponent.ImportMatchesFrom | packages/language-server/src/plugins/svelte/features/getCodeActions/infileRefactorings.ts:313-314 | every match starts with `import` and reads quote, `infile:`, specifier, quote; matches do not overlap and come in order; nothing matches before the first, between one's closing quote and the next, or after the last, and none at all when the list is empty |
| MoveComponent.ImportsCovered | packages/language-server/src/plugins/svelte/features/getCodeActions/infileRefactorings.ts:313-314 | every index where the import pattern matches lies inside a found match, and a match that starts outside every found one is itself found |
| MoveComponent.RewriteImports | packages/language-server/src/plugins/svelte/features/getCodeActions/infileRefactorings.ts:314-328 | exactly the matches whose specifier without `.svelte` is the component name give an edit, each replacing the match by the import of `./name.svelte` |
| MoveComponent.ImportEdits | packages/language-server/src/plugins/svelte/features/getCodeActions/infileRefactorings.ts:309-329 | an edit for every `infile:` import of the component and for nothing else, each pointing the import at `./name.svelte` |
| MoveComponent.Move | packages/language-server/src/plugins/svelte/features/getCodeActions/infileRefactorings.ts:213-288 | as written: "Invalid selection range" exactly when the written whitespace test rejects the selection or it lies in a script or style tag; "Cannot parse infile component" exactly when the selection passes but the leftmost-marker parse finds nothing; otherwise the component's range is deleted, its imports are rewritten, and the new file holds the inner text dedented by the written `dedent` and trimmed |
| MoveComponent.MoveFixed | packages/language-server/src/plugins/svelte/features/getCodeActions/infileRefactorings.ts:213-288 | the same failures and edits with the intended whitespace test, the parse from the nearest marker and the corrected `dedent` |
| ExtractMove.FrontAtHead | packages/language-server/src/plugins/svelte/features/getCodeActions/infileRefactorings.ts:158 | the front pattern matches at the dashes of an appended component, with its opening tag as the tag group |
| ExtractMove.NoFrontAfter | packages/language-server/src/plugins/svelte/features/getCodeActions/infileRefactorings.ts:148-158 | no front match starts after the dashes of an appended component and before a cursor in its body |
| ExtractMove.ExtractedFound | packages/language-server/src/plugins/svelte/features/getCodeActions/infileRefactorings.ts:129-158 | for a cursor anywhere in the body of a component that extraction appended, the corrected parse finds exactly that component, with its name, range and inner text |
| ExtractMove.ExtractedFoundAsWritten | packages/language-server/src/plugins/svelte/features/getCodeActions/infileRefactorings.ts:129-158 | when the document held no `\n---\n` anywhere before extraction (a stronger condition than holding no marker), the parse as written also finds exactly the appended component for a cursor in its body |
| ExtractMove.LeftmostBefore | packages/language-server/src/plugins/svelte/features/getCodeActions/infileRefactorings.ts:430-433 | as written, the parse starts no later than any marker before the cursor |
| ExtractMove.LeftmostDiffers | packages/language-server/src/plugins/svelte/features/getCodeActions/infileRefactorings.ts:430-433 | when the nearest marker comes after another marker, the parse as written differs from the corrected one |
| ExtractMove.FirstMarkerWins | packages/language-server/src/plugins/svelte/features/getCodeActions/infileRefactorings.ts:430-433 | with two components appended one after the other and the cursor in the second one's body, the corrected parse finds the second component and the parse as written does not |

## Left out

- Parsing itself: acorn and acorn-loose are parameters. The strict parser reports success, a `SyntaxError` with an optional `Assigning to rvalue` position, or a non-`Error` throw. The loose parser always gives a program tree. The message sniffing of `checkDashedError` is modelled only through that outcome.
- `isIdentifier` and the generators' throw on a tree whose type is not `Program`: the syntax tree is a datatype, so a non-identifier value or a non-program tree cannot be passed.
- The generators' string input, which is first parsed with the loose parser: the generators take the tree.
- `findImportNames` on a single `ImportDeclaration` node: only the program form is modelled.
- `returning` and `unreachable` of `packages/ts-plugin/src/utils.ts`: a swallowed exception and a throw are error results where the callers use them.
- `ts.server.toNormalizedPath` and MD5: function parameters. The round trips that depend on them state their requirements pointwise.
- The real language service and host (`buildObjectProxy`, `proxy_languageServiceHost`), and the logging decorator loop of `packages/ts-plugin/src/plugin.ts`: foreign API and reflection. The underlying service is a set of function parameters.
- The overrides of the language service other than definitions, references, rename locations and document highlights: they are foreign API calls with no string-level contract.
- The set of virtual files and `getOrCreateScriptInfoForNormalizedPath`: the set is a parameter of the highlight routing; script-info creation is host state.
- Svelte compilation in the vite `transform`: the hook's string logic is modelled, the compiler is not.
- `positionAt`/`offsetAt` and the line/column `Range`s of the refactorings: offsets stand for positions directly.
- `path.join`, `path.dirname` and `pathToUrl` for the moved component's new file URI, and the `CreateFile` operation itself: the model returns the new file's relative path and text.
- `updateRelativeImports` and `isRangeInTag`: function parameters.
- Logging (`console.log`, `console.warn`, `_summary`, `tryStringify`): no effect on results.
- String indexing: JavaScript indexes UTF-16 code units; a Dafny `string` has one index per character, which agrees with the code for text in the Basic Multilingual Plane.
- The stability of `Array.prototype.sort` for equal starts: the refactoring's sort is modelled as an insertion sort that keeps equal starts in input order, and its contract states only sortedness and permutation.
- Base64.Decode: decoding is strict and returns nothing for a lone final digit, a character outside the alphabets of sections 4 and 5 of RFC 4648 (a padding `=` included), or bytes that are not well-formed UTF-8, where `Buffer.from(input, 'base64').toString('utf-8')` (packages/ts-plugin/src/utils/base64.ts:7-9) is total: it skips stray characters, drops a lone final digit and puts U+FFFD for ill-formed bytes. Node's exact recovery rules are not modelled; the round trip on encoded input, the only input the plugin produces, is proved.
- Base64.DecodeBytes: the same strictness at the byte level.
- ModuleNameSerializers.Deserialize: in the base64 form, the `NotCanonical` failure stands for the inputs the strict decoder rejects, where the source returns whatever Node's lenient decoding gives; the query form's failures are the source's throws.
- TsUtils.GetProperty: an object is its list of own entries, so only own keys are found, while `key in obj` (packages/ts-plugin/src/utils.ts:72) also finds inherited keys such as `toString`. Prototypes are not modelled.
- ParseHelpers.ExtractExportNameTuples: built on the corrected specifier filter, so it never yields the `undefined` entry that the written `nonNullable` filter leaves for `export { "a b" as c }`. That entry is shown by ParseHelpers.SpecifierTuplesKeepUndefined.
- ParseHelpers.FindExportNames: built on ParseHelpers.ExtractExportNameTuples, with the same corrected filter.
- ParseHelpers.ExportedLocalsAreDeclared: stated for the corrected specifier filter.

## Findings

| source | as written | input that shows it | evidently intended | confidence | as-written member | corrected member |
|---|---|---|---|---|---|---|
| packages/ts-plugin/src/plugin.ts:331 | without a file content, `transformSegmentText` rebuilds the file from the segment texts alone, dropping every header | `"a\n---\nb\n---\nc"`: the snapshot for the third segment is 9 characters long and puts `c` at offset 8 instead of 12 | rebuild the file from headers and texts, so the segment keeps its offsets | not executed | SegmentSnapshot.TextsOnlyMisplaces | SegmentSnapshot.FixedSnapshotOfSplit |
| packages/core/src/parse_helpers.ts:312 | the specifier tuples are filtered with `nonNullable`, which removes `null` only, while the map callback returns `undefined` | `export { "a b" as c }` leaves an `undefined` among the export names | drop the specifiers that are not identifiers | not executed | ParseHelpers.SpecifierTuplesKeepUndefined | ParseHelpers.SpecifierTuplesLocals |
| packages/language-server/src/plugins/svelte/features/getCodeActions/infileRefactorings.ts:198-199 | the end of a selection is accepted at `text.length - 1` | in `"ab"`, selecting `[0, 2)` is rejected and selecting `[0, 1)`, which cuts the word, is accepted | accept an end at `text.length` | not executed | RefactorText.TouchingWhitespaceAsWrittenMisjudgesEnd | RefactorText.TouchingWhitespaceCutsNoWord |
| packages/language-server/src/plugins/svelte/features/getCodeActions/infileRefactorings.ts:357-358 | `dedent` takes the smallest positive indentation, and `Math.min()` of nothing is `Infinity` | `"ab\n  c"` becomes `"\nc"`; `"ab"` becomes `""` | take the smallest indentation of the non-blank lines, zero included | not executed | RefactorText.DedentAsWrittenLosesText | RefactorText.DedentLinesSpec |
| packages/language-server/src/plugins/svelte/features/getCodeActions/infileRefactorings.ts:430-433 | the front pattern is matched with `match`, which finds the leftmost marker before the cursor | two components appended by extraction, the cursor in the second one's body: the parse starts at the first one's dashes and so does not report the second component | the marker nearest the cursor | not executed | ExtractMove.FirstMarkerWins | ExtractMove.ExtractedFound |

=== FILE: base64.dfy ===
/** `encodeBase64` / `decodeBase64` of the TypeScript plugin: the UTF-8 bytes of a string in
    the base 64 alphabet of section 4 of RFC 4648, with the `=` padding removed, and back.
    The decoder also takes the URL-safe digits `-` and `_` (section 5), as Node's does. */
module Base64 {
  import opened Wrappers
  import opened Utf8

  type sextet = x: int | 0 <= x < 64

  /** The digit for a 6-bit value (RFC 4648, table 1). */
  function DigitChar(v: sextet): (c: char)
    ensures c != '=' && c != '_' && c != '-' && c != '&' && c != '?'
  {
    if v < 26 then ('A' as int + v) as char
    else if v < 52 then ('a' as int + (v - 26)) as char
    else if v < 62 then ('0' as int + (v - 52)) as char
    else if v == 62 then '+'
    else '/'
  }

  /** The value of a digit in either alphabet; `None` for any other character. */
  function DigitValue(c: char): (r: Option<sextet>)
    ensures r.Some? ==> c == DigitChar(r.value) || (c == '-' && r.value == 62)
                        || (c == '_' && r.value == 63)
  {
    if 'A' <= c <= 'Z' then Some(c as int - 'A' as int)
    else if 'a' <= c <= 'z' then Some(c as int - 'a' as int + 26)
    else if '0' <= c <= '9' then Some(c as int - '0' as int + 52)
    else if c == '+' || c == '-' then Some(62)
    else if c == '/' || c == '_' then Some(63)
    else None
  }

  lemma DigitValueOfChar(v: sextet)
    ensures DigitValue(DigitChar(v)) == Some(v)
  {
  }

  /** The four digits for three bytes. */
  function Group(b0: byte, b1: byte, b2: byte): (r: string)
    ensures |r| == 4
    ensures forall i :: 0 <= i < 4 ==> DigitValue(r[i]).Some? && r[i] != '_' && r[i] != '='
  {
    DigitValueOfChar(b0 / 4);
    DigitValueOfChar((b0 % 4) * 16 + b1 / 16);
    DigitValueOfChar((b1 % 16) * 4 + b2 / 64);
    DigitValueOfChar(b2 % 64);
    [DigitChar(b0 / 4), DigitChar((b0 % 4) * 16 + b1 / 16),
     DigitChar((b1 % 16) * 4 + b2 / 64), DigitChar(b2 % 64)]
  }

  /** Bytes to unpadded base 64: every 3 bytes become 4 digits, a final 1 or 2 bytes become 2
      or 3 digits. */
  function EncodeBytes(bs: seq<byte>): (r: string)
    decreases |bs|
    ensures |r| == 4 * (|bs| / 3) + [0, 2, 3][|bs| % 3]
    ensures forall i :: 0 <= i < |r| ==> DigitValue(r[i]).Some? && r[i] != '_' && r[i] != '='
  {
    if |bs| == 0 then []
    else if |bs| == 1 then Group(bs[0], 0, 0)[..2]
    else if |bs| == 2 then Group(bs[0], bs[1], 0)[..3]
    else Group(bs[0], bs[1], bs[2]) + EncodeBytes(bs[3..])
  }

  /** The three bytes four digits stand for. */
  function Ungroup(c0: sextet, c1: sextet, c2: sextet, c3: sextet): (r: seq<byte>)
    ensures |r| == 3
  {
    [c0 * 4 + c1 / 16, (c1 % 16) * 16 + c2 / 4, (c2 % 4) * 64 + c3]
  }

  /** Unpadded base 64 to bytes. Bits left over after the last whole byte are dropped. A
      character outside both alphabets, or a lone final digit, is `None`. */
  function DecodeBytes(s: string): (r: Option<seq<byte>>)
    decreases |s|
    ensures r.Some? ==> |r.value| == 3 * (|s| / 4) + [0, 0, 1, 2][|s| % 4]
  {
    if |s| == 0 then Some([])
    else if |s| == 1 then None
    else
      var c0 :- DigitValue(s[0]);
      var c1 :- DigitValue(s[1]);
      if |s| == 2 then Some(Ungroup(c0, c1, 0, 0)[..1])
      else
        var c2 :- DigitValue(s[2]);
        if |s| == 3 then Some(Ungroup(c0, c1, c2, 0)[..2])
        else
          var c3 :- DigitValue(s[3]);
          var rest :- DecodeBytes(s[4..]);
          Some(Ungroup(c0, c1, c2, c3) + rest)
  }

  /** Regrouping three bytes into four sextets and back. */
  lemma Regroup(b0: byte, b1: byte, b2: byte)
    ensures var g := Group(b0, b1, b2);
            DigitValue(g[0]).Some? && DigitValue(g[1]).Some? && DigitValue(g[2]).Some?
            && DigitValue(g[3]).Some?
            && Ungroup(DigitValue(g[0]).value, DigitValue(g[1]).value, DigitValue(g[2]).value,
                       DigitValue(g[3]).value) == [b0, b1, b2]
  {
    var c0, c1, c2, c3 := b0 / 4, (b0 % 4) * 16 + b1 / 16, (b1 % 16) * 4 + b2 / 64, b2 % 64;
    var g := Group(b0, b1, b2);
    assert g == [DigitChar(c0), DigitChar(c1), DigitChar(c2), DigitChar(c3)];
    DigitValueOfChar(c0);
    DigitValueOfChar(c1);
    DigitValueOfChar(c2);
    DigitValueOfChar(c3);
    UngroupSextets(b0, b1, b2, c0, c1, c2, c3);
  }

  lemma UngroupSextets(b0: byte, b1: byte, b2: byte, c0: sextet, c1: sextet, c2: sextet, c3: sextet)
    requires c0 == b0 / 4 && c1 == (b0 % 4) * 16 + b1 / 16
    requires c2 == (b1 % 16) * 4 + b2 / 64 && c3 == b2 % 64
    ensures Ungroup(c0, c1, c2, c3) == [b0, b1, b2]
  {
    RegroupFirst(b0, b1);
    RegroupSecond(b0, b1, b2);
    RegroupThird(b1, b2);
  }

  lemma RegroupFirst(b0: byte, b1: byte)
    ensures (b0 / 4) * 4 + ((b0 % 4) * 16 + b1 / 16) / 16 == b0
  {
    assert ((b0 % 4) * 16 + b1 / 16) / 16 == b0 % 4;
  }

  lemma RegroupSecond(b0: byte, b1: byte, b2: byte)
    ensures (((b0 % 4) * 16 + b1 / 16) % 16) * 16 + ((b1 % 16) * 4 + b2 / 64) / 4 == b1
  {
    assert ((b0 % 4) * 16 + b1 / 16) % 16 == b1 / 16;
    assert ((b1 % 16) * 4 + b2 / 64) / 4 == b1 % 16;
  }

  lemma RegroupThird(b1: byte, b2: byte)
    ensures (((b1 % 16) * 4 + b2 / 64) % 4) * 64 + b2 % 64 == b2
  {
    assert ((b1 % 16) * 4 + b2 / 64) % 4 == b2 / 64;
  }

  /** The first byte only depends on the first two digits, the second on the first three. */
  lemma UngroupPrefix(c0: sextet, c1: sextet, c2: sextet, c3: sextet)
    ensures Ungroup(c0, c1, 0, 0)[..1] == Ungroup(c0, c1, c2, c3)[..1]
    ensures Ungroup(c0, c1, c2, 0)[..2] == Ungroup(c0, c1, c2, c3)[..2]
  {
  }

  lemma DecodeOne(b0: byte)
    ensures DecodeBytes(EncodeBytes([b0])) == Some([b0])
  {
    var g := Group(b0, 0, 0);
    var e := EncodeBytes([b0]);
    assert e == g[..2];
    Regroup(b0, 0, 0);
    var c0, c1, c2, c3 := DigitValue(g[0]).value, DigitValue(g[1]).value, DigitValue(g[2]).value, DigitValue(g[3]).value;
    UngroupPrefix(c0, c1, c2, c3);
    assert DigitValue(e[0]) == Some(c0);
    assert DigitValue(e[1]) == Some(c1);
    assert DecodeBytes(e) == Some(Ungroup(c0, c1, 0, 0)[..1]);
    assert Ungroup(c0, c1, c2, c3)[..1] == [b0];
  }

  lemma DecodeTwo(b0: byte, b1: byte)
    ensures DecodeBytes(EncodeBytes([b0, b1])) == Some([b0, b1])
  {
    var g := Group(b0, b1, 0);
    var e := EncodeBytes([b0, b1]);
    assert e == g[..3];
    Regroup(b0, b1, 0);
    var c0, c1, c2, c3 := DigitValue(g[0]).value, DigitValue(g[1]).value, DigitValue(g[2]).value, DigitValue(g[3]).value;
    UngroupPrefix(c0, c1, c2, c3);
    assert DigitValue(e[0]) == Some(c0);
    assert DigitValue(e[1]) == Some(c1);
    assert DigitValue(e[2]) == Some(c2);
    assert DecodeBytes(e) == Some(Ungroup(c0, c1, c2, 0)[..2]);
    assert Ungroup(c0, c1, c2, c3)[..2] == [b0, b1];
  }

  lemma DecodeGroup(b0: byte, b1: byte, b2: byte, t: string, rest: seq<byte>)
    requires DecodeBytes(t) == Some(rest)
    ensures DecodeBytes(Group(b0, b1, b2) + t) == Some([b0, b1, b2] + rest)
  {
    var g := Group(b0, b1, b2);
    var e := g + t;
    assert e[4..] == t;
    Regroup(b0, b1, b2);
    var c0, c1, c2, c3 := DigitValue(g[0]).value, DigitValue(g[1]).value, DigitValue(g[2]).value, DigitValue(g[3]).value;
    assert DigitValue(e[0]) == Some(c0);
    assert DigitValue(e[1]) == Some(c1);
    assert DigitValue(e[2]) == Some(c2);
    assert DigitValue(e[3]) == Some(c3);
  }

  /** Decoding inverts encoding on bytes. */
  lemma {:induction false} DecodeEncodeBytes(bs: seq<byte>)
    ensures DecodeBytes(EncodeBytes(bs)) == Some(bs)
    decreases |bs|
  {
    if |bs| == 1 {
      var b0 := bs[0];
      assert bs == [b0];
      DecodeOne(b0);
    } else if |bs| == 2 {
      var b0, b1 := bs[0], bs[1];
      assert bs == [b0, b1];
      DecodeTwo(b0, b1);
    } else if |bs| >= 3 {
      var rest := bs[3..];
      DecodeEncodeBytes(rest);
      DecodeEncodeStep(bs, rest, EncodeBytes(rest));
    }
  }

  /** One group more: decoding the encoding of `bs` follows from decoding that of its tail. */
  lemma DecodeEncodeStep(bs: seq<byte>, rest: seq<byte>, t: string)
    requires |bs| >= 3 && rest == bs[3..] && t == EncodeBytes(rest)
    requires DecodeBytes(t) == Some(rest)
    ensures DecodeBytes(EncodeBytes(bs)) == Some(bs)
  {
    var b0, b1, b2 := bs[0], bs[1], bs[2];
    EncodeCons(bs, rest, t);
    DecodeGroup(b0, b1, b2, t, rest);
    ConsThree(bs, rest);
  }

  lemma ConsThree<T>(s: seq<T>, rest: seq<T>)
    requires |s| >= 3 && rest == s[3..]
    ensures s == [s[0], s[1], s[2]] + rest
  {
  }

  lemma EncodeCons(bs: seq<byte>, rest: seq<byte>, t: string)
    requires |bs| >= 3 && rest == bs[3..] && t == EncodeBytes(rest)
    ensures EncodeBytes(bs) == Group(bs[0], bs[1], bs[2]) + t
  {
  }

  /** `encodeBase64(input)`. */
  function Encode(s: string): (r: string)
    ensures forall i :: 0 <= i < |r| ==> r[i] != '_' && r[i] != '='
  {
    EncodeBytes(EncodeString(s))
  }

  /** `decodeBase64(input)`, on input that is unpadded base 64 of well-formed UTF-8. */
  function Decode(s: string): (r: Option<string>)
    ensures r.Some? ==> |r.value| <= |s|
  {
    var bs :- DecodeBytes(s);
    DecodeString(bs)
  }

  /** `decodeBase64(encodeBase64(s)) == s`. */
  lemma DecodeEncode(s: string)
    ensures Decode(Encode(s)) == Some(s)
  {
    DecodeEncodeBytes(EncodeString(s));
    DecodeEncodeString(s);
  }
}

=== FILE: codec.dfy ===
/** Virtual module filenames of the TypeScript plugin: an `infile:` import is resolved to
    `/virtual-resolved-path/<serialized name and containing file>`, and such a filename is
    decoded back to the segment name and the real file. A virtual file may itself be the
    containing file of an `infile:` import; recursive decoding then unwinds to the real file. */
module VirtualCodec {
  import opened Wrappers
  import opened JsString
  import opened ModuleNameSerializers

  const VirtualRoot: string := "/virtual-resolved-path/"
  const InfilePrefix: string := "infile:"
  const JsSuffix: string := ".js"

  datatype CodecError =
    | Deserializing(cause: SerializerError)
    | NoSegmentName   // the deserialized name is `undefined`; `.endsWith` throws a TypeError

  /** `checkIsVirtualModuleFilename(filename)`. */
  predicate IsVirtual(filename: string) {
    StartsWith(filename, VirtualRoot)
  }

  /** The segment name an import specifier names: one leading `infile:` removed. */
  function SpecifierName(moduleName: string): string {
    StripPrefix(moduleName, InfilePrefix)
  }

  /** `encodeVirtualModuleFilename(moduleName, containingFile)`. */
  function Encode(scheme: Scheme, moduleName: string, containingFile: string): (r: string)
    ensures IsVirtual(r)
    ensures r[|VirtualRoot|..] == Serialize(scheme, containingFile, SpecifierName(moduleName))
  {
    VirtualRoot + Serialize(scheme, containingFile, SpecifierName(moduleName))
  }

  /** `decodeVirtualModuleFilename(filename, { recursive })`: `(segmentName, originalFile)`.
      One trailing `.js` is removed from the name; with `recursive`, a virtual original file
      is decoded in turn and its own original file is returned. */
  function Decode(scheme: Scheme, filename: string, recursive: bool): (r: Result<(string, string), CodecError>)
    decreases |filename|
    ensures r.Success? ==> |r.value.1| < |filename| || |filename| == 0
    ensures recursive && r.Success? ==> !IsVirtual(r.value.1)
  {
    var (nameOpt, orig) :- match Deserialize(scheme, SliceFrom(filename, |VirtualRoot|))
      case Failure(e) => Failure(Deserializing(e))
      case Success(v) => Success(v);
    var name :- match nameOpt
      case None => Failure(NoSegmentName)
      case Some(n) => Success(n);
    var segmentName := StripSuffix(name, JsSuffix);
    if recursive && IsVirtual(orig) then
      var (_, inner) :- Decode(scheme, orig, recursive);
      Success((segmentName, inner))
    else
      Success((segmentName, orig))
  }

  /** The name a segment gets back after encoding: without `infile:` and without `.js`. */
  function DecodedName(moduleName: string): string {
    StripSuffix(SpecifierName(moduleName), JsSuffix)
  }

  /** Decoding an encoded filename gives the segment name and the containing file back,
      provided the scheme round-trips them; recursively too when the file is a real one. */
  lemma DecodeEncode(scheme: Scheme, moduleName: string, file: string, recursive: bool)
    requires RoundTrips(scheme, file, SpecifierName(moduleName))
    requires recursive ==> !IsVirtual(file)
    ensures Decode(scheme, Encode(scheme, moduleName, file), recursive)
            == Success((DecodedName(moduleName), file))
  {
    var f := Encode(scheme, moduleName, file);
    assert SliceFrom(f, |VirtualRoot|) == Serialize(scheme, file, SpecifierName(moduleName));
  }

  /** A segment imported from inside a virtual module: recursive decoding of the outer
      filename reaches the real file, non-recursive decoding stops at the inner filename. */
  lemma DecodeNested(scheme: Scheme, inner: string, outer: string, file: string)
    requires !IsVirtual(file)
    requires RoundTrips(scheme, file, SpecifierName(inner))
    requires RoundTrips(scheme, Encode(scheme, inner, file), SpecifierName(outer))
    ensures Decode(scheme, Encode(scheme, outer, Encode(scheme, inner, file)), true)
            == Success((DecodedName(outer), file))
    ensures Decode(scheme, Encode(scheme, outer, Encode(scheme, inner, file)), false)
            == Success((DecodedName(outer), Encode(scheme, inner, file)))
  {
    var mid := Encode(scheme, inner, file);
    var f := Encode(scheme, outer, mid);
    assert SliceFrom(f, |VirtualRoot|) == Serialize(scheme, mid, SpecifierName(outer));
    DecodeEncode(scheme, inner, file, true);
  }

  /** With the base64 scheme every name and file round-trip. */
  lemma DecodeEncodeBase64(moduleName: string, file: string)
    requires !IsVirtual(file)
    ensures Decode(Base64Scheme, Encode(Base64Scheme, moduleName, file), true)
            == Success((DecodedName(moduleName), file))
  {
    Base64RoundTrip(file, SpecifierName(moduleName));
    DecodeEncode(Base64Scheme, moduleName, file, true);
  }
}

=== FILE: estree.dfy ===
/** The part of the ESTree syntax tree (as produced by acorn and acorn-loose for
    `sourceType: 'module'`) that the name analysis looks at. Top-level statements keep their
    source range; everything the analysis never inspects is reduced to its `type` name. */
module Estree {
  import opened Wrappers

  /** An `Identifier` or, where ES2022 allows one, a string `Literal` (`import { "a b" as c }`). */
  datatype ModuleExportName = Ident(name: string) | StringLiteral(raw: string)

  datatype ImportSpecifier =
    | NamedImport(local: string, imported: ModuleExportName)   // `{ a as b }`, `{ a }`
    | DefaultImport(local: string)                             // `import c from ...`
    | NamespaceImport(local: string)                           // `import * as c from ...`

  datatype ExportSpecifier = ExportSpecifier(local: ModuleExportName, exported: ModuleExportName)

  /** The `id` of a variable declarator: an `Identifier`, or a destructuring pattern. */
  datatype Pattern = IdPattern(name: string) | DestructuringPattern

  /** The `declaration` of `export default`. */
  datatype Expr =
    | AssignmentExpression(left: Pattern)
    | Identifier(name: string)
    | Literal(raw: string)
    | CallExpression
    | OtherExpression(typeName: string)   // `FunctionDeclaration`, `ArrowFunctionExpression`, ...

  datatype Stmt =
    | ImportDeclaration(specifiers: seq<ImportSpecifier>, sourceRaw: string)
    | VariableDeclaration(declarators: seq<Pattern>)
    | FunctionDeclaration(id: string)
    | ClassDeclaration(id: string)
    | ExportNamedDeclaration(declaration: Option<Stmt>, exportSpecifiers: seq<ExportSpecifier>)
    | ExportDefaultDeclaration(value: Expr)
    | ExportAllDeclaration(exportSourceRaw: string)
    | OtherStatement(typeName: string)    // `ExpressionStatement`, `IfStatement`, ...

  /** A top-level statement with its character range `[start, end)`. */
  datatype Node = Node(start: nat, end: nat, stmt: Stmt)

  datatype Program = Program(body: seq<Node>)

  function TypeName(s: Stmt): string {
    match s
    case ImportDeclaration(_, _) => "ImportDeclaration"
    case VariableDeclaration(_) => "VariableDeclaration"
    case FunctionDeclaration(_) => "FunctionDeclaration"
    case ClassDeclaration(_) => "ClassDeclaration"
    case ExportNamedDeclaration(_, _) => "ExportNamedDeclaration"
    case ExportDefaultDeclaration(_) => "ExportDefaultDeclaration"
    case ExportAllDeclaration(_) => "ExportAllDeclaration"
    case OtherStatement(t) => t
  }

  function ExprTypeName(e: Expr): string {
    match e
    case AssignmentExpression(_) => "AssignmentExpression"
    case Identifier(_) => "Identifier"
    case Literal(_) => "Literal"
    case CallExpression => "CallExpression"
    case OtherExpression(t) => t
  }
}

=== FILE: extract_move.dfy ===
/** Extraction followed by the move refactoring
    (`packages/language-server/src/plugins/svelte/features/getCodeActions/infileRefactorings.ts`):
    the text extraction appends is laid out so that the component parse around a cursor in its
    body finds exactly that component again. The parse as written, which matches the front
    pattern with `match` and so takes the leftmost marker, finds it when it is the document's
    first component, and misses it when an earlier extracted component precedes it. */
module ExtractMove {
  import opened Wrappers
  import opened JsString
  import opened Markers
  import opened RefactorText
  import opened MoveComponent
  /** The opening tag extraction writes. */
  function TagText(name: string): string {
    "<template id=\"" + name + "\">"
  }

  /** What extraction appends before the template body: a blank line, the dashes, a line
      break and the opening tag. */
  function Head(name: string): string {
    "\n\n---\n\n" + TagText(name)
  }

  /** A name the tag and its `id` pattern read back unchanged: no quote, `>` or line
      terminator. */
  predicate PlainName(name: string) {
    forall i :: 0 <= i < |name| ==> !IsQuote(name[i]) && name[i] != '>' && !IsLineTerminator(name[i])
  }

  lemma AppendedLayout(name: string, newText: string)
    ensures AppendedText(name, newText) == Head(name) + TemplateInner(newText) + CloseTag
  {
    assert TemplateText(name, newText) == TagText(name) + TemplateInner(newText) + CloseTag;
  }

  /** The characters of the head, position by position. */
  lemma HeadChars(name: string)
    ensures |Head(name)| == 23 + |name|
    ensures Head(name)[1..6] == Separator && Head(name)[6] == '\n' && Head(name)[7..16] == TemplateOpen
    ensures Head(name)[0] == '\n' && Head(name)[2] == '-' && Head(name)[3] == '-' && Head(name)[4] == '-'
    ensures Head(name)[5] == '\n' && Head(name)[7] == '<'
    ensures Head(name)[7..] == TagText(name)
    ensures forall j :: 7 <= j < 21 ==> !IsLineTerminator(Head(name)[j]) && Head(name)[j] != '>'
    ensures forall j :: 0 <= j < |name| ==> Head(name)[21 + j] == name[j]
    ensures Head(name)[21 + |name|] == '"' && Head(name)[22 + |name|] == '>'
  {
    var a: string := "\n\n---\n\n";
    var b: string := "<template id=\"";
    var c: string := "\">";
    assert Head(name) == a + (b + name + c);
    assert (a + (b + name + c))[7..] == b + name + c;
  }
  /** The front pattern matches at the dashes of an appended component, with the opening tag
      as group 1. */
  lemma FrontAtHead(t: string, name: string, rest: string)
    requires PlainName(name)
    ensures FrontAt(t + Head(name) + rest, |t| + 1) == Some(Front(|t| + 1, |t| + 7, |t| + |Head(name)|))
  {
    var h := Head(name);
    var p := t + h + rest;
    var a := |t|;
    HeadChars(name);
    assert p[a + 1..a + 6] == h[1..6];
    assert p[a + 7..a + 16] == h[7..16];
    assert p[a + 6] == h[6];
    assert p[a + |h| - 1] == h[|h| - 1];
    forall j | a + 16 <= j < a + |h| - 1 ensures p[j] != '>' {
      assert p[j] == h[j - a];
    }
    FrontFromChars(p, a + 1, a + |h|);
  }

  /** The front pattern matches at `i` when the dashes, one white-space character and
      `<template` follow, and the first `>` after it is at `e - 1`. */
  lemma FrontFromChars(p: string, i: nat, e: nat)
    requires i + |Separator| + 1 + |TemplateOpen| < e <= |p|
    requires p[i..i + 5] == Separator && IsWhitespace(p[i + 5]) && p[i + 6..i + 15] == TemplateOpen
    requires p[e - 1] == '>' && forall j :: i + 15 <= j < e - 1 ==> p[j] != '>'
    ensures FrontAt(p, i) == Some(Front(i, i + 6, e))
  {
    assert p[i + 6] == TemplateOpen[0];
    var w := SkipWhitespace(p, i + 5);
    assert w == i + 6;
    assert OccursAt(p, ">", e - 1) by {
      assert p[e - 1..e] == [p[e - 1]];
    }
    forall j | i + 15 <= j < e - 1 ensures !OccursAt(p, ">", j) {
      assert p[j..j + 1] == [p[j]];
    }
    assert IndexOfFrom(p, ">", i + 15) == Some(e - 1);
  }
  /** The first quote on the line from `k` is at `q`. */
  lemma QuoteEndAt(s: string, k: nat, q: nat)
    requires k <= q < |s| && IsQuote(s[q])
    requires forall j :: k <= j < q ==> !IsQuote(s[j]) && !IsLineTerminator(s[j])
    ensures QuoteEnd(s, k) == Some(q)
  {
  }

  /** The leftmost match of the name pattern is at `k`. */
  lemma CapturedIdAt(tag: string, k: nat, name: string)
    requires IdAt(tag, k) == Some(name)
    requires forall l :: 0 <= l < k ==> IdAt(tag, l).None?
    ensures CapturedId(tag) == Some(name)
  {
    LeftmostIs(IdsAt(tag), |tag|, 0, k, name, CapturedId(tag));
  }

  /** The `id` of the opening tag extraction writes is the component's name. */
  lemma TagId(name: string)
    requires PlainName(name)
    ensures CapturedId(TagText(name)) == Some(name)
  {
    var b: string := "<template id=\"";
    var c: string := "\">";
    var tag := TagText(name);
    assert tag == b + name + c;
    assert tag[10..13] == IdKey;
    assert tag[9] == ' ' && tag[13] == '"';
    forall j | 14 <= j < 14 + |name| ensures !IsQuote(tag[j]) && !IsLineTerminator(tag[j]) {
      assert tag[j] == name[j - 14];
    }
    assert tag[14 + |name|] == '"';
    QuoteEndAt(tag, 14, 14 + |name|);
    assert tag[14..14 + |name|] == name;
    assert IdAt(tag, 10) == Some(name);
    forall l | 0 <= l < 10 ensures IdAt(tag, l).None? {
      assert tag[l] != 'i';
      assert l + 3 <= |tag| ==> tag[l..l + 3][0] == tag[l];
    }
    CapturedIdAt(tag, 10, name);
  }
  /** Indented lines joined by line breaks: every line break is followed by the two spaces of
      the next line's indentation. */
  lemma {:induction false} JoinIndentNewlines(ls: seq<string>)
    requires |ls| > 0
    requires forall i :: 0 <= i < |ls| ==> '\n' !in ls[i]
    ensures var s := Join(Indent(ls), "\n");
              |s| >= 2 && s[0] == ' ' && forall x :: 0 <= x < |s| && s[x] == '\n' ==> x + 1 < |s| && s[x + 1] == ' '
    decreases |ls|
  {
    var parts := Indent(ls);
    var first := "  " + ls[0];
    assert parts[0] == first;
    assert forall x :: 0 <= x < |first| ==> first[x] != '\n' by {
      forall x | 0 <= x < |first| ensures first[x] != '\n' {
        if x >= 2 { assert first[x] == ls[0][x - 2]; }
      }
    }
    if |ls| > 1 {
      JoinIndentNewlines(ls[1..]);
      assert parts[1..] == Indent(ls[1..]);
      var rest := Join(Indent(ls[1..]), "\n");
      var s := Join(parts, "\n");
      assert s == first + "\n" + rest;
      assert forall x :: 0 <= x < |first| ==> s[x] == first[x];
      assert forall x :: |first| < x < |s| ==> s[x] == rest[x - |first| - 1];
    }
  }

  /** Every line break of `s`, except a last one, is followed by a space. */
  ghost predicate SpaceAfterBreaks(s: string) {
    forall x, y :: 0 <= x < y < |s| && y == x + 1 && s[x] == '\n' ==> s[y] == ' '
  }

  /** The template body extraction writes begins and ends with a line break, and each of its
      other line breaks is followed by a space. */
  lemma InnerNewlines(newText: string)
    ensures var inner := TemplateInner(newText);
              |inner| >= 2 && inner[0] == '\n' && inner[|inner| - 1] == '\n'
    ensures var inner := TemplateInner(newText);
              SpaceAfterBreaks(inner)
  {
    var ls := Lines(Trim(newText));
    assert "\n" == ['\n'];
    SplitOnFree(Trim(newText), '\n');
    JoinIndentNewlines(ls);
    WrappedBreaks(Join(Indent(ls), "\n"), TemplateInner(newText));
  }

  /** A body whose line breaks are each followed by a space, wrapped in line breaks. */
  lemma WrappedBreaks(j: string, inner: string)
    requires |j| >= 2 && j[0] == ' ' && forall x :: 0 <= x < |j| && j[x] == '\n' ==> x + 1 < |j| && j[x + 1] == ' '
    requires inner == "\n" + j + "\n"
    ensures |inner| >= 2 && inner[0] == '\n' && inner[|inner| - 1] == '\n'
    ensures SpaceAfterBreaks(inner)
  {
    forall x, y | 0 <= x && y == x + 1 && y < |inner| && inner[x] == '\n' ensures inner[y] == ' ' {
      if x == 0 {
        assert inner[1] == j[0];
      } else {
        assert inner[x] == j[x - 1];
        if x < |j| {
          assert inner[x + 1] == j[x];
        }
      }
    }
  }

  /** After the dashes of an appended component, no other dashes begin before the cursor: the
      head has none, and in the body every line break is followed by a space. */
  lemma NoFrontAfter(t: string, name: string, q: string)
    requires PlainName(name)
    requires SpaceAfterBreaks(q)
    ensures var p := t + Head(name) + q;
              forall j :: |t| + 1 < j < |p| ==> FrontAt(p, j).None?
  {
    var h := Head(name);
    var p := t + h + q;
    var a := |t|;
    HeadNoDashes(name);
    forall j | a + 1 < j < |p| ensures !OccursAt(p, Separator, j) {
      if j + 5 <= |p| {
        if j + 1 < a + |h| {
          assert p[j] == h[j - a] && p[j + 1] == h[j + 1 - a];
        } else if j + 1 == a + |h| {
          assert p[j + 1] == q[0];
          assert p[j] == h[|h| - 1];
          HeadChars(name);
        } else {
          assert p[j] == q[j - a - |h|] && p[j + 1] == q[j + 1 - a - |h|];
        }
        assert p[j] != '\n' || p[j + 1] != '-';
        assert p[j..j + 5][0] == p[j] && p[j..j + 5][1] == p[j + 1];
      }
    }
  }

  /** Past its dashes, the head holds no line break followed by a dash. */
  lemma HeadNoDashes(name: string)
    requires PlainName(name)
    ensures forall y :: 2 <= y < |Head(name)| - 1 ==> Head(name)[y] != '\n' || Head(name)[y + 1] != '-'
  {
    var h := Head(name);
    HeadChars(name);
    forall y | 2 <= y < |h| - 1 ensures h[y] != '\n' || h[y + 1] != '-' {
      if y < 5 {
        assert h[y] == '-';
      } else if y == 5 {
        assert h[6] == '\n';
      } else if y == 6 {
        assert h[7] == '<';
      } else if y < 21 {
        assert !IsLineTerminator(h[y]);
      } else if y < 21 + |name| {
        assert h[y] == name[y - 21];
      } else {
        assert h[y] == '"';
      }
    }
  }

  /** The first `</template>` after a cursor in the body is the closing tag, when the body
      holds none and ends with a line break. */
  lemma RearAt(r: string, inner: string, d: nat)
    requires d <= |inner| && |inner| > 0 && inner[|inner| - 1] == '\n'
    requires !Includes(inner, CloseTag) && r == inner[d..] + CloseTag
    ensures IndexOf(r, CloseTag) == Some(|inner| - d)
  {
    var m := |inner| - d;
    assert r[m..m + |CloseTag|] == CloseTag;
    forall q | 0 <= q < m ensures !OccursAt(r, CloseTag, q) {
      if q + |CloseTag| <= m {
        assert r[q..q + |CloseTag|] == inner[d + q..d + q + |CloseTag|];
        assert !OccursAt(inner, CloseTag, d + q);
      } else if q + |CloseTag| <= |r| {
        assert r[m - 1] == '\n';
        assert r[q..q + |CloseTag|][m - 1 - q] == r[m - 1];
        assert CloseTag[m - 1 - q] != '\n';
      }
    }
    assert OccursAt(r, CloseTag, m);
    var v := IndexOfFrom(r, CloseTag, 0);
    assert v.Some?;
    assert v.value == m;
  }
  /** The nearest marker before a cursor in the body of an appended component is its own. */
  lemma FoundFront(p: string, t: string, h: string, tagEnd: nat, name: string, q: string)
    requires PlainName(name) && h == Head(name) && p == t + h + q && tagEnd == |t| + |h|
    requires SpaceAfterBreaks(q)
    ensures FrontBefore(p, true) == Some(Front(|t| + 1, |t| + 7, tagEnd))
  {
    FrontAtHead(t, name, q);
    NoFrontAfter(t, name, q);
    NearestFrontIs(p, |t| + 1, Front(|t| + 1, |t| + 7, tagEnd));
  }

  /** A front with none after it is the nearest one. */
  lemma NearestFrontIs(p: string, i: nat, f: Front)
    requires i < |p| && FrontAt(p, i) == Some(f)
    requires forall j :: i < j < |p| ==> FrontAt(p, j).None?
    ensures FrontBefore(p, true) == Some(f)
  {
    var r := FrontBefore(p, true);
    assert r.Some?;
    assert r.value.index == i;
  }

  /** What the correct parse needs to find a component named `name` with inner text `inner`:
      the nearest front, the closing tag at `k` after the cursor, the name in the tag, and
      a closing tag that ends the text. */
  ghost predicate FoundPieces(text: string, cursor: nat, i: nat, tagStart: nat, tagEnd: nat, k: nat, name: string, inner: string) {
    && cursor <= |text| && FrontBefore(text[..cursor], true) == Some(Front(i, tagStart, tagEnd))
    && IndexOf(text[cursor..], CloseTag) == Some(k)
    && CapturedId(text[..cursor][tagStart..tagEnd]) == Some(name)
    && cursor + k + |CloseTag| == |text| && text[..cursor][tagEnd..] + text[cursor..][..k] == inner
  }

  /** The correct parse once its pieces are known. */
  lemma AssembleFromPieces(text: string, cursor: nat, i: nat, tagStart: nat, tagEnd: nat, k: nat, end: nat, rest: string, name: string, inner: string)
    requires FoundPieces(text, cursor, i, tagStart, tagEnd, k, name, inner)
    requires end == |text| && i <= end && rest == text[i..]
    ensures ParseNearest(text, cursor) == Some(Component(name, i, end, rest, inner))
  {
    var c := ParseNearestFound(text, cursor, Front(i, tagStart, tagEnd), k, name);
    assert c.text == rest by {
      assert text[i..|text|] == text[i..];
    }
    assert c == Component(name, i, end, rest, inner);
  }

  /** With the nearest front, a closing tag and a name found, the correct parse is `Found`. */
  lemma ParseNearestFound(text: string, cursor: nat, f: Front, k: nat, name: string) returns (c: Component)
    requires cursor <= |text| && FrontBefore(text[..cursor], true) == Some(f)
    requires IndexOf(text[cursor..], CloseTag) == Some(k)
    requires CapturedId(text[..cursor][f.tagStart..f.tagEnd]) == Some(name)
    ensures c.name == name && c.start == f.index && c.end == cursor + k + |CloseTag| <= |text|
    ensures c.text == text[f.index..c.end] && c.innerText == text[..cursor][f.tagEnd..] + text[cursor..][..k]
    ensures ParseNearest(text, cursor) == Some(c)
  {
    c := Found(text, cursor, f, k, name);
  }

  /** The same, for a component whose dashes follow `t`. */
  lemma ParseFromPieces(text: string, cursor: nat, t: string, tagEnd: nat, name: string, inner: string, d: nat)
    requires d <= |inner| && |t| + 1 <= |text|
    requires FoundPieces(text, cursor, |t| + 1, |t| + 7, tagEnd, |inner| - d, name, inner)
    ensures cursor <= |text| && ParseNearest(text, cursor) == Some(Component(name, |t| + 1, |text|, text[|t| + 1..], inner))
  {
    AssembleFromPieces(text, cursor, |t| + 1, |t| + 7, tagEnd, |inner| - d, |text|, text[|t| + 1..], name, inner);
  }

  /** Dropping `t` and one more character of `t + a` leaves the rest of `a`. */
  lemma DropInto(text: string, t: string, a: string)
    requires text == t + a && |a| > 0
    ensures |text| == |t| + |a| && text[|t| + 1..] == a[1..]
  {
    assert text[|t|..] == a;
  }

  /** The same parse, with its range and text stated relative to the appended part `a`. */
  lemma WithinAppended(text: string, cursor: nat, t: string, a: string, r: Option<Component>, name: string, inner: string)
    requires text == t + a && |a| > 0
    requires r == Some(Component(name, |t| + 1, |text|, text[|t| + 1..], inner))
    ensures r == Some(Component(name, |t| + 1, |t| + |a|, a[1..], inner))
  {
    DropInto(text, t, a);
  }

  /** A component text cut at a cursor in its body. */
  lemma CutInBody(t: string, h: string, inner: string, d: nat)
    requires d <= |inner|
    ensures var text := t + h + inner + CloseTag;
              && text[..|t| + |h| + d] == t + h + inner[..d]
              && text[|t| + |h| + d..] == inner[d..] + CloseTag
              && text[|t| + 1..] == (h + inner + CloseTag)[1..]
  {
    var text := t + h + inner + CloseTag;
    assert text == (t + h + inner[..d]) + (inner[d..] + CloseTag);
  }

  /** The marker found: the nearest one before a cursor in the body is the component's. */
  lemma FrontPiece(text: string, cursor: nat, t: string, h: string, tagEnd: nat, name: string, inner: string, d: nat)
    requires PlainName(name) && SpaceAfterBreaks(inner) && d <= |inner| && h == Head(name)
    requires text == t + h + inner + CloseTag && cursor == |t| + |h| + d && tagEnd == |t| + |h|
    ensures cursor <= |text| && FrontBefore(text[..cursor], true) == Some(Front(|t| + 1, |t| + 7, tagEnd))
  {
    var q := inner[..d];
    CutInBody(t, h, inner, d);
    assert SpaceAfterBreaks(q) by {
      forall x, y | 0 <= x && y == x + 1 && y < |q| && q[x] == '\n' ensures q[y] == ' ' {
        assert inner[x] == q[x] && inner[y] == q[y];
      }
    }
    var p := text[..cursor];
    assert p == t + h + q;
    FoundFront(p, t, h, tagEnd, name, q);
  }

  /** The closing tag found: the first `</template>` after the cursor ends the component. */
  lemma RearPiece(text: string, cursor: nat, t: string, h: string, inner: string, d: nat)
    requires !Includes(inner, CloseTag) && d <= |inner| && |inner| > 0 && inner[|inner| - 1] == '\n'
    requires text == t + h + inner + CloseTag && cursor == |t| + |h| + d
    ensures cursor <= |text| && IndexOf(text[cursor..], CloseTag) == Some(|inner| - d)
  {
    CutInBody(t, h, inner, d);
    RearAt(text[cursor..], inner, d);
  }

  /** The name found: the `id` of the component's tag. */
  lemma NamePiece(text: string, cursor: nat, t: string, h: string, tagEnd: nat, name: string, inner: string, d: nat)
    requires PlainName(name) && d <= |inner| && h == Head(name)
    requires text == t + h + inner + CloseTag && cursor == |t| + |h| + d && tagEnd == |t| + |h|
    ensures cursor <= |text| && CapturedId(text[..cursor][|t| + 7..tagEnd]) == Some(name)
  {
    var p := text[..cursor];
    CutInBody(t, h, inner, d);
    assert p == t + h + inner[..d];
    HeadTag(name);
    assert p[|t| + 7..|t| + |h|] == h[7..];
    TagId(name);
  }

  /** The head ends with the opening tag. */
  lemma HeadTag(name: string)
    ensures |Head(name)| == 23 + |name| && Head(name)[7..] == TagText(name)
  {
    HeadChars(name);
  }

  /** The inner text found: what lies between the tag and the closing tag, across the cursor. */
  lemma InnerPiece(text: string, cursor: nat, t: string, h: string, tagEnd: nat, inner: string, d: nat)
    requires d <= |inner|
    requires text == t + h + inner + CloseTag && cursor == |t| + |h| + d && tagEnd == |t| + |h|
    ensures cursor + (|inner| - d) + |CloseTag| == |text|
    ensures text[..cursor][tagEnd..] + text[cursor..][..|inner| - d] == inner
  {
    CutInBody(t, h, inner, d);
    assert text[cursor..][..|inner| - d] == inner[d..];
    assert text[..cursor][|t| + |h|..] == inner[..d];
    Rejoin(inner, d);
  }

  /** A sequence is its prefix followed by its suffix. */
  lemma Rejoin(s: string, d: nat)
    requires d <= |s|
    ensures s[..d] + s[d..] == s
  {
  }

  /** With the cursor at offset `d` of the body of a component laid out as extraction writes
      it, the correct parse finds that component. */
  lemma FoundInBody(text: string, cursor: nat, t: string, h: string, tagEnd: nat, name: string, inner: string, d: nat)
    requires PlainName(name) && !Includes(inner, CloseTag) && d <= |inner|
    requires |inner| > 0 && inner[|inner| - 1] == '\n' && SpaceAfterBreaks(inner)
    requires h == Head(name) && text == t + h + inner + CloseTag && cursor == |t| + |h| + d && tagEnd == |t| + |h|
    ensures cursor <= |text| && ParseNearest(text, cursor) == Some(Component(name, |t| + 1, |text|, text[|t| + 1..], inner))
  {
    assert FoundPieces(text, cursor, |t| + 1, |t| + 7, tagEnd, |inner| - d, name, inner) by {
      FrontPiece(text, cursor, t, h, tagEnd, name, inner, d);
      RearPiece(text, cursor, t, h, inner, d);
      NamePiece(text, cursor, t, h, tagEnd, name, inner, d);
      InnerPiece(text, cursor, t, h, tagEnd, inner, d);
    }
    ParseFromPieces(text, cursor, t, tagEnd, name, inner, d);
  }

  /** A component appended after `t`, with the cursor anywhere in its body. */
  lemma FoundAppended(text: string, t: string, a: string, h: string, inner: string, name: string, cursor: nat)
    requires PlainName(name) && !Includes(inner, CloseTag)
    requires |inner| > 0 && inner[|inner| - 1] == '\n' && SpaceAfterBreaks(inner)
    requires h == Head(name) && a == h + inner + CloseTag && text == t + a
    requires |t| + |h| <= cursor <= |t| + |h| + |inner|
    ensures cursor <= |text| && ParseNearest(text, cursor) == Some(Component(name, |t| + 1, |t| + |a|, a[1..], inner))
  {
    var tagEnd := |t| + |h|;
    var d: nat := cursor - tagEnd;
    assert text == t + h + inner + CloseTag;
    FoundInBody(text, cursor, t, h, tagEnd, name, inner, d);
    WithinAppended(text, cursor, t, a, ParseNearest(text, cursor), name, inner);
  }

  /** Extraction appended `t + AppendedText(name, newText)`; with the cursor anywhere in the
      template body, the correct parse finds exactly the appended component. */
  lemma ExtractedFound(t: string, name: string, newText: string, cursor: nat)
    requires PlainName(name) && !Includes(TemplateInner(newText), CloseTag)
    requires |t| + |Head(name)| <= cursor <= |t| + |Head(name)| + |TemplateInner(newText)|
    ensures cursor <= |t + AppendedText(name, newText)|
    ensures ParseNearest(t + AppendedText(name, newText), cursor)
              == Some(Component(name, |t| + 1, |t| + |AppendedText(name, newText)|, AppendedText(name, newText)[1..], TemplateInner(newText)))
  {
    AppendedLayout(name, newText);
    InnerNewlines(newText);
    FoundAppended(t + AppendedText(name, newText), t, AppendedText(name, newText), Head(name), TemplateInner(newText), name, cursor);
  }

  /** A front with none before it is the leftmost one. */
  lemma LeftmostFrontIs(p: string, i: nat, f: Front)
    requires i < |p| && FrontAt(p, i) == Some(f)
    requires forall j :: 0 <= j < i ==> FrontAt(p, j).None?
    ensures FrontBefore(p, false) == Some(f)
  {
    var r := FrontBefore(p, false);
    assert r.Some?;
    assert r.value.index == i;
  }

  /** In front of a component appended to a text with no separator line, the front pattern
      matches nowhere: a separator would have to run into the head, whose first two
      characters are line breaks and whose dashes are followed by no `<template`. */
  lemma NoFrontBefore(t: string, name: string, q: string)
    requires !Includes(t, Separator)
    ensures forall j :: 0 <= j <= |t| ==> FrontAt(t + Head(name) + q, j).None?
  {
    var p := t + Head(name) + q;
    HeadStart(t, name, q);
    forall j | 0 <= j <= |t| ensures FrontAt(p, j).None? {
      if j + 5 <= |t| {
        NoSeparatorInPrefix(t, p, j);
      } else if j + 4 == |t| {
        NoTagAfterDashes(p, |t|);
      } else {
        NoSeparatorAcross(p, |t|, j);
      }
    }
  }

  /** The head starts with two line breaks and a dash. */
  lemma HeadStart(t: string, name: string, q: string)
    ensures var p := t + Head(name) + q;
              |p| >= |t| + 23 && p[..|t|] == t && p[|t|] == '\n' && p[|t| + 1] == '\n' && p[|t| + 2] == '-'
  {
    var p := t + Head(name) + q;
    HeadChars(name);
    assert p[|t|] == Head(name)[0] && p[|t| + 1] == Head(name)[1] && p[|t| + 2] == Head(name)[2];
  }

  /** A separator wholly inside `t` would be one of `t`. */
  lemma NoSeparatorInPrefix(t: string, p: string, j: nat)
    requires !Includes(t, Separator) && |t| <= |p| && p[..|t|] == t && j + 5 <= |t|
    ensures !OccursAt(p, Separator, j)
  {
    assert p[j..j + 5] == t[j..j + 5];
    assert !OccursAt(t, Separator, j);
  }

  /** A separator starting in the last three characters of `t`, or right at its end, needs a
      dash where one of the two line breaks is. */
  lemma NoSeparatorAcross(p: string, a: nat, j: nat)
    requires a + 2 < |p| && p[a] == '\n' && p[a + 1] == '\n'
    requires a < j + 4 && j <= a
    ensures !OccursAt(p, Separator, j)
  {
    var k := if j == a then 1 else a - j;
    assert 1 <= k <= 3 && p[j + k] == '\n' && Separator[k] == '-';
    assert j + 5 <= |p| ==> p[j..j + 5][k] == p[j + k];
  }

  /** After a separator ending with the first of two line breaks comes white space, then a
      dash, where `<template` would have to be. */
  lemma NoTagAfterDashes(p: string, a: nat)
    requires a + 2 < |p| && a >= 4 && p[a] == '\n' && p[a + 1] == '\n' && p[a + 2] == '-'
    ensures FrontAt(p, a - 4).None?
  {
    if OccursAt(p, Separator, a - 4) {
      var w := SkipWhitespace(p, a + 1);
      assert w == a + 2;
      if w + |TemplateOpen| <= |p| {
        assert p[w..w + |TemplateOpen|][0] == p[w];
      }
    }
  }

  /** The leftmost marker before a cursor in the body of a component appended to a text with
      no separator line is the component's own. */
  lemma FirstFrontPiece(text: string, cursor: nat, t: string, h: string, name: string, inner: string, d: nat)
    requires PlainName(name) && !Includes(t, Separator) && SpaceAfterBreaks(inner) && d <= |inner| && h == Head(name)
    requires text == t + h + inner + CloseTag && cursor == |t| + |h| + d
    ensures cursor <= |text|
    ensures FrontBefore(text[..cursor], false) == Some(Front(|t| + 1, |t| + 7, |t| + |h|))
    ensures FrontBefore(text[..cursor], true) == Some(Front(|t| + 1, |t| + 7, |t| + |h|))
  {
    CutInBody(t, h, inner, d);
    FrontPiece(text, cursor, t, h, |t| + |h|, name, inner, d);
    assert text[..cursor] == t + h + inner[..d];
    HeadLeftmost(text[..cursor], t, h, name, inner[..d]);
  }

  /** With no separator line before it, the marker of an appended head is the leftmost one. */
  lemma HeadLeftmost(p: string, t: string, h: string, name: string, q: string)
    requires PlainName(name) && !Includes(t, Separator) && h == Head(name) && p == t + h + q
    ensures FrontBefore(p, false) == Some(Front(|t| + 1, |t| + 7, |t| + |h|))
  {
    NoFrontBefore(t, name, q);
    FrontAtHead(t, name, q);
    LeftmostFrontIs(p, |t| + 1, Front(|t| + 1, |t| + 7, |t| + |h|));
  }

  /** When the leftmost and the nearest marker are the same, both parses agree. */
  lemma SameFrontSameParse(text: string, cursor: nat)
    requires cursor <= |text| && FrontBefore(text[..cursor], false) == FrontBefore(text[..cursor], true)
    ensures ParseAsWritten(text, cursor) == ParseNearest(text, cursor)
  {
  }

  /** Extraction into a document that holds no `\n---\n` anywhere yet (a stronger condition
      than holding no marker): with the cursor anywhere in the template body, the parse as
      written, which takes the leftmost marker, finds the appended component as well. */
  lemma ExtractedFoundAsWritten(t: string, name: string, newText: string, cursor: nat)
    requires PlainName(name) && !Includes(TemplateInner(newText), CloseTag) && !Includes(t, Separator)
    requires |t| + |Head(name)| <= cursor <= |t| + |Head(name)| + |TemplateInner(newText)|
    ensures cursor <= |t + AppendedText(name, newText)|
    ensures ParseAsWritten(t + AppendedText(name, newText), cursor)
              == Some(Component(name, |t| + 1, |t| + |AppendedText(name, newText)|, AppendedText(name, newText)[1..], TemplateInner(newText)))
  {
    var text := t + AppendedText(name, newText);
    ExtractedFound(t, name, newText, cursor);
    SameFirstFront(t, name, newText, cursor);
    SameFrontSameParse(text, cursor);
  }

  /** In that document the leftmost and the nearest marker before the cursor coincide. */
  lemma SameFirstFront(t: string, name: string, newText: string, cursor: nat)
    requires PlainName(name) && !Includes(t, Separator)
    requires |t| + |Head(name)| <= cursor <= |t| + |Head(name)| + |TemplateInner(newText)|
    ensures var text := t + AppendedText(name, newText);
            cursor <= |text| && FrontBefore(text[..cursor], false) == FrontBefore(text[..cursor], true)
  {
    AppendedLayout(name, newText);
    InnerNewlines(newText);
    FirstFrontPiece(t + AppendedText(name, newText), cursor, t, Head(name), name, TemplateInner(newText), cursor - |t| - |Head(name)|);
  }

  // ---------------------------------------------------------------------------------------
  // The leftmost marker as written

  /** The parse as written starts no later than any marker before the cursor. */
  lemma LeftmostBefore(text: string, cursor: nat, t0: string, name: string, q: string)
    requires cursor <= |text| && PlainName(name) && text[..cursor] == t0 + Head(name) + q
    ensures ParseAsWritten(text, cursor).Some? ==> ParseAsWritten(text, cursor).value.start <= |t0| + 1
  {
    FrontAtHead(t0, name, q);
    if ParseAsWritten(text, cursor).Some? {
      ParseMarker(text, cursor, false);
    }
  }

  /** The prefix of a text that starts with `t0 + Head(name)`. */
  lemma HeadPrefix(text: string, cursor: nat, t0: string, name: string, rest: string)
    requires text == t0 + Head(name) + rest && |t0| + |Head(name)| <= cursor <= |text|
    ensures text[..cursor] == t0 + Head(name) + text[|t0| + |Head(name)|..cursor]
  {
    assert text[..cursor] == text[..|t0| + |Head(name)|] + text[|t0| + |Head(name)|..cursor];
  }

  /** When the nearest marker is past a marker at `|t0| + 1`, the parse as written differs. */
  lemma LeftmostDiffers(text: string, cursor: nat, t0: string, name: string, rest: string, c: Component)
    requires PlainName(name) && text == t0 + Head(name) + rest && |t0| + |Head(name)| <= cursor <= |text|
    requires ParseNearest(text, cursor) == Some(c) && c.start > |t0| + 1
    ensures ParseAsWritten(text, cursor) != ParseNearest(text, cursor)
  {
    HeadPrefix(text, cursor, t0, name, rest);
    LeftmostBefore(text, cursor, t0, name, text[|t0| + |Head(name)|..cursor]);
  }

  /** Text after an appended component, regrouped after its head. */
  lemma Regroup(t0: string, a1: string, a2: string, h: string, inner: string)
    requires a1 == h + inner + CloseTag
    ensures t0 + a1 + a2 == t0 + h + (inner + CloseTag + a2)
  {
  }

  /** Two components extracted one after the other, the cursor in the second one's body:
      the parse as written starts at the first marker and so never finds the second
      component, which the nearest marker finds. */
  lemma FirstMarkerWins(t0: string, n1: string, x1: string, n2: string, x2: string, cursor: nat)
    requires PlainName(n1) && PlainName(n2) && !Includes(TemplateInner(x2), CloseTag)
    requires |t0 + AppendedText(n1, x1)| + |Head(n2)| <= cursor
    requires cursor <= |t0 + AppendedText(n1, x1)| + |Head(n2)| + |TemplateInner(x2)|
    ensures cursor <= |t0 + AppendedText(n1, x1) + AppendedText(n2, x2)|
    ensures var text := t0 + AppendedText(n1, x1) + AppendedText(n2, x2);
              && ParseNearest(text, cursor).Some? && ParseNearest(text, cursor).value.name == n2
              && ParseAsWritten(text, cursor) != ParseNearest(text, cursor)
  {
    ExtractedFound(t0 + AppendedText(n1, x1), n2, x2, cursor);
    AppendedLayout(n1, x1);
    Regroup(t0, AppendedText(n1, x1), AppendedText(n2, x2), Head(n1), TemplateInner(x1));
    LeftmostDiffers(t0 + AppendedText(n1, x1) + AppendedText(n2, x2), cursor, t0, n1,
      TemplateInner(x1) + CloseTag + AppendedText(n2, x2), ParseNearest(t0 + AppendedText(n1, x1) + AppendedText(n2, x2), cursor).value);
  }
}

=== FILE: js_string.dfy ===
/** The JavaScript string primitives the modelled code calls (`startsWith`, `indexOf`,
    `split`, `join`, `slice`, `trim`, `replace(/./g, ' ')`), written out so that their edge
    cases are explicit. A string is a `seq<char>`, one index per character. */
module JsString {
  import opened Wrappers

  /** `\s` of an ECMAScript regular expression; also the set `String.prototype.trim` strips. */
  predicate IsWhitespace(c: char) {
    c in Whitespace
  }

  /** What `\s` and `trim` treat as white space: the ECMAScript WhiteSpace and
      LineTerminator code points. */
  const Whitespace: set<char> := {
    '\t', '\n', '\U{B}', '\U{C}', '\r', ' ', '\U{A0}', '\U{1680}',
    '\U{2000}', '\U{2001}', '\U{2002}', '\U{2003}', '\U{2004}', '\U{2005}',
    '\U{2006}', '\U{2007}', '\U{2008}', '\U{2009}', '\U{200A}',
    '\U{2028}', '\U{2029}', '\U{202F}', '\U{205F}', '\U{3000}', '\U{FEFF}'
  }

  /** The characters a regular-expression `.` does not match (without the `s` flag). */
  predicate IsLineTerminator(c: char) {
    c == '\n' || c == '\r' || c == '\U{2028}' || c == '\U{2029}'
  }

  /** `\w`: ASCII letters, digits and underscore. */
  predicate IsWordChar(c: char) {
    ('a' <= c <= 'z') || ('A' <= c <= 'Z') || ('0' <= c <= '9') || c == '_'
  }

  predicate StartsWith(s: string, prefix: string) {
    |prefix| <= |s| && s[..|prefix|] == prefix
  }

  predicate EndsWith(s: string, suffix: string) {
    |suffix| <= |s| && s[|s| - |suffix|..] == suffix
  }

  /** `p` occurs in `s` at index `i`. */
  predicate OccursAt(s: string, p: string, i: nat) {
    i + |p| <= |s| && s[i..i + |p|] == p
  }

  /** `s.indexOf(p, k)`, with `None` for -1. */
  function IndexOfFrom(s: string, p: string, k: nat): (r: Option<nat>)
    decreases |s| - k
    ensures r.Some? ==> k <= r.value && OccursAt(s, p, r.value)
    ensures r.Some? ==> forall j :: k <= j < r.value ==> !OccursAt(s, p, j)
    ensures r.None? ==> forall j :: k <= j ==> !OccursAt(s, p, j)
  {
    if k + |p| > |s| then None
    else if s[k..k + |p|] == p then Some(k)
    else IndexOfFrom(s, p, k + 1)
  }

  function IndexOf(s: string, p: string): Option<nat> {
    IndexOfFrom(s, p, 0)
  }

  /** `s.includes(p)`. */
  predicate Includes(s: string, p: string) {
    IndexOf(s, p).Some?
  }

  /** `s.slice(from)` for a non-negative `from`: empty when `from` is past the end. */
  function SliceFrom(s: string, from: nat): string {
    if from <= |s| then s[from..] else []
  }

  /** `s.slice(0, to)` for a non-negative `to`. */
  function SliceTo(s: string, to: nat): string {
    if to <= |s| then s[..to] else s
  }

  /** `s.replace(/^prefix/, '')`. */
  function StripPrefix(s: string, prefix: string): string {
    if StartsWith(s, prefix) then s[|prefix|..] else s
  }

  /** `s.replace(/suffix$/, '')`. */
  function StripSuffix(s: string, suffix: string): string {
    if EndsWith(s, suffix) then s[..|s| - |suffix|] else s
  }

  /** `s.replace(pattern, replacement)` with a string pattern: the first occurrence only. */
  function ReplaceFirst(s: string, pattern: string, replacement: string): string {
    match IndexOf(s, pattern)
    case None => s
    case Some(i) => s[..i] + replacement + s[i + |pattern|..]
  }

  /** `parts.join(sep)`; `[].join(sep)` is the empty string. */
  function Join(parts: seq<string>, sep: string): string
    decreases |parts|
  {
    if |parts| == 0 then []
    else if |parts| == 1 then parts[0]
    else parts[0] + sep + Join(parts[1..], sep)
  }

  /** `s.split(sep)` for a non-empty separator. */
  function SplitOn(s: string, sep: string): (r: seq<string>)
    requires |sep| > 0
    decreases |s|
    ensures |r| >= 1
  {
    match IndexOf(s, sep)
    case None => [s]
    case Some(i) => [s[..i]] + SplitOn(s[i + |sep|..], sep)
  }

  /** `s.split(sep)`: an empty separator splits into single characters (and `''` into `[]`). */
  function SplitAll(s: string, sep: string): seq<string> {
    if |sep| == 0 then seq(|s|, i requires 0 <= i < |s| => [s[i]])
    else SplitOn(s, sep)
  }

  /** Every character of `s` is white space (`/^\s*$/`). */
  predicate AllWhitespace(s: string) {
    forall i :: 0 <= i < |s| ==> IsWhitespace(s[i])
  }

  /** `s.trimStart()`. */
  function TrimStart(s: string): (r: string)
    decreases |s|
    ensures |r| <= |s| && r == s[|s| - |r|..]
    ensures |r| > 0 ==> !IsWhitespace(r[0])
    ensures forall i :: 0 <= i < |s| - |r| ==> IsWhitespace(s[i])
  {
    if |s| > 0 && IsWhitespace(s[0]) then
      var r := TrimStart(s[1..]);
      assert s[1..][|s| - 1 - |r|..] == s[|s| - |r|..];
      assert forall i :: 1 <= i < |s| - |r| ==> s[1..][i - 1] == s[i];
      r
    else s
  }

  /** `s.trimEnd()`. */
  function TrimEnd(s: string): (r: string)
    decreases |s|
    ensures |r| <= |s| && r == s[..|r|]
    ensures |r| > 0 ==> !IsWhitespace(r[|r| - 1])
    ensures forall i :: |r| <= i < |s| ==> IsWhitespace(s[i])
  {
    if |s| > 0 && IsWhitespace(s[|s| - 1]) then TrimEnd(s[..|s| - 1]) else s
  }

  /** `s.trim()`. */
  function Trim(s: string): string {
    TrimEnd(TrimStart(s))
  }

  /** `c.repeat(n)` for a one-character string. */
  function Repeat(c: char, n: nat): string {
    seq(n, _ => c)
  }

  /** `s.split('\n')`. */
  function Lines(s: string): seq<string> {
    SplitAll(s, "\n")
  }

  // ---------------------------------------------------------------------------------------
  // Facts about join and split used across the model.

  lemma {:induction false} JoinAppend(a: seq<string>, b: seq<string>, sep: string)
    requires |a| > 0 && |b| > 0
    ensures Join(a + b, sep) == Join(a, sep) + sep + Join(b, sep)
    decreases |a|
  {
    if |a| == 1 {
      assert (a + b)[1..] == b;
    } else {
      assert (a + b)[1..] == a[1..] + b;
      JoinAppend(a[1..], b, sep);
    }
  }

  lemma {:induction false} JoinSplitOn(s: string, sep: string)
    requires |sep| > 0
    ensures Join(SplitOn(s, sep), sep) == s
    decreases |s|
  {
    var ix := IndexOf(s, sep);
    if ix.Some? {
      var i := ix.value;
      var head, rest := s[..i], s[i + |sep|..];
      var tail := SplitOn(rest, sep);
      assert SplitOn(s, sep) == [head] + tail;
      JoinSplitOn(rest, sep);
      JoinAppend([head], tail, sep);
      assert Join([head] + tail, sep) == head + sep + rest;
      assert s == head + sep + rest by {
        assert s[i..i + |sep|] == sep;
        assert s == s[..i] + s[i..i + |sep|] + s[i + |sep|..];
      }
    }
  }

  lemma {:induction false} JoinChars(s: string)
    ensures Join(SplitAll(s, []), []) == s
    decreases |s|
  {
    var parts := SplitAll(s, []);
    if |s| > 1 {
      JoinChars(s[1..]);
      assert parts[1..] == SplitAll(s[1..], []);
      assert s == [s[0]] + s[1..];
    }
  }

  /** Joining the pieces of a split with the same separator gives back the string. */
  lemma JoinSplitAll(s: string, sep: string)
    ensures Join(SplitAll(s, sep), sep) == s
  {
    if |sep| == 0 {
      JoinChars(s);
    } else {
      JoinSplitOn(s, sep);
    }
  }

  /** When the first occurrence of `sep` in `a + sep + b` is the one after `a`, splitting
      peels `a` off the front. */
  lemma SplitOnFirst(a: string, sep: string, b: string)
    requires |sep| > 0
    requires forall j :: 0 <= j < |a| ==> !OccursAt(a + sep + b, sep, j)
    ensures SplitOn(a + sep + b, sep) == [a] + SplitOn(b, sep)
  {
    var s := a + sep + b;
    assert OccursAt(s, sep, |a|) by {
      assert s[|a|..|a| + |sep|] == sep;
    }
    assert IndexOf(s, sep) == Some(|a|);
    assert s[..|a|] == a;
    assert s[|a| + |sep|..] == b;
  }

  /** A string without the separator is one piece. */
  lemma SplitOnNone(s: string, sep: string)
    requires |sep| > 0
    requires forall j :: 0 <= j < |s| ==> !OccursAt(s, sep, j)
    ensures SplitOn(s, sep) == [s]
  {
  }

  /** When the separator's first character is not in `a`, the first occurrence of the
      separator in `a + sep + b` is the one right after `a`. */
  lemma NoOccurrenceBefore(a: string, sep: string, b: string)
    requires |sep| > 0 && sep[0] !in a
    ensures forall j :: 0 <= j < |a| ==> !OccursAt(a + sep + b, sep, j)
  {
    var s := a + sep + b;
    forall j | 0 <= j < |a|
      ensures !OccursAt(s, sep, j)
    {
      assert s[j] == a[j];
      assert j + |sep| <= |s| ==> s[j..j + |sep|][0] == s[j];
    }
  }

  /** No piece of a split on a character holds that character. */
  lemma {:induction false} SplitOnFree(s: string, c: char)
    ensures forall i :: 0 <= i < |SplitOn(s, [c])| ==> c !in SplitOn(s, [c])[i]
    decreases |s|
  {
    match IndexOf(s, [c])
    case None =>
      forall j | 0 <= j < |s| ensures s[j] != c {
        assert s[j..j + 1] == [s[j]];
        assert !OccursAt(s, [c], j);
      }
    case Some(i) =>
      forall j | 0 <= j < i ensures s[j] != c {
        assert s[j..j + 1] == [s[j]];
        assert !OccursAt(s, [c], j);
      }
      SplitOnFree(s[i + 1..], c);
      assert SplitOn(s, [c]) == [s[..i]] + SplitOn(s[i + 1..], [c]);
  }

  /** Splitting pieces joined on a character they do not hold gives the pieces back. */
  lemma {:induction false} SplitJoin(parts: seq<string>, c: char)
    requires |parts| > 0 && forall i :: 0 <= i < |parts| ==> c !in parts[i]
    ensures SplitOn(Join(parts, [c]), [c]) == parts
    decreases |parts|
  {
    if |parts| == 1 {
      forall j | 0 <= j < |parts[0]| ensures !OccursAt(parts[0], [c], j) {
        assert j + 1 <= |parts[0]| ==> parts[0][j..j + 1][0] == parts[0][j];
      }
      SplitOnNone(parts[0], [c]);
    } else {
      var rest := parts[1..];
      SplitJoin(rest, c);
      var t := Join(rest, [c]);
      assert Join(parts, [c]) == parts[0] + [c] + t;
      NoOccurrenceBefore(parts[0], [c], t);
      SplitOnFirst(parts[0], [c], t);
      assert parts == [parts[0]] + rest;
    }
  }

  /** `s.slice(0, s.indexOf(c))`, or all of `s` when `c` does not occur: the longest prefix
      free of `c`. */
  function TakeUntil(s: string, c: char): (r: string)
    ensures StartsWith(s, r) && c !in r
    ensures |r| < |s| ==> s[|r|] == c
  {
    if |s| == 0 || s[0] == c then []
    else [s[0]] + TakeUntil(s[1..], c)
  }

  /** Trimming text that neither starts nor ends with whitespace leaves it alone. */
  lemma TrimIdentity(s: string)
    requires |s| == 0 || (!IsWhitespace(s[0]) && !IsWhitespace(s[|s| - 1]))
    ensures Trim(s) == s
  {
  }
}

=== FILE: markers.dfy ===
/** The segment marker `SPLIT_PATTERN` of the two splitters, as the regular expressions match
    it. The current splitter marks a segment with
    `(?<header>\n---\n)\s*<template\b[^>]*\bid="(?<name>[^"]*)">`, the older one with
    `\n---\nname=(?<name>.*)\n`. Both are written out as functions deciding whether, and how,
    the expression matches at a given index, with the backtracking the regular-expression
    engine does; `search` and `match` take the leftmost index that matches. */
module Markers {
  import opened Wrappers
  import opened JsString

  /** `THREE_DASHES`: every marker starts with it, and the splitter cuts just after it. */
  const Separator: string := "\n---\n"
  const TemplateOpen: string := "<template"
  const IdOpen: string := "id=\""
  const NamePrefix: string := "\n---\nname="

  datatype MarkerSyntax =
    | TemplateId   // `packages/core`: `<template id="name">` after the dashes
    | NameLine     // the older vite plugin: a `name=...` line after the dashes

  /** A match: where it starts and ends, the header the splitter keeps, and the name. */
  datatype Match = Match(index: nat, end: nat, header: string, name: string)

  /** The first index from `k` on that is not `\s`. */
  function SkipWhitespace(s: string, k: nat): (r: nat)
    requires k <= |s|
    decreases |s| - k
    ensures k <= r <= |s|
    ensures forall j :: k <= j < r ==> IsWhitespace(s[j])
    ensures r < |s| ==> !IsWhitespace(s[r])
  {
    if k < |s| && IsWhitespace(s[k]) then SkipWhitespace(s, k + 1) else k
  }

  /** The first index from `k` on holding `c`, or `|s|`. */
  function FindChar(s: string, c: char, k: nat): (r: nat)
    requires k <= |s|
    decreases |s| - k
    ensures k <= r <= |s|
    ensures forall j :: k <= j < r ==> s[j] != c
    ensures r < |s| ==> s[r] == c
  {
    if k < |s| && s[k] != c then FindChar(s, c, k + 1) else k
  }

  /** The first index from `k` on holding a line terminator, or `|s|`. */
  function FindLineTerminator(s: string, k: nat): (r: nat)
    requires k <= |s|
    decreases |s| - k
    ensures k <= r <= |s|
    ensures forall j :: k <= j < r ==> !IsLineTerminator(s[j])
    ensures r < |s| ==> IsLineTerminator(s[r])
  {
    if k < |s| && !IsLineTerminator(s[k]) then FindLineTerminator(s, k + 1) else k
  }

  /** The first line terminator from `k` on is the one at `p` when none comes between. */
  lemma FirstLineTerminator(s: string, k: nat, p: nat)
    requires k <= p < |s| && IsLineTerminator(s[p])
    requires forall j :: k <= j < p ==> !IsLineTerminator(s[j])
    ensures FindLineTerminator(s, k) == p
  {
  }

  /** `\bid="(?<name>[^"]*)">` matches at `p`: a word boundary before the `i`, then the value
      runs to the first `"`, which must be followed by `>`. */
  predicate IdAttrAt(s: string, p: nat) {
    && OccursAt(s, IdOpen, p)
    && p > 0 && !IsWordChar(s[p - 1])
    && var q := FindChar(s, '"', p + 4);
       q + 1 < |s| && s[q + 1] == '>'
  }

  /** The largest `p` in `[lo, hi]` at which the attribute matches: `[^>]*` is greedy, so the
      engine tries the attribute at the furthest position first and backs off one character
      at a time. */
  function LastIdAttr(s: string, lo: nat, hi: nat): (r: Option<nat>)
    requires lo <= hi
    decreases hi - lo
    ensures r.Some? ==> lo <= r.value <= hi && IdAttrAt(s, r.value)
    ensures r.Some? ==> forall j :: r.value < j <= hi ==> !IdAttrAt(s, j)
    ensures r.None? ==> forall j :: lo <= j <= hi ==> !IdAttrAt(s, j)
  {
    if IdAttrAt(s, hi) then Some(hi)
    else if hi == lo then None
    else
      var r := LastIdAttr(s, lo, hi - 1);
      NoIdAttrUpTo(s, if r.Some? then r.value + 1 else lo, hi);
      r
  }

  /** No attribute in `[from, hi)` and none at `hi`: none in `[from, hi]`. */
  lemma NoIdAttrUpTo(s: string, from: nat, hi: nat)
    requires !IdAttrAt(s, hi) && forall j :: from <= j < hi ==> !IdAttrAt(s, j)
    ensures forall j :: from <= j <= hi ==> !IdAttrAt(s, j)
  {
  }

  /** The name an attribute matching at `p` captures, and the index just past its `">`. */
  function IdValue(s: string, p: nat): (r: (string, nat))
    requires IdAttrAt(s, p)
    ensures p + 4 + |r.0| + 2 == r.1 <= |s|
    ensures '"' !in r.0
    ensures IdClosed(s, p, r.0, r.1)
  {
    var q := FindChar(s, '"', p + 4);
    var name := s[p + 4..q];
    assert '"' !in name by {
      forall j | 0 <= j < |name| ensures name[j] != '"' {
        assert name[j] == s[p + 4 + j];
      }
    }
    (name, q + 2)
  }

  /** What a template-marker match at `i` looks like: it starts at the dashes, keeps them as
      its header, and ends just past `id="name">`, the name holding no quote. */
  predicate TemplateShaped(s: string, i: nat, m: Match) {
    && m.index == i && m.header == Separator
    && i + |Separator| <= m.end <= |s|
    && '"' !in m.name
    && |IdOpen| + |m.name| + 2 <= m.end
    && IdClosed(s, m.end - |m.name| - 6, m.name, m.end)
  }

  /** `id="name">` ends at `e`, written from `p`: the attribute, the name, a quote and `>`. */
  predicate IdClosed(s: string, p: nat, name: string, e: nat) {
    && p + |IdOpen| + |name| + 2 == e <= |s|
    && OccursAt(s, IdOpen, p)
    && s[p + |IdOpen|..e - 2] == name
    && s[e - 2] == '"' && s[e - 1] == '>'
  }

  /** The `<template id="...">` marker at index `i`. */
  function TemplateMatchAt(s: string, i: nat): (r: Option<Match>)
    ensures r.Some? ==> OccursAt(s, Separator, i) && TemplateShaped(s, i, r.value)
  {
    if !OccursAt(s, Separator, i) then None
    else TagMatch(s, i, SkipWhitespace(s, i + 5))
  }

  /** After the dashes and the whitespace: `<template`, a non-word character, then the last
      `id` attribute before the first `>`. */
  function TagMatch(s: string, i: nat, k: nat): (r: Option<Match>)
    requires i + |Separator| <= k <= |s|
    ensures r.Some? ==> TemplateShaped(s, i, r.value)
  {
    if !OccursAt(s, TemplateOpen, k) then None
    else if k + 9 < |s| && IsWordChar(s[k + 9]) then None
    else
      var g := FindChar(s, '>', k + 9);
      IdMatch(s, i, k + 9, LastIdAttr(s, k + 9, g))
  }

  /** The match for the attribute found at `a`, if any. */
  function IdMatch(s: string, i: nat, lo: nat, a: Option<nat>): (r: Option<Match>)
    requires a.Some? ==> IdAttrAt(s, a.value) && i + |Separator| <= a.value
    ensures r.Some? <==> a.Some?
    ensures r.Some? ==> TemplateShaped(s, i, r.value)
  {
    match a
    case None => None
    case Some(p) =>
      var v := IdValue(s, p);
      Some(Match(i, v.1, Separator, v.0))
  }

  /** The `name=...` line marker at index `i`. `.` stops at any line terminator, and the line
      must end with `\n` itself. */
  function NameLineMatchAt(s: string, i: nat): (r: Option<Match>)
    ensures r.Some? ==> r.value.index == i && OccursAt(s, Separator, i)
    ensures r.Some? ==> r.value.header == NamePrefix + r.value.name + "\n"
    ensures r.Some? ==> r.value.end == i + |r.value.header| <= |s|
    ensures r.Some? ==> OccursAt(s, r.value.header, i)
    ensures r.Some? ==> forall j :: 0 <= j < |r.value.name| ==> !IsLineTerminator(r.value.name[j])
  {
    if !OccursAt(s, NamePrefix, i) then None
    else
      var e := FindLineTerminator(s, i + 10);
      if e < |s| && s[e] == '\n' then
        var name := s[i + 10..e];
        assert s[i..e + 1] == s[i..i + 10] + name + "\n";
        assert s[i..i + 5] == s[i..i + 10][..5];
        Some(Match(i, e + 1, s[i..e + 1], name))
      else None
  }

  function MatchAt(m: MarkerSyntax, s: string, i: nat): (r: Option<Match>)
    ensures r.Some? ==> r.value.index == i && OccursAt(s, Separator, i)
    ensures r.Some? ==> i + |r.value.header| <= r.value.end <= |s|
  {
    match m
    case TemplateId => TemplateMatchAt(s, i)
    case NameLine => NameLineMatchAt(s, i)
  }

  /** No index in `[lo, hi)` is a hit. Written recursively so that the fact stays folded
      until a proof asks for it with `NoneInSpec`. */
  predicate NoneIn(hit: nat -> bool, lo: nat, hi: nat)
    decreases hi - lo
  {
    lo >= hi || (!hit(lo) && NoneIn(hit, lo + 1, hi))
  }

  lemma {:induction false} NoneInSpec(hit: nat -> bool, lo: nat, hi: nat)
    ensures NoneIn(hit, lo, hi) <==> forall j :: lo <= j < hi ==> !hit(j)
    decreases hi - lo
  {
    if lo < hi {
      NoneInSpec(hit, lo + 1, hi);
    }
  }

  /** The indices at which the marker matches. */
  function MatchesAt(m: MarkerSyntax, s: string): nat -> bool {
    (j: nat) => MatchAt(m, s, j).Some?
  }

  /** No match starts in `[lo, hi)`. */
  predicate NoMatchIn(m: MarkerSyntax, s: string, lo: nat, hi: nat) {
    NoneIn(MatchesAt(m, s), lo, hi)
  }

  lemma NoMatchInSpec(m: MarkerSyntax, s: string, lo: nat, hi: nat)
    ensures NoMatchIn(m, s, lo, hi) <==> forall j :: lo <= j < hi ==> MatchAt(m, s, j).None?
  {
    var hit := MatchesAt(m, s);
    NoneInSpec(hit, lo, hi);
    forall j: nat ensures hit(j) == MatchAt(m, s, j).Some? {
    }
  }

  /** The leftmost match at or after `k`. */
  function SearchFrom(m: MarkerSyntax, s: string, k: nat): (r: Option<Match>)
    requires k <= |s|
    decreases |s| - k
    ensures r.Some? ==> k <= r.value.index && MatchAt(m, s, r.value.index) == r
    ensures r.Some? ==> NoMatchIn(m, s, k, r.value.index)
    ensures r.None? ==> NoMatchIn(m, s, k, |s| + 1)
  {
    var here := MatchAt(m, s, k);
    if here.Some? then here
    else if k == |s| then None
    else SearchFrom(m, s, k + 1)
  }

  /** `s.search(SPLIT_PATTERN)` and `s.match(SPLIT_PATTERN)`: the leftmost match. */
  function Search(m: MarkerSyntax, s: string): (r: Option<Match>)
    ensures r.Some? ==> MatchAt(m, s, r.value.index) == r
    ensures r.Some? ==> r.value.index + |Separator| <= |s| && OccursAt(s, Separator, r.value.index)
    ensures r.Some? ==> NoMatchIn(m, s, 0, r.value.index)
    ensures r.None? ==> NoMatchIn(m, s, 0, |s| + 1)
  {
    SearchFrom(m, s, 0)
  }

  /** `s.search(SPLIT_PATTERN)` from index `k` on: where the leftmost match starts, without
      building it. */
  function SearchIndexFrom(m: MarkerSyntax, s: string, k: nat): (r: Option<nat>)
    requires k <= |s|
    decreases |s| - k
    ensures r.Some? ==> k <= r.value && r.value + |Separator| <= |s|
    ensures r.Some? ==> OccursAt(s, Separator, r.value)
  {
    if MatchAt(m, s, k).Some? then Some(k)
    else if k == |s| then None
    else SearchIndexFrom(m, s, k + 1)
  }

  function SearchIndex(m: MarkerSyntax, s: string): (r: Option<nat>)
    ensures r.Some? ==> r.value + |Separator| <= |s| && OccursAt(s, Separator, r.value)
  {
    SearchIndexFrom(m, s, 0)
  }

  lemma {:induction false} SearchIndexFromAgrees(m: MarkerSyntax, s: string, k: nat)
    requires k <= |s|
    ensures SearchIndexFrom(m, s, k).None? <==> SearchFrom(m, s, k).None?
    ensures SearchIndexFrom(m, s, k).Some? ==> SearchIndexFrom(m, s, k).value == SearchFrom(m, s, k).value.index
    decreases |s| - k
  {
    if MatchAt(m, s, k).None? && k < |s| {
      SearchIndexFromAgrees(m, s, k + 1);
      SearchesMiss(m, s, k, SearchIndexFrom(m, s, k + 1), SearchFrom(m, s, k + 1));
    } else {
      SearchesStop(m, s, k);
    }
  }

  lemma SearchesMiss(m: MarkerSyntax, s: string, k: nat, a: Option<nat>, b: Option<Match>)
    requires k < |s| && MatchAt(m, s, k).None?
    requires SearchIndexFrom(m, s, k + 1) == a && SearchFrom(m, s, k + 1) == b
    ensures SearchIndexFrom(m, s, k) == a && SearchFrom(m, s, k) == b
  {
  }

  lemma SearchesStop(m: MarkerSyntax, s: string, k: nat)
    requires k <= |s| && (MatchAt(m, s, k).Some? || k == |s|)
    ensures SearchIndexFrom(m, s, k).None? <==> SearchFrom(m, s, k).None?
    ensures SearchIndexFrom(m, s, k).Some? ==> SearchIndexFrom(m, s, k).value == SearchFrom(m, s, k).value.index
  {
  }

  /** `search` and `match` agree on where the leftmost match is. */
  lemma SearchIndexAgrees(m: MarkerSyntax, s: string)
    ensures SearchIndex(m, s).None? <==> Search(m, s).None?
    ensures SearchIndex(m, s).Some? ==> SearchIndex(m, s).value == Search(m, s).value.index
  {
    SearchIndexFromAgrees(m, s, 0);
  }

  /** `Search` finds the leftmost index at which the marker matches, and nothing when it
      matches nowhere. */
  lemma SearchSpec(m: MarkerSyntax, s: string)
    ensures Search(m, s).Some? ==> forall j :: 0 <= j < Search(m, s).value.index ==> MatchAt(m, s, j).None?
    ensures Search(m, s).None? <==> forall j :: 0 <= j <= |s| ==> MatchAt(m, s, j).None?
  {
    var r := Search(m, s);
    if r.Some? {
      NoMatchInSpec(m, s, 0, r.value.index);
      assert MatchAt(m, s, r.value.index).Some?;
    } else {
      NoMatchInSpec(m, s, 0, |s| + 1);
    }
  }

  // ---------------------------------------------------------------------------------------
  // Recognising the markers that are written into files

  /** A `name=` line ending in `\n` is a match, with its name. */
  lemma NameLineRecognised(s: string, i: nat, x: string)
    requires OccursAt(s, NamePrefix + x + "\n", i)
    requires forall j :: 0 <= j < |x| ==> !IsLineTerminator(x[j])
    ensures MatchAt(NameLine, s, i) == Some(Match(i, i + |NamePrefix| + |x| + 1, NamePrefix + x + "\n", x))
  {
    var h := NamePrefix + x + "\n";
    var e := i + 10 + |x|;
    assert |h| == 11 + |x| && s[i..i + |h|] == h;
    forall j | 0 <= j < |h| ensures s[i + j] == h[j] {
      assert s[i + j] == s[i..i + |h|][j];
    }
    assert s[i..i + 10] == NamePrefix by {
      forall j | 0 <= j < 10 ensures s[i..i + 10][j] == NamePrefix[j] {
        assert s[i + j] == h[j];
      }
    }
    assert s[i + 10..e] == x by {
      forall j | 0 <= j < |x| ensures s[i + 10..e][j] == x[j] {
        assert s[i + 10 + j] == h[10 + j];
      }
    }
    assert s[e] == '\n' by { assert s[i + (10 + |x|)] == h[10 + |x|]; }
    forall j | i + 10 <= j < e ensures !IsLineTerminator(s[j]) {
      assert s[j] == x[j - i - 10];
    }
    FirstLineTerminator(s, i + 10, e);
    assert s[i..e + 1] == h;
  }

  /** The characters a template name written by the refactoring may hold. */
  predicate PlainName(x: string) {
    forall j :: 0 <= j < |x| ==> x[j] != '"' && x[j] != '>' && x[j] != '='
  }

  /** `\n---\n`, whitespace, then `<template id="x">` with a plain name: a match at the dashes,
      with name `x`. */
  lemma TemplateRecognised(a: string, ws: string, x: string, b: string)
    requires forall j :: 0 <= j < |ws| ==> IsWhitespace(ws[j])
    requires PlainName(x)
    ensures var s := a + Separator + ws + TemplateTag(x) + b;
            MatchAt(TemplateId, s, |a|).Some? && MatchAt(TemplateId, s, |a|).value.name == x
  {
    var s := a + Separator + ws + TemplateTag(x) + b;
    var i := |a|;
    var k := i + 5 + |ws|;
    assert s[i..i + 5] == Separator;
    forall j | i + 5 <= j < k ensures IsWhitespace(s[j]) {
      assert s[j] == ws[j - i - 5];
    }
    assert s[k..k + |TemplateTag(x)|] == TemplateTag(x);
    TemplateAt(s, i, k, x);
  }

  /** `<template id="x">`, as the refactoring writes it. */
  function TemplateTag(x: string): string {
    TemplateOpen + " " + IdOpen + x + "\">"
  }

  lemma TemplateAt(s: string, i: nat, k: nat, x: string)
    requires OccursAt(s, TemplateTag(x), k)
    requires OccursAt(s, Separator, i) && i + 5 <= k
    requires forall j :: i + 5 <= j < k ==> IsWhitespace(s[j])
    requires PlainName(x)
    ensures MatchAt(TemplateId, s, i) == Some(Match(i, k + 16 + |x|, Separator, x))
  {
    assert s[k] == '<' by { TagChars(s, k, x); }
    SkipWhitespaceRun(s, i + 5, k);
    var g, a := TemplateAttr(s, k, x);
    TagChain(s, i, k, x, g, a);
  }

  /** What the tag at `k` gives the search: the first `>` after `<template` is at `g`, and the
      search for the last `id` attribute before it gives `a`, whose value is `x`. */
  predicate TagFound(s: string, k: nat, x: string, g: nat, a: Option<nat>) {
    && k + 9 < |s|
    && OccursAt(s, TemplateOpen, k) && !IsWordChar(s[k + 9])
    && k + 9 <= g && FindChar(s, '>', k + 9) == g && LastIdAttr(s, k + 9, g) == a
    && a.Some? && k + 10 <= a.value
    && IdValue(s, a.value).0 == x && IdValue(s, a.value).1 == k + 16 + |x|
  }

  /** The template match from the whitespace after the dashes, which ends at `k`, and the tag
      found there. */
  lemma TagChain(s: string, i: nat, k: nat, x: string, g: nat, a: Option<nat>)
    requires OccursAt(s, Separator, i) && i + |Separator| <= k <= |s| && SkipWhitespace(s, i + 5) == k
    requires TagFound(s, k, x, g, a)
    ensures MatchAt(TemplateId, s, i) == Some(Match(i, k + 16 + |x|, Separator, x))
  {
    TemplateMatchVia(s, i, k, g, a);
    IdMatchIs(s, i, k + 9, a, x, k + 16 + |x|);
  }

  /** The template match is the attribute match, once the whitespace after the dashes ends at
      `k`, the first `>` after the tag name is at `g` and the search for the last `id`
      attribute before it gives `a`. */
  lemma TemplateMatchVia(s: string, i: nat, k: nat, g: nat, a: Option<nat>)
    requires OccursAt(s, Separator, i) && SkipWhitespace(s, i + 5) == k && i + |Separator| <= k
    requires k + 9 < |s| && OccursAt(s, TemplateOpen, k) && !IsWordChar(s[k + 9])
    requires FindChar(s, '>', k + 9) == g && LastIdAttr(s, k + 9, g) == a
    ensures MatchAt(TemplateId, s, i) == IdMatch(s, i, k + 9, a)
  {
  }

  /** The match a found attribute gives, once its value is known. */
  lemma IdMatchIs(s: string, i: nat, lo: nat, a: Option<nat>, name: string, e: nat)
    requires a.Some? && IdAttrAt(s, a.value) && i + |Separator| <= a.value
    requires IdValue(s, a.value).0 == name && IdValue(s, a.value).1 == e
    ensures IdMatch(s, i, lo, a) == Some(Match(i, e, Separator, name))
  {
  }

  /** The greedy search backs off to the last attribute in the range. */
  lemma LastIdAttrIs(s: string, lo: nat, hi: nat, p: nat)
    requires lo <= p <= hi && IdAttrAt(s, p)
    requires forall j :: p < j <= hi ==> !IdAttrAt(s, j)
    ensures LastIdAttr(s, lo, hi) == Some(p)
  {
  }

  /** The characters of `<template id="x">` at `k`, piece by piece. */
  lemma TagChars(s: string, k: nat, x: string)
    requires OccursAt(s, TemplateTag(x), k)
    ensures k + 16 + |x| <= |s|
    ensures s[k..k + 9] == TemplateOpen && s[k] == '<' && s[k + 9] == ' '
    ensures s[k + 10..k + 14] == IdOpen
    ensures s[k + 14..k + 14 + |x|] == x
    ensures s[k + 14 + |x|] == '"' && s[k + 15 + |x|] == '>'
  {
    var t := TemplateTag(x);
    var a := TemplateOpen + " " + IdOpen;
    assert |a| == 14;
    assert t == a + x + "\">";
    assert |t| == 16 + |x|;
    var u := s[k..k + |t|];
    assert u == t;
    assert t[..14] == a;
    assert t[..9] == a[..9] == TemplateOpen;
    assert s[k..k + 9] == u[..9];
    assert s[k + 9] == u[9] == t[9];
    assert a[10..14] == IdOpen;
    assert forall j :: 0 <= j < |u| ==> u[j] == s[k + j];
    assert u[10..14] == s[k + 10..k + 14];
    assert s[k + 10..k + 14] == t[10..14];
    assert t[14..14 + |x|] == x;
    assert u[14..14 + |x|] == s[k + 14..k + 14 + |x|];
    assert s[k + 14..k + 14 + |x|] == t[14..14 + |x|];
    assert s[k + 14 + |x|] == u[14 + |x|] == t[14 + |x|];
    assert s[k + 15 + |x|] == u[15 + |x|] == t[15 + |x|];
  }

  /** Inside `<template id="x">` at `k`, the attribute matches at its `id` and nowhere after,
      and the first `>` is the tag's. */
  lemma TemplateAttr(s: string, k: nat, x: string) returns (g: nat, a: Option<nat>)
    requires OccursAt(s, TemplateTag(x), k) && PlainName(x)
    ensures TagFound(s, k, x, g, a)
  {
    TagChars(s, k, x);
    TagClose(s, k, x);
    TagIdValue(s, k, x);
    TagNoLaterId(s, k, x);
    LastIdAttrIs(s, k + 9, k + 15 + |x|, k + 10);
    g, a := k + 15 + |x|, Some(k + 10);
  }

  /** The characters of a plain name written at `p`. */
  lemma PlainChars(s: string, p: nat, x: string)
    requires p + |x| <= |s| && s[p..p + |x|] == x && PlainName(x)
    ensures forall j :: p <= j < p + |x| ==> s[j] == x[j - p] && s[j] != '"' && s[j] != '>' && s[j] != '='
  {
    forall j | p <= j < p + |x| ensures s[j] == x[j - p] {
      assert s[j] == s[p..p + |x|][j - p];
    }
  }

  lemma IdOpenChars(s: string, p: nat)
    requires p + 4 <= |s| && s[p..p + 4] == IdOpen
    ensures s[p] == 'i' && s[p + 1] == 'd' && s[p + 2] == '=' && s[p + 3] == '"'
  {
    assert s[p..p + 4][1] == s[p + 1] && s[p..p + 4][3] == s[p + 3];
  }

  /** The first `>` after `<template` is the one closing the tag. */
  lemma TagClose(s: string, k: nat, x: string)
    requires k + 16 + |x| <= |s|
    requires s[k + 9] == ' ' && s[k + 10..k + 14] == IdOpen && s[k + 14..k + 14 + |x|] == x
    requires s[k + 14 + |x|] == '"' && s[k + 15 + |x|] == '>'
    requires PlainName(x)
    ensures FindChar(s, '>', k + 9) == k + 15 + |x|
  {
    PlainChars(s, k + 14, x);
    IdOpenChars(s, k + 10);
    FindCharAt(s, '>', k + 9, k + 15 + |x|);
  }

  /** The attribute matches at `id` and captures the name. */
  lemma TagIdValue(s: string, k: nat, x: string)
    requires k + 16 + |x| <= |s|
    requires s[k + 9] == ' ' && s[k + 10..k + 14] == IdOpen && s[k + 14..k + 14 + |x|] == x
    requires s[k + 14 + |x|] == '"' && s[k + 15 + |x|] == '>'
    requires PlainName(x)
    ensures IdAttrAt(s, k + 10) && IdValue(s, k + 10).0 == x && IdValue(s, k + 10).1 == k + 16 + |x|
  {
    PlainChars(s, k + 14, x);
    FindCharAt(s, '"', k + 14, k + 14 + |x|);
  }

  /** No attribute matches after the `id`: `=` never follows two characters later. */
  lemma TagNoLaterId(s: string, k: nat, x: string)
    requires k + 16 + |x| <= |s|
    requires s[k + 9] == ' ' && s[k + 10..k + 14] == IdOpen && s[k + 14..k + 14 + |x|] == x
    requires s[k + 14 + |x|] == '"' && s[k + 15 + |x|] == '>'
    requires PlainName(x)
    ensures forall j :: k + 10 < j <= k + 15 + |x| ==> !IdAttrAt(s, j)
  {
    var p0 := k + 10;
    PlainChars(s, p0 + 4, x);
    IdOpenChars(s, p0);
    forall j | p0 < j <= k + 15 + |x| ensures !OccursAt(s, IdOpen, j) {
      if j + 4 <= |s| {
        assert s[j..j + 4][0] == s[j] && s[j..j + 4][2] == s[j + 2];
      }
    }
  }

  lemma {:induction false} FindCharAt(s: string, c: char, k: nat, e: nat)
    requires k <= e < |s| && s[e] == c
    requires forall j :: k <= j < e ==> s[j] != c
    ensures FindChar(s, c, k) == e
    decreases e - k
  {
    if k < e {
      FindCharAt(s, c, k + 1, e);
    }
  }

  lemma {:induction false} SkipWhitespaceRun(s: string, k: nat, e: nat)
    requires k <= e < |s| && !IsWhitespace(s[e])
    requires forall j :: k <= j < e ==> IsWhitespace(s[j])
    ensures SkipWhitespace(s, k) == e
    decreases e - k
  {
    if k < e {
      SkipWhitespaceRun(s, k + 1, e);
    }
  }
}

=== FILE: move_component.dfy ===
/** The move refactoring of the language server (`executeMoveInfileComponentToNewFileCommand`
    and `getCurrentInfileComponent` in
    `packages/language-server/src/plugins/svelte/features/getCodeActions/infileRefactorings.ts`):
    finding the in-file component around the cursor, the edits that clear it from the document
    and point its imports at the new file, and the new file's text. The regular expressions
    are written out as functions deciding where and how they match, with the backtracking the
    regular-expression engine does. */
module MoveComponent {
  import opened Wrappers
  import opened JsString
  import opened Markers
  import opened RefactorText

  const CloseTag: string := "</template>"
  const IdKey: string := "id="
  const ImportKeyword: string := "import"
  const InfileScheme: string := "infile:"

  /** The apostrophe, U+0027. */
  const Apostrophe: char := 39 as char

  /** The quotes `['"]`. */
  predicate IsQuote(c: char) {
    c == Apostrophe || c == '"'
  }

  // ---------------------------------------------------------------------------------------
  // The front match: `/\n---\n\s*(<template[^>]*>)(.*)/s` on the text before the cursor

  /** Where the front pattern matched: the dashes, and the template tag `[tagStart, tagEnd)`
      (group 1); group 2 runs from `tagEnd` to the end of the searched text. */
  datatype Front = Front(index: nat, tagStart: nat, tagEnd: nat)

  /** A front at `i`: the dashes, whitespace, then a template tag running to its first `>`. */
  predicate FrontShaped(p: string, i: nat, f: Front) {
    && f.index == i && OccursAt(p, Separator, i)
    && i + |Separator| <= f.tagStart && f.tagStart + |TemplateOpen| < f.tagEnd <= |p|
    && AllWhitespace(p[i + |Separator|..f.tagStart]) && OccursAt(p, TemplateOpen, f.tagStart)
    && OccursAt(p, ">", f.tagEnd - 1)
    && forall j :: f.tagStart + |TemplateOpen| <= j < f.tagEnd - 1 ==> !OccursAt(p, ">", j)
  }

  /** Whether the front pattern matches at index `i`. After the dashes `\s*` takes all the
      white space (giving some back would leave white space where `<` must be), and `[^>]*>`
      ends at the first `>`. */
  function FrontAt(p: string, i: nat): (r: Option<Front>)
    ensures r.Some? ==> FrontShaped(p, i, r.value)
  {
    if !OccursAt(p, Separator, i) then None
    else
      var w := SkipWhitespace(p, i + |Separator|);
      if !OccursAt(p, TemplateOpen, w) then None
      else match IndexOfFrom(p, ">", w + |TemplateOpen|)
        case None => None
        case Some(c) => Some(Front(i, w, c + 1))
  }

  /** `p.match(front)` as written: the leftmost index where the pattern matches. */
  function FirstFront(p: string, i: nat): (r: Option<Front>)
    decreases |p| - i
    ensures r.Some? ==> i <= r.value.index < |p| && FrontAt(p, r.value.index) == r
    ensures r.Some? ==> forall j :: i <= j < r.value.index ==> FrontAt(p, j).None?
    ensures r.None? ==> forall j :: i <= j ==> FrontAt(p, j).None?
  {
    if i >= |p| then None
    else match FrontAt(p, i)
      case Some(f) => Some(f)
      case None => FirstFront(p, i + 1)
  }

  /** The rightmost index below `n` where the front pattern matches: the marker nearest the
      cursor. */
  function LastFront(p: string, n: nat): (r: Option<Front>)
    ensures r.Some? ==> r.value.index < n && FrontAt(p, r.value.index) == r
    ensures r.Some? ==> forall j :: r.value.index < j < n ==> FrontAt(p, j).None?
    ensures r.None? ==> forall j :: 0 <= j < n ==> FrontAt(p, j).None?
  {
    if n == 0 then None
    else match FrontAt(p, n - 1)
      case Some(f) => Some(f)
      case None =>
        var r := LastFront(p, n - 1);
        NoFrontBelow(p, if r.Some? then r.value.index + 1 else 0, n);
        r
  }

  /** No front in `[lo, n - 1)` and none at `n - 1`: none in `[lo, n)`. */
  lemma NoFrontBelow(p: string, lo: nat, n: nat)
    requires 0 < n && FrontAt(p, n - 1).None?
    requires forall j :: lo <= j < n - 1 ==> FrontAt(p, j).None?
    ensures forall j :: lo <= j < n ==> FrontAt(p, j).None?
  {
  }

  // ---------------------------------------------------------------------------------------
  // The name: `/\bid=['"](.*?)['"]/` on the template tag

  /** The first quote from `k` on, when no line terminator comes before it: where a lazy
      `.*?` followed by `['"]` stops (`.` does not match a line terminator). */
  function QuoteEnd(s: string, k: nat): (r: Option<nat>)
    decreases |s| - k
    ensures r.Some? ==> k <= r.value < |s| && IsQuote(s[r.value])
    ensures r.Some? ==> forall j :: k <= j < r.value ==> !IsQuote(s[j]) && !IsLineTerminator(s[j])
    ensures r.None? ==> forall j :: k <= j < |s| && IsQuote(s[j]) ==> exists l :: k <= l < j && IsLineTerminator(s[l])
  {
    if k >= |s| then None
    else if IsQuote(s[k]) then Some(k)
    else if IsLineTerminator(s[k]) then None
    else QuoteEnd(s, k + 1)
  }

  /** Whether the name pattern matches at index `j`, and the captured name. */
  function IdAt(tag: string, j: nat): (r: Option<string>)
    ensures r.Some? ==> OccursAt(tag, IdKey, j) && (j == 0 || !IsWordChar(tag[j - 1]))
  {
    if OccursAt(tag, IdKey, j) && (j == 0 || !IsWordChar(tag[j - 1])) && j + |IdKey| < |tag| && IsQuote(tag[j + |IdKey|]) then
      match QuoteEnd(tag, j + |IdKey| + 1)
      case Some(q) => Some(tag[j + |IdKey| + 1..q])
      case None => None
    else None
  }

  /** `r` is what `at` gives at the leftmost index from `j` on where it gives anything, and
      `None` when it gives nothing from there; `n` bounds where a `Some` can be. */
  ghost predicate Leftmost<T>(at: nat -> Option<T>, n: nat, j: nat, r: Option<T>) {
    && (r.Some? ==> exists k: nat :: j <= k < n && at(k) == r && forall l: nat :: j <= l < k ==> at(l).None?)
    && (r.None? ==> forall k: nat :: j <= k ==> at(k).None?)
  }

  /** One step of the leftmost search: nothing at `j` defers to `j + 1`. */
  lemma LeftmostNext<T>(at: nat -> Option<T>, n: nat, j: nat, r: Option<T>)
    requires at(j).None? && Leftmost(at, n, j + 1, r)
    ensures Leftmost(at, n, j, r)
  {
    if r.Some? {
      var k: nat :| j + 1 <= k < n && at(k) == r && forall l: nat :: j + 1 <= l < k ==> at(l).None?;
      assert forall l: nat :: j <= l < k ==> at(l).None?;
    }
  }

  /** The leftmost search finds the first index where `at` gives something. */
  lemma LeftmostIs<T>(at: nat -> Option<T>, n: nat, j: nat, k: nat, v: T, r: Option<T>)
    requires j <= k && at(k) == Some(v) && forall l: nat :: j <= l < k ==> at(l).None?
    requires Leftmost(at, n, j, r)
    ensures r == Some(v)
  {
    if r.Some? {
      var k': nat :| j <= k' < n && at(k') == r && forall l: nat :: j <= l < k' ==> at(l).None?;
    }
  }

  function IdsAt(tag: string): nat -> Option<string> {
    (k: nat) => IdAt(tag, k)
  }

  /** `r` is what the name pattern captures at the leftmost index from `j` on where it matches,
      and `None` when it matches nowhere from there. */
  ghost predicate LeftmostId(tag: string, j: nat, r: Option<string>) {
    Leftmost(IdsAt(tag), |tag|, j, r)
  }

  /** `tag.match(name)`: the name captured at the leftmost index where the pattern matches. */
  function IdFrom(tag: string, j: nat): (r: Option<string>)
    decreases |tag| - j
    ensures LeftmostId(tag, j, r)
  {
    if j >= |tag| then
      IdFromEnd(tag, j);
      None
    else match IdAt(tag, j)
      case Some(n) =>
        IdFromHere(tag, j);
        Some(n)
      case None =>
        var r := IdFrom(tag, j + 1);
        LeftmostNext(IdsAt(tag), |tag|, j, r);
        r
  }

  lemma IdFromEnd(tag: string, j: nat)
    requires |tag| <= j
    ensures LeftmostId(tag, j, None)
  {
    forall k: nat | j <= k ensures IdsAt(tag)(k).None? {
      assert !OccursAt(tag, IdKey, k);
    }
  }

  lemma IdFromHere(tag: string, j: nat)
    requires IdAt(tag, j).Some?
    ensures j < |tag| && LeftmostId(tag, j, IdAt(tag, j))
  {
    assert IdsAt(tag)(j) == IdAt(tag, j);
  }

  function CapturedId(tag: string): Option<string> {
    IdFrom(tag, 0)
  }

  // ---------------------------------------------------------------------------------------
  // getCurrentInfileComponent

  /** `InfileComponentInfo`: the component's name, its range `[start, end)` in the document,
      the text of that range, and the text between its template tags. */
  datatype Component = Component(name: string, start: nat, end: nat, text: string, innerText: string)

  /** The front match `parseInfileComponent` uses: at the leftmost marker before the cursor
      (`nearest` false, as written) or at the marker nearest the cursor (`nearest` true). */
  function FrontBefore(p: string, nearest: bool): (r: Option<Front>)
    ensures r.Some? ==> r.value.index < |p| && FrontAt(p, r.value.index) == r
    ensures r.None? <==> forall j :: 0 <= j < |p| ==> FrontAt(p, j).None?
    ensures r.Some? && nearest ==> forall j :: r.value.index < j < |p| ==> FrontAt(p, j).None?
    ensures r.Some? && !nearest ==> forall j :: 0 <= j < r.value.index ==> FrontAt(p, j).None?
  {
    if nearest then LastFront(p, |p|) else FirstFront(p, 0)
  }

  /** The rest of `parseInfileComponent` once the front match is chosen. The rear match
      `/(.*?)<\/template>/s` on the text after the cursor ends at the first `</template>`. */
  function Assemble(text: string, cursor: nat, front: Option<Front>): (r: Option<Component>)
    requires cursor <= |text|
    requires front.Some? ==> FrontAt(text[..cursor], front.value.index) == front
    ensures r.Some? <==> front.Some? && IndexOf(text[cursor..], CloseTag).Some?
                         && CapturedId(text[..cursor][front.value.tagStart..front.value.tagEnd]).Some?
    ensures r.Some? ==> front.Some? && r.value.start == front.value.index
    ensures r.Some? ==> Some(r.value.name) == CapturedId(text[..cursor][front.value.tagStart..front.value.tagEnd])
    ensures r.Some? ==> r.value.end == cursor + IndexOf(text[cursor..], CloseTag).value + |CloseTag|
    ensures r.Some? ==> r.value.start < cursor && cursor + |CloseTag| <= r.value.end <= |text|
    ensures r.Some? ==> r.value.text == text[r.value.start..r.value.end]
    ensures r.Some? ==> HasShape(r.value.text, r.value.innerText, r.value.name)
    ensures r.Some? ==> forall j :: cursor <= j < r.value.end - |CloseTag| ==> !OccursAt(text, CloseTag, j)
  {
    var p := text[..cursor];
    var rest := text[cursor..];
    match front
    case None => None
    case Some(f) =>
      match IndexOf(rest, CloseTag)
      case None => None
      case Some(k) =>
        match CapturedId(p[f.tagStart..f.tagEnd])
        case None => None
        case Some(name) => Some(Found(text, cursor, f, k, name))
  }

  /** The component a front, the first closing tag after the cursor and the tag's name make. */
  function Found(text: string, cursor: nat, f: Front, k: nat, name: string): (r: Component)
    requires cursor <= |text| && FrontAt(text[..cursor], f.index) == Some(f)
    requires IndexOf(text[cursor..], CloseTag) == Some(k)
    requires CapturedId(text[..cursor][f.tagStart..f.tagEnd]) == Some(name)
    ensures r.name == name && r.start == f.index && r.end == cursor + k + |CloseTag|
    ensures r.innerText == text[..cursor][f.tagEnd..] + text[cursor..][..k]
    ensures r.start < cursor && cursor + |CloseTag| <= r.end <= |text|
    ensures r.text == text[r.start..r.end]
    ensures HasShape(r.text, r.innerText, r.name)
    ensures forall j :: cursor <= j < r.end - |CloseTag| ==> !OccursAt(text, CloseTag, j)
  {
    var end := cursor + k + |CloseTag|;
    var c := Component(name, f.index, end, text[f.index..end], text[..cursor][f.tagEnd..] + text[cursor..][..k]);
    ShapeOf(text, cursor, f, k, name, c);
    NoCloseBefore(text, cursor, k);
    c
  }

  /** `parseInfileComponent`: the component's range holds the dashes, a template tag whose
      `id` gives the name, the inner text, and the first `</template>` after the cursor. */
  function Parse(text: string, cursor: nat, nearest: bool): (r: Option<Component>)
    requires cursor <= |text|
    ensures var f := FrontBefore(text[..cursor], nearest);
            r.Some? <==> f.Some? && IndexOf(text[cursor..], CloseTag).Some?
                         && CapturedId(text[..cursor][f.value.tagStart..f.value.tagEnd]).Some?
    ensures r.Some? ==> r.value.start == FrontBefore(text[..cursor], nearest).value.index
    ensures r.Some? ==> r.value.start < cursor && cursor + |CloseTag| <= r.value.end <= |text|
    ensures r.Some? ==> r.value.text == text[r.value.start..r.value.end]
    ensures r.Some? ==> HasShape(r.value.text, r.value.innerText, r.value.name)
    ensures r.Some? ==> forall j :: cursor <= j < r.value.end - |CloseTag| ==> !OccursAt(text, CloseTag, j)
  {
    Assemble(text, cursor, FrontBefore(text[..cursor], nearest))
  }

  function ParseAsWritten(text: string, cursor: nat): Option<Component>
    requires cursor <= |text|
  {
    Parse(text, cursor, false)
  }

  function ParseNearest(text: string, cursor: nat): Option<Component>
    requires cursor <= |text|
  {
    Parse(text, cursor, true)
  }

  /** The tag the stable sort by start puts last: the one with the greatest start, and of
      several with that start the latest in the list. */
  function LastByStart(tags: seq<Tag>): (r: Option<Tag>)
    ensures r.None? <==> |tags| == 0
    ensures r.Some? ==> r.value in tags && forall t :: t in tags ==> t.start <= r.value.start
  {
    if |tags| == 0 then None
    else
      var rest := LastByStart(tags[1..]);
      assert forall t :: t in tags ==> t == tags[0] || t in tags[1..];
      if rest.Some? && rest.value.start >= tags[0].start then rest else Some(tags[0])
  }

  /** The present ones among the script, module script and style tags, in that order. */
  function PresentTags(doc: Doc): (r: seq<Tag>)
    ensures forall t :: t in r <==> Some(t) in [doc.script, doc.moduleScript, doc.style]
  {
    (if doc.script.Some? then [doc.script.value] else [])
      + (if doc.moduleScript.Some? then [doc.moduleScript.value] else [])
      + (if doc.style.Some? then [doc.style.value] else [])
  }

  /** Whether the cursor is before the end of the script or style tag that sorts last. */
  predicate BeforeLastTag(doc: Doc, cursor: nat) {
    match LastByStart(PresentTags(doc))
    case Some(t) => cursor < t.end
    case None => false
  }

  /** `getCurrentInfileComponent` as written: nothing while the cursor is before the end of
      the last script or style tag; otherwise the component the leftmost marker before the
      cursor starts. */
  function CurrentComponent(doc: Doc, cursor: nat): (r: Option<Component>)
    requires cursor <= |doc.text|
    ensures r.Some? ==> r == ParseAsWritten(doc.text, cursor)
    ensures (forall t :: t in PresentTags(doc) ==> t.end <= cursor) ==> r == ParseAsWritten(doc.text, cursor)
    ensures |PresentTags(doc)| > 0 && (forall t :: t in PresentTags(doc) ==> cursor < t.end) ==> r.None?
    ensures LastByStart(PresentTags(doc)).Some? && cursor < LastByStart(PresentTags(doc)).value.end ==> r.None?
    ensures (LastByStart(PresentTags(doc)).None? || LastByStart(PresentTags(doc)).value.end <= cursor) ==>
              r == ParseAsWritten(doc.text, cursor)
  {
    if BeforeLastTag(doc, cursor) then None else ParseAsWritten(doc.text, cursor)
  }

  /** A cursor between the script and a later style tag gets nothing: only the tag that sorts
      last counts, so a cursor past the script but before the style's end is refused. */
  lemma BetweenTagsNothing(text: string)
    requires 100 <= |text|
    ensures var doc := Doc(text, Some(Tag(0, 50, 8)), None, Some(Tag(60, 100, 67)));
            CurrentComponent(doc, 55).None? && CurrentComponentFixed(doc, 55).None?
  {
    var doc := Doc(text, Some(Tag(0, 50, 8)), None, Some(Tag(60, 100, 67)));
    assert PresentTags(doc) == [Tag(0, 50, 8), Tag(60, 100, 67)];
  }

  /** The same with the marker nearest the cursor. */
  function CurrentComponentFixed(doc: Doc, cursor: nat): (r: Option<Component>)
    requires cursor <= |doc.text|
    ensures r.Some? ==> r == ParseNearest(doc.text, cursor)
    ensures (forall t :: t in PresentTags(doc) ==> t.end <= cursor) ==> r == ParseNearest(doc.text, cursor)
    ensures |PresentTags(doc)| > 0 && (forall t :: t in PresentTags(doc) ==> cursor < t.end) ==> r.None?
    ensures LastByStart(PresentTags(doc)).Some? && cursor < LastByStart(PresentTags(doc)).value.end ==> r.None?
    ensures (LastByStart(PresentTags(doc)).None? || LastByStart(PresentTags(doc)).value.end <= cursor) ==>
              r == ParseNearest(doc.text, cursor)
  {
    if BeforeLastTag(doc, cursor) then None else ParseNearest(doc.text, cursor)
  }

  /** The text of a component: the dashes, white space, a template tag ending at its first `>`
      after `<template`, the inner text, and the closing tag. */
  predicate ComponentShape(s: string, ws: string, tag: string, inner: string) {
    && s == Separator + ws + tag + inner + CloseTag
    && AllWhitespace(ws)
    && |TemplateOpen| < |tag| && tag[..|TemplateOpen|] == TemplateOpen && tag[|tag| - 1] == '>'
    && (forall j :: |TemplateOpen| <= j < |tag| - 1 ==> tag[j] != '>')
  }

  /** `s` is the text of a component named `name` with inner text `inner`. */
  ghost predicate HasShape(s: string, inner: string, name: string) {
    exists ws, tag :: ComponentShape(s, ws, tag, inner) && CapturedId(tag) == Some(name)
  }

  /** A slice cut at four points. */
  lemma Slices(s: string, a: nat, b: nat, c: nat, d: nat, e: nat)
    requires a <= b <= c <= d <= e <= |s|
    ensures s[a..e] == s[a..b] + s[b..c] + s[c..d] + s[d..e]
  {
    assert s[a..e] == s[a..b] + s[b..e];
    assert s[b..e] == s[b..c] + s[c..e];
    assert s[c..e] == s[c..d] + s[d..e];
  }

  /** What a found component is: its range holds the dashes, a template tag whose `id`
      gives the name, the inner text and the first `</template>` after the cursor. */
  lemma ShapeOf(text: string, cursor: nat, f: Front, k: nat, name: string, c: Component)
    requires cursor <= |text| && FrontShaped(text[..cursor], f.index, f)
    requires OccursAt(text[cursor..], CloseTag, k)
    requires CapturedId(text[..cursor][f.tagStart..f.tagEnd]) == Some(name)
    requires c == Component(name, f.index, cursor + k + |CloseTag|, text[f.index..cursor + k + |CloseTag|],
                            text[..cursor][f.tagEnd..] + text[cursor..][..k])
    ensures HasShape(c.text, c.innerText, c.name)
  {
    var p := text[..cursor];
    var rest := text[cursor..];
    var ws := p[f.index + |Separator|..f.tagStart];
    var tag := p[f.tagStart..f.tagEnd];
    FrontTag(p, f);
    RangeText(text, cursor, f, k);
    ShapeFromParts(text[f.index..cursor + k + |CloseTag|], ws, tag, p[f.tagEnd..] + rest[..k], name);
  }

  /** The rear match stops at the first `</template>` after the cursor. */
  lemma NoCloseBefore(text: string, cursor: nat, k: nat)
    requires cursor <= |text| && IndexOf(text[cursor..], CloseTag) == Some(k)
    ensures forall j :: cursor <= j < cursor + k ==> !OccursAt(text, CloseTag, j)
  {
    forall j | cursor <= j < cursor + k ensures !OccursAt(text, CloseTag, j) {
      NoCloseInRest(text, cursor, k, j);
    }
  }

  lemma ShapeFromParts(s: string, ws: string, tag: string, inner: string, name: string)
    requires ComponentShape(s, ws, tag, inner) && CapturedId(tag) == Some(name)
    ensures HasShape(s, inner, name)
  {
  }

  /** Before the first `</template>` after the cursor there is none. */
  lemma NoCloseInRest(text: string, cursor: nat, k: nat, j: nat)
    requires cursor <= j < cursor + k && cursor <= |text|
    requires IndexOf(text[cursor..], CloseTag) == Some(k)
    ensures !OccursAt(text, CloseTag, j)
  {
    var rest := text[cursor..];
    assert !OccursAt(rest, CloseTag, j - cursor);
    if j + |CloseTag| <= |text| {
      assert text[j..j + |CloseTag|] == rest[j - cursor..j - cursor + |CloseTag|];
    }
  }

  /** The tag of a front match starts with `<template` and ends at its first `>`. */
  lemma FrontTag(p: string, f: Front)
    requires FrontShaped(p, f.index, f)
    ensures var tag := p[f.tagStart..f.tagEnd];
              && |TemplateOpen| < |tag| && tag[..|TemplateOpen|] == TemplateOpen && tag[|tag| - 1] == '>'
              && (forall j :: |TemplateOpen| <= j < |tag| - 1 ==> tag[j] != '>')
    ensures AllWhitespace(p[f.index + |Separator|..f.tagStart]) && p[f.index..f.index + |Separator|] == Separator
  {
    TagOfRange(p, f.tagStart, f.tagEnd, p[f.tagStart..f.tagEnd]);
  }

  /** The text from `<template` to the first `>` after it. */
  lemma TagOfRange(p: string, a: nat, b: nat, tag: string)
    requires a + |TemplateOpen| < b <= |p| && tag == p[a..b]
    requires OccursAt(p, TemplateOpen, a) && OccursAt(p, ">", b - 1)
    requires forall j :: a + |TemplateOpen| <= j < b - 1 ==> !OccursAt(p, ">", j)
    ensures |TemplateOpen| < |tag| && tag[..|TemplateOpen|] == TemplateOpen && tag[|tag| - 1] == '>'
    ensures forall j :: |TemplateOpen| <= j < |tag| - 1 ==> tag[j] != '>'
  {
    var n := |TemplateOpen|;
    assert p[a..a + n] == TemplateOpen;
    assert tag[..n] == TemplateOpen by {
      forall j | 0 <= j < n ensures tag[..n][j] == TemplateOpen[j] {
        assert tag[j] == p[a + j] == p[a..a + n][j];
      }
    }
    assert p[b - 1] == '>' by { assert p[b - 1] == p[b - 1..b][0]; }
    assert tag[|tag| - 1] == p[b - 1];
    forall j | n <= j < |tag| - 1 ensures tag[j] != '>' {
      assert !OccursAt(p, ">", a + j);
      assert tag[j] == p[a + j];
      assert p[a + j..a + j + 1] == [p[a + j]];
    }
  }

  /** The range of a found component, cut at the match's boundaries. */
  lemma RangeText(text: string, cursor: nat, f: Front, k: nat)
    requires cursor <= |text| && f.index + |Separator| <= f.tagStart <= f.tagEnd <= cursor
    requires OccursAt(text[..cursor], Separator, f.index) && OccursAt(text[cursor..], CloseTag, k)
    ensures var p := text[..cursor]; var rest := text[cursor..];
              text[f.index..cursor + k + |CloseTag|]
                == Separator + p[f.index + |Separator|..f.tagStart] + p[f.tagStart..f.tagEnd] + (p[f.tagEnd..] + rest[..k]) + CloseTag
  {
    var p := text[..cursor];
    var rest := text[cursor..];
    var i1, m := f.index + |Separator|, cursor + k;
    Slices(text, f.index, i1, f.tagStart, f.tagEnd, m);
    PrefixSlice(text, cursor, f.index, i1);
    PrefixSlice(text, cursor, i1, f.tagStart);
    PrefixSlice(text, cursor, f.tagStart, f.tagEnd);
    AcrossCursor(text, cursor, f.tagEnd, m);
    SuffixSlice(text, cursor, k, k + |CloseTag|);
    assert text[f.index..m + |CloseTag|] == text[f.index..m] + text[m..m + |CloseTag|];
  }

  lemma PrefixSlice(text: string, cursor: nat, a: nat, b: nat)
    requires a <= b <= cursor <= |text|
    ensures text[..cursor][a..b] == text[a..b]
  {
  }

  lemma SuffixSlice(text: string, cursor: nat, a: nat, b: nat)
    requires cursor <= |text| && a <= b <= |text| - cursor
    ensures text[cursor..][a..b] == text[cursor + a..cursor + b]
  {
  }

  lemma AcrossCursor(text: string, cursor: nat, a: nat, b: nat)
    requires a <= cursor <= b <= |text|
    ensures text[a..b] == text[..cursor][a..] + text[cursor..][..b - cursor]
  {
    assert text[a..b] == text[a..cursor] + text[cursor..b];
  }

  /** Which marker the component starts at: the leftmost one before the cursor as written,
      the nearest one with the correction. */
  lemma ParseMarker(text: string, cursor: nat, nearest: bool)
    requires cursor <= |text| && Parse(text, cursor, nearest).Some?
    ensures var c := Parse(text, cursor, nearest).value;
              FrontAt(text[..cursor], c.start).Some?
    ensures var c := Parse(text, cursor, nearest).value;
              nearest ==> forall j :: c.start < j < cursor ==> FrontAt(text[..cursor], j).None?
    ensures var c := Parse(text, cursor, nearest).value;
              !nearest ==> forall j :: 0 <= j < c.start ==> FrontAt(text[..cursor], j).None?
  {
    var front := FrontBefore(text[..cursor], nearest);
    assert Parse(text, cursor, nearest) == Assemble(text, cursor, front);
  }

  // ---------------------------------------------------------------------------------------
  // replace_ImportInfileComponent: `/(import\b.*?['"])infile:(.*?)(['"])/g`

  /** A match of the import pattern: `import` at `start`, the quote before `infile:` at
      `open`, the closing quote at `close`; the specifier is between `open + 8` and `close`. */
  datatype ImportMatch = ImportMatch(start: nat, open: nat, close: nat)

  /** The lazy `.*?['"]infile:(.*?)['"]` from `q`: the first quote followed by `infile:` and,
      on the same line, by another quote, with no line terminator before that first quote. */
  function SpecifierFrom(text: string, q: nat): (r: Option<(nat, nat)>)
    decreases |text| - q
    ensures r.Some? ==> SpecifierAfter(text, q, r.value.0, r.value.1)
    ensures r.Some? ==> forall o :: q <= o < r.value.0 ==> !OpensSpecifier(text, o)
    ensures r.None? ==> forall o :: q <= o < |text| && OpensSpecifier(text, o) ==> exists j :: q <= j < o && IsLineTerminator(text[j])
  {
    if q >= |text| then None
    else if IsLineTerminator(text[q]) then
      LineEndsSearch(text, q);
      None
    else if OpensSpecifier(text, q) then
      Some((q, QuoteEnd(text, q + 1 + |InfileScheme|).value))
    else
      var r := SpecifierFrom(text, q + 1);
      if r.None? then
        NoSpecifierNext(text, q);
        None
      else
        SpecifierAfterNext(text, q, r.value.0, r.value.1);
        r
  }

  /** At `o` a quote opens a specifier: `infile:` follows, and a closing quote on the line. */
  predicate OpensSpecifier(text: string, o: nat) {
    o < |text| && IsQuote(text[o]) && OccursAt(text, InfileScheme, o + 1) && QuoteEnd(text, o + 1 + |InfileScheme|).Some?
  }

  /** A line terminator at `q` ends the search: every later opening is past it. */
  lemma LineEndsSearch(text: string, q: nat)
    requires q < |text| && IsLineTerminator(text[q])
    ensures forall o :: q <= o < |text| && OpensSpecifier(text, o) ==> exists j :: q <= j < o && IsLineTerminator(text[j])
  {
    forall o | q <= o < |text| && OpensSpecifier(text, o)
      ensures exists j :: q <= j < o && IsLineTerminator(text[j])
    {
      assert o != q;
      assert IsLineTerminator(text[q]);
    }
  }

  /** Nothing opens at `q` and the search from `q + 1` fails: the search from `q` fails. */
  lemma NoSpecifierNext(text: string, q: nat)
    requires q < |text| && !OpensSpecifier(text, q)
    requires forall o :: q + 1 <= o < |text| && OpensSpecifier(text, o) ==> exists j :: q + 1 <= j < o && IsLineTerminator(text[j])
    ensures forall o :: q <= o < |text| && OpensSpecifier(text, o) ==> exists j :: q <= j < o && IsLineTerminator(text[j])
  {
    forall o | q <= o < |text| && OpensSpecifier(text, o)
      ensures exists j :: q <= j < o && IsLineTerminator(text[j])
    {
      var j :| q + 1 <= j < o && IsLineTerminator(text[j]);
    }
  }

  /** From `q`, the line runs on to an opening quote at `o` followed by `infile:`, and the
      specifier closes with the first quote after it, at `c`. */
  predicate SpecifierAfter(text: string, q: nat, o: nat, c: nat) {
    && q <= o && o + |InfileScheme| < c < |text|
    && IsQuote(text[o]) && OccursAt(text, InfileScheme, o + 1)
    && QuoteEnd(text, o + 1 + |InfileScheme|) == Some(c)
    && forall j :: q <= j < o ==> !IsLineTerminator(text[j])
  }

  lemma SpecifierAfterNext(text: string, q: nat, o: nat, c: nat)
    requires q < |text| && !IsLineTerminator(text[q]) && SpecifierAfter(text, q + 1, o, c)
    ensures SpecifierAfter(text, q, o, c)
  {
  }

  /** The matched text reads `import`, then after an opening quote and `infile:` the
      specifier, then a closing quote. */
  predicate WellPlaced(text: string, m: ImportMatch) {
    && OccursAt(text, ImportKeyword, m.start)
    && m.start + |ImportKeyword| <= m.open && m.open + |InfileScheme| < m.close < |text|
    && IsQuote(text[m.open]) && IsQuote(text[m.close])
  }

  /** Whether the import pattern matches at index `i`: `import`, then a word boundary (the
      next character is not a word character), then the specifier. */
  function ImportAt(text: string, i: nat): (r: Option<ImportMatch>)
    ensures r.Some? ==> r.value.start == i && WellPlaced(text, r.value)
    ensures r.Some? ==> OccursAt(text, InfileScheme, r.value.open + 1)
  {
    if OccursAt(text, ImportKeyword, i) && (i + |ImportKeyword| == |text| || !IsWordChar(text[i + |ImportKeyword|])) then
      match SpecifierFrom(text, i + |ImportKeyword|)
      case Some((o, c)) => Some(ImportMatch(i, o, c))
      case None => None
    else None
  }

  /** Matches found from `i` on: each well placed, in order and without overlap. */
  predicate MatchesFrom(text: string, i: nat, ms: seq<ImportMatch>) {
    && (forall k :: 0 <= k < |ms| ==> i <= ms[k].start && WellPlaced(text, ms[k]))
    && (forall k :: 0 <= k < |ms| - 1 ==> ms[k].close < ms[k + 1].start)
  }

  lemma MatchesFromCons(text: string, i: nat, m: ImportMatch, rest: seq<ImportMatch>)
    requires i <= m.start && WellPlaced(text, m) && MatchesFrom(text, m.close + 1, rest)
    ensures MatchesFrom(text, i, [m] + rest)
  {
    var r := [m] + rest;
    assert forall k :: 1 <= k < |r| ==> r[k] == rest[k - 1];
  }

  /** `at` gives `m` at `m.start`. */
  predicate Matched(at: nat -> Option<ImportMatch>, m: ImportMatch) {
    at(m.start) == Some(m)
  }

  /** `at` gives nothing at any index of `[lo, hi)`. */
  predicate NoneIn(at: nat -> Option<ImportMatch>, lo: nat, hi: int) {
    forall j: nat :: lo <= j < hi ==> at(j).None?
  }

  /** Every match `at` gives from `i` on below `n`, searching afresh after each one: `ms` are
      matches, and nothing matches before the first, between one's closing quote and the
      next, or after the last. */
  predicate Exhaustive(at: nat -> Option<ImportMatch>, n: nat, i: nat, ms: seq<ImportMatch>) {
    && (forall k :: 0 <= k < |ms| ==> Matched(at, ms[k]))
    && (ms == [] ==> NoneIn(at, i, n))
    && (ms != [] ==> NoneIn(at, i, ms[0].start))
    && (ms != [] ==> NoneIn(at, ms[|ms| - 1].close + 1, n))
    && (forall k :: 0 <= k < |ms| - 1 ==> NoneIn(at, ms[k].close + 1, ms[k + 1].start))
  }

  lemma ExhaustiveSkip(at: nat -> Option<ImportMatch>, n: nat, i: nat, ms: seq<ImportMatch>)
    requires at(i).None? && Exhaustive(at, n, i + 1, ms)
    ensures Exhaustive(at, n, i, ms)
  {
  }

  lemma ExhaustiveCons(at: nat -> Option<ImportMatch>, n: nat, i: nat, m: ImportMatch, rest: seq<ImportMatch>)
    requires at(i) == Some(m) && m.start == i && Exhaustive(at, n, m.close + 1, rest)
    ensures Exhaustive(at, n, i, [m] + rest)
  {
    var r := [m] + rest;
    assert forall k :: 1 <= k < |r| ==> r[k] == rest[k - 1];
    if rest != [] {
      assert r[|r| - 1] == rest[|rest| - 1];
    }
  }

  function ImportsAt(text: string): nat -> Option<ImportMatch> {
    (k: nat) => ImportAt(text, k)
  }

  /** `text.matchAll(pattern)` from index `i`: each search resumes where the previous match
      ended, and no match is skipped. */
  function ImportMatchesFrom(text: string, i: nat): (r: seq<ImportMatch>)
    decreases |text| - i
    ensures MatchesFrom(text, i, r)
    ensures Exhaustive(ImportsAt(text), |text|, i, r)
    ensures r == [] ==> forall j :: i <= j < |text| ==> ImportAt(text, j).None?
    ensures r != [] ==> ImportAt(text, r[0].start) == Some(r[0])
                        && forall j :: i <= j < r[0].start ==> ImportAt(text, j).None?
  {
    if i >= |text| then []
    else
      var found := ImportAt(text, i);
      assert ImportsAt(text)(i) == found;
      if found.None? then
        var r := ImportMatchesFrom(text, i + 1);
        ExhaustiveSkip(ImportsAt(text), |text|, i, r);
        ExhaustiveUnfold(text, i, r);
        r
      else
        var m := found.value;
        var rest := ImportMatchesFrom(text, m.close + 1);
        MatchesFromCons(text, i, m, rest);
        ExhaustiveCons(ImportsAt(text), |text|, i, m, rest);
        ExhaustiveUnfold(text, i, [m] + rest);
        [m] + rest
  }

  /** The first two clauses of an exhaustive list, in terms of `ImportAt`. */
  lemma ExhaustiveUnfold(text: string, i: nat, r: seq<ImportMatch>)
    requires Exhaustive(ImportsAt(text), |text|, i, r)
    ensures r == [] ==> forall j :: i <= j < |text| ==> ImportAt(text, j).None?
    ensures r != [] ==> ImportAt(text, r[0].start) == Some(r[0])
                        && forall j :: i <= j < r[0].start ==> ImportAt(text, j).None?
  {
    if r == [] {
      forall j | i <= j < |text| ensures ImportAt(text, j).None? {
        assert ImportsAt(text)(j).None?;
      }
    } else {
      assert Matched(ImportsAt(text), r[0]);
      forall j | i <= j < r[0].start ensures ImportAt(text, j).None? {
        assert ImportsAt(text)(j).None?;
      }
    }
  }

  function ImportMatches(text: string): seq<ImportMatch> {
    ImportMatchesFrom(text, 0)
  }

  /** Where a line holds no quote and no line terminator, the lazy search runs over it. */
  lemma {:induction false} SpecifierFromRun(text: string, q: nat, o: nat)
    requires q <= o <= |text|
    requires forall j :: q <= j < o ==> !IsQuote(text[j]) && !IsLineTerminator(text[j])
    ensures SpecifierFrom(text, q) == SpecifierFrom(text, o)
    decreases o - q
  {
    if q < o {
      assert !OpensSpecifier(text, q);
      SpecifierFromRun(text, q + 1, o);
    }
  }

  /** The lazy `.*?['"]` stops at the first quote of a run without line terminators. */
  lemma {:induction false} QuoteEndRun(text: string, k: nat, e: nat)
    requires k <= e < |text| && IsQuote(text[e])
    requires forall j :: k <= j < e ==> !IsQuote(text[j]) && !IsLineTerminator(text[j])
    ensures QuoteEnd(text, k) == Some(e)
    decreases e - k
  {
    if k < e {
      QuoteEndRun(text, k + 1, e);
    }
  }

  /** `import`, text on the same line without quotes that does not continue the word, then
      `'infile:name'` with a plain name: the import pattern matches there, and its specifier is
      the name. */
  lemma ImportRecognised(a: string, mid: string, q1: char, name: string, q2: char, b: string)
    requires forall j :: 0 <= j < |mid| ==> !IsQuote(mid[j]) && !IsLineTerminator(mid[j])
    requires |mid| > 0 ==> !IsWordChar(mid[0])
    requires IsQuote(q1) && IsQuote(q2)
    requires forall j :: 0 <= j < |name| ==> !IsQuote(name[j]) && !IsLineTerminator(name[j])
    ensures var s := a + ImportKeyword + mid + [q1] + InfileScheme + name + [q2] + b;
            var o := |a| + |ImportKeyword| + |mid|;
            && ImportAt(s, |a|) == Some(ImportMatch(|a|, o, o + 1 + |InfileScheme| + |name|))
            && Specifier(s, ImportMatch(|a|, o, o + 1 + |InfileScheme| + |name|)) == name
  {
    var s := a + ImportKeyword + mid + [q1] + InfileScheme + name + [q2] + b;
    var i := |a|;
    var o := i + |ImportKeyword| + |mid|;
    var c := o + 1 + |InfileScheme| + |name|;
    assert s[i..i + |ImportKeyword|] == ImportKeyword;
    assert s[o + 1..o + 1 + |InfileScheme|] == InfileScheme;
    assert s[o + 1 + |InfileScheme|..c] == name;
    assert s[o] == q1 && s[c] == q2;
    assert s[i + |ImportKeyword|..o] == mid;
    ImportMatchAt(s, i, o, c);
  }

  /** The match at `i` from its parts: `import`, a run without quotes that does not continue
      the word, the opening quote and `infile:`, a run without quotes, the closing quote. */
  lemma ImportMatchAt(s: string, i: nat, o: nat, c: nat)
    requires OccursAt(s, ImportKeyword, i) && i + |ImportKeyword| <= o
    requires o + 1 + |InfileScheme| <= c < |s| && IsQuote(s[o]) && IsQuote(s[c])
    requires OccursAt(s, InfileScheme, o + 1)
    requires var mid := s[i + |ImportKeyword|..o];
             && (forall j :: 0 <= j < |mid| ==> !IsQuote(mid[j]) && !IsLineTerminator(mid[j]))
             && (|mid| > 0 ==> !IsWordChar(mid[0]))
    requires var name := s[o + 1 + |InfileScheme|..c];
             forall j :: 0 <= j < |name| ==> !IsQuote(name[j]) && !IsLineTerminator(name[j])
    ensures ImportAt(s, i) == Some(ImportMatch(i, o, c))
    ensures Specifier(s, ImportMatch(i, o, c)) == s[o + 1 + |InfileScheme|..c]
  {
    var k := i + |ImportKeyword|;
    assert k < |s| && !IsWordChar(s[k]) by {
      if k < o { assert s[k] == s[k..o][0]; }
    }
    forall j | k <= j < o ensures !IsQuote(s[j]) && !IsLineTerminator(s[j]) {
      assert s[j] == s[k..o][j - k];
    }
    SpecifierFromRun(s, k, o);
    var n := o + 1 + |InfileScheme|;
    forall j | n <= j < c ensures !IsQuote(s[j]) && !IsLineTerminator(s[j]) {
      assert s[j] == s[n..c][j - n];
    }
    QuoteEndRun(s, n, c);
    assert OpensSpecifier(s, o);
  }

  /** Nothing is skipped: every index where the import pattern matches is the start of a
      found match or lies inside one, and a match that starts outside every earlier found
      match is itself found. */
  lemma ImportsCovered(text: string, j: nat)
    requires ImportAt(text, j).Some?
    ensures exists m :: m in ImportMatches(text) && m.start <= j <= m.close
    ensures ImportAt(text, j).value in ImportMatches(text)
            || exists m :: m in ImportMatches(text) && m.start < j <= m.close
  {
    var ms := ImportMatches(text);
    assert OccursAt(text, ImportKeyword, j);
    assert ImportsAt(text)(j).Some?;
    CoveredFrom(ImportsAt(text), |text|, 0, ms, j);
    var m :| m in ms && m.start <= j <= m.close;
    if m.start == j {
      var k :| 0 <= k < |ms| && ms[k] == m;
      assert Matched(ImportsAt(text), ms[k]);
    }
  }

  lemma {:induction false} CoveredFrom(at: nat -> Option<ImportMatch>, n: nat, i: nat, ms: seq<ImportMatch>, j: nat)
    requires Exhaustive(at, n, i, ms) && i <= j < n && at(j).Some?
    ensures exists m :: m in ms && m.start <= j <= m.close
    decreases |ms|
  {
    if ms == [] {
      assert false;
    } else if j < ms[0].start {
      assert false;
    } else if j <= ms[0].close {
      assert ms[0] in ms;
    } else if |ms| == 1 {
      assert false;
    } else {
      var rest := ms[1..];
      assert forall k :: 0 <= k < |rest| ==> rest[k] == ms[k + 1];
      assert Exhaustive(at, n, ms[0].close + 1, rest);
      CoveredFrom(at, n, ms[0].close + 1, rest, j);
      var m :| m in rest && m.start <= j <= m.close;
      assert m in ms;
    }
  }

  /** The specifier after `infile:` (group 2). */
  function Specifier(text: string, m: ImportMatch): string
    requires m.open + 1 + |InfileScheme| <= m.close <= |text|
  {
    text[m.open + 1 + |InfileScheme|..m.close]
  }

  /** `compName.replace(/[.]svelte$/, '')`. */
  function BareName(spec: string): string {
    StripSuffix(spec, SvelteExt)
  }

  /** The edit for one import: the whole match replaced by the text up to and including the
      opening quote, `./`, the bare name, `.svelte` and the closing quote. */
  function RewriteImport(text: string, m: ImportMatch): (r: Edit)
    requires m.start <= m.open && m.open + 1 + |InfileScheme| <= m.close < |text|
  {
    Edit(m.start, m.close + 1, text[m.start..m.open + 1] + "./" + BareName(Specifier(text, m)) + SvelteExt + [text[m.close]])
  }

  /** The edits for the matches whose bare name is `name`, in order. */
  function RewriteImports(text: string, ms: seq<ImportMatch>, name: string): (r: seq<Edit>)
    requires forall k :: 0 <= k < |ms| ==> ms[k].start <= ms[k].open && ms[k].open + 1 + |InfileScheme| <= ms[k].close < |text|
    ensures forall e :: e in r ==> exists k :: 0 <= k < |ms| && BareName(Specifier(text, ms[k])) == name && e == RewriteImport(text, ms[k])
    ensures forall k :: 0 <= k < |ms| && BareName(Specifier(text, ms[k])) == name ==> RewriteImport(text, ms[k]) in r
  {
    if |ms| == 0 then []
    else
      var rest := RewriteImports(text, ms[1..], name);
      assert forall k :: 1 <= k < |ms| ==> ms[k] == ms[1..][k - 1];
      if BareName(Specifier(text, ms[0])) == name then [RewriteImport(text, ms[0])] + rest else rest
  }

  /** `replace_ImportInfileComponent(name, filePath)`. */
  function ImportEdits(text: string, name: string): (r: seq<Edit>)
    ensures forall e :: e in r ==> exists m :: m in ImportMatches(text) && BareName(Specifier(text, m)) == name && e == RewriteImport(text, m)
    ensures forall m :: m in ImportMatches(text) && BareName(Specifier(text, m)) == name ==> RewriteImport(text, m) in r
  {
    RewriteImports(text, ImportMatches(text), name)
  }

  // ---------------------------------------------------------------------------------------
  // executeMoveInfileComponentToNewFileCommand

  /** The workspace edit of a move: the edits to the document, and the new file's path
      (relative to the document's directory) and text. */
  datatype Moved = Moved(edits: seq<Edit>, filePath: string, newFileText: string)

  /** The workspace edit moving component `c` out: delete it, point its imports at the new
      file, and create the file with `newFileText`. */
  function MovedOf(doc: Doc, c: Component, newFileText: string): Moved {
    var path := ComponentPath(c.name);
    Moved([Edit(c.start, c.end, "")] + ImportEdits(doc.text, ComponentName(path)), path, newFileText)
  }

  /** `executeMoveInfileComponentToNewFileCommand` as written: for a selection the written
      test accepts, inside the component the leftmost marker starts, delete the component,
      point its imports at the new file, and create the file with the inner text dedented by
      the written `dedent`. */
  function Move(doc: Doc, offsetStart: nat, offsetEnd: nat, inTag: Tag -> bool): (r: Result<Moved, string>)
    requires offsetStart <= |doc.text| && offsetEnd <= |doc.text|
    ensures !ValidSelection(doc, offsetStart, offsetEnd, inTag) <==> r == Failure("Invalid selection range")
    ensures ValidSelection(doc, offsetStart, offsetEnd, inTag) && CurrentComponent(doc, offsetStart).None? <==>
              r == Failure("Cannot parse infile component")
    ensures r.Success? ==>
              var c := CurrentComponent(doc, offsetStart).value;
              var path := ComponentPath(c.name);
              && r.value.filePath == path
              && r.value.edits == [Edit(c.start, c.end, "")] + ImportEdits(doc.text, ComponentName(path))
              && r.value.newFileText == MovedText(c.innerText)
  {
    if !ValidSelection(doc, offsetStart, offsetEnd, inTag) then Failure("Invalid selection range")
    else match CurrentComponent(doc, offsetStart)
      case None => Failure("Cannot parse infile component")
      case Some(c) => Success(MovedOf(doc, c, MovedText(c.innerText)))
  }

  /** The move with the intended selection test, the nearest marker and the intended
      dedent. */
  function MoveFixed(doc: Doc, offsetStart: nat, offsetEnd: nat, inTag: Tag -> bool): (r: Result<Moved, string>)
    requires offsetStart <= |doc.text| && offsetEnd <= |doc.text|
    ensures !ValidSelectionFixed(doc, offsetStart, offsetEnd, inTag) <==> r == Failure("Invalid selection range")
    ensures ValidSelectionFixed(doc, offsetStart, offsetEnd, inTag) && CurrentComponentFixed(doc, offsetStart).None? <==>
              r == Failure("Cannot parse infile component")
    ensures r.Success? ==>
              var c := CurrentComponentFixed(doc, offsetStart).value;
              var path := ComponentPath(c.name);
              && r.value.filePath == path
              && r.value.edits == [Edit(c.start, c.end, "")] + ImportEdits(doc.text, ComponentName(path))
              && r.value.newFileText == MovedTextFixed(c.innerText)
  {
    if !ValidSelectionFixed(doc, offsetStart, offsetEnd, inTag) then Failure("Invalid selection range")
    else match CurrentComponentFixed(doc, offsetStart)
      case None => Failure("Cannot parse infile component")
      case Some(c) => Success(MovedOf(doc, c, MovedTextFixed(c.innerText)))
  }
}

=== FILE: parse_helpers.dfy ===
/** `parse_helpers.ts`: the names a module declares locally, imports and exports, read off the
    top level of its syntax tree, and the import statement under a given offset. */
module ParseHelpers {
  import opened Wrappers
  import opened JsString
  import opened Estree
  import opened ParseUtils

  // ---------------------------------------------------------------------------------------
  // Local names

  /** The kind of node a local name was found on. */
  datatype LocalOrigin =
    | FromVariable | FromFunction | FromClass
    | FromImportSpecifier | FromImportDefault | FromImportNamespace
    | FromExportSpecifier | FromDefaultAssignment

  datatype LocalName = LocalName(name: string, origin: LocalOrigin)

  function Names(ls: seq<LocalName>): (r: seq<string>)
    ensures |r| == |ls| && forall i :: 0 <= i < |ls| ==> r[i] == ls[i].name
  {
    seq(|ls|, i requires 0 <= i < |ls| => ls[i].name)
  }

  lemma NamesAppend(a: seq<LocalName>, b: seq<LocalName>)
    ensures Names(a + b) == Names(a) + Names(b)
  {
  }

  /** The declarators of a variable declaration whose `id` is an identifier, by name. */
  function IdentifierDeclarators(ps: seq<Pattern>, origin: LocalOrigin): (r: seq<LocalName>)
    ensures |r| <= |ps|
    ensures forall x :: x in Names(r) <==> IdPattern(x) in ps
    ensures forall i :: 0 <= i < |r| ==> r[i].origin == origin
  {
    if |ps| == 0 then []
    else
      var rest := IdentifierDeclarators(ps[1..], origin);
      assert ps == [ps[0]] + ps[1..];
      match ps[0]
      case IdPattern(x) =>
        assert Names([LocalName(x, origin)] + rest) == [x] + Names(rest);
        [LocalName(x, origin)] + rest
      case DestructuringPattern => rest
  }

  function ImportOrigin(sp: ImportSpecifier): LocalOrigin {
    match sp
    case NamedImport(_, _) => FromImportSpecifier
    case DefaultImport(_) => FromImportDefault
    case NamespaceImport(_) => FromImportNamespace
  }

  predicate IsImportOrigin(o: LocalOrigin) {
    o == FromImportSpecifier || o == FromImportDefault || o == FromImportNamespace
  }

  /** Every import specifier has a `local` identifier, so each one gives a name. */
  function ImportLocals(specs: seq<ImportSpecifier>): (r: seq<LocalName>)
    ensures |r| == |specs|
    ensures forall i :: 0 <= i < |r| ==> r[i].name == specs[i].local
    ensures forall i :: 0 <= i < |r| ==> IsImportOrigin(r[i].origin)
  {
    seq(|specs|, i requires 0 <= i < |specs| => LocalName(specs[i].local, ImportOrigin(specs[i])))
  }

  /** `export { a as b }`: the local name of each specifier whose local and exported names are
      both identifiers. */
  function ExportSpecifierLocals(specs: seq<ExportSpecifier>): (r: seq<LocalName>)
    ensures |r| <= |specs|
    ensures forall i :: 0 <= i < |r| ==> r[i].origin == FromExportSpecifier
  {
    if |specs| == 0 then []
    else
      var rest := ExportSpecifierLocals(specs[1..]);
      match specs[0]
      case ExportSpecifier(Ident(l), Ident(_)) => [LocalName(l, FromExportSpecifier)] + rest
      case _ => rest
  }

  /** The local names one declaration contributes (the body of the loop in
      `findLocalDeclaredNames`). */
  function LocalNamesOf(s: Stmt): seq<LocalName> {
    match s
    case VariableDeclaration(ps) => IdentifierDeclarators(ps, FromVariable)
    case FunctionDeclaration(id) => [LocalName(id, FromFunction)]
    case ClassDeclaration(id) => [LocalName(id, FromClass)]
    case ImportDeclaration(specs, _) => ImportLocals(specs)
    case ExportNamedDeclaration(Some(d), _) =>
      (match d
       case VariableDeclaration(ps) => IdentifierDeclarators(ps, FromVariable)
       case FunctionDeclaration(id) => [LocalName(id, FromFunction)]
       case ClassDeclaration(id) => [LocalName(id, FromClass)]
       case _ => [])
    case ExportNamedDeclaration(None, specs) => ExportSpecifierLocals(specs)
    case ExportDefaultDeclaration(AssignmentExpression(IdPattern(x))) =>
      [LocalName(x, FromDefaultAssignment)]
    case _ => []
  }

  function LocalNamesOfAll(nodes: seq<Node>): seq<LocalName> {
    if |nodes| == 0 then [] else LocalNamesOf(nodes[0].stmt) + LocalNamesOfAll(nodes[1..])
  }

  /** `findLocalDeclaredNames(tree)`. */
  function FindLocalDeclaredNames(tree: Program): seq<LocalName> {
    LocalNamesOfAll(FindingDeclarations(tree))
  }

  /** Which names a statement binds in the module scope, stated case by case on the syntax:
      identifier declarators, function and class names, every import's local name, exported
      declarations of those three kinds, `export { a as b }` with identifiers on both sides,
      and `export default a = ...`. */
  predicate Declares(s: Stmt, x: string) {
    || (s.VariableDeclaration? && IdPattern(x) in s.declarators)
    || ((s.FunctionDeclaration? || s.ClassDeclaration?) && s.id == x)
    || (s.ImportDeclaration? && exists sp :: sp in s.specifiers && sp.local == x)
    || (s.ExportNamedDeclaration? && s.declaration.Some? && (
          || (s.declaration.value.VariableDeclaration?
              && IdPattern(x) in s.declaration.value.declarators)
          || ((s.declaration.value.FunctionDeclaration? || s.declaration.value.ClassDeclaration?)
              && s.declaration.value.id == x)))
    || (s.ExportNamedDeclaration? && s.declaration.None?
        && exists e :: e in s.exportSpecifiers && e.local == Ident(x) && e.exported.Ident?)
    || s == ExportDefaultDeclaration(AssignmentExpression(IdPattern(x)))
  }

  lemma {:induction false} ExportSpecifierLocalsSpec(specs: seq<ExportSpecifier>, x: string)
    ensures x in Names(ExportSpecifierLocals(specs)) <==>
            exists e :: e in specs && e.local == Ident(x) && e.exported.Ident?
    decreases |specs|
  {
    if |specs| > 0 {
      ExportSpecifierLocalsSpec(specs[1..], x);
      var rest := ExportSpecifierLocals(specs[1..]);
      assert specs == [specs[0]] + specs[1..];
      if specs[0].local.Ident? && specs[0].exported.Ident? {
        NamesAppend([LocalName(specs[0].local.name, FromExportSpecifier)], rest);
        assert Names(ExportSpecifierLocals(specs)) == [specs[0].local.name] + Names(rest);
      }
      if exists e :: e in specs && e.local == Ident(x) && e.exported.Ident? {
        var e :| e in specs && e.local == Ident(x) && e.exported.Ident?;
        assert e == specs[0] || e in specs[1..];
      }
    }
  }

  lemma ImportLocalsSpec(specs: seq<ImportSpecifier>, x: string)
    ensures x in Names(ImportLocals(specs)) <==> exists sp :: sp in specs && sp.local == x
  {
    var r := ImportLocals(specs);
    if x in Names(r) {
      var i :| 0 <= i < |r| && Names(r)[i] == x;
      assert specs[i] in specs;
    }
    if exists sp :: sp in specs && sp.local == x {
      var sp :| sp in specs && sp.local == x;
      var i :| 0 <= i < |specs| && specs[i] == sp;
      assert Names(r)[i] == x;
    }
  }

  /** The names one statement contributes are exactly the names it declares. */
  lemma LocalNamesOfSpec(s: Stmt, x: string)
    ensures x in Names(LocalNamesOf(s)) <==> Declares(s, x)
  {
    match s
    case VariableDeclaration(ps) =>
    case FunctionDeclaration(id) => SingleName(id, FromFunction, x);
    case ClassDeclaration(id) => SingleName(id, FromClass, x);
    case ImportDeclaration(specs, _) => ImportLocalsSpec(specs, x);
    case ExportNamedDeclaration(Some(d), _) =>
      match d {
        case VariableDeclaration(ps) =>
        case FunctionDeclaration(id) => SingleName(id, FromFunction, x);
        case ClassDeclaration(id) => SingleName(id, FromClass, x);
        case _ =>
      }
    case ExportNamedDeclaration(None, specs) => ExportSpecifierLocalsSpec(specs, x);
    case ExportDefaultDeclaration(e) =>
      if e.AssignmentExpression? && e.left.IdPattern? {
        SingleName(e.left.name, FromDefaultAssignment, x);
      }
    case ExportAllDeclaration(_) =>
    case OtherStatement(_) =>
  }

  lemma SingleName(y: string, o: LocalOrigin, x: string)
    ensures x in Names([LocalName(y, o)]) <==> x == y
  {
    assert Names([LocalName(y, o)]) == [y];
  }

  /** Some statement of the run declares `x`. */
  predicate SomeDeclares(nodes: seq<Node>, x: string) {
    exists n :: n in nodes && Declares(n.stmt, x)
  }

  lemma {:induction false} LocalNamesOfAllSpec(nodes: seq<Node>, x: string)
    ensures x in Names(LocalNamesOfAll(nodes)) <==> SomeDeclares(nodes, x)
    decreases |nodes|
  {
    if |nodes| > 0 {
      LocalNamesOfAllSpec(nodes[1..], x);
      LocalNamesOfSpec(nodes[0].stmt, x);
      LocalNamesStep(nodes, x, LocalNamesOf(nodes[0].stmt), LocalNamesOfAll(nodes[1..]));
    }
  }

  lemma LocalNamesStep(nodes: seq<Node>, x: string, head: seq<LocalName>, tail: seq<LocalName>)
    requires |nodes| > 0 && head == LocalNamesOf(nodes[0].stmt) && tail == LocalNamesOfAll(nodes[1..])
    requires x in Names(head) <==> Declares(nodes[0].stmt, x)
    requires x in Names(tail) <==> SomeDeclares(nodes[1..], x)
    ensures x in Names(LocalNamesOfAll(nodes)) <==> SomeDeclares(nodes, x)
  {
    NamesAppend(head, tail);
    SomeDeclaresCons(nodes, x);
  }

  lemma SomeDeclaresCons(nodes: seq<Node>, x: string)
    requires |nodes| > 0
    ensures SomeDeclares(nodes, x) <==> Declares(nodes[0].stmt, x) || SomeDeclares(nodes[1..], x)
  {
    if SomeDeclares(nodes, x) {
      var n :| n in nodes && Declares(n.stmt, x);
      assert n == nodes[0] || n in nodes[1..];
    }
    if SomeDeclares(nodes[1..], x) {
      var n :| n in nodes[1..] && Declares(n.stmt, x);
      assert n in nodes;
    }
  }

  /** A declaring statement's `type` ends with `Declaration`, so it is never skipped. */
  lemma DeclaresIsDeclaration(s: Stmt, x: string)
    requires Declares(s, x)
    ensures IsDeclaration(s)
  {
    DeclarationKinds(s);
  }

  /** `findLocalDeclaredNames` finds a name exactly when some top-level statement declares
      it; `export * from ...` and non-declaration statements contribute nothing. */
  lemma FindLocalDeclaredNamesSpec(tree: Program, x: string)
    ensures x in Names(FindLocalDeclaredNames(tree)) <==>
            exists n :: n in tree.body && Declares(n.stmt, x)
  {
    LocalNamesOfAllSpec(FindingDeclarations(tree), x);
    if exists n :: n in tree.body && Declares(n.stmt, x) {
      var n :| n in tree.body && Declares(n.stmt, x);
      DeclaresIsDeclaration(n.stmt, x);
      assert n in FindingDeclarations(tree);
    }
  }

  // ---------------------------------------------------------------------------------------
  // Imported names

  /** `[localName, importedName, node]`: the imported name is known only for `{ a as b }`
      with an identifier `a`. */
  datatype ImportName = ImportName(local: string, imported: Option<string>, spec: ImportSpecifier)

  function ImportNameOf(sp: ImportSpecifier): (r: ImportName)
    ensures r.local == sp.local && r.spec == sp
    ensures r.imported.Some? <==> sp.NamedImport? && sp.imported.Ident?
    ensures r.imported.Some? ==> r.imported.value == sp.imported.name
  {
    match sp
    case NamedImport(l, Ident(i)) => ImportName(l, Some(i), sp)
    case _ => ImportName(sp.local, None, sp)
  }

  /** `findImportNames(importDeclaration)`. */
  function ImportNamesOf(specs: seq<ImportSpecifier>): (r: seq<ImportName>)
    ensures |r| == |specs|
    ensures forall i :: 0 <= i < |specs| ==> r[i] == ImportNameOf(specs[i])
  {
    seq(|specs|, i requires 0 <= i < |specs| => ImportNameOf(specs[i]))
  }

  function ImportNamesOfAll(nodes: seq<Node>): seq<ImportName> {
    if |nodes| == 0 then []
    else
      (match nodes[0].stmt
       case ImportDeclaration(specs, _) => ImportNamesOf(specs)
       case _ => []) + ImportNamesOfAll(nodes[1..])
  }

  /** `findImportNames(tree)`. */
  function FindImportNames(tree: Program): seq<ImportName> {
    ImportNamesOfAll(FindingImports(tree))
  }

  function ImportLocalNames(ins: seq<ImportName>): (r: seq<string>)
    ensures |r| == |ins| && forall i :: 0 <= i < |ins| ==> r[i] == ins[i].local
  {
    seq(|ins|, i requires 0 <= i < |ins| => ins[i].local)
  }

  /** The names of the local names found on import specifiers, in order. */
  function NamesFromImports(ls: seq<LocalName>): seq<string> {
    if |ls| == 0 then []
    else (if IsImportOrigin(ls[0].origin) then [ls[0].name] else []) + NamesFromImports(ls[1..])
  }

  lemma {:induction false} NamesFromImportsAppend(a: seq<LocalName>, b: seq<LocalName>)
    ensures NamesFromImports(a + b) == NamesFromImports(a) + NamesFromImports(b)
    decreases |a|
  {
    if |a| > 0 {
      assert (a + b)[1..] == a[1..] + b;
      NamesFromImportsAppend(a[1..], b);
    } else {
      assert a + b == b;
    }
  }

  lemma {:induction false} NamesFromImportsNone(ls: seq<LocalName>)
    requires forall i :: 0 <= i < |ls| ==> !IsImportOrigin(ls[i].origin)
    ensures NamesFromImports(ls) == []
    decreases |ls|
  {
    if |ls| > 0 {
      NamesFromImportsNone(ls[1..]);
    }
  }

  lemma {:induction false} NamesFromImportsAll(ls: seq<LocalName>)
    requires forall i :: 0 <= i < |ls| ==> IsImportOrigin(ls[i].origin)
    ensures NamesFromImports(ls) == Names(ls)
    decreases |ls|
  {
    if |ls| > 0 {
      NamesFromImportsAll(ls[1..]);
      assert Names(ls) == [ls[0].name] + Names(ls[1..]);
    }
  }

  /** What one statement contributes, seen from both functions. */
  lemma ImportLocalsOfStmt(s: Stmt)
    ensures NamesFromImports(LocalNamesOf(s)) ==
            ImportLocalNames(match s
                             case ImportDeclaration(specs, _) => ImportNamesOf(specs)
                             case _ => [])
  {
    match s
    case ImportDeclaration(specs, _) =>
      NamesFromImportsAll(LocalNamesOf(s));
    case ExportNamedDeclaration(Some(d), _) =>
      NamesFromImportsNone(LocalNamesOf(s));
    case ExportNamedDeclaration(None, specs) =>
      NamesFromImportsNone(LocalNamesOf(s));
    case VariableDeclaration(ps) =>
      NamesFromImportsNone(LocalNamesOf(s));
    case _ =>
  }

  lemma {:induction false} ImportLocalsOfBody(body: seq<Node>)
    ensures ImportLocalNames(ImportNamesOfAll(Select(body, IsImport))) ==
            NamesFromImports(LocalNamesOfAll(Select(body, IsDeclaration)))
    decreases |body|
  {
    if |body| > 0 {
      var n := body[0];
      ImportLocalsOfBody(body[1..]);
      DeclarationKinds(n.stmt);
      var tailImps := Select(body[1..], IsImport);
      var tailDecls := Select(body[1..], IsDeclaration);
      if IsImport(n.stmt) {
        SelectKept(body, IsImport);
        SelectKept(body, IsDeclaration);
        ImportStepKept(n, tailImps, tailDecls);
      } else {
        SelectSkipped(body, IsImport);
        if IsDeclaration(n.stmt) {
          SelectKept(body, IsDeclaration);
          DeclarationStepKept(n, tailImps, tailDecls);
        } else {
          SelectSkipped(body, IsDeclaration);
        }
      }
    }
  }

  lemma SelectKept(body: seq<Node>, keep: Stmt -> bool)
    requires |body| > 0 && keep(body[0].stmt)
    ensures Select(body, keep) == [body[0]] + Select(body[1..], keep)
  {
  }

  lemma SelectSkipped(body: seq<Node>, keep: Stmt -> bool)
    requires |body| > 0 && !keep(body[0].stmt)
    ensures Select(body, keep) == Select(body[1..], keep)
  {
  }

  /** An import statement adds the same names on both sides. */
  lemma ImportStepKept(n: Node, imps: seq<Node>, decls: seq<Node>)
    requires IsImport(n.stmt)
    requires ImportLocalNames(ImportNamesOfAll(imps)) == NamesFromImports(LocalNamesOfAll(decls))
    ensures ImportLocalNames(ImportNamesOfAll([n] + imps))
            == NamesFromImports(LocalNamesOfAll([n] + decls))
  {
    var a := ImportNamesOf(n.stmt.specifiers);
    assert ([n] + imps)[1..] == imps && ([n] + decls)[1..] == decls;
    assert ImportNamesOfAll([n] + imps) == a + ImportNamesOfAll(imps);
    assert LocalNamesOfAll([n] + decls) == LocalNamesOf(n.stmt) + LocalNamesOfAll(decls);
    ImportLocalsOfStmt(n.stmt);
    NamesFromImportsAppend(LocalNamesOf(n.stmt), LocalNamesOfAll(decls));
    ImportLocalNamesAppend(a, ImportNamesOfAll(imps));
  }

  /** A declaration that is not an import adds no imported names. */
  lemma DeclarationStepKept(n: Node, imps: seq<Node>, decls: seq<Node>)
    requires !IsImport(n.stmt)
    requires ImportLocalNames(ImportNamesOfAll(imps)) == NamesFromImports(LocalNamesOfAll(decls))
    ensures ImportLocalNames(ImportNamesOfAll(imps))
            == NamesFromImports(LocalNamesOfAll([n] + decls))
  {
    assert ([n] + decls)[1..] == decls;
    assert LocalNamesOfAll([n] + decls) == LocalNamesOf(n.stmt) + LocalNamesOfAll(decls);
    ImportLocalsOfStmt(n.stmt);
    NamesFromImportsAppend(LocalNamesOf(n.stmt), LocalNamesOfAll(decls));
  }

  lemma ImportLocalNamesAppend(a: seq<ImportName>, b: seq<ImportName>)
    ensures ImportLocalNames(a + b) == ImportLocalNames(a) + ImportLocalNames(b)
  {
  }

  /** `findImportNames` and `findLocalDeclaredNames` agree on imports: the local names of the
      imported names are, in order, the local names found on import specifiers. */
  lemma ImportNamesAreLocalNames(tree: Program)
    ensures ImportLocalNames(FindImportNames(tree)) ==
            NamesFromImports(FindLocalDeclaredNames(tree))
  {
    ImportLocalsOfBody(tree.body);
  }

  // ---------------------------------------------------------------------------------------
  // Exported names

  /** `[localName, exportedName, node]`; `exported` is `None` for an exported declaration
      (whose exported name is its own), `"default"` for `export default`, `"*"` for
      `export * from`. */
  datatype ExportName = ExportName(local: string, exported: Option<string>, stmt: Stmt)

  /** A JavaScript value that may be `undefined` or `null`. */
  datatype Nullish<T> = Defined(value: T) | Undefined | Null

  /** `nonNullable(value)` as written: only `null` is rejected. */
  predicate NonNullableAsWritten<T>(v: Nullish<T>) {
    !v.Null?
  }

  /** What the type guard `value is NonNullable<T>` promises: neither `null` nor `undefined`. */
  predicate NonNullable<T>(v: Nullish<T>) {
    v.Defined?
  }

  /** The callback mapped over `export { ... }` specifiers: a tuple when local and exported
      names are both identifiers, `undefined` (falling off the end) otherwise. */
  function SpecifierTuple(s: Stmt, e: ExportSpecifier): (r: Nullish<ExportName>)
    ensures r.Defined? <==> e.local.Ident? && e.exported.Ident?
    ensures r.Defined? ==> r.value == ExportName(e.local.name, Some(e.exported.name), s)
    ensures !r.Null?
  {
    match e
    case ExportSpecifier(Ident(l), Ident(x)) => Defined(ExportName(l, Some(x), s))
    case _ => Undefined
  }

  function FilterNullish(vs: seq<Nullish<ExportName>>, keep: Nullish<ExportName> -> bool)
    : (r: seq<Nullish<ExportName>>)
    ensures forall v :: v in r <==> v in vs && keep(v)
  {
    if |vs| == 0 then []
    else (if keep(vs[0]) then [vs[0]] else []) + FilterNullish(vs[1..], keep)
  }

  /** `node.specifiers.map(...).filter(nonNullable)`, as written. */
  function SpecifierTuplesAsWritten(s: Stmt, specs: seq<ExportSpecifier>): (r: seq<Nullish<ExportName>>)
    ensures forall v :: v in r ==> !v.Null?
  {
    FilterNullish(seq(|specs|, i requires 0 <= i < |specs| => SpecifierTuple(s, specs[i])),
                  NonNullableAsWritten)
  }

  /** `export { "a b" as c } from 'm'`: the string-literal specifier survives the filter as
      `undefined`, so the exported names of the statement contain an `undefined` entry. */
  lemma SpecifierTuplesKeepUndefined()
    ensures var s := ExportNamedDeclaration(None, [ExportSpecifier(StringLiteral("\"a b\""), Ident("c"))]);
            SpecifierTuplesAsWritten(s, s.exportSpecifiers) == [Undefined]
  {
    var s := ExportNamedDeclaration(None, [ExportSpecifier(StringLiteral("\"a b\""), Ident("c"))]);
    var mapped := seq(1, i requires 0 <= i < 1 => SpecifierTuple(s, s.exportSpecifiers[i]));
    assert mapped == [Undefined];
    assert mapped[1..] == [];
    assert FilterNullish(mapped, NonNullableAsWritten) == [Undefined] + FilterNullish([], NonNullableAsWritten);
  }

  /** The same filter with the guard the type promises: only tuples remain. */
  function SpecifierTuples(s: Stmt, specs: seq<ExportSpecifier>): (r: seq<ExportName>)
    ensures |r| <= |specs|
    ensures forall t :: t in r <==> exists e :: e in specs && SpecifierTuple(s, e) == Defined(t)
  {
    if |specs| == 0 then []
    else
      var rest := SpecifierTuples(s, specs[1..]);
      assert specs == [specs[0]] + specs[1..];
      match SpecifierTuple(s, specs[0])
      case Defined(t) => [t] + rest
      case _ => rest
  }

  /** Exporting the identifier declarators of a variable declaration. */
  function DeclaratorTuples(s: Stmt, ps: seq<Pattern>): (r: seq<ExportName>)
    ensures |r| <= |ps|
    ensures forall i :: 0 <= i < |r| ==> r[i].exported == None && r[i].stmt == s
  {
    if |ps| == 0 then []
    else
      var rest := DeclaratorTuples(s, ps[1..]);
      match ps[0]
      case IdPattern(x) => [ExportName(x, None, s)] + rest
      case DestructuringPattern => rest
  }

  /** The export statements `extractExportNameTuples` has a case for. */
  predicate Handled(s: Stmt) {
    match s
    case ExportNamedDeclaration(Some(d), _) =>
      d.VariableDeclaration? || d.FunctionDeclaration? || d.ClassDeclaration?
    case ExportNamedDeclaration(None, _) => true
    case ExportDefaultDeclaration(e) =>
      (e.AssignmentExpression? && e.left.IdPattern?) || e.Identifier? || e.Literal?
      || e.CallExpression?
    case ExportAllDeclaration(_) => true
    case _ => false
  }

  /** `extractExportNameTuples(node)`, with the specifier filter corrected. Any export form
      without a case throws an `UnreachableError`; for a named export the message names the
      statement's type, not the declaration's. */
  function ExtractExportNameTuples(s: Stmt): (r: Result<seq<ExportName>, Exception>)
    ensures r.Success? <==> Handled(s)
    ensures r.Failure? ==> r.error.Unreachable?
    ensures r.Success? ==> forall t :: t in r.value ==> t.stmt == s
    ensures r.Success? && s.ExportDefaultDeclaration? ==>
              |r.value| == 1 && r.value[0].exported == Some("default")
    ensures r.Success? && s.ExportAllDeclaration? ==>
              r.value == [ExportName(s.exportSourceRaw, Some("*"), s)]
    ensures r.Success? && s.ExportDefaultDeclaration? && s.value.Identifier? ==>
              r.value == [ExportName(s.value.name, Some("default"), s)]
    ensures r.Success? && s.ExportDefaultDeclaration? && s.value.Literal? ==>
              r.value == [ExportName(s.value.raw, Some("default"), s)]
    ensures r.Success? && s.ExportDefaultDeclaration? && s.value.CallExpression? ==>
              r.value == [ExportName("", Some("default"), s)]
    ensures r.Success? && s.ExportDefaultDeclaration? && s.value.AssignmentExpression? ==>
              r.value == [ExportName(s.value.left.name, Some("default"), s)]
    ensures r.Success? && s.ExportNamedDeclaration? && s.declaration.Some?
            && (s.declaration.value.FunctionDeclaration? || s.declaration.value.ClassDeclaration?) ==>
              r.value == [ExportName(s.declaration.value.id, None, s)]
    ensures r.Success? && s.ExportNamedDeclaration? && s.declaration.Some?
            && s.declaration.value.VariableDeclaration? ==>
              r.value == DeclaratorTuples(s, s.declaration.value.declarators)
    ensures r.Success? && s.ExportNamedDeclaration? && s.declaration.None? ==>
              r.value == SpecifierTuples(s, s.exportSpecifiers)
  {
    match s
    case ExportNamedDeclaration(Some(d), specs) =>
      (match d
       case VariableDeclaration(ps) => Success(DeclaratorTuples(s, ps))
       case FunctionDeclaration(id) => Success([ExportName(id, None, s)])
       case ClassDeclaration(id) => Success([ExportName(id, None, s)])
       case _ => Failure(Unreachable("does not handle " + TypeName(s))))
    case ExportNamedDeclaration(None, specs) =>
      Success(SpecifierTuples(s, specs))
    case ExportDefaultDeclaration(e) =>
      (match e
       case AssignmentExpression(IdPattern(x)) => Success([ExportName(x, Some("default"), s)])
       case Identifier(x) => Success([ExportName(x, Some("default"), s)])
       case Literal(raw) => Success([ExportName(raw, Some("default"), s)])
       case CallExpression => Success([ExportName("", Some("default"), s)])
       case _ => Failure(Unreachable("does not handle " + ExprTypeName(e))))
    case ExportAllDeclaration(raw) => Success([ExportName(raw, Some("*"), s)])
    case _ => Failure(Unreachable("this needs to handled"))
  }

  function ExportNamesOfAll(nodes: seq<Node>): (r: Result<seq<ExportName>, Exception>)
    ensures r.Success? <==> forall n :: n in nodes ==> Handled(n.stmt)
    ensures r.Failure? ==> r.error.Unreachable?
    ensures r.Success? ==> forall t :: t in r.value <==>
              exists n :: n in nodes && t in ExtractExportNameTuples(n.stmt).value
  {
    if |nodes| == 0 then Success([])
    else
      var head :- ExtractExportNameTuples(nodes[0].stmt);
      assert nodes == [nodes[0]] + nodes[1..];
      var rest :- ExportNamesOfAll(nodes[1..]);
      Success(head + rest)
  }

  /** `findExportNames(tree)`: succeeds exactly when every export statement of the program
      has a case; otherwise the first unhandled one throws `UnreachableError`. */
  function FindExportNames(tree: Program): (r: Result<seq<ExportName>, Exception>)
    ensures r.Success? <==> forall n :: n in tree.body && IsExport(n.stmt) ==> Handled(n.stmt)
    ensures r.Failure? ==> r.error.Unreachable?
    ensures r.Success? ==> forall t :: t in r.value <==>
              exists n :: n in tree.body && IsExport(n.stmt) && t in ExtractExportNameTuples(n.stmt).value
  {
    ExportNamesOfAll(FindingExportDeclarations(tree))
  }

  function ExportLocals(ts: seq<ExportName>): (r: seq<string>)
    ensures |r| == |ts| && forall i :: 0 <= i < |ts| ==> r[i] == ts[i].local
  {
    seq(|ts|, i requires 0 <= i < |ts| => ts[i].local)
  }

  lemma {:induction false} DeclaratorTuplesLocals(s: Stmt, ps: seq<Pattern>, o: LocalOrigin)
    ensures ExportLocals(DeclaratorTuples(s, ps)) == Names(IdentifierDeclarators(ps, o))
    decreases |ps|
  {
    if |ps| > 0 {
      DeclaratorTuplesLocals(s, ps[1..], o);
      var a := DeclaratorTuples(s, ps[1..]);
      var b := IdentifierDeclarators(ps[1..], o);
      match ps[0]
      case IdPattern(x) =>
        DeclaratorPairStep(s, ps, x, o, a, b);
        ExportLocalsCons(ExportName(x, None, s), a);
        NamesAppend([LocalName(x, o)], b);
      case DestructuringPattern =>
        DeclaratorSkipStep(s, ps, o, a, b);
    }
  }

  lemma DeclaratorPairStep(s: Stmt, ps: seq<Pattern>, x: string, o: LocalOrigin, a: seq<ExportName>, b: seq<LocalName>)
    requires |ps| > 0 && ps[0] == IdPattern(x)
    requires a == DeclaratorTuples(s, ps[1..]) && b == IdentifierDeclarators(ps[1..], o)
    ensures DeclaratorTuples(s, ps) == [ExportName(x, None, s)] + a
    ensures IdentifierDeclarators(ps, o) == [LocalName(x, o)] + b
  {
  }

  lemma DeclaratorSkipStep(s: Stmt, ps: seq<Pattern>, o: LocalOrigin, a: seq<ExportName>, b: seq<LocalName>)
    requires |ps| > 0 && ps[0].DestructuringPattern?
    requires a == DeclaratorTuples(s, ps[1..]) && b == IdentifierDeclarators(ps[1..], o)
    ensures DeclaratorTuples(s, ps) == a && IdentifierDeclarators(ps, o) == b
  {
  }

  lemma {:induction false} SpecifierTuplesLocals(s: Stmt, specs: seq<ExportSpecifier>)
    ensures ExportLocals(SpecifierTuples(s, specs)) == Names(ExportSpecifierLocals(specs))
    decreases |specs|
  {
    if |specs| > 0 {
      SpecifierTuplesLocals(s, specs[1..]);
      var a := SpecifierTuples(s, specs[1..]);
      var b := ExportSpecifierLocals(specs[1..]);
      if specs[0].local.Ident? && specs[0].exported.Ident? {
        var l, x := specs[0].local.name, specs[0].exported.name;
        SpecifierPairStep(s, specs, l, x, a, b);
        ExportLocalsCons(ExportName(l, Some(x), s), a);
        NamesAppend([LocalName(l, FromExportSpecifier)], b);
        assert Names([LocalName(l, FromExportSpecifier)]) == [l];
      } else {
        SpecifierSkipStep(s, specs, a, b);
      }
    }
  }

  lemma SpecifierPairStep(s: Stmt, specs: seq<ExportSpecifier>, l: string, x: string,
                          a: seq<ExportName>, b: seq<LocalName>)
    requires |specs| > 0 && specs[0] == ExportSpecifier(Ident(l), Ident(x))
    requires a == SpecifierTuples(s, specs[1..]) && b == ExportSpecifierLocals(specs[1..])
    ensures SpecifierTuples(s, specs) == [ExportName(l, Some(x), s)] + a
    ensures ExportSpecifierLocals(specs) == [LocalName(l, FromExportSpecifier)] + b
  {
  }

  lemma SpecifierSkipStep(s: Stmt, specs: seq<ExportSpecifier>, a: seq<ExportName>, b: seq<LocalName>)
    requires |specs| > 0 && !(specs[0].local.Ident? && specs[0].exported.Ident?)
    requires a == SpecifierTuples(s, specs[1..]) && b == ExportSpecifierLocals(specs[1..])
    ensures SpecifierTuples(s, specs) == a && ExportSpecifierLocals(specs) == b
  {
  }

  lemma ExportLocalsCons(t: ExportName, a: seq<ExportName>)
    ensures ExportLocals([t] + a) == [t.local] + ExportLocals(a)
  {
  }

  /** A named export, and `export default a = ...`, exports exactly the local names it
      declares, in the same order. */
  lemma ExportedLocalsAreDeclared(s: Stmt)
    requires s.ExportNamedDeclaration?
             || (s.ExportDefaultDeclaration? && s.value.AssignmentExpression?)
    requires Handled(s)
    ensures ExportLocals(ExtractExportNameTuples(s).value) == Names(LocalNamesOf(s))
  {
    match s
    case ExportNamedDeclaration(Some(d), _) =>
      if d.VariableDeclaration? {
        DeclaratorTuplesLocals(s, d.declarators, FromVariable);
      }
    case ExportNamedDeclaration(None, specs) =>
      SpecifierTuplesLocals(s, specs);
    case _ =>
  }

  // ---------------------------------------------------------------------------------------
  // The import under an offset

  predicate Covers(n: Node, pos: int) {
    n.start <= pos < n.end
  }

  function ImportAtFrom(body: seq<Node>, pos: int, k: nat): (r: Option<nat>)
    requires k <= |body|
    decreases |body| - k
    ensures r.Some? ==> k <= r.value < |body| && Covers(body[r.value], pos)
                        && IsImport(body[r.value].stmt)
    ensures r.Some? ==> forall j :: k <= j < r.value ==> !(Covers(body[j], pos) && IsImport(body[j].stmt))
    ensures r.None? ==> forall j :: k <= j < |body| ==> !(Covers(body[j], pos) && IsImport(body[j].stmt))
  {
    if k == |body| then None
    else if Covers(body[k], pos) && IsImport(body[k].stmt) then Some(k)
    else ImportAtFrom(body, pos, k + 1)
  }

  /** `findImportDeclarationAt(tree, pos)`: the first top-level import whose range holds the
      offset; statements of other kinds holding it are passed over. */
  function FindImportDeclarationAt(tree: Program, pos: int): (r: Option<Node>)
    ensures r.None? <==> forall n :: n in tree.body ==> !(Covers(n, pos) && IsImport(n.stmt))
    ensures r.Some? ==> r.value in tree.body && Covers(r.value, pos) && IsImport(r.value.stmt)
    ensures r.Some? ==> exists i :: 0 <= i < |tree.body| && tree.body[i] == r.value
                         && forall j :: 0 <= j < i ==> !(Covers(tree.body[j], pos) && IsImport(tree.body[j].stmt))
  {
    match ImportAtFrom(tree.body, pos, 0)
    case None => None
    case Some(i) => Some(tree.body[i])
  }
}

=== FILE: parse_utils.dfy ===
/** `parse_utils.ts`: the two parsers, the validity check built on the strict one, and the
    generators that walk the top level of a program. The parsers themselves (acorn and
    acorn-loose) are parameters: the strict one reports what `parse` did, the loose one always
    produces a program. */
module ParseUtils {
  import opened Wrappers
  import opened JsString
  import opened Estree

  /** What a call of acorn's strict `parse` on a text did. */
  datatype StrictOutcome =
    | Accepted                        // returned a program
    | RaisedError(message: string)    // threw an `Error` (acorn's `SyntaxError`) with this message
    | RaisedNonError                  // threw something that is not an `Error`

  type StrictParser = string -> StrictOutcome
  type LooseParser = string -> Program

  /** The exceptions the core throws. */
  datatype Exception =
    | PlainError(message: string)     // `new Error(message)`
    | Unreachable(message: string)    // `UnreachableError`
    | ParseError(message: string)     // `ParseError` of the segment splitter

  const UnrecognizedReason: string := "unrecognized reason"

  /** `checkInvalidJavascript(code)`: `None` (null) when the code parses, the parser's error
      when it throws one, and a thrown `Error('unrecognized reason')` otherwise. */
  function CheckInvalid(strict: StrictParser, code: string): (r: Result<Option<string>, Exception>)
    ensures r == Success(None) <==> strict(code) == Accepted
    ensures (exists m :: r == Success(Some(m))) <==> strict(code).RaisedError?
    ensures r.Failure? <==> strict(code) == RaisedNonError
    ensures r.Failure? ==> r.error == PlainError(UnrecognizedReason)
  {
    match strict(code)
    case Accepted => Success(None)
    case RaisedError(m) => Success(Some(m))
    case RaisedNonError => Failure(PlainError(UnrecognizedReason))
  }

  /** `checkValidJavascript(code)`. */
  function CheckValid(strict: StrictParser, code: string): (r: Result<bool, Exception>)
    ensures r.Success? <==> strict(code) != RaisedNonError
    ensures r.Success? ==> (r.value <==> strict(code) == Accepted)
  {
    var err :- CheckInvalid(strict, code);
    Success(err.None?)
  }

  // ---------------------------------------------------------------------------------------
  // Walking the top level

  /** The top-level statements `keep` accepts, in program order. */
  function Select(body: seq<Node>, keep: Stmt -> bool): (r: seq<Node>)
    ensures |r| <= |body|
    ensures forall n :: n in r <==> n in body && keep(n.stmt)
  {
    if |body| == 0 then []
    else (if keep(body[0].stmt) then [body[0]] else []) + Select(body[1..], keep)
  }

  /** Selecting from two runs of statements is selecting from each, in order. */
  lemma {:induction false} SelectAppend(a: seq<Node>, b: seq<Node>, keep: Stmt -> bool)
    ensures Select(a + b, keep) == Select(a, keep) + Select(b, keep)
    decreases |a|
  {
    if |a| > 0 {
      assert (a + b)[1..] == a[1..] + b;
      SelectAppend(a[1..], b, keep);
    } else {
      assert a + b == b;
    }
  }

  predicate IsImport(s: Stmt) {
    s.ImportDeclaration?
  }

  predicate IsExport(s: Stmt) {
    s.ExportNamedDeclaration? || s.ExportDefaultDeclaration? || s.ExportAllDeclaration?
  }

  /** A statement whose `type` ends with `Declaration`. */
  predicate IsDeclaration(s: Stmt) {
    EndsWith(TypeName(s), "Declaration")
  }

  /** `findingImports(tree)` and `findingImportDeclarations(tree)`. */
  function FindingImports(tree: Program): seq<Node> {
    Select(tree.body, IsImport)
  }

  /** `findingDeclarations(tree)`. */
  function FindingDeclarations(tree: Program): seq<Node> {
    Select(tree.body, IsDeclaration)
  }

  /** `findingExportDeclarations(tree)`. */
  function FindingExportDeclarations(tree: Program): seq<Node> {
    Select(tree.body, IsExport)
  }

  /** Every import and every export statement is among the declarations, and so are the
      variable, function and class declarations; a statement of any other kind is not. */
  lemma DeclarationKinds(s: Stmt)
    ensures (IsImport(s) || IsExport(s) || s.VariableDeclaration? || s.FunctionDeclaration?
             || s.ClassDeclaration?) ==> IsDeclaration(s)
    ensures s.OtherStatement? ==> (IsDeclaration(s) <==> EndsWith(s.typeName, "Declaration"))
  {
    if IsImport(s) {
      DeclarationSuffix("Import", TypeName(s));
    } else if IsExport(s) {
      ExportsAreDeclarations(s);
    } else if !s.OtherStatement? {
      BindingsAreDeclarations(s);
    }
  }

  lemma ExportsAreDeclarations(s: Stmt)
    requires IsExport(s)
    ensures IsDeclaration(s)
  {
    if s.ExportNamedDeclaration? {
      DeclarationSuffix("ExportNamed", TypeName(s));
    } else if s.ExportDefaultDeclaration? {
      DeclarationSuffix("ExportDefault", TypeName(s));
    } else {
      DeclarationSuffix("ExportAll", TypeName(s));
    }
  }

  lemma BindingsAreDeclarations(s: Stmt)
    requires s.VariableDeclaration? || s.FunctionDeclaration? || s.ClassDeclaration?
    ensures IsDeclaration(s)
  {
    if s.VariableDeclaration? {
      DeclarationSuffix("Variable", TypeName(s));
    } else if s.FunctionDeclaration? {
      DeclarationSuffix("Function", TypeName(s));
    } else {
      DeclarationSuffix("Class", TypeName(s));
    }
  }

  lemma DeclarationSuffix(kind: string, name: string)
    requires name == kind + "Declaration"
    ensures EndsWith(name, "Declaration")
  {
    assert name[|kind|..] == "Declaration";
  }

  /** The import and export generators yield declarations only. */
  lemma GeneratorsYieldDeclarations(tree: Program)
    ensures forall n :: n in FindingImports(tree) ==> n in FindingDeclarations(tree)
    ensures forall n :: n in FindingExportDeclarations(tree) ==> n in FindingDeclarations(tree)
    ensures forall n :: n in FindingImports(tree) ==> n !in FindingExportDeclarations(tree)
  {
    forall n | n in FindingImports(tree) ensures n in FindingDeclarations(tree) {
      DeclarationKinds(n.stmt);
    }
    forall n | n in FindingExportDeclarations(tree) ensures n in FindingDeclarations(tree) {
      DeclarationKinds(n.stmt);
    }
  }
}

=== FILE: percent.dfy ===
/** `encodeURIComponent` and `decodeURIComponent` (ECMA-262, section 19.2.6, following the
    percent-encoding of section 2.1 of RFC 3986): every character outside the unreserved set
    becomes the `%XX` escapes of its UTF-8 bytes, with upper-case hex digits. Decoding throws
    `URIError` on a malformed escape, which is `None` here. */
module Percent {
  import opened Wrappers
  import opened Utf8

  type nibble = x: int | 0 <= x < 16

  /** The characters `encodeURIComponent` leaves alone. */
  predicate IsUnreserved(c: char) {
    || ('a' <= c <= 'z') || ('A' <= c <= 'Z') || ('0' <= c <= '9')
    || c == '-' || c == '_' || c == '.' || c == '!' || c == '~' || c == '*' || c == '\''
    || c == '(' || c == ')'
  }

  function HexDigit(v: nibble): (c: char)
    ensures IsUnreserved(c)
  {
    if v < 10 then ('0' as int + v) as char else ('A' as int + (v - 10)) as char
  }

  /** The value of a hex digit of either case. */
  function HexValue(c: char): Option<nibble> {
    if '0' <= c <= '9' then Some(c as int - '0' as int)
    else if 'A' <= c <= 'F' then Some(c as int - 'A' as int + 10)
    else if 'a' <= c <= 'f' then Some(c as int - 'a' as int + 10)
    else None
  }

  lemma HexValueOfDigit(v: nibble)
    ensures HexValue(HexDigit(v)) == Some(v)
  {
  }

  /** `%XX` for one byte. */
  function EscapeByte(b: byte): (r: string)
    ensures |r| == 3 && r[0] == '%'
  {
    ['%', HexDigit(b / 16), HexDigit(b % 16)]
  }

  function EscapeBytes(bs: seq<byte>): (r: string)
    ensures |r| == 3 * |bs|
  {
    if |bs| == 0 then [] else EscapeByte(bs[0]) + EscapeBytes(bs[1..])
  }

  /** The text one character turns into. */
  function EncodeChar(c: char): (r: string)
    ensures IsUnreserved(c) ==> r == [c]
    ensures !IsUnreserved(c) ==> r == EscapeBytes(Utf8.EncodeChar(c))
  {
    if IsUnreserved(c) then [c] else EscapeBytes(Utf8.EncodeChar(c))
  }

  /** The characters an encoded component is made of. */
  predicate IsEncodedChar(c: char) {
    IsUnreserved(c) || c == '%'
  }

  /** `encodeURIComponent(s)`. */
  function EncodeComponent(s: string): (r: string)
    ensures |r| >= |s|
    ensures forall i :: 0 <= i < |r| ==> IsEncodedChar(r[i])
  {
    if |s| == 0 then []
    else
      var head := EncodeChar(s[0]);
      assert forall i :: 0 <= i < |head| ==> IsEncodedChar(head[i]) by {
        if !IsUnreserved(s[0]) {
          EscapeBytesChars(Utf8.EncodeChar(s[0]));
        }
      }
      head + EncodeComponent(s[1..])
  }

  lemma {:induction false} EscapeBytesChars(bs: seq<byte>)
    ensures forall i :: 0 <= i < |EscapeBytes(bs)| ==> IsEncodedChar(EscapeBytes(bs)[i])
    decreases |bs|
  {
    if |bs| > 0 {
      EscapeBytesChars(bs[1..]);
      var r := EscapeBytes(bs);
      assert r == EscapeByte(bs[0]) + EscapeBytes(bs[1..]);
    }
  }

  /** The byte of the escape at `k`, if there is a well-formed one. */
  function EscapeAt(s: string, k: nat): (r: Option<byte>)
    ensures r.Some? ==> k + 3 <= |s|
  {
    if k + 3 <= |s| && s[k] == '%' then
      var hi :- HexValue(s[k + 1]);
      var lo :- HexValue(s[k + 2]);
      Some(hi * 16 + lo)
    else None
  }

  /** The `m` continuation bytes escaped from position `k` on. */
  function ContinuationsAt(s: string, k: nat, m: nat): (r: Option<seq<byte>>)
    decreases m
    ensures r.Some? ==> |r.value| == m && (m > 0 ==> k + 3 * m <= |s|)
  {
    if m == 0 then Some([])
    else
      var b :- EscapeAt(s, k);
      if !IsContinuation(b) then None
      else
        var rest :- ContinuationsAt(s, k + 3, m - 1);
        Some([b] + rest)
  }

  /** `decodeURIComponent(s)`; `None` where it throws `URIError`. */
  function DecodeComponent(s: string): (r: Option<string>)
    decreases |s|
    ensures r.Some? ==> |r.value| <= |s|
  {
    if |s| == 0 then Some([])
    else if s[0] != '%' then
      var rest :- DecodeComponent(s[1..]);
      Some([s[0]] + rest)
    else
      var b :- EscapeAt(s, 0);
      if b < 0x80 then
        var rest :- DecodeComponent(s[3..]);
        Some([b as char] + rest)
      else
        var n := LeadLength(b);
        if n < 2 then None
        else
          var tail :- ContinuationsAt(s, 3, n - 1);
          var (c, _) :- DecodeFirst([b] + tail);
          var rest :- DecodeComponent(s[3 * n..]);
          Some([c] + rest)
  }

  // ---------------------------------------------------------------------------------------
  // Round trip

  lemma EscapeAtByte(b: byte, t: string)
    ensures EscapeAt(EscapeByte(b) + t, 0) == Some(b)
  {
    HexValueOfDigit(b / 16);
    HexValueOfDigit(b % 16);
  }

  lemma {:induction false} ContinuationsOfEscapes(bs: seq<byte>, t: string)
    requires forall i :: 0 <= i < |bs| ==> IsContinuation(bs[i])
    ensures ContinuationsAt(EscapeBytes(bs) + t, 0, |bs|) == Some(bs)
    decreases |bs|
  {
    if |bs| > 0 {
      var s := EscapeBytes(bs) + t;
      var rest := EscapeBytes(bs[1..]) + t;
      assert s == EscapeByte(bs[0]) + rest;
      EscapeAtByte(bs[0], rest);
      ContinuationsOfEscapes(bs[1..], t);
      ContinuationsShift(EscapeByte(bs[0]), rest, |bs| - 1);
      assert bs == [bs[0]] + bs[1..];
    }
  }

  /** Reading escapes after a three-character prefix is reading them in the rest. */
  lemma {:induction false} ContinuationsShift(p: string, t: string, m: nat)
    requires |p| == 3
    ensures ContinuationsAt(p + t, 3, m) == ContinuationsAt(t, 0, m)
  {
    ContinuationsShiftFrom(p, t, 0, m);
  }

  lemma {:induction false} ContinuationsShiftFrom(p: string, t: string, k: nat, m: nat)
    ensures ContinuationsAt(p + t, |p| + k, m) == ContinuationsAt(t, k, m)
    decreases m
  {
    if m > 0 {
      var s := p + t;
      assert EscapeAt(s, |p| + k) == EscapeAt(t, k) by {
        if k + 3 <= |t| {
          assert s[|p| + k] == t[k] && s[|p| + k + 1] == t[k + 1] && s[|p| + k + 2] == t[k + 2];
        }
      }
      ContinuationsShiftFrom(p, t, k + 3, m - 1);
    }
  }

  /** Decoding the escapes of one character, then the rest. */
  lemma DecodeEncodeChar(c: char, t: string)
    ensures DecodeComponent(EncodeChar(c) + t) == DecodeAfter(c, DecodeComponent(t))
  {
    if IsUnreserved(c) {
      DecodePlain(c, t);
    } else {
      var bs := Utf8.EncodeChar(c);
      var tail := EscapeBytes(bs[1..]) + t;
      var s := EscapeByte(bs[0]) + tail;
      EscapesSplit(bs, t, tail, s);
      EscapeAtByte(bs[0], tail);
      if bs[0] < 0x80 {
        DecodeAsciiEscape(c, bs[0], s, t);
      } else {
        var n := |bs|;
        ContinuationsOfEscapes(bs[1..], t);
        ContinuationsShift(EscapeByte(bs[0]), tail, n - 1);
        Utf8.DecodeEncodeChar(c, []);
        ConsBytes(bs);
        DecodeMultiEscape(c, bs, s, t);
      }
    }
  }

  /** `Some([c] + rest)` after a decoded rest, `None` after a failed one. */
  function DecodeAfter(c: char, rest: Option<string>): (r: Option<string>)
    ensures r.Some? <==> rest.Some?
    ensures r.Some? ==> |r.value| > 0 && r.value[0] == c && r.value[1..] == rest.value
  {
    match rest
    case Some(tail) => Some([c] + tail)
    case None => None
  }

  lemma DecodePlain(c: char, t: string)
    requires IsUnreserved(c)
    ensures DecodeComponent(EncodeChar(c) + t) == DecodeAfter(c, DecodeComponent(t))
  {
    var s := [c] + t;
    assert s[1..] == t;
  }

  lemma EscapesSplit(bs: seq<byte>, t: string, tail: string, s: string)
    requires |bs| > 0 && tail == EscapeBytes(bs[1..]) + t && s == EscapeByte(bs[0]) + tail
    ensures s == EscapeBytes(bs) + t
    ensures s[3 * |bs|..] == t
  {
    var e := EscapeBytes(bs);
    assert e == EscapeByte(bs[0]) + EscapeBytes(bs[1..]);
    AppendAssoc(EscapeByte(bs[0]), EscapeBytes(bs[1..]), t);
    DropPrefix(e, t, s, 3 * |bs|);
  }

  lemma AppendAssoc(a: string, b: string, c: string)
    ensures a + (b + c) == (a + b) + c
  {
  }

  lemma DropPrefix(e: string, t: string, s: string, k: nat)
    requires s == e + t && k == |e|
    ensures s[k..] == t
  {
  }

  lemma ConsBytes(bs: seq<byte>)
    requires |bs| > 0
    ensures [bs[0]] + bs[1..] == bs + []
  {
  }

  /** One escaped ASCII character, then the rest. */
  lemma DecodeAsciiEscape(c: char, b: byte, s: string, t: string)
    requires !IsUnreserved(c) && Utf8.EncodeChar(c) == [b] && b < 0x80
    requires s == EscapeBytes([b]) + t && s[3..] == t && EscapeAt(s, 0) == Some(b)
    ensures DecodeComponent(EncodeChar(c) + t) == DecodeAfter(c, DecodeComponent(t))
  {
    assert (b as char) == c;
  }

  /** One multi-byte character escaped, then the rest. */
  lemma DecodeMultiEscape(c: char, bs: seq<byte>, s: string, t: string)
    requires !IsUnreserved(c) && Utf8.EncodeChar(c) == bs && |bs| > 1
    requires s == EscapeBytes(bs) + t && s[3 * |bs|..] == t && EscapeAt(s, 0) == Some(bs[0])
    requires ContinuationsAt(s, 3, |bs| - 1) == Some(bs[1..])
    requires DecodeFirst([bs[0]] + bs[1..]) == Some((c, |bs|))
    ensures DecodeComponent(EncodeChar(c) + t) == DecodeAfter(c, DecodeComponent(t))
  {
  }

  /** `decodeURIComponent(encodeURIComponent(s)) == s`. */
  lemma {:induction false} DecodeEncode(s: string)
    ensures DecodeComponent(EncodeComponent(s)) == Some(s)
    decreases |s|
  {
    if |s| > 0 {
      DecodeEncode(s[1..]);
      DecodeEncodeChar(s[0], EncodeComponent(s[1..]));
      assert s == [s[0]] + s[1..];
    }
  }
}

=== FILE: refactor_text.dfy ===
/** The text side of the language server's in-file refactorings
    (`packages/language-server/src/plugins/svelte/features/getCodeActions/infileRefactorings.ts`):
    which selections may be extracted, how the new component's path and name are formed, the
    template appended for an extracted component, and the dedent applied when a component is
    moved to its own file. Offsets stand for the document's positions (`offsetAt` clamps a
    position into `[0, |text|]`). */
module RefactorText {
  import opened Wrappers
  import opened JsString

  // ---------------------------------------------------------------------------------------
  // checkIsTouchingWhitespace

  /** `/[\s\W]/.test(text[i])`. Every white-space character is a non-word character, so the
      class is `\W`. Past the end `text[i]` is `undefined`, which the test reads as the word
      `"undefined"` and rejects. */
  predicate BreakAt(text: string, i: nat) {
    i < |text| && !IsWordChar(text[i])
  }

  /** `checkIsTouchingWhitespace` as written: the end is accepted at `text.length - 1`, and
      rejected at `text.length`, where `text[offsetEnd]` is `undefined`. */
  predicate TouchingWhitespaceAsWritten(text: string, offsetStart: nat, offsetEnd: nat) {
    && (offsetStart == 0 || BreakAt(text, offsetStart - 1))
    && (offsetEnd == |text| - 1 || BreakAt(text, offsetEnd))
  }

  /** `checkIsTouchingWhitespace` as evidently intended: the selection `[offsetStart,
      offsetEnd)` starts at the beginning of the text or after a non-word character, and ends
      at the end of the text or before one. */
  predicate TouchingWhitespace(text: string, offsetStart: nat, offsetEnd: nat) {
    && (offsetStart == 0 || BreakAt(text, offsetStart - 1))
    && (offsetEnd == |text| || BreakAt(text, offsetEnd))
  }

  /** A selection is accepted exactly when it cuts no word: the text before it does not end
      in a word character and the text after it does not start with one, whatever the
      selection holds. */
  lemma TouchingWhitespaceCutsNoWord(before: string, selected: string, after: string)
    ensures TouchingWhitespace(before + selected + after, |before|, |before| + |selected|) <==>
              && (|before| == 0 || !IsWordChar(before[|before| - 1]))
              && (|after| == 0 || !IsWordChar(after[0]))
  {
    var text := before + selected + after;
    if |before| > 0 {
      assert text[|before| - 1] == before[|before| - 1];
    }
    if |after| > 0 {
      assert text[|before| + |selected|] == after[0];
    }
  }

  /** The check as written rejects a selection reaching the end of the document, and accepts
      one that stops one character short of it in the middle of a word. */
  lemma TouchingWhitespaceAsWrittenMisjudgesEnd()
    ensures !TouchingWhitespaceAsWritten("ab", 0, 2) && TouchingWhitespace("ab", 0, 2)
    ensures TouchingWhitespaceAsWritten("ab", 0, 1) && !TouchingWhitespace("ab", 0, 1)
  {
    assert "ab"[1] == 'b';
  }

  // ---------------------------------------------------------------------------------------
  // The component's path and name

  const DefaultComponent: string := "NewComponent"
  const SvelteExt: string := ".svelte"

  /** `if (!filePath.endsWith('.svelte')) filePath += '.svelte'`. */
  function WithExt(filePath: string): (r: string)
    ensures EndsWith(r, SvelteExt)
  {
    if EndsWith(filePath, SvelteExt) then filePath
    else
      var r := filePath + SvelteExt;
      assert r[|r| - |SvelteExt|..] == SvelteExt;
      r
  }

  /** `if (!filePath.startsWith('.')) filePath = './' + filePath`. */
  function WithDot(filePath: string): (r: string)
    ensures StartsWith(r, ".") && EndsWith(r, filePath)
  {
    if StartsWith(filePath, ".") then filePath
    else
      var r := "./" + filePath;
      assert r[|r| - |filePath|..] == filePath;
      r
  }

  /** The path normalisation of both refactorings: `.svelte` appended when missing, then
      `./` prepended unless the path starts with `.`. */
  function ComponentPath(filePath: string): (r: string)
    ensures EndsWith(r, SvelteExt) && StartsWith(r, ".")
    ensures EndsWith(filePath, SvelteExt) ==> EndsWith(r, filePath)
    ensures !EndsWith(filePath, SvelteExt) ==> EndsWith(r, filePath + SvelteExt)
  {
    var w := WithExt(filePath);
    var r := WithDot(w);
    assert r[|r| - |SvelteExt|..] == w[|w| - |SvelteExt|..];
    r
  }

  /** The path of an extracted component: `filePath || 'NewComponent'`, normalised. */
  function ExtractPath(filePath: string): string {
    ComponentPath(if filePath == "" then DefaultComponent else filePath)
  }

  /** Normalising a normalised path changes nothing. */
  lemma ComponentPathIdempotent(filePath: string)
    ensures ComponentPath(ComponentPath(filePath)) == ComponentPath(filePath)
  {
  }

  /** `filePath.split('/').pop()?.split('.svelte')[0] || ''`: the last path component, up to
      its first `.svelte`. */
  function ComponentName(filePath: string): (r: string)
    ensures !Includes(r, SvelteExt)
  {
    var parts := SplitOn(filePath, "/");
    var last := parts[|parts| - 1];
    FirstPieceFree(last, SvelteExt);
    SplitOn(last, SvelteExt)[0]
  }

  lemma FirstPieceFree(s: string, sep: string)
    requires |sep| > 0
    ensures !Includes(SplitOn(s, sep)[0], sep)
  {
    var first := SplitOn(s, sep)[0];
    match IndexOf(s, sep)
    case None =>
    case Some(i) =>
      assert first == s[..i];
      forall j | 0 <= j ensures !OccursAt(first, sep, j) {
        if OccursAt(first, sep, j) {
          assert s[j..j + |sep|] == first[j..j + |sep|];
          assert OccursAt(s, sep, j);
        }
      }
  }

  /** The last piece of a split is what follows the last separator. */
  lemma {:induction false} LastPiece(a: string, b: string)
    requires '/' !in b
    ensures var parts := SplitOn(a + "/" + b, "/"); parts[|parts| - 1] == b
    decreases |a|
  {
    var s := a + "/" + b;
    assert OccursAt(s, "/", |a|) by { assert s[|a|..|a| + 1] == "/"; }
    var i := IndexOf(s, "/").value;
    var rest := s[i + 1..];
    if i == |a| {
      assert rest == b;
      NoSlashOnePiece(b);
    } else {
      assert s[i] == '/' by { assert s[i..i + 1] == "/"; }
      assert i < |a|;
      assert rest == a[i + 1..] + "/" + b;
      LastPiece(a[i + 1..], b);
    }
  }

  lemma NoSlashOnePiece(s: string)
    requires '/' !in s
    ensures SplitOn(s, "/") == [s]
  {
    forall j | 0 <= j < |s| ensures !OccursAt(s, "/", j) {
      assert j + 1 <= |s| ==> s[j..j + 1][0] == s[j];
    }
    SplitOnNone(s, "/");
  }

  /** The name of `name` or `name.svelte`, in a directory or not, is `name`, when `name` is a
      plain file name without dots. */
  lemma NameOfComponentPath(dir: string, name: string, ext: string)
    requires '/' !in name && '.' !in name && name != ""
    requires dir == "" || EndsWith(dir, "/")
    requires ext == "" || ext == SvelteExt
    ensures ComponentName(ComponentPath(dir + name + ext)) == name
  {
    PathOfPlainName(dir, name, ext);
    NameOfPathEnding(ComponentPath(dir + name + ext), name);
  }

  lemma NameOfPathEnding(path: string, name: string)
    requires '/' !in name && '.' !in name
    requires EndsWith(path, "/" + name + SvelteExt)
    ensures ComponentName(path) == name
  {
    var file := name + SvelteExt;
    assert '/' !in file by {
      forall j | 0 <= j < |file| ensures file[j] != '/' {
        if j < |name| { assert file[j] == name[j]; }
      }
    }
    assert "/" + name + SvelteExt == "/" + file;
    var a := path[..|path| - |file| - 1];
    assert path == a + "/" + file by {
      assert path[|path| - |file| - 1..] == "/" + file;
    }
    NameAfterSlash(path, a, file);
    FirstPieceOfFile(name);
  }

  lemma NameAfterSlash(path: string, a: string, file: string)
    requires path == a + "/" + file && '/' !in file
    ensures ComponentName(path) == SplitOn(file, SvelteExt)[0]
  {
    LastPiece(a, file);
  }

  /** The normalised path of a plain name ends with `/name.svelte`. */
  lemma PathOfPlainName(dir: string, name: string, ext: string)
    requires '.' !in name && name != ""
    requires dir == "" || EndsWith(dir, "/")
    requires ext == "" || ext == SvelteExt
    ensures EndsWith(ComponentPath(dir + name + ext), "/" + name + SvelteExt)
  {
    var file := name + SvelteExt;
    var withExt := dir + file;
    if ext == "" {
      NoSvelteSuffix(dir, name);
      assert dir + name + ext == dir + name;
      assert WithExt(dir + name) == withExt;
    } else {
      assert dir + name + ext == withExt;
      assert EndsWith(withExt, SvelteExt) by { assert withExt[|withExt| - 7..] == SvelteExt; }
      assert WithExt(withExt) == withExt;
    }
    assert WithExt(dir + name + ext) == withExt;
    assert ComponentPath(dir + name + ext) == WithDot(withExt);
    DotSlashEnd(dir, file);
    assert "/" + name + SvelteExt == "/" + file;
  }

  lemma DotSlashEnd(dir: string, file: string)
    requires |file| > 0 && file[0] != '.'
    requires dir == "" || EndsWith(dir, "/")
    ensures EndsWith(WithDot(dir + file), "/" + file)
  {
    var w := dir + file;
    if dir == "" {
      assert w == file;
      var r := "./" + file;
      assert r[|r| - |file| - 1..] == "/" + file;
    } else {
      assert dir[|dir| - 1] == '/' by { assert dir[|dir| - 1..] == "/"; }
      assert w[|w| - |file| - 1..] == "/" + file;
      var r := WithDot(w);
      assert r[|r| - |file| - 1..] == w[|w| - |file| - 1..];
    }
  }

  lemma NoSvelteSuffix(dir: string, name: string)
    requires '.' !in name && name != ""
    requires dir == "" || EndsWith(dir, "/")
    ensures !EndsWith(dir + name, SvelteExt)
  {
    var s := dir + name;
    if |s| >= 7 {
      var d := |s| - 7;
      assert s[d..][0] == s[d];
      if d >= |dir| {
        assert s[d] == name[d - |dir|];
      } else {
        assert dir[|dir| - 1] == '/' by { assert dir[|dir| - 1..] == "/"; }
        assert s[d..][|dir| - 1 - d] == dir[|dir| - 1];
      }
    }
  }

  lemma FirstPieceOfFile(name: string)
    requires '.' !in name
    ensures SplitOn(name + SvelteExt, SvelteExt)[0] == name
  {
    var s := name + SvelteExt;
    forall j | 0 <= j < |name| ensures !OccursAt(s, SvelteExt, j) {
      assert j + 7 <= |s| ==> s[j..j + 7][0] == name[j];
    }
    assert s[|name|..|name| + 7] == SvelteExt;
    assert OccursAt(s, SvelteExt, |name|);
    assert IndexOf(s, SvelteExt) == Some(|name|);
    assert s[..|name|] == name;
  }

  // ---------------------------------------------------------------------------------------
  // The text of an extracted component

  /** `text.substring(a, b)` for offsets inside the text: the bounds are swapped when `a > b`. */
  function Substring(text: string, a: nat, b: nat): (r: string)
    requires a <= |text| && b <= |text|
    ensures a <= b ==> r == text[a..b]
    ensures b < a ==> r == text[b..a]
  {
    if a <= b then text[a..b] else text[b..a]
  }

  /** A piece of the new component's body and its offset in the document; a missing tag is
      the piece `{ text: '', start: -1 }`. */
  datatype Piece = Piece(text: string, start: int)

  predicate SortedByStart(ps: seq<Piece>) {
    forall i, j :: 0 <= i < j < |ps| ==> ps[i].start <= ps[j].start
  }

  /** Inserts `p` after every piece that starts no later than it. */
  function InsertByStart(p: Piece, sorted: seq<Piece>): (r: seq<Piece>)
    requires SortedByStart(sorted)
    ensures |r| == |sorted| + 1
    ensures r[0] == if |sorted| == 0 || p.start < sorted[0].start then p else sorted[0]
    ensures SortedByStart(r)
    ensures multiset(r) == multiset(sorted) + multiset{p}
  {
    if |sorted| == 0 then [p]
    else if p.start < sorted[0].start then [p] + sorted
    else
      var rest := InsertByStart(p, sorted[1..]);
      assert sorted == [sorted[0]] + sorted[1..];
      var r := [sorted[0]] + rest;
      assert forall j :: 0 < j < |r| ==> r[j] == rest[j - 1];
      assert sorted[0].start <= rest[0].start;
      r
  }

  /** `.sort((a, b) => a.start - b.start)`: the pieces in order of their offsets. */
  function SortByStart(ps: seq<Piece>): (r: seq<Piece>)
    ensures SortedByStart(r) && multiset(r) == multiset(ps)
  {
    if |ps| == 0 then []
    else
      assert ps == ps[..|ps| - 1] + [ps[|ps| - 1]];
      InsertByStart(ps[|ps| - 1], SortByStart(ps[..|ps| - 1]))
  }

  /** `.filter((tag) => tag.start >= 0)`. */
  function Present(ps: seq<Piece>): (r: seq<Piece>)
    ensures forall x :: x in r <==> x in ps && x.start >= 0
    ensures |r| <= |ps|
  {
    if |ps| == 0 then []
    else if ps[0].start >= 0 then [ps[0]] + Present(ps[1..])
    else Present(ps[1..])
  }

  function Texts(ps: seq<Piece>): (r: seq<string>)
    ensures |r| == |ps| && forall i :: 0 <= i < |ps| ==> r[i] == ps[i].text
  {
    seq(|ps|, i requires 0 <= i < |ps| => ps[i].text)
  }

  /** The body of the new component: the present pieces in document order, concatenated. */
  function NewText(pieces: seq<Piece>): (r: string)
    ensures var sorted := SortByStart(Present(pieces));
            SortedByStart(sorted) && multiset(sorted) == multiset(Present(pieces))
            && r == Join(Texts(sorted), "")
  {
    Join(Texts(SortByStart(Present(pieces))), "")
  }

  /** `'  ' + line` for every line. */
  function Indent(lines: seq<string>): (r: seq<string>)
    ensures |r| == |lines| && forall i :: 0 <= i < |lines| ==> r[i] == "  " + lines[i]
  {
    seq(|lines|, i requires 0 <= i < |lines| => "  " + lines[i])
  }

  /** What lies between `<template id="Name">` and `</template>` in the appended text: the
      trimmed body, every line indented by two spaces, on lines of its own. */
  function TemplateInner(newText: string): string {
    "\n" + Join(Indent(Lines(Trim(newText))), "\n") + "\n"
  }

  /** `[open tag, indented body, '</template>'].join('\n')`. */
  function TemplateText(name: string, newText: string): string {
    "<template id=\"" + name + "\">" + TemplateInner(newText) + "</template>"
  }

  /** The text inserted at the end of the document: a blank line, the `---` separator, a blank
      line and the template. */
  function AppendedText(name: string, newText: string): string {
    "\n\n---\n\n" + TemplateText(name, newText)
  }

  // ---------------------------------------------------------------------------------------
  // executeExtractInfileComponentCommand

  /** A text edit over offsets: `[start, end)` replaced by `newText`. */
  datatype Edit = Edit(start: nat, end: nat, newText: string)

  /** A script or style tag: its container's offsets and the offset where its content starts
      (`startPos`). */
  datatype Tag = Tag(start: nat, end: nat, contentStart: nat)

  /** The parts of a Svelte document the refactorings read. */
  datatype Doc = Doc(text: string, script: Option<Tag>, moduleScript: Option<Tag>, style: Option<Tag>)

  /** `checkIsSveltePart`: the range lies in none of the script and style tags. Whether a
      range lies in a tag (`isRangeInTag`) is given. */
  predicate SveltePart(doc: Doc, inTag: Tag -> bool) {
    !(|| (doc.style.Some? && inTag(doc.style.value))
      || (doc.script.Some? && inTag(doc.script.value))
      || (doc.moduleScript.Some? && inTag(doc.moduleScript.value)))
  }

  /** The selection test shared by both refactorings, as written. */
  predicate ValidSelection(doc: Doc, offsetStart: nat, offsetEnd: nat, inTag: Tag -> bool)
    requires offsetStart <= |doc.text| && offsetEnd <= |doc.text|
  {
    TouchingWhitespaceAsWritten(doc.text, offsetStart, offsetEnd) && SveltePart(doc, inTag)
  }

  /** The selection test with the intended whitespace test. */
  predicate ValidSelectionFixed(doc: Doc, offsetStart: nat, offsetEnd: nat, inTag: Tag -> bool)
    requires offsetStart <= |doc.text| && offsetEnd <= |doc.text|
  {
    TouchingWhitespace(doc.text, offsetStart, offsetEnd) && SveltePart(doc, inTag)
  }

  /** `getTagWithText`: the tag's text, with its relative imports rewritten for the new
      location (`rewrite`, given), followed by a blank line. */
  function TagPiece(text: string, tag: Option<Tag>, isStyle: bool, rewrite: (string, bool) -> string): (r: Piece)
    ensures tag.None? ==> r == Piece("", -1)
    ensures tag.Some? ==> r.start == tag.value.start
  {
    match tag
    case None => Piece("", -1)
    case Some(t) =>
      var a := if t.start <= |text| then t.start else |text|;
      var b := if t.end <= |text| then t.end else |text|;
      Piece(rewrite(Substring(text, a, b), isStyle) + "\n\n", t.start)
  }

  /** The pieces of the new component: the selection, then the script, module script and
      style tags. */
  function ExtractPieces(doc: Doc, offsetStart: nat, offsetEnd: nat, rewrite: (string, bool) -> string): (r: seq<Piece>)
    requires offsetStart <= |doc.text| && offsetEnd <= |doc.text|
    ensures |r| == 4 && r[0] == Piece(Substring(doc.text, offsetStart, offsetEnd) + "\n\n", offsetStart)
  {
    [ Piece(Substring(doc.text, offsetStart, offsetEnd) + "\n\n", offsetStart),
      TagPiece(doc.text, doc.script, false, rewrite),
      TagPiece(doc.text, doc.moduleScript, false, rewrite),
      TagPiece(doc.text, doc.style, true, rewrite) ]
  }

  /** `\n  import Name from 'infile:Name';\n`. */
  function ImportText(name: string): string {
    "\n  import " + name + " from 'infile:" + name + "';\n"
  }

  /** `insert_ImportInfileComponent`: the import goes at the start of the script's (or else
      the module script's) content, or into a new script tag at the top of the document. */
  function ImportEdit(doc: Doc, name: string): (r: Edit)
    ensures r.start == r.end
    ensures doc.script.Some? ==> r == Edit(doc.script.value.contentStart, doc.script.value.contentStart, ImportText(name))
    ensures doc.script.None? && doc.moduleScript.Some? ==>
              r == Edit(doc.moduleScript.value.contentStart, doc.moduleScript.value.contentStart, ImportText(name))
    ensures doc.script.None? && doc.moduleScript.None? ==> r == Edit(0, 0, "<script>\n" + ImportText(name) + "</script>")
  {
    var tag := if doc.script.Some? then doc.script else doc.moduleScript;
    match tag
    case Some(t) => Edit(t.contentStart, t.contentStart, ImportText(name))
    case None => Edit(0, 0, "<script>\n" + ImportText(name) + "</script>")
  }

  /** The three edits of an extraction: the selection replaced by the new component's tag,
      the import, and the component's template appended to the document. */
  function ExtractEdits(doc: Doc, offsetStart: nat, offsetEnd: nat, filePath: string,
                        rewrite: (string, bool) -> string): seq<Edit>
    requires offsetStart <= |doc.text| && offsetEnd <= |doc.text|
  {
    var name := ComponentName(ExtractPath(filePath));
    [ Edit(offsetStart, offsetEnd, "<" + name + "></" + name + ">"),
      ImportEdit(doc, name),
      Edit(|doc.text|, |doc.text|, AppendedText(name, NewText(ExtractPieces(doc, offsetStart, offsetEnd, rewrite)))) ]
  }

  /** What a successful extraction edits: the selection becomes `<Name></Name>`, the import
      goes where `ImportEdit` puts it, and the template is appended at the end. */
  predicate ExtractsTo(doc: Doc, offsetStart: nat, offsetEnd: nat, filePath: string,
                       rewrite: (string, bool) -> string, edits: seq<Edit>)
    requires offsetStart <= |doc.text| && offsetEnd <= |doc.text|
  {
    var name := ComponentName(ExtractPath(filePath));
    && |edits| == 3
    && edits[0] == Edit(offsetStart, offsetEnd, "<" + name + "></" + name + ">")
    && edits[1] == ImportEdit(doc, name)
    && edits[2] == Edit(|doc.text|, |doc.text|, AppendedText(name, NewText(ExtractPieces(doc, offsetStart, offsetEnd, rewrite))))
  }

  /** `executeExtractInfileComponentCommand` as written: for a selection the written test
      accepts, replace it by the new component's tag, import the component, and append its
      template to the document. */
  function Extract(doc: Doc, offsetStart: nat, offsetEnd: nat, filePath: string, inTag: Tag -> bool,
                   rewrite: (string, bool) -> string): (r: Result<seq<Edit>, string>)
    requires offsetStart <= |doc.text| && offsetEnd <= |doc.text|
    ensures r.Failure? <==> !ValidSelection(doc, offsetStart, offsetEnd, inTag)
    ensures r.Failure? ==> r.error == "Invalid selection range"
    ensures r.Success? ==> ExtractsTo(doc, offsetStart, offsetEnd, filePath, rewrite, r.value)
  {
    if !ValidSelection(doc, offsetStart, offsetEnd, inTag) then Failure("Invalid selection range")
    else Success(ExtractEdits(doc, offsetStart, offsetEnd, filePath, rewrite))
  }

  /** The extraction with the intended whitespace test. */
  function ExtractFixed(doc: Doc, offsetStart: nat, offsetEnd: nat, filePath: string, inTag: Tag -> bool,
                        rewrite: (string, bool) -> string): (r: Result<seq<Edit>, string>)
    requires offsetStart <= |doc.text| && offsetEnd <= |doc.text|
    ensures r.Failure? <==> !ValidSelectionFixed(doc, offsetStart, offsetEnd, inTag)
    ensures r.Failure? ==> r.error == "Invalid selection range"
    ensures r.Success? ==> ExtractsTo(doc, offsetStart, offsetEnd, filePath, rewrite, r.value)
  {
    if !ValidSelectionFixed(doc, offsetStart, offsetEnd, inTag) then Failure("Invalid selection range")
    else Success(ExtractEdits(doc, offsetStart, offsetEnd, filePath, rewrite))
  }

  /** Selecting the whole of a one-word document: the extraction as written refuses it, the
      corrected one extracts it. */
  lemma ExtractWholeWord(filePath: string, inTag: Tag -> bool, rewrite: (string, bool) -> string)
    ensures Extract(Doc("ab", None, None, None), 0, 2, filePath, inTag, rewrite) == Failure("Invalid selection range")
    ensures ExtractFixed(Doc("ab", None, None, None), 0, 2, filePath, inTag, rewrite).Success?
  {
    TouchingWhitespaceAsWrittenMisjudgesEnd();
  }

  // ---------------------------------------------------------------------------------------
  // dedent

  /** The length of the leading white space: what the pattern `^\s*` matches in `line`. */
  function IndentOf(line: string): (r: nat)
    ensures r <= |line| && AllWhitespace(line[..r])
    ensures r < |line| ==> !IsWhitespace(line[r])
  {
    var t := TrimStart(line);
    assert |t| > 0 ==> line[|line| - |t|] == t[0];
    |line| - |t|
  }

  /** `line.trim().length === 0`: the leading white space is the whole line. */
  predicate BlankLine(line: string) {
    IndentOf(line) == |line|
  }

  /** A line is blank exactly when trimming it leaves nothing. */
  lemma BlankLineTrim(line: string)
    ensures BlankLine(line) <==> |Trim(line)| == 0
  {
    var t := TrimStart(line);
    if |t| > 0 {
      assert !IsWhitespace(t[0]);
      assert |TrimEnd(t)| > 0;
    }
  }

  /** The lines whose indentation `dedent` takes the minimum of: non-blank ones, and, as
      written, only those with a positive indentation. */
  predicate Counted(line: string, positiveOnly: bool) {
    !BlankLine(line) && (!positiveOnly || IndentOf(line) > 0)
  }

  /** `r` is the smallest weight of a counted element, `None` when no element is counted. */
  predicate IsMinOf<T>(xs: seq<T>, counted: T -> bool, weight: T -> nat, r: Option<nat>) {
    && (r.None? <==> forall i :: 0 <= i < |xs| ==> !counted(xs[i]))
    && (r.Some? ==> exists i :: 0 <= i < |xs| && counted(xs[i]) && weight(xs[i]) == r.value)
    && (r.Some? ==> forall i :: 0 <= i < |xs| && counted(xs[i]) ==> r.value <= weight(xs[i]))
  }

  function CountedBy(positiveOnly: bool): string -> bool {
    line => Counted(line, positiveOnly)
  }

  /** `r` is the smallest indentation of a counted line, `None` when no line is counted. */
  predicate IsMinIndent(lines: seq<string>, positiveOnly: bool, r: Option<nat>) {
    IsMinOf(lines, CountedBy(positiveOnly), IndentOf, r)
  }

  /** `Math.min(...indentSizes)`, with `None` for the empty list (where `Math.min()` is
      `Infinity`). */
  function MinIndent(lines: seq<string>, positiveOnly: bool): (r: Option<nat>)
    ensures IsMinIndent(lines, positiveOnly, r)
  {
    if |lines| == 0 then None
    else
      var rest := MinIndent(lines[1..], positiveOnly);
      if !Counted(lines[0], positiveOnly) then
        MinOfSkip(lines, CountedBy(positiveOnly), IndentOf, rest);
        rest
      else if rest.Some? && rest.value < IndentOf(lines[0]) then
        MinOfKeep(lines, CountedBy(positiveOnly), IndentOf, rest.value);
        rest
      else
        MinOfHead(lines, CountedBy(positiveOnly), IndentOf, rest);
        Some(IndentOf(lines[0]))
  }

  lemma MinOfSkip<T>(xs: seq<T>, counted: T -> bool, weight: T -> nat, rest: Option<nat>)
    requires |xs| > 0 && IsMinOf(xs[1..], counted, weight, rest) && !counted(xs[0])
    ensures IsMinOf(xs, counted, weight, rest)
  {
    assert forall i :: 1 <= i < |xs| ==> xs[i] == xs[1..][i - 1];
    if rest.Some? {
      var k :| 0 <= k < |xs[1..]| && counted(xs[1..][k]) && weight(xs[1..][k]) == rest.value;
      assert xs[k + 1] == xs[1..][k];
    }
  }

  lemma MinOfKeep<T>(xs: seq<T>, counted: T -> bool, weight: T -> nat, m: nat)
    requires |xs| > 0 && IsMinOf(xs[1..], counted, weight, Some(m))
    requires counted(xs[0]) && m < weight(xs[0])
    ensures IsMinOf(xs, counted, weight, Some(m))
  {
    assert forall i :: 1 <= i < |xs| ==> xs[i] == xs[1..][i - 1];
    var k :| 0 <= k < |xs[1..]| && counted(xs[1..][k]) && weight(xs[1..][k]) == m;
    assert xs[k + 1] == xs[1..][k];
  }

  lemma MinOfHead<T>(xs: seq<T>, counted: T -> bool, weight: T -> nat, rest: Option<nat>)
    requires |xs| > 0 && IsMinOf(xs[1..], counted, weight, rest)
    requires counted(xs[0]) && (rest.None? || weight(xs[0]) <= rest.value)
    ensures IsMinOf(xs, counted, weight, Some(weight(xs[0])))
  {
    assert forall i :: 1 <= i < |xs| ==> xs[i] == xs[1..][i - 1];
  }

  /** `dedent` as written, line by line: every line loses as many characters as the smallest
      positive indentation; when no line is indented every line becomes empty. */
  function DedentLinesAsWritten(lines: seq<string>): (r: seq<string>)
    ensures |r| == |lines|
    ensures MinIndent(lines, true).None? ==> forall i :: 0 <= i < |r| ==> r[i] == ""
    ensures MinIndent(lines, true).Some? ==> forall i :: 0 <= i < |r| ==> r[i] == SliceFrom(lines[i], MinIndent(lines, true).value)
  {
    match MinIndent(lines, true)
    case None => seq(|lines|, _ => "")
    case Some(m) => seq(|lines|, i requires 0 <= i < |lines| => SliceFrom(lines[i], m))
  }

  function DedentAsWritten(text: string): string {
    Join(DedentLinesAsWritten(Lines(text)), "\n")
  }

  /** `r` is `line` without some of its leading white space. */
  predicate LosesLeadingWhitespace(line: string, r: string) {
    |r| <= |line| && r == line[|line| - |r|..] && AllWhitespace(line[..|line| - |r|])
  }

  /** Cutting no more than the indentation of a line, or anything from a blank line, loses
      white space only. */
  lemma SliceLine(line: string, m: nat)
    requires BlankLine(line) || m <= IndentOf(line)
    ensures LosesLeadingWhitespace(line, SliceFrom(line, m))
    ensures !BlankLine(line) ==> |line| - |SliceFrom(line, m)| == m
  {
    var r := SliceFrom(line, m);
    if m <= |line| {
      assert line[|line| - |r|..] == line[m..];
      if !BlankLine(line) {
        assert line[..m] == line[..IndentOf(line)][..m];
      } else {
        assert line[..m] == line[..IndentOf(line)][..m];
      }
    } else {
      assert line[..|line|] == line[..IndentOf(line)];
    }
  }

  /** `dedent` as evidently intended, line by line: every line loses as many characters as
      the smallest indentation of a non-blank line. */
  function DedentLines(lines: seq<string>): (r: seq<string>)
    ensures |r| == |lines|
  {
    match MinIndent(lines, false)
    case None => lines
    case Some(m) => seq(|lines|, i requires 0 <= i < |lines| => SliceFrom(lines[i], m))
  }

  /** What the intended dedent keeps: every line loses leading white space only, every
      non-blank line loses the same amount, and one of them no longer starts with white
      space. */
  lemma DedentLinesSpec(lines: seq<string>)
    ensures forall i :: 0 <= i < |lines| ==> LosesLeadingWhitespace(lines[i], DedentLines(lines)[i])
    ensures forall i, j :: 0 <= i < |lines| && 0 <= j < |lines| && !BlankLine(lines[i]) && !BlankLine(lines[j]) ==>
              |lines[i]| - |DedentLines(lines)[i]| == |lines[j]| - |DedentLines(lines)[j]|
    ensures (exists i :: 0 <= i < |lines| && !BlankLine(lines[i])) ==>
              exists i :: 0 <= i < |lines| && !BlankLine(lines[i]) && |DedentLines(lines)[i]| > 0 && !IsWhitespace(DedentLines(lines)[i][0])
  {
    var r := DedentLines(lines);
    match MinIndent(lines, false)
    case None =>
      forall i | 0 <= i < |lines| ensures LosesLeadingWhitespace(lines[i], r[i]) {
        assert lines[i][|lines[i]|..] == [];
      }
    case Some(m) =>
      forall i | 0 <= i < |lines|
        ensures LosesLeadingWhitespace(lines[i], r[i])
        ensures !BlankLine(lines[i]) ==> |lines[i]| - |r[i]| == m
      {
        SliceLine(lines[i], m);
      }
      var k :| 0 <= k < |lines| && Counted(lines[k], false) && IndentOf(lines[k]) == m;
      assert r[k][0] == lines[k][m];
  }

  function Dedent(text: string): string {
    Join(DedentLines(Lines(text)), "\n")
  }

  /** The text of the new file when a component is moved: `dedent(innerText).trim()`, with
      `dedent` as written. */
  function MovedText(innerText: string): string {
    Trim(DedentAsWritten(innerText))
  }

  /** The same with the intended dedent. */
  function MovedTextFixed(innerText: string): string {
    Trim(Dedent(innerText))
  }

  /** The `dedent` as written loses text: below a line at the margin, a line indented by two
      makes it cut the first two characters of the margin line (`"ab\n  c"` becomes
      `"\nc"`), and a text with no indented line comes out with every line empty. The
      intended dedent leaves both texts alone. */
  lemma DedentAsWrittenLosesText(x: string, y: string)
    requires |x| >= 2 && !IsWhitespace(x[0]) && '\n' !in x
    requires |y| > 0 && !IsWhitespace(y[0]) && '\n' !in y
    ensures DedentAsWritten(x + "\n  " + y) == x[2..] + "\n" + y
    ensures Dedent(x + "\n  " + y) == x + "\n  " + y
    ensures DedentAsWritten(x) == "" && Dedent(x) == x
  {
    TwoLines(x, y);
    TwoLineIndents(x, y);
    TwoLinesAsWritten(x, y);
    TwoLinesFixed(x, y);
    OneLine(x);
  }

  lemma TwoLineIndents(x: string, y: string)
    requires |x| > 0 && !IsWhitespace(x[0]) && |y| > 0 && !IsWhitespace(y[0])
    ensures IndentOf(x) == 0 && IndentOf("  " + y) == 2 && !BlankLine(x) && !BlankLine("  " + y)
  {
    IndentZero(x);
    IndentZero(y);
    IndentSpace(y);
    IndentSpace(" " + y);
    assert " " + (" " + y) == "  " + y;
  }

  lemma TwoLinesAsWritten(x: string, y: string)
    requires |x| >= 2 && IndentOf(x) == 0 && IndentOf("  " + y) == 2 && !BlankLine(x) && !BlankLine("  " + y)
    requires Lines(x + "\n  " + y) == [x, "  " + y]
    ensures DedentAsWritten(x + "\n  " + y) == x[2..] + "\n" + y
  {
    var ls := [x, "  " + y];
    TwoLineMinIndents(x, "  " + y);
    DedentTwoAsWritten(x, "  " + y);
    assert ("  " + y)[2..] == y;
    JoinTwo(x[2..], y, "\n");
  }

  lemma TwoLinesFixed(x: string, y: string)
    requires IndentOf(x) == 0 && IndentOf("  " + y) == 2 && !BlankLine(x) && !BlankLine("  " + y)
    requires Lines(x + "\n  " + y) == [x, "  " + y]
    requires Join([x, "  " + y], "\n") == x + "\n  " + y
    ensures Dedent(x + "\n  " + y) == x + "\n  " + y
  {
    TwoLineMinIndents(x, "  " + y);
    DedentZero([x, "  " + y]);
  }

  /** Two non-blank lines, at the margin and indented by two. */
  lemma TwoLineMinIndents(a: string, b: string)
    requires IndentOf(a) == 0 && IndentOf(b) == 2 && !BlankLine(a) && !BlankLine(b)
    ensures MinIndent([a, b], true) == Some(2) && MinIndent([a, b], false) == Some(0)
  {
    var ls := [a, b];
    assert ls[1..] == [b] && ls[1..][1..] == [];
    assert Counted(b, true) && Counted(b, false) && Counted(a, false) && !Counted(a, true);
  }

  lemma DedentTwoAsWritten(a: string, b: string)
    requires |a| >= 2 && |b| >= 2 && MinIndent([a, b], true) == Some(2)
    ensures DedentLinesAsWritten([a, b]) == [a[2..], b[2..]]
  {
  }

  lemma JoinTwo(a: string, b: string, sep: string)
    ensures Join([a, b], sep) == a + sep + b
  {
    assert [a, b][1..] == [b];
  }

  /** When some non-blank line is at the margin, the intended dedent changes nothing. */
  lemma DedentZero(lines: seq<string>)
    requires MinIndent(lines, false) == Some(0)
    ensures DedentLines(lines) == lines
  {
    forall i | 0 <= i < |lines| ensures DedentLines(lines)[i] == lines[i] {
      assert lines[i][0..] == lines[i];
    }
  }

  lemma OneLine(x: string)
    requires |x| > 0 && !IsWhitespace(x[0]) && '\n' !in x
    ensures DedentAsWritten(x) == "" && Dedent(x) == x
  {
    SplitJoin([x], '\n');
    IndentZero(x);
    assert MinIndent([x], true) == None;
    assert MinIndent([x], false) == Some(0) by {
      assert Counted([x][0], false);
    }
    assert DedentLinesAsWritten([x]) == [""];
    assert DedentLines([x]) == [x];
  }

  lemma TwoLines(x: string, y: string)
    requires '\n' !in x && '\n' !in y
    ensures Lines(x + "\n  " + y) == [x, "  " + y]
    ensures Join([x, "  " + y], "\n") == x + "\n  " + y
  {
    assert '\n' !in "  " + y by {
      forall j | 0 <= j < |"  " + y| ensures ("  " + y)[j] != '\n' {
        if j >= 2 { assert ("  " + y)[j] == y[j - 2]; }
      }
    }
    SplitJoin([x, "  " + y], '\n');
    assert Join([x, "  " + y], "\n") == x + "\n  " + y;
  }

  /** A line starting with other than white space has no indentation. */
  lemma IndentZero(s: string)
    requires |s| > 0 && !IsWhitespace(s[0])
    ensures IndentOf(s) == 0
  {
  }

  /** A space in front adds one to the indentation. */
  lemma IndentSpace(s: string)
    ensures IndentOf(" " + s) == 1 + IndentOf(s)
  {
    assert (" " + s)[1..] == s;
  }
  // ---------------------------------------------------------------------------------------
  // extract, then move: the moved file holds the extracted text

  /** Moving a component out again gives back what was extracted into it: dedenting, with
      `dedent` as written, and trimming the template body that extraction wrote yields the
      trimmed extracted text. Every body line is indented by at least two and the first by
      exactly two, so the smallest positive indentation is the smallest indentation. */
  lemma ExtractThenMove(newText: string)
    ensures MovedText(TemplateInner(newText)) == Trim(newText)
  {
    ExtractThenMoveBoth(newText);
  }

  /** The same with the intended dedent. */
  lemma ExtractThenMoveFixed(newText: string)
    ensures MovedTextFixed(TemplateInner(newText)) == Trim(newText)
  {
    ExtractThenMoveBoth(newText);
  }

  lemma ExtractThenMoveBoth(newText: string)
    ensures MovedText(TemplateInner(newText)) == Trim(newText)
    ensures MovedTextFixed(TemplateInner(newText)) == Trim(newText)
  {
    var t := Trim(newText);
    var ls := Lines(t);
    assert "\n" == ['\n'];
    SplitOnFree(t, '\n');
    WrappedLines(ls);
    JoinSplitAll(t, "\n");
    TrimEnds(newText);
    if |t| == 0 {
      assert ls == [""];
      MovedEmpty(ls);
    } else {
      FirstLine(t);
      MovedNonEmpty(t, ls);
    }
  }

  /** An empty body comes back as white space only, which trims to nothing. */
  lemma MovedEmpty(ls: seq<string>)
    requires ls == [""]
    ensures Trim(Join(DedentLinesAsWritten([""] + Indent(ls) + [""]), "\n")) == ""
    ensures Trim(Join(DedentLines([""] + Indent(ls) + [""]), "\n")) == ""
  {
    assert Indent(ls) == ["  "] by {
      assert |Indent(ls)| == 1 && Indent(ls)[0] == "  " + ls[0];
      assert "  " + ls[0] == "  ";
    }
    assert [""] + Indent(ls) + [""] == ["", "  ", ""];
    EmptyBodyAsWritten();
    EmptyBodyFixed();
  }

  /** The lines of an empty body: none of them counts for either dedent. */
  lemma EmptyBodyLines(parts: seq<string>)
    requires parts == ["", "  ", ""]
    ensures forall i :: 0 <= i < |parts| ==> !Counted(parts[i], false) && !Counted(parts[i], true)
  {
    forall i | 0 <= i < |parts| ensures !Counted(parts[i], false) && !Counted(parts[i], true) {
      assert AllWhitespace(parts[i]);
    }
  }

  lemma EmptyBodyAsWritten()
    ensures Trim(Join(DedentLinesAsWritten(["", "  ", ""]), "\n")) == ""
  {
    var parts := ["", "  ", ""];
    EmptyBodyLines(parts);
    var e := ["", "", ""];
    assert DedentLinesAsWritten(parts) == e;
    assert e[1..] == ["", ""] && e[1..][1..] == [""];
    assert Join(e, "\n") == "\n\n";
    AllWhitespaceTrim("\n\n");
  }

  lemma EmptyBodyFixed()
    ensures Trim(Join(DedentLines(["", "  ", ""]), "\n")) == ""
  {
    var parts := ["", "  ", ""];
    EmptyBodyLines(parts);
    assert DedentLines(parts) == parts;
    assert parts[1..] == ["  ", ""] && parts[1..][1..] == [""];
    assert Join(parts[1..], "\n") == "  " + "\n" + "";
    assert Join(parts, "\n") == "\n  \n";
    AllWhitespaceTrim("\n  \n");
  }

  /** A body starting and ending with other than white space comes back unchanged. */
  lemma MovedNonEmpty(t: string, ls: seq<string>)
    requires |t| > 0 && !IsWhitespace(t[0]) && !IsWhitespace(t[|t| - 1])
    requires |ls| > 0 && |ls[0]| > 0 && ls[0][0] == t[0] && Join(ls, "\n") == t
    ensures Trim(Join(DedentLinesAsWritten([""] + Indent(ls) + [""]), "\n")) == t
    ensures Trim(Join(DedentLines([""] + Indent(ls) + [""]), "\n")) == t
  {
    DedentIndented(ls);
    JoinWrapped(ls, "\n");
    TrimWrapped(t);
  }

  /** `s.trim()` neither starts nor ends with white space. */
  lemma TrimEnds(s: string)
    ensures var t := Trim(s); |t| > 0 ==> !IsWhitespace(t[0]) && !IsWhitespace(t[|t| - 1])
  {
    var u := TrimStart(s);
    var t := TrimEnd(u);
    if |t| > 0 {
      assert t[0] == u[0];
    }
  }

  /** Trimming white space only leaves nothing. */
  lemma AllWhitespaceTrim(s: string)
    requires AllWhitespace(s)
    ensures Trim(s) == ""
  {
  }

  /** A text on lines of its own between two line breaks comes back trimmed. */
  lemma TrimWrapped(t: string)
    requires |t| > 0 && !IsWhitespace(t[0]) && !IsWhitespace(t[|t| - 1])
    ensures Trim("\n" + t + "\n") == t
  {
    var s := "\n" + t + "\n";
    assert s[1..] == t + "\n";
    assert TrimStart(s) == TrimStart(t + "\n") == t + "\n";
    assert (t + "\n")[..|t|] == t;
  }

  /** The first line of a text that does not start with a line break starts like the text. */
  lemma FirstLine(t: string)
    requires |t| > 0 && t[0] != '\n'
    ensures |Lines(t)[0]| > 0 && Lines(t)[0][0] == t[0]
  {
    assert !OccursAt(t, "\n", 0) by {
      assert t[0..1] == [t[0]];
    }
  }

  /** A space in front of each of two characters: the indentation grows by two and blankness
      stays. */
  lemma IndentTwo(s: string)
    ensures IndentOf("  " + s) == 2 + IndentOf(s)
    ensures BlankLine("  " + s) <==> BlankLine(s)
  {
    IndentDouble(s);
  }

  lemma IndentDouble(s: string)
    ensures IndentOf("  " + s) == 2 + IndentOf(s)
  {
    var a := " " + s;
    assert "  " + s == " " + a;
    TrimStartSpace(a);
    TrimStartSpace(s);
  }

  lemma TrimStartSpace(s: string)
    ensures TrimStart(" " + s) == TrimStart(s)
  {
    assert (" " + s)[1..] == s;
  }

  /** Lines without line breaks, indented and put between two line breaks, split back into
      the indented lines with an empty line at each end. */
  lemma WrappedLines(ls: seq<string>)
    requires |ls| > 0 && forall i :: 0 <= i < |ls| ==> '\n' !in ls[i]
    ensures Lines("\n" + Join(Indent(ls), "\n") + "\n") == [""] + Indent(ls) + [""]
  {
    var ind := Indent(ls);
    forall i | 0 <= i < |ind| ensures '\n' !in ind[i] {
      forall j | 0 <= j < |ind[i]| ensures ind[i][j] != '\n' {
        if j >= 2 { assert ind[i][j] == ls[i][j - 2]; }
      }
    }
    JoinWrapped(ind, "\n");
    SplitJoin([""] + ind + [""], '\n');
  }

  /** Joining lines with an empty line at each end puts a separator at each end. */
  lemma JoinWrapped(ls: seq<string>, sep: string)
    requires |ls| > 0
    ensures Join([""] + ls + [""], sep) == sep + Join(ls, sep) + sep
  {
    var e: string := [];
    assert Join([e], sep) == e;
    JoinAppend([e], ls, sep);
    JoinAppend([e] + ls, [e], sep);
    assert [e] + ls + [e] == [""] + ls + [""];
  }

  /** When the first line is at the margin and not blank, the indented lines between two empty
      ones dedent back to the lines themselves. */
  lemma DedentIndented(ls: seq<string>)
    requires |ls| > 0 && |ls[0]| > 0 && !IsWhitespace(ls[0][0])
    ensures DedentLines([""] + Indent(ls) + [""]) == [""] + ls + [""]
    ensures DedentLinesAsWritten([""] + Indent(ls) + [""]) == [""] + ls + [""]
  {
    IndentedMin(ls);
    DedentLinesAt([""] + Indent(ls) + [""], 2);
    UnindentAll(ls, DedentLines([""] + Indent(ls) + [""]));
    UnindentAll(ls, DedentLinesAsWritten([""] + Indent(ls) + [""]));
  }

  /** Lines that each lose their first two characters give the lines before indenting. */
  lemma UnindentAll(ls: seq<string>, d: seq<string>)
    requires |d| == |ls| + 2
    requires forall i :: 0 <= i < |d| ==> d[i] == SliceFrom(([""] + Indent(ls) + [""])[i], 2)
    ensures d == [""] + ls + [""]
  {
    var want := [""] + ls + [""];
    forall i | 0 <= i < |d| ensures d[i] == want[i] {
      UnindentAt(ls, i);
    }
  }

  /** With `m` the smallest indentation, every line loses its first `m` characters. */
  lemma DedentLinesAt(lines: seq<string>, m: nat)
    requires MinIndent(lines, false) == Some(m)
    ensures forall i :: 0 <= i < |lines| ==> DedentLines(lines)[i] == SliceFrom(lines[i], m)
  {
  }

  /** Taking two characters off an indented line gives the line back; an empty line stays
      empty. */
  lemma UnindentAt(ls: seq<string>, i: nat)
    requires i < |ls| + 2
    ensures SliceFrom(([""] + Indent(ls) + [""])[i], 2) == ([""] + ls + [""])[i]
  {
    var parts := [""] + Indent(ls) + [""];
    if 0 < i < |parts| - 1 {
      assert parts[i] == "  " + ls[i - 1];
      assert ("  " + ls[i - 1])[2..] == ls[i - 1];
    }
  }

  /** Indenting by two lines whose first is at the margin and not blank makes two the smallest
      indentation, whatever empty lines surround them. */
  lemma IndentedMin(ls: seq<string>)
    requires |ls| > 0 && |ls[0]| > 0 && !IsWhitespace(ls[0][0])
    ensures MinIndent([""] + Indent(ls) + [""], false) == Some(2)
    ensures MinIndent([""] + Indent(ls) + [""], true) == Some(2)
  {
    IndentedMinBy(ls, false);
    IndentedMinBy(ls, true);
  }

  lemma IndentedMinBy(ls: seq<string>, positiveOnly: bool)
    requires |ls| > 0 && |ls[0]| > 0 && !IsWhitespace(ls[0][0])
    ensures MinIndent([""] + Indent(ls) + [""], positiveOnly) == Some(2)
  {
    var parts := [""] + Indent(ls) + [""];
    forall i | 0 <= i < |ls|
      ensures IndentOf(parts[i + 1]) == 2 + IndentOf(ls[i])
      ensures BlankLine(parts[i + 1]) <==> BlankLine(ls[i])
    {
      assert parts[i + 1] == "  " + ls[i];
      IndentTwo(ls[i]);
    }
    IndentZero(ls[0]);
    assert Counted(parts[1], positiveOnly);
    var m := MinIndent(parts, positiveOnly);
    assert m.Some? && m.value <= 2;
    var k :| 0 <= k < |parts| && Counted(parts[k], positiveOnly) && IndentOf(parts[k]) == m.value;
    assert 0 < k < |parts| - 1;
    assert IndentOf(parts[k]) == 2 + IndentOf(ls[k - 1]);
  }
}

=== FILE: segment_helpers.dfy ===
/** `segment_helpers.ts` of the vite plugin: three ways of finding a named segment in a file's
    text. The first two are older, split-based scans; the third goes through the splitter. */
module SegmentHelpers {
  import opened Wrappers
  import opened JsString
  import opened ParseUtils
  import opened Markers
  import opened Splitter

  // ---------------------------------------------------------------------------------------
  // findVirtualSegmentTuples

  /** The tuple of one piece: the first line of the trimmed piece without a leading `name=`,
      and the trimmed piece rejoined from its lines. */
  function TupleOf(part: string): (string, string) {
    var lines := Lines(Trim(part));
    (StripPrefix(lines[0], "name="), Join(lines, "\n"))
  }

  /** `findVirtualSegmentTuples(content)`: one tuple per piece after the first, when the
      content is split on `"\n---\n"`. */
  function FindVirtualSegmentTuples(content: string): (r: seq<(string, string)>)
    ensures |r| == |SplitOn(content, Separator)| - 1
  {
    var pieces := SplitOn(content, Separator);
    seq(|pieces| - 1, k requires 0 <= k < |pieces| - 1 => TupleOf(pieces[k + 1]))
  }

  /** The first piece of a split on a one-character separator is the text up to the first
      occurrence of that character. */
  lemma FirstPiece(s: string, c: char)
    ensures SplitOn(s, [c])[0] == TakeUntil(s, c)
  {
    var t := TakeUntil(s, c);
    match IndexOf(s, [c])
    case None =>
      if |t| < |s| {
        assert OccursAt(s, [c], |t|) by { assert s[|t|..|t| + 1] == [c]; }
      }
    case Some(i) =>
      assert s[i] == c by { assert s[i..i + 1] == [c]; }
      if |t| < i {
        assert OccursAt(s, [c], |t|) by { assert s[|t|..|t| + 1] == [c]; }
      }
      assert s[..i] == t;
  }

  /** Each tuple's code is the trimmed piece, and its name is the piece's first line without
      a leading `name=`. */
  lemma TupleOfSpec(part: string)
    ensures TupleOf(part).1 == Trim(part)
    ensures TupleOf(part).0 == StripPrefix(TakeUntil(Trim(part), '\n'), "name=")
  {
    JoinSplitAll(Trim(part), "\n");
    FirstPiece(Trim(part), '\n');
  }

  /** A piece written as `name=X` on its first line names its tuple `X`. */
  lemma TupleOfNamed(x: string, code: string)
    requires '\n' !in x
    requires |code| > 0 && !IsWhitespace(code[|code| - 1])
    ensures TupleOf("name=" + x + "\n" + code) == (x, "name=" + x + "\n" + code)
  {
    var a := "name=" + x;
    var part := a + "\n" + code;
    assert '\n' !in a by {
      forall j | 0 <= j < |a| ensures a[j] != '\n' {
        if j >= 5 { assert a[j] == x[j - 5]; }
      }
    }
    assert part[0] == 'n' && part[|part| - 1] == code[|code| - 1];
    TrimIdentity(part);
    TupleOfSpec(part);
    FirstPieceOf(a, code);
    StripNamePrefix(x);
  }

  lemma StripNamePrefix(x: string)
    ensures StripPrefix("name=" + x, "name=") == x
  {
    assert ("name=" + x)[..5] == "name=";
  }

  lemma FirstPieceOf(a: string, b: string)
    requires '\n' !in a
    ensures TakeUntil(a + "\n" + b, '\n') == a
  {
    var s := a + "\n" + b;
    var t := TakeUntil(s, '\n');
    assert s[|a|] == '\n';
    assert s[..|a|] == a;
  }

  // ---------------------------------------------------------------------------------------
  // _findVirtualSegmentFromFileContent1

  /** The first index from `k` on that is not `\w`. */
  function SkipWord(s: string, k: nat): (r: nat)
    requires k <= |s|
    decreases |s| - k
    ensures k <= r <= |s|
    ensures forall j :: k <= j < r ==> IsWordChar(s[j])
    ensures r < |s| ==> !IsWordChar(s[r])
  {
    if k < |s| && IsWordChar(s[k]) then SkipWord(s, k + 1) else k
  }

  /** A match of `/name\s*=\s*(\w+)/`: where it starts and ends, and the captured name. The
      greedy `\s*` never gives back a character, because neither `=` nor `\w` is white
      space, so the match is decided without backtracking. */
  datatype Assignment = Assignment(index: nat, end: nat, name: string)

  function AssignmentAt(s: string, i: nat): (r: Option<Assignment>)
    ensures r.Some? ==> r.value.index == i && i + 4 < r.value.end <= |s|
    ensures r.Some? ==> |r.value.name| > 0 && i + 5 + |r.value.name| <= r.value.end
    ensures r.Some? ==> s[r.value.end - |r.value.name|..r.value.end] == r.value.name
    ensures r.Some? ==> forall j :: 0 <= j < |r.value.name| ==> IsWordChar(r.value.name[j])
  {
    if !OccursAt(s, "name", i) then None
    else
      var j := SkipWhitespace(s, i + 4);
      if j == |s| || s[j] != '=' then None
      else
        var k := SkipWhitespace(s, j + 1);
        var w := SkipWord(s, k);
        if w == k then None else Some(Assignment(i, w, s[k..w]))
  }

  /** `s.match(/name\s*=\s*(\w+)/)`: the leftmost match from `k` on. */
  function AssignmentFrom(s: string, k: nat): (r: Option<Assignment>)
    requires k <= |s|
    decreases |s| - k
    ensures r.Some? ==> k <= r.value.index && AssignmentAt(s, r.value.index) == r
    ensures r.Some? ==> forall j :: k <= j < r.value.index ==> AssignmentAt(s, j).None?
    ensures r.None? ==> forall j :: k <= j <= |s| ==> AssignmentAt(s, j).None?
  {
    var here := AssignmentAt(s, k);
    if here.Some? then here
    else if k == |s| then None
    else
      var r := AssignmentFrom(s, k + 1);
      NoAssignmentBelow(s, k, r);
      r
  }

  /** None at `k` and none from `k + 1` up to `r`: none from `k` up to `r`. */
  lemma NoAssignmentBelow(s: string, k: nat, r: Option<Assignment>)
    requires k < |s| && AssignmentAt(s, k).None?
    requires r.Some? ==> k + 1 <= r.value.index && forall j :: k + 1 <= j < r.value.index ==> AssignmentAt(s, j).None?
    requires r.None? ==> forall j :: k + 1 <= j <= |s| ==> AssignmentAt(s, j).None?
    ensures r.Some? ==> forall j :: k <= j < r.value.index ==> AssignmentAt(s, j).None?
    ensures r.None? ==> forall j :: k <= j <= |s| ==> AssignmentAt(s, j).None?
  {
  }

  /** The name one `---` chunk declares, if any. */
  function ChunkName(chunk: string): Option<string> {
    match AssignmentFrom(chunk, 0)
    case None => None
    case Some(a) => Some(a.name)
  }

  /** The chunk with its declaration removed (`segment.replace(nameMatch[0], '').trim()`). */
  function ExportedCode(chunk: string, a: Assignment): string
    requires a.index < a.end <= |chunk|
  {
    Trim(ReplaceFirst(chunk, chunk[a.index..a.end], ""))
  }

  /** Some chunk declares the name. */
  predicate SomeChunkNames(chunks: seq<string>, virtualName: string) {
    exists k :: 0 <= k < |chunks| && ChunkName(chunks[k]) == Some(virtualName)
  }

  /** Some chunk declares the name exactly when the first does or a later one does. */
  lemma SomeChunkNamesCons(chunks: seq<string>, virtualName: string)
    requires |chunks| > 0
    ensures SomeChunkNames(chunks, virtualName)
            <==> ChunkName(chunks[0]) == Some(virtualName) || SomeChunkNames(chunks[1..], virtualName)
  {
    if SomeChunkNames(chunks, virtualName) && ChunkName(chunks[0]) != Some(virtualName) {
      var k :| 0 <= k < |chunks| && ChunkName(chunks[k]) == Some(virtualName);
      assert chunks[1..][k - 1] == chunks[k];
    }
    if SomeChunkNames(chunks[1..], virtualName) {
      var k :| 0 <= k < |chunks[1..]| && ChunkName(chunks[1..][k]) == Some(virtualName);
      assert chunks[k + 1] == chunks[1..][k];
    }
  }

  /** The loop of `_findVirtualSegmentFromFileContent1` over the trimmed chunks. */
  function FindInChunks(chunks: seq<string>, virtualName: string): (r: Option<(string, string)>)
    ensures r.Some? ==> r.value.0 == virtualName
    ensures r.Some? <==> SomeChunkNames(chunks, virtualName)
  {
    if |chunks| == 0 then None
    else
      SomeChunkNamesCons(chunks, virtualName);
      match AssignmentFrom(chunks[0], 0)
      case Some(a) =>
        if a.name == virtualName then Some((a.name, ExportedCode(chunks[0], a)))
        else FindInChunks(chunks[1..], virtualName)
      case None => FindInChunks(chunks[1..], virtualName)
  }

  /** The trimmed chunks of `content.split('---')`. */
  function Chunks(content: string): (r: seq<string>)
    ensures |r| == |SplitOn(content, "---")|
    ensures forall k :: 0 <= k < |r| ==> r[k] == Trim(SplitOn(content, "---")[k])
  {
    var parts := SplitOn(content, "---");
    seq(|parts|, k requires 0 <= k < |parts| => Trim(parts[k]))
  }

  /** `_findVirtualSegmentFromFileContent1(content, virtualName)`; `None` is
      `{ name: null, exportedCode: null }`. */
  function FindVirtualSegmentFromFileContent1(content: string, virtualName: string): (r: Option<(string, string)>)
    ensures r.Some? ==> r.value.0 == virtualName
    ensures r.Some? <==> exists k :: 0 <= k < |Chunks(content)| && ChunkName(Chunks(content)[k]) == Some(virtualName)
  {
    FindInChunks(Chunks(content), virtualName)
  }

  /** The code returned is that of the FIRST chunk declaring the name, with the declaration
      cut out where it was matched. */
  lemma {:induction false} FindInChunksFirst(chunks: seq<string>, virtualName: string, k: nat)
    requires k < |chunks| && ChunkName(chunks[k]) == Some(virtualName)
    requires forall j :: 0 <= j < k ==> ChunkName(chunks[j]) != Some(virtualName)
    ensures var a := AssignmentFrom(chunks[k], 0).value;
            FindInChunks(chunks, virtualName)
              == Some((virtualName, Trim(chunks[k][..a.index] + chunks[k][a.end..])))
    decreases k
  {
    if k == 0 {
      FindInChunksHere(chunks, virtualName, AssignmentFrom(chunks[0], 0).value);
    } else {
      FindInChunksSkip(chunks, virtualName);
      var tail := chunks[1..];
      forall j | 0 <= j < k - 1 ensures ChunkName(tail[j]) != Some(virtualName) {
        assert tail[j] == chunks[j + 1];
      }
      assert tail[k - 1] == chunks[k];
      FindInChunksFirst(tail, virtualName, k - 1);
    }
  }

  lemma FindInChunksHere(chunks: seq<string>, virtualName: string, a: Assignment)
    requires |chunks| > 0 && AssignmentFrom(chunks[0], 0) == Some(a) && a.name == virtualName
    ensures FindInChunks(chunks, virtualName)
              == Some((virtualName, Trim(chunks[0][..a.index] + chunks[0][a.end..])))
  {
    ReplaceAtMatch(chunks[0], a);
  }

  lemma FindInChunksSkip(chunks: seq<string>, virtualName: string)
    requires |chunks| > 0 && ChunkName(chunks[0]) != Some(virtualName)
    ensures FindInChunks(chunks, virtualName) == FindInChunks(chunks[1..], virtualName)
  {
  }

  /** The matched text occurs nowhere before the match: an earlier copy of it would itself be
      a match, against leftmost matching. So `replace` cuts the declaration out where the
      regular expression found it. */
  lemma ReplaceAtMatch(s: string, a: Assignment)
    requires AssignmentFrom(s, 0) == Some(a)
    ensures ReplaceFirst(s, s[a.index..a.end], "") == s[..a.index] + s[a.end..]
  {
    var t := s[a.index..a.end];
    forall j | 0 <= j < a.index ensures !OccursAt(s, t, j) {
      NoCopyBefore(s, a, j);
    }
    assert OccursAt(s, t, a.index);
    FirstOccurrence(s, t, a.index);
    ReplaceFirstAt(s, t, a.index);
  }

  /** No copy of the match starts before it: that copy would be an earlier match. */
  lemma NoCopyBefore(s: string, a: Assignment, j: nat)
    requires AssignmentFrom(s, 0) == Some(a) && j < a.index
    ensures !OccursAt(s, s[a.index..a.end], j)
  {
    if OccursAt(s, s[a.index..a.end], j) {
      CopyMatches(s, a, j);
      assert false;
    }
  }

  lemma FirstOccurrence(s: string, t: string, i: nat)
    requires OccursAt(s, t, i) && forall j :: 0 <= j < i ==> !OccursAt(s, t, j)
    ensures IndexOf(s, t) == Some(i)
  {
  }

  lemma ReplaceFirstAt(s: string, t: string, i: nat)
    requires IndexOf(s, t) == Some(i)
    ensures i + |t| <= |s| && ReplaceFirst(s, t, "") == s[..i] + s[i + |t|..]
  {
  }

  /** Two equal stretches of `s`, of length `n`, from `x` and from `y`. */
  predicate Copied(s: string, x: nat, y: nat, n: nat) {
    x + n <= |s| && y + n <= |s| && s[x..x + n] == s[y..y + n]
  }

  /** Skipping white space inside a copied stretch stops at the same relative place. */
  lemma SkipWhitespaceCopied(s: string, x: nat, y: nat, n: nat, a: nat, b: nat, r: nat)
    requires Copied(s, x, y, n) && x <= a <= x + n && b - y == a - x
    requires r == SkipWhitespace(s, a) && r < x + n
    ensures SkipWhitespace(s, b) == y + (r - x)
  {
    var q := y + (r - x);
    forall t | b <= t < q
      ensures IsWhitespace(s[t])
    {
      assert s[t] == s[y..y + n][t - y] == s[x..x + n][t - y] == s[x + (t - y)];
    }
    assert s[q] == s[y..y + n][r - x] == s[x..x + n][r - x] == s[r];
  }

  /** What a match at `i` is made of: `name`, white space, `=`, white space, a word
      character. */
  predicate AssignmentShape(s: string, i: nat, eq: nat, k: nat) {
    && OccursAt(s, "name", i) && eq == SkipWhitespace(s, i + 4)
    && eq < |s| && s[eq] == '='
    && k == SkipWhitespace(s, eq + 1) && k < |s| && IsWordChar(s[k])
  }

  lemma AssignmentAtShape(s: string, a: Assignment) returns (eq: nat, k: nat)
    requires AssignmentAt(s, a.index) == Some(a)
    ensures AssignmentShape(s, a.index, eq, k) && k < a.end
  {
    eq := SkipWhitespace(s, a.index + 4);
    k := SkipWhitespace(s, eq + 1);
  }

  lemma ShapeAssignmentAt(s: string, i: nat, eq: nat, k: nat)
    requires AssignmentShape(s, i, eq, k)
    ensures AssignmentAt(s, i).Some?
  {
  }

  /** A copy of a match's text, wherever it occurs, is a match. */
  lemma CopyMatches(s: string, a: Assignment, j: nat)
    requires AssignmentAt(s, a.index) == Some(a)
    requires OccursAt(s, s[a.index..a.end], j)
    ensures AssignmentAt(s, j).Some?
  {
    var i := a.index;
    var n := a.end - i;
    var eq, k := AssignmentAtShape(s, a);
    OccurrenceCopied(s, i, j, n);
    CopiedShape(s, i, j, n, eq, k);
  }

  lemma OccurrenceCopied(s: string, i: nat, j: nat, n: nat)
    requires i + n <= |s| && OccursAt(s, s[i..i + n], j)
    ensures Copied(s, i, j, n)
  {
  }

  lemma CopiedShape(s: string, i: nat, j: nat, n: nat, eq: nat, k: nat)
    requires Copied(s, i, j, n) && AssignmentShape(s, i, eq, k) && k < i + n
    ensures AssignmentAt(s, j).Some?
  {
    var eq2 := j + (eq - i);
    var k2 := j + (k - i);
    CopiedName(s, i, j, n);
    CopiedEquals(s, i, j, n, eq, eq2);
    CopiedWord(s, i, j, n, eq + 1, eq2 + 1, k, k2);
    ShapeAssignmentAt(s, j, eq2, k2);
  }

  /** The copy has its `=` at the same relative place. */
  lemma CopiedEquals(s: string, i: nat, j: nat, n: nat, eq: nat, eq2: nat)
    requires Copied(s, i, j, n) && i + 4 <= eq < i + n && eq2 - j == eq - i
    requires eq == SkipWhitespace(s, i + 4) && s[eq] == '='
    ensures SkipWhitespace(s, j + 4) == eq2 && s[eq2] == '='
  {
    SkipWhitespaceCopied(s, i, j, n, i + 4, j + 4, eq);
    CopiedChar(s, i, j, n, eq, eq2);
  }

  /** The copy has its first word character after white space at the same relative place. */
  lemma CopiedWord(s: string, i: nat, j: nat, n: nat, e: nat, e2: nat, k: nat, k2: nat)
    requires Copied(s, i, j, n) && i <= e <= k < i + n && e2 - j == e - i && k2 - j == k - i
    requires k == SkipWhitespace(s, e) && IsWordChar(s[k])
    ensures SkipWhitespace(s, e2) == k2 && IsWordChar(s[k2])
  {
    SkipWhitespaceCopied(s, i, j, n, e, e2, k);
    CopiedChar(s, i, j, n, k, k2);
  }

  lemma CopiedChar(s: string, x: nat, y: nat, n: nat, a: nat, b: nat)
    requires Copied(s, x, y, n) && x <= a < x + n && b - y == a - x
    ensures s[b] == s[a]
  {
    assert s[b] == s[y..y + n][a - x];
    assert s[a] == s[x..x + n][a - x];
  }

  lemma CopiedName(s: string, x: nat, y: nat, n: nat)
    requires Copied(s, x, y, n) && 4 <= n && OccursAt(s, "name", x)
    ensures OccursAt(s, "name", y)
  {
    assert s[y..y + 4] == s[y..y + n][..4] == s[x..x + n][..4] == s[x..x + 4];
  }

  // ---------------------------------------------------------------------------------------
  // findVirtualSegmentFromFileContent

  /** The first segment named `virtualName`. */
  function FirstNamed(segs: seq<Segment>, virtualName: string): (r: Option<nat>)
    ensures r.Some? ==> r.value < |segs| && segs[r.value].name == Some(virtualName)
    ensures r.Some? ==> forall j :: 0 <= j < r.value ==> segs[j].name != Some(virtualName)
    ensures r.None? ==> forall j :: 0 <= j < |segs| ==> segs[j].name != Some(virtualName)
  {
    if |segs| == 0 then None
    else if segs[0].name == Some(virtualName) then Some(0)
    else match FirstNamed(segs[1..], virtualName)
      case None => None
      case Some(k) => Some(k + 1)
  }

  /** `findVirtualSegmentFromFileContent(fullContent, virtualName)`: split the file, then
      return the name and text of the first segment after the main one that carries the name.
      A `ParseError` of the splitter escapes. */
  function FindVirtualSegmentFromFileContent(m: MarkerSyntax, p: Parsers, fullContent: string,
                                             virtualName: string): (r: Result<Option<(string, string)>, Exception>)
    ensures r.Success? <==> SplitSegments(m, p, fullContent).Success?
    ensures r.Success? && r.value.Some? ==>
              var segs := SplitSegments(m, p, fullContent).value.1;
              exists k :: 1 <= k < |segs| && segs[k].name == Some(virtualName) && r.value.value == (virtualName, segs[k].text)
                          && forall j :: 1 <= j < k ==> segs[j].name != Some(virtualName)
    ensures r.Success? && r.value.None? ==>
              var segs := SplitSegments(m, p, fullContent).value.1;
              forall k :: 1 <= k < |segs| ==> segs[k].name != Some(virtualName)
  {
    var (_, segs) :- SplitSegments(m, p, fullContent);
    var later := segs[1..];
    match FirstNamed(later, virtualName)
    case None =>
      assert forall k :: 1 <= k < |segs| ==> segs[k] == later[k - 1];
      Success(None)
    case Some(k) =>
      assert segs[k + 1] == later[k];
      assert forall j :: 1 <= j < k + 1 ==> segs[j] == later[j - 1];
      Success(Some((virtualName, later[k].text)))
  }
}

=== FILE: segment_manager.dfy ===
/** `createSegmentManager` of the TypeScript plugin: the segments of every split file, kept in
    a `Map` from file name to segment list. A `Map` keeps its keys in insertion order, and
    `set` on a present key replaces the value in place; the registry is that list of entries. */
module SegmentManager {
  import opened Wrappers
  import opened TsUtils
  import opened Splitter

  type Registry = Entries<seq<Segment>>

  /** `segmentEntriesMap.get(filename)`. */
  function Get(reg: Registry, file: string): Option<seq<Segment>> {
    Lookup(reg, file)
  }

  lemma LookupAppend<V>(o: Entries<V>, key: string, value: V)
    requires key !in Keys(o)
    ensures Lookup(o + [(key, value)], key) == Some(value)
    ensures forall k :: k != key ==> Lookup(o + [(key, value)], k) == Lookup(o, k)
    ensures Keys(o + [(key, value)]) == Keys(o) + [key]
    decreases |o|
  {
    if |o| > 0 {
      assert (o + [(key, value)])[1..] == o[1..] + [(key, value)];
      assert Keys(o) == [o[0].0] + Keys(o[1..]);
      LookupAppend(o[1..], key, value);
    }
  }

  /** `saveSegmentsForFile(filename, segments)`: the file's list is replaced wholesale, every
      other file keeps its list, and a new file is added after the others. */
  function Save(reg: Registry, file: string, segments: seq<Segment>): (r: Registry)
    ensures Get(r, file) == Some(segments)
    ensures forall k :: k != file ==> Get(r, k) == Get(reg, k)
    ensures Keys(r) == if file in Keys(reg) then Keys(reg) else Keys(reg) + [file]
    ensures WellFormed(reg) ==> WellFormed(r)
  {
    if file in Keys(reg) then
      var r := Replace(reg, file, segments);
      assert forall i :: 0 <= i < |r| ==> r[i].0 == Keys(r)[i];
      assert forall i :: 0 <= i < |reg| ==> reg[i].0 == Keys(reg)[i];
      r
    else
      LookupAppend(reg, file, segments);
      var r := reg + [(file, segments)];
      assert WellFormed(reg) ==> WellFormed(r) by {
        if WellFormed(reg) {
          forall i, j | 0 <= i < j < |r| ensures r[i].0 != r[j].0 {
            if j == |reg| {
              assert r[i].0 == Keys(reg)[i];
            }
          }
        }
      }
      r
  }

  /** The first entry, in insertion order, whose key satisfies `pred`. */
  function FirstKeyWhere(reg: Registry, pred: string -> bool): (r: Option<nat>)
    ensures r.Some? ==> r.value < |reg| && pred(reg[r.value].0)
    ensures r.Some? ==> forall j :: 0 <= j < r.value ==> !pred(reg[j].0)
    ensures r.None? ==> forall j :: 0 <= j < |reg| ==> !pred(reg[j].0)
  {
    if |reg| == 0 then None
    else if pred(reg[0].0) then Some(0)
    else match FirstKeyWhere(reg[1..], pred)
      case None => None
      case Some(i) => Some(i + 1)
  }

  /** How `loadSegmentsForFile` and `getSegmentFromFile` are asked for a file: by name, or by
      a test on the name. */
  datatype FileQuery = ByName(file: string) | Where(pred: string -> bool)

  /** The array `loadSegmentsForFile` returns: the list (`null` when absent) and, for a query
      by test, the key found. */
  datatype Loaded = Loaded(segments: Option<seq<Segment>>, key: Option<string>)

  /** `loadSegmentsForFile(filename)`: by name, always `[list ?? null]`; by test, `[list, key]`
      for the first key in insertion order that passes, or `null`. */
  function Load(reg: Registry, q: FileQuery): (r: Option<Loaded>)
    ensures q.ByName? ==> r == Some(Loaded(Get(reg, q.file), None))
    ensures q.Where? && r.Some? ==>
              && r.value.key.Some? && q.pred(r.value.key.value)
              && r.value.segments.Some? && Get(reg, r.value.key.value) == r.value.segments
    ensures q.Where? ==> (r.None? <==> forall k :: k in Keys(reg) ==> !q.pred(k))
  {
    match q
    case ByName(file) => Some(Loaded(Get(reg, file), None))
    case Where(pred) =>
      match FirstKeyWhere(reg, pred)
      case None =>
        assert forall k :: k in Keys(reg) ==> exists j :: 0 <= j < |reg| && reg[j].0 == k by {
          forall k | k in Keys(reg) ensures exists j :: 0 <= j < |reg| && reg[j].0 == k {
            var j :| 0 <= j < |Keys(reg)| && Keys(reg)[j] == k;
            assert reg[j].0 == k;
          }
        }
        None
      case Some(i) =>
        FirstKeyLookup(reg, pred, i);
        assert Keys(reg)[i] == reg[i].0;
        Some(Loaded(Some(reg[i].1), Some(reg[i].0)))
  }

  /** The first entry passing a test is also the first entry under its key, so `get` on that
      key finds it (whether or not keys repeat). */
  lemma {:induction false} FirstKeyLookup(reg: Registry, pred: string -> bool, i: nat)
    requires i < |reg| && pred(reg[i].0)
    requires forall j :: 0 <= j < i ==> !pred(reg[j].0)
    ensures Lookup(reg, reg[i].0) == Some(reg[i].1)
    decreases i
  {
    if i > 0 {
      assert reg[0].0 != reg[i].0;
      FirstKeyLookup(reg[1..], pred, i - 1);
    }
  }

  /** The first segment whose `name` is `name` (`undefined` picks the unnamed main segment). */
  function FindByName(segs: seq<Segment>, name: Option<string>): (r: Option<nat>)
    ensures r.Some? ==> r.value < |segs| && segs[r.value].name == name
    ensures r.Some? ==> forall j :: 0 <= j < r.value ==> segs[j].name != name
    ensures r.None? <==> forall j :: 0 <= j < |segs| ==> segs[j].name != name
  {
    if |segs| == 0 then None
    else if segs[0].name == name then Some(0)
    else match FindByName(segs[1..], name)
      case None => None
      case Some(i) => Some(i + 1)
  }

  /** `getSegmentFromFile(filename, segmentName)`: the first segment of the file's list with
      that name, or `null` when the file or the segment is missing. */
  function GetSegmentFromFile(reg: Registry, q: FileQuery, name: Option<string>): (r: Option<Segment>)
    ensures r.Some? ==> r.value.name == name
    ensures r.Some? <==>
              && Load(reg, q).Some? && Load(reg, q).value.segments.Some?
              && exists j :: 0 <= j < |Load(reg, q).value.segments.value| && Load(reg, q).value.segments.value[j].name == name
    ensures r.Some? ==> var segs := Load(reg, q).value.segments.value;
              exists j :: 0 <= j < |segs| && segs[j] == r.value && forall i :: 0 <= i < j ==> segs[i].name != name
  {
    match Load(reg, q)
    case None => None
    case Some(loaded) =>
      match loaded.segments
      case None => None
      case Some(segs) =>
        match FindByName(segs, name)
        case None => None
        case Some(i) => Some(segs[i])
  }

  /** Segment `k` contains position `pos`. */
  predicate Contains(sg: Segment, pos: int) {
    sg.start <= pos < sg.end
  }

  /** The first segment containing `pos`. */
  function FindContaining(segs: seq<Segment>, pos: int): (r: Option<nat>)
    ensures r.Some? ==> r.value < |segs| && Contains(segs[r.value], pos)
    ensures r.Some? ==> forall j :: 0 <= j < r.value ==> !Contains(segs[j], pos)
    ensures r.None? <==> forall j :: 0 <= j < |segs| ==> !Contains(segs[j], pos)
  {
    if |segs| == 0 then None
    else if Contains(segs[0], pos) then Some(0)
    else match FindContaining(segs[1..], pos)
      case None => None
      case Some(i) => Some(i + 1)
  }

  /** `findSegmentWithIndexFromPos(filename, pos)`: `[segment, i]` for the first segment of
      the file with `start <= pos < end`; `[null, -1]` (here `None`) when the file has no entry
      or no segment contains `pos`. */
  function FindSegmentWithIndexFromPos(reg: Registry, file: string, pos: int): (r: Option<(Segment, nat)>)
    ensures r.Some? ==> Get(reg, file).Some? && r.value.1 < |Get(reg, file).value|
                        && Get(reg, file).value[r.value.1] == r.value.0 && Contains(r.value.0, pos)
    ensures r.Some? ==> forall j :: 0 <= j < r.value.1 ==> !Contains(Get(reg, file).value[j], pos)
    ensures r.None? <==> Get(reg, file).None? || forall j :: 0 <= j < |Get(reg, file).value| ==> !Contains(Get(reg, file).value[j], pos)
  {
    match Get(reg, file)
    case None => None
    case Some(segs) =>
      match FindContaining(segs, pos)
      case None => None
      case Some(i) => Some((segs[i], i))
  }

  /** In a list of segments that tile a text, every position of the text lies in exactly one
      non-empty segment, and the search finds it. */
  lemma {:induction false} ContiguousCovers(input: string, segs: seq<Segment>, pos: int, k: nat)
    requires Contiguous(input, segs) && 0 <= pos < |input|
    requires k < |segs| && segs[k].start <= pos
    ensures exists i :: k <= i < |segs| && Contains(segs[i], pos)
    decreases |segs| - k
  {
    if !Contains(segs[k], pos) {
      assert k + 1 < |segs|;
      ContiguousCovers(input, segs, pos, k + 1);
    }
  }

  lemma {:induction false} ContiguousOrdered(input: string, segs: seq<Segment>, i: nat, j: nat)
    requires Contiguous(input, segs) && i < j < |segs|
    ensures segs[i].end <= segs[j].start
    decreases j - i
  {
    if i + 1 < j {
      ContiguousOrdered(input, segs, i + 1, j);
    }
  }

  /** The segment found for a position of a split file is the only one containing it. */
  lemma PositionInSplit(input: string, segs: seq<Segment>, pos: int)
    requires Contiguous(input, segs) && 0 <= pos < |input|
    ensures FindContaining(segs, pos).Some?
    ensures forall j :: 0 <= j < |segs| && Contains(segs[j], pos) ==> j == FindContaining(segs, pos).value
  {
    ContiguousCovers(input, segs, pos, 0);
    var k := FindContaining(segs, pos).value;
    forall j | 0 <= j < |segs| && Contains(segs[j], pos) ensures j == k {
      if k < j {
        ContiguousOrdered(input, segs, k, j);
      }
    }
  }

  /** `getOtherSegments(filename, index)`: the file's segments except the one at `index`, in
      order; `None` when the file has no entry, where the source throws a `TypeError` reading
      `.length` of `undefined`. */
  function GetOtherSegments(reg: Registry, file: string, index: int): (r: Option<seq<Segment>>)
    ensures r.Some? <==> Get(reg, file).Some?
    ensures r.Some? && 0 <= index < |Get(reg, file).value| ==>
              var segs := Get(reg, file).value;
              |r.value| == |segs| - 1 && multiset(r.value) + multiset{segs[index]} == multiset(segs)
    ensures r.Some? && 0 <= index < |Get(reg, file).value| ==>
              forall k :: 0 <= k < |r.value| ==> r.value[k] == Get(reg, file).value[if k < index then k else k + 1]
    ensures r.Some? && !(0 <= index < |Get(reg, file).value|) ==> r.value == Get(reg, file).value
  {
    match Get(reg, file)
    case None => None
    case Some(segs) =>
      if 0 <= index < |segs| then
        assert segs == segs[..index] + [segs[index]] + segs[index + 1..];
        Some(segs[..index] + segs[index + 1..])
      else Some(segs)
  }
}

=== FILE: segment_snapshot.dfy ===
/** What the TypeScript plugin shows the language service for a file with segments: the text
    of one segment at its place in the file, with every other character blanked
    (`transformSegmentText`), and the older whole-file blanking of a `name=` marker line
    (`transformCode`). Blanking keeps every line terminator, so offsets and line numbers of
    the segment are those of the real file. */
module SegmentSnapshot {
  import opened Wrappers
  import opened JsString
  import opened Markers
  import opened Splitter

  /** `s.replace(/./g, ' ')`: every character a `.` matches becomes a space. */
  function Blanked(s: string): (r: string)
    ensures |r| == |s|
  {
    seq(|s|, i requires 0 <= i < |s| => if IsLineTerminator(s[i]) then s[i] else ' ')
  }

  /** Blanking keeps line terminators where they are and puts spaces everywhere else. */
  lemma BlankedSpec(s: string)
    ensures forall i :: 0 <= i < |s| ==> (IsLineTerminator(Blanked(s)[i]) <==> IsLineTerminator(s[i]))
    ensures forall i :: 0 <= i < |s| && !IsLineTerminator(s[i]) ==> Blanked(s)[i] == ' '
  {
  }

  lemma BlankedAppend(a: string, b: string)
    ensures Blanked(a + b) == Blanked(a) + Blanked(b)
  {
  }

  /** Blanking is idempotent: a blank stretch stays as it is. */
  lemma BlankedIdempotent(s: string)
    ensures Blanked(Blanked(s)) == Blanked(s)
  {
    assert !IsLineTerminator(' ');
  }

  /** The fallback `fileContent` as written: the segment texts joined with `''`, without
      their headers. */
  function TextsOnly(segs: seq<Segment>): string
    decreases |segs|
  {
    if |segs| == 0 then [] else segs[0].text + TextsOnly(segs[1..])
  }

  /** The fallback `fileContent` the offsets call for: headers and texts, which is the file. */
  function HeadersAndTexts(segs: seq<Segment>): string
    decreases |segs|
  {
    if |segs| == 0 then [] else segs[0].header + segs[0].text + HeadersAndTexts(segs[1..])
  }

  /** `transformSegmentText(segments, segmentIndex, fileContent)` with an explicit content:
      the content before the segment blanked, the header blanked, the text, the content after
      the segment blanked. */
  function Transform(sg: Segment, content: string): (r: string)
    ensures |r| == |SliceTo(content, sg.start)| + |sg.header| + |sg.text| + |SliceFrom(content, sg.end)|
  {
    Blanked(SliceTo(content, sg.start)) + Blanked(sg.header) + sg.text + Blanked(SliceFrom(content, sg.end))
  }

  /** `transformSegmentText` as written: without `fileContent` it falls back on the texts
      joined without their headers. */
  function TransformSegmentText(segs: seq<Segment>, index: nat, fileContent: Option<string>): string
    requires index < |segs|
  {
    Transform(segs[index], fileContent.GetOr(TextsOnly(segs)))
  }

  /** `transformSegmentText` with the fallback the segment offsets are measured in. */
  function TransformSegmentTextFixed(segs: seq<Segment>, index: nat, fileContent: Option<string>): string
    requires index < |segs|
  {
    Transform(segs[index], fileContent.GetOr(HeadersAndTexts(segs)))
  }

  /** A segment whose header and text are the file over its range. */
  predicate Spans(input: string, sg: Segment) {
    sg.start <= sg.end <= |input| && sg.header + sg.text == input[sg.start..sg.end]
  }

  /** Given the real file, the result has the file's length, its segment text at the
      segment's own offsets, and everything else blanked; so every line terminator of the
      file is where it was. */
  lemma TransformLayout(input: string, sg: Segment)
    requires Spans(input, sg)
    ensures var r := Transform(sg, input);
            && r == Blanked(input[..sg.start + |sg.header|]) + sg.text + Blanked(input[sg.end..])
            && |r| == |input|
            && r[sg.start + |sg.header|..sg.end] == sg.text
            && forall i :: 0 <= i < |input| ==> (IsLineTerminator(r[i]) <==> IsLineTerminator(input[i]))
  {
    var h := sg.start + |sg.header|;
    SpanParts(input, sg, h);
    TransformShape(input, sg, h);
    LayoutLines(input, Transform(sg, input), h, sg.end, sg.text);
  }

  /** The file around a segment that spans its range: before the text, the text, after. */
  lemma SpanParts(input: string, sg: Segment, h: nat)
    requires Spans(input, sg) && h == sg.start + |sg.header|
    ensures h <= sg.end && input[..h] == input[..sg.start] + sg.header
    ensures input[h..sg.end] == sg.text
  {
    assert input[sg.start..h] == sg.header && input[h..sg.end] == sg.text by {
      assert input[sg.start..sg.end][..|sg.header|] == input[sg.start..h];
      assert input[sg.start..sg.end][|sg.header|..] == input[h..sg.end];
    }
  }

  lemma TransformShape(input: string, sg: Segment, h: nat)
    requires sg.start <= h <= sg.end <= |input| && input[..h] == input[..sg.start] + sg.header
    ensures Transform(sg, input) == Blanked(input[..h]) + sg.text + Blanked(input[sg.end..])
  {
    BlankedAppend(input[..sg.start], sg.header);
  }

  /** A text kept at its own offsets between two blanked stretches of the file keeps every
      line terminator of the file in place. */
  lemma LayoutLines(input: string, r: string, h: nat, e: nat, text: string)
    requires h <= e <= |input| && input[h..e] == text
    requires r == Blanked(input[..h]) + text + Blanked(input[e..])
    ensures |r| == |input| && r[h..e] == text
    ensures forall i :: 0 <= i < |input| ==> (IsLineTerminator(r[i]) <==> IsLineTerminator(input[i]))
  {
    forall i | 0 <= i < |input| ensures IsLineTerminator(r[i]) <==> IsLineTerminator(input[i]) {
      if i < h {
        assert r[i] == Blanked(input[..h])[i];
        assert input[..h][i] == input[i];
      } else if i < e {
        assert r[i] == text[i - h] == input[i];
      } else {
        assert r[i] == Blanked(input[e..])[i - e];
        assert input[e..][i - e] == input[i];
      }
    }
  }

  /** `r` holds the segment's text at the segment's own offsets. */
  predicate TextInPlace(r: string, sg: Segment) {
    sg.start + |sg.header| <= sg.end <= |r| && r[sg.start + |sg.header|..sg.end] == sg.text
  }

  /** A list of segments that tile the file, each spanning its own range, rejoins to the
      file. */
  lemma {:induction false} HeadersAndTextsOfTiling(input: string, segs: seq<Segment>, k: nat)
    requires Contiguous(input, segs) && k <= |segs|
    requires forall j :: 0 <= j < |segs| ==> Spans(input, segs[j])
    ensures k < |segs| ==> HeadersAndTexts(segs[k..]) == input[segs[k].start..]
    decreases |segs| - k
  {
    if k < |segs| {
      var sg := segs[k];
      if k + 1 < |segs| {
        HeadersAndTextsOfTiling(input, segs, k + 1);
        assert segs[k..][1..] == segs[k + 1..];
        assert input[sg.start..] == input[sg.start..sg.end] + input[segs[k + 1].start..];
      } else {
        assert segs[k..][1..] == [];
        assert input[sg.start..] == input[sg.start..sg.end];
      }
    }
  }

  /** The segments a split with the `<template id>` marker returns span their ranges. */
  lemma TemplateSplitSpans(input: string, main: Segment, segs: seq<Segment>)
    requires Splits(TemplateId, input, main, segs)
    ensures forall j :: 0 <= j < |segs| ==> Spans(input, segs[j])
  {
    forall j | 0 <= j < |segs| ensures Spans(input, segs[j]) {
      if j == 0 {
        assert "" + segs[0].text == segs[0].text;
      } else {
        TemplateSegmentText(input, segs[j]);
      }
    }
  }

  /** Every segment of a `<template id>` split, shown with the corrected fallback, sits at
      its offsets in a text as long as the file: the fallback rebuilds the file. */
  lemma FixedSnapshotOfSplit(input: string, main: Segment, segs: seq<Segment>, index: nat)
    requires Splits(TemplateId, input, main, segs) && index < |segs|
    ensures HeadersAndTexts(segs) == input
    ensures TransformSegmentTextFixed(segs, index, None) == Transform(segs[index], input)
    ensures var r := TransformSegmentTextFixed(segs, index, None);
            |r| == |input| && TextInPlace(r, segs[index])
  {
    TemplateSplitSpans(input, main, segs);
    HeadersAndTextsOfTiling(input, segs, 0);
    assert segs[0..] == segs;
    TransformLayout(input, segs[index]);
  }

  /** The same holds when the file itself is passed, as the plugin does for the main
      segment. */
  lemma SnapshotOfSplit(input: string, main: Segment, segs: seq<Segment>, index: nat)
    requires Splits(TemplateId, input, main, segs) && index < |segs|
    ensures var r := TransformSegmentText(segs, index, Some(input));
            && r == Blanked(input[..segs[index].start + |segs[index].header|]) + segs[index].text + Blanked(input[segs[index].end..])
            && |r| == |input|
            && forall i :: 0 <= i < |input| ==> (IsLineTerminator(r[i]) <==> IsLineTerminator(input[i]))
  {
    TemplateSplitSpans(input, main, segs);
    TransformLayout(input, segs[index]);
  }

  function TestSegment(header: string, text: string, start: nat, end: nat): Segment {
    Segment(if header == "" then None else Some("s"), header, text, start, end, [], [], [])
  }

  /** The fallback as written loses the headers: in the file `"a\n---\nb\n---\nc"` the last
      segment's text `"c"` is at offset 12, but the snapshot built without `fileContent`
      puts it at offset 8 and is 9 characters long instead of 13. */
  lemma TextsOnlyMisplaces()
    ensures var input := "a\n---\nb\n---\nc";
            var segs := [TestSegment("", "a", 0, 1), TestSegment(Separator, "b", 1, 7), TestSegment(Separator, "c", 7, 13)];
            && Contiguous(input, segs)
            && (forall j :: 0 <= j < |segs| ==> Spans(input, segs[j]))
            && input[12] == 'c'
            && |TransformSegmentText(segs, 2, None)| == 9 && TransformSegmentText(segs, 2, None)[8] == 'c'
            && |TransformSegmentTextFixed(segs, 2, None)| == 13 && TransformSegmentTextFixed(segs, 2, None)[12] == 'c'
  {
    var input := "a\n---\nb\n---\nc";
    var segs := [TestSegment("", "a", 0, 1), TestSegment(Separator, "b", 1, 7), TestSegment(Separator, "c", 7, 13)];
    assert TextsOnly(segs) == "abc" by {
      assert segs[1..][1..] == [segs[2]];
      assert segs[1..][1..][1..] == [];
      assert TextsOnly([segs[2]]) == "c";
      assert TextsOnly(segs[1..]) == "b" + TextsOnly([segs[2]]);
    }
    assert input[0..1] == "a";
    assert input[1..7] == Separator + "b";
    assert input[7..13] == Separator + "c";
    HeadersAndTextsOfTiling(input, segs, 0);
    assert segs[0..] == segs;
  }

  // ---------------------------------------------------------------------------------------
  // transformCode

  /** `^---\nname=` (multiline: `^` at the start or after a line terminator) matches at `i`. */
  predicate NameSeparatorAt(s: string, i: nat) {
    (i == 0 || (i <= |s| && IsLineTerminator(s[i - 1]))) && OccursAt(s, "---\nname=", i)
  }

  /** The leftmost match of `/^---\nname=.*$/m` from `k` on: where it starts. */
  function FindNameSeparator(s: string, k: nat): (r: Option<nat>)
    requires k <= |s|
    decreases |s| - k
    ensures r.Some? ==> k <= r.value && NameSeparatorAt(s, r.value)
    ensures r.Some? ==> forall j :: k <= j < r.value ==> !NameSeparatorAt(s, j)
    ensures r.None? ==> forall j :: k <= j <= |s| ==> !NameSeparatorAt(s, j)
  {
    if NameSeparatorAt(s, k) then Some(k)
    else if k == |s| then None
    else FindNameSeparator(s, k + 1)
  }

  /** `transformCode(sourceText, fileName)`: the first `---` line followed by a `name=` line
      is overwritten with spaces, up to the end of the name line; the text is otherwise
      unchanged. */
  function TransformCode(s: string): (r: string)
    ensures |r| == |s|
    ensures FindNameSeparator(s, 0).None? ==> r == s
    ensures FindNameSeparator(s, 0).Some? ==>
              var i := FindNameSeparator(s, 0).value;
              var e := FindLineTerminator(s, i + 9);
              && (forall j :: 0 <= j < |s| && !(i <= j < e) ==> r[j] == s[j])
              && (forall j :: i <= j < e ==> r[j] == ' ')
  {
    match FindNameSeparator(s, 0)
    case None => s
    case Some(i) =>
      var e := FindLineTerminator(s, i + 9);
      s[..i] + Repeat(' ', e - i) + s[e..]
  }

  /** After `transformCode` no `---` line followed by a `name=` line is left before the end
      of the blanked one: the first marker is gone. */
  lemma TransformCodeRemovesFirst(s: string)
    requires FindNameSeparator(s, 0).Some?
    ensures var e := FindLineTerminator(s, FindNameSeparator(s, 0).value + 9);
            forall j :: 0 <= j < e ==> !NameSeparatorAt(TransformCode(s), j)
  {
    var i := FindNameSeparator(s, 0).value;
    var e := FindLineTerminator(s, i + 9);
    var r := TransformCode(s);
    forall j | 0 <= j < e ensures !NameSeparatorAt(r, j) {
      BlankedNoSeparator(s, r, i, e, j);
    }
  }

  /** One position of `TransformCodeRemovesFirst`: before the blanked range a match in `r`
      would be one in `s`, and inside it `r` has a space where the match needs a dash. */
  lemma BlankedNoSeparator(s: string, r: string, i: nat, e: nat, j: nat)
    requires i + 9 <= e <= |s| == |r| && j < e
    requires forall j :: 0 <= j < i ==> !NameSeparatorAt(s, j)
    requires forall k :: 0 <= k < |s| && !(i <= k < e) ==> r[k] == s[k]
    requires forall k :: i <= k < e ==> r[k] == ' '
    ensures !NameSeparatorAt(r, j)
  {
    if j + 9 <= i {
      assert r[j..j + 9] == s[j..j + 9];
      assert j > 0 ==> r[j - 1] == s[j - 1];
      assert !NameSeparatorAt(s, j);
    } else if j < i {
      assert r[i] == ' ';
      assert j + 9 <= |r| ==> r[j..j + 9][i - j] == ' ';
    } else {
      assert r[j] == ' ';
      assert j + 9 <= |r| ==> r[j..j + 9][0] == ' ';
    }
  }
}

=== FILE: serializers.dfy ===
/** The three module-name serializers of the TypeScript plugin. Each turns the file an import
    appears in and the imported segment name into one string, and back:
    - query:  `<name>?from=<encodeURIComponent(file)>`, put through the host's path normalizer;
    - hash:   `<md5 hex of file>__<name>` (the file cannot be recovered, only its digest);
    - base64: `<encodeBase64(file)>__<name>`.
    The path normalizer and MD5 belong to the host, so they are parameters of the scheme. */
module ModuleNameSerializers {
  import opened Wrappers
  import opened JsString
  import opened TsUtils
  import Base64
  import Percent

  datatype Scheme =
    | Query(normalize: string -> string)
    | Hash(md5: string -> string)
    | Base64Scheme

  /** What the deserializers throw (or where the model stops). */
  datatype SerializerError =
    | NoQuery          // no `?`: `paramString` is `undefined` and `.match` throws a TypeError
    | NoFromParam      // no `from=` parameter: Error('wrong module name')
    | MalformedEscape  // `decodeURIComponent` throws URIError
    | NotCanonical     // not unpadded base 64 of well-formed UTF-8 (Node decodes leniently)

  const QuerySep: string := "?"
  const FromKey: string := "from="
  const NameSep: string := "__"

  /** `serializeModuleName(containingFile, moduleName)`. */
  function Serialize(scheme: Scheme, containingFile: string, moduleName: string): string {
    match scheme
    case Query(normalize) =>
      normalize(moduleName + QuerySep + FromKey + Percent.EncodeComponent(containingFile))
    case Hash(md5) => md5(containingFile) + NameSep + moduleName
    case Base64Scheme => Base64.Encode(containingFile) + NameSep + moduleName
  }

  /** The capture of `/from=([^&]*)/` in a parameter string: what follows the first `from=`,
      up to the next `&`. */
  function FromParam(params: string): (r: Option<string>)
    ensures r.Some? <==> Includes(params, FromKey)
    ensures r.Some? ==> '&' !in r.value && |r.value| <= |params|
  {
    match IndexOf(params, FromKey)
    case None => None
    case Some(i) => Some(TakeUntil(params[i + |FromKey|..], '&'))
  }

  /** `deserializeModuleName(resolvedModuleName)`: `(moduleName, containingFile)`. The
      module name is `None` (`undefined`) when the hash or base64 form has no `__`. */
  function Deserialize(scheme: Scheme, s: string): (r: Result<(Option<string>, string), SerializerError>)
    ensures scheme.Query? && r.Success? ==>
              r.value.0.Some? && StartsWith(s, r.value.0.value) && '?' !in r.value.0.value
              && |r.value.1| <= |s|
    ensures scheme.Query? ==> (r == Failure(NoQuery) <==> '?' !in s)
    ensures r.Success? ==> |r.value.1| <= |s|
    ensures scheme.Hash? ==> r.Success? && StartsWith(s, r.value.1)
    ensures !scheme.Query? && r.Success? ==> (r.value.0.None? <==> !Includes(s, NameSep))
  {
    match scheme
    case Query(_) =>
      var parts := SplitLimit(s, QuerySep, Some(2));
      FirstPiece(s, QuerySep);
      if |parts| < 2 then
        SinglePiece(s, QuerySep);
        Failure(NoQuery)
      else
        TwoPieces(s, QuerySep);
        var encoded :- match FromParam(parts[1])
          case None => Failure(NoFromParam)
          case Some(e) => Success(e);
        var file :- match Percent.DecodeComponent(encoded)
          case None => Failure(MalformedEscape)
          case Some(f) => Success(f);
        assert s == parts[0] + QuerySep + parts[1];
        assert '?' !in parts[0] by {
          forall j | 0 <= j < |parts[0]| ensures parts[0][j] != '?' {
            assert s[j..j + 1] == [parts[0][j]];
            assert !OccursAt(s, QuerySep, j);
          }
        }
        Success((Some(parts[0]), file))
    case Hash(_) =>
      var parts := SplitLimit(s, NameSep, Some(2));
      FirstPiece(s, NameSep);
      PiecesAndSeparator(s, NameSep);
      Success((if |parts| >= 2 then Some(parts[1]) else None, parts[0]))
    case Base64Scheme =>
      var parts := SplitLimit(s, NameSep, Some(2));
      FirstPiece(s, NameSep);
      PiecesAndSeparator(s, NameSep);
      var file :- match Base64.Decode(parts[0])
        case None => Failure(NotCanonical)
        case Some(f) => Success(f);
      Success((if |parts| >= 2 then Some(parts[1]) else None, file))
  }

  // ---------------------------------------------------------------------------------------
  // What a split with limit 2 gives

  /** The first piece is the text before the first separator. */
  lemma FirstPiece(s: string, sep: string)
    requires |sep| > 0
    ensures var parts := SplitLimit(s, sep, Some(2));
            1 <= |parts| <= 2 && StartsWith(s, parts[0])
            && (forall j :: 0 <= j < |parts[0]| ==> !OccursAt(s, sep, j))
            && (|parts| == 2 ==> s == parts[0] + sep + parts[1])
  {
    match IndexOf(s, sep)
    case None =>
      SplitOnNone(s, sep);
    case Some(i) =>
      var a, b := s[..i], s[i + |sep|..];
      assert s == a + sep + b;
      forall j | 0 <= j < |a| ensures !OccursAt(a + sep + b, sep, j) {
        assert !OccursAt(s, sep, j);
      }
      SplitTwo(a, sep, b);
  }

  lemma PiecesAndSeparator(s: string, sep: string)
    requires |sep| > 0
    ensures |SplitLimit(s, sep, Some(2))| == 2 <==> Includes(s, sep)
  {
    match IndexOf(s, sep)
    case None =>
      SplitOnNone(s, sep);
    case Some(i) =>
      var a, b := s[..i], s[i + |sep|..];
      assert s == a + sep + b;
      forall j | 0 <= j < |a| ensures !OccursAt(a + sep + b, sep, j) {
        assert !OccursAt(s, sep, j);
      }
      SplitTwo(a, sep, b);
  }

  lemma SinglePiece(s: string, sep: string)
    requires sep == QuerySep
    requires |SplitLimit(s, sep, Some(2))| < 2
    ensures '?' !in s
  {
    PiecesAndSeparator(s, sep);
    forall j | 0 <= j < |s| ensures s[j] != '?' {
      assert s[j..j + 1] == [s[j]];
      assert !OccursAt(s, sep, j);
    }
  }

  lemma TwoPieces(s: string, sep: string)
    requires sep == QuerySep
    requires |SplitLimit(s, sep, Some(2))| == 2
    ensures '?' in s
  {
    PiecesAndSeparator(s, sep);
    var i := IndexOf(s, sep).value;
    assert s[i..i + 1] == sep;
    assert s[i] == '?';
  }

  // ---------------------------------------------------------------------------------------
  // Round trips

  /** Deserializing what was serialized gives back the name and the file. */
  predicate RoundTrips(scheme: Scheme, file: string, name: string) {
    Deserialize(scheme, Serialize(scheme, file, name)) == Success((Some(name), file))
  }

  /** The query form gives back the name and the file, as long as the name has no `?` (the
      first `?` is taken as the separator) and the normalizer leaves the string alone. */
  lemma QueryRoundTrip(normalize: string -> string, file: string, name: string)
    requires '?' !in name
    requires var raw := name + QuerySep + FromKey + Percent.EncodeComponent(file);
             normalize(raw) == raw
    ensures RoundTrips(Query(normalize), file, name)
  {
    var enc := Percent.EncodeComponent(file);
    EncodedHasNoAmpersand(enc);
    Percent.DecodeEncode(file);
    QueryReadBack(normalize, name, enc, file);
  }

  /** Reading back `<name>?from=<enc>` gives the name and the decoded file. */
  lemma QueryReadBack(normalize: string -> string, name: string, enc: string, file: string)
    requires '?' !in name && '&' !in enc
    requires Percent.DecodeComponent(enc) == Some(file)
    ensures Deserialize(Query(normalize), name + QuerySep + FromKey + enc) == Success((Some(name), file))
  {
    var params := FromKey + enc;
    assert name + QuerySep + FromKey + enc == name + QuerySep + params;
    QuerySplit(name, params);
    FromParamOf(enc);
    DeserializeQuery(normalize, name + QuerySep + params, name, params, enc, file);
  }

  /** A name without `?` is split off at the `?` the query form writes after it. */
  lemma QuerySplit(name: string, params: string)
    requires '?' !in name
    ensures SplitLimit(name + QuerySep + params, QuerySep, Some(2)) == [name, params]
  {
    NoOccurrenceBefore(name, QuerySep, params);
    SplitTwo(name, QuerySep, params);
  }

  lemma EncodedHasNoAmpersand(enc: string)
    requires forall i :: 0 <= i < |enc| ==> Percent.IsEncodedChar(enc[i])
    ensures '&' !in enc
  {
  }

  /** The query form read back once its pieces are known. */
  lemma DeserializeQuery(normalize: string -> string, s: string, name: string, params: string,
                         enc: string, file: string)
    requires SplitLimit(s, QuerySep, Some(2)) == [name, params]
    requires FromParam(params) == Some(enc)
    requires Percent.DecodeComponent(enc) == Some(file)
    ensures Deserialize(Query(normalize), s) == Success((Some(name), file))
  {
  }

  /** The parameter string the query form writes yields its encoded file back. */
  lemma FromParamOf(enc: string)
    requires '&' !in enc
    ensures FromParam(FromKey + enc) == Some(enc)
  {
    var params := FromKey + enc;
    assert OccursAt(params, FromKey, 0);
    assert params[|FromKey|..] == enc;
    TakeUntilAbsent(enc, '&');
  }

  lemma {:induction false} TakeUntilAbsent(s: string, c: char)
    requires c !in s
    ensures TakeUntil(s, c) == s
    decreases |s|
  {
    if |s| > 0 {
      TakeUntilAbsent(s[1..], c);
    }
  }

  /** The hash form gives back the name and the digest of the file; the hex digest has no
      `_`, so the first `__` is the separator even when the name contains one. */
  lemma HashRoundTrip(md5: string -> string, file: string, name: string)
    requires '_' !in md5(file)
    ensures Deserialize(Hash(md5), Serialize(Hash(md5), file, name))
            == Success((Some(name), md5(file)))
  {
    NoOccurrenceBefore(md5(file), NameSep, name);
    SplitTwo(md5(file), NameSep, name);
    assert OccursAt(md5(file) + NameSep + name, NameSep, |md5(file)|);
  }

  /** The base64 form gives back the name and the file exactly. */
  lemma Base64RoundTrip(file: string, name: string)
    ensures RoundTrips(Base64Scheme, file, name)
  {
    var enc := Base64.Encode(file);
    assert '_' !in enc;
    NoOccurrenceBefore(enc, NameSep, name);
    SplitTwo(enc, NameSep, name);
    assert OccursAt(enc + NameSep + name, NameSep, |enc|);
    Base64.DecodeEncode(file);
  }
}

=== FILE: service_proxy.dfy ===
/** The TypeScript plugin's proxies of the language-service host and of the language service
    (`packages/ts-plugin/src/plugin.ts`). The host proxy resolves `infile:` imports to virtual
    filenames and serves snapshots: a split file with its other segments blanked, a virtual
    file as its segment's text among the other segments' texts blanked, their headers left
    out. The service proxy routes a query at a
    position inside a named segment to that segment's virtual file and maps the answers back
    to the real file. The underlying host and service are parameters. */
module ServiceProxy {
  import opened Wrappers
  import opened JsString
  import opened TsUtils
  import opened ModuleNameSerializers
  import opened VirtualCodec
  import opened Markers
  import opened ParseUtils
  import opened Splitter
  import opened SegmentManager
  import opened SegmentSnapshot

  /** `segment.name` is truthy: present and not the empty string. */
  predicate Named(sg: Segment) {
    sg.name.Some? && sg.name.value != ""
  }

  // ---------------------------------------------------------------------------------------
  // resolveModuleNames

  datatype Resolved = Resolved(resolvedFileName: string, extension: string)

  /** `ts.Extension.Ts`. */
  const TsExtension: string := ".ts"

  /** The containing files whose imports are left to the host. */
  predicate KeepsDefaults(containingFile: string) {
    || Includes(containingFile, "/node_modules/")
    || Includes(containingFile, "/.svelte-kit/")
    || StartsWith(containingFile, "svelte/")
    || !EndsWith(containingFile, ".svelte")
  }

  /** `_customResolveModule(moduleName)`: an `infile:` specifier resolves to its virtual
      filename; any other specifier is not handled. */
  function CustomResolve(scheme: Scheme, moduleName: string, containingFile: string): (r: Option<Resolved>)
    ensures r.Some? <==> StartsWith(moduleName, InfilePrefix)
    ensures r.Some? ==> IsVirtual(r.value.resolvedFileName) && r.value.extension == TsExtension
  {
    if StartsWith(moduleName, InfilePrefix) then
      Some(Resolved(Encode(scheme, moduleName, containingFile), TsExtension))
    else None
  }

  /** The overridden `resolveModuleNames`: the host's resolutions (`defaults`, which may be
      shorter than the list of names) unless the containing file is a `.svelte` file outside
      the skipped directories; then each `infile:` specifier gets its virtual filename and
      every other index keeps the host's resolution. */
  function ResolveModuleNames(scheme: Scheme, moduleNames: seq<string>, containingFile: string,
                              defaults: seq<Option<Resolved>>): (r: seq<Option<Resolved>>)
    ensures KeepsDefaults(containingFile) ==> r == defaults
    ensures !KeepsDefaults(containingFile) ==> |r| == |moduleNames|
    ensures !KeepsDefaults(containingFile) ==> forall i :: 0 <= i < |moduleNames| ==>
              if StartsWith(moduleNames[i], InfilePrefix)
              then r[i].Some? && IsVirtual(r[i].value.resolvedFileName)
              else r[i] == (if i < |defaults| then defaults[i] else None)
  {
    if KeepsDefaults(containingFile) then defaults
    else
      seq(|moduleNames|, i requires 0 <= i < |moduleNames| =>
        match CustomResolve(scheme, moduleNames[i], containingFile)
        case Some(res) => Some(res)
        case None => if i < |defaults| then defaults[i] else None)
  }

  /** An `infile:X` import of a `.svelte` file resolves to a filename that decodes to `X`
      and the importing file. */
  lemma ResolvedDecodes(scheme: Scheme, moduleNames: seq<string>, containingFile: string,
                        defaults: seq<Option<Resolved>>, i: nat)
    requires !KeepsDefaults(containingFile) && !IsVirtual(containingFile)
    requires i < |moduleNames| && StartsWith(moduleNames[i], InfilePrefix)
    requires RoundTrips(scheme, containingFile, SpecifierName(moduleNames[i]))
    ensures var r := ResolveModuleNames(scheme, moduleNames, containingFile, defaults)[i];
            r.Some? && Decode(scheme, r.value.resolvedFileName, true)
                       == Success((DecodedName(moduleNames[i]), containingFile))
  {
    DecodeEncode(scheme, moduleNames[i], containingFile, true);
  }

  // ---------------------------------------------------------------------------------------
  // getScriptSnapshot

  datatype HostError = Codec(cause: CodecError) | Split(exception: Exception)

  /** The directories whose files are served unchanged. */
  predicate Skipped(filename: string) {
    Includes(filename, "/node_modules/") || Includes(filename, "/.svelte-kit/")
  }

  /** The registered segments a virtual filename names: its decoded file's segments and the
      index of the first one with its decoded name. */
  function VirtualSegment(scheme: Scheme, reg: Registry, filename: string): (r: Result<Option<(seq<Segment>, nat)>, HostError>)
    ensures r.Failure? <==> Decode(scheme, filename, true).Failure?
    ensures r.Success? && r.value.Some? ==>
              var (name, orig) := Decode(scheme, filename, true).value;
              && Get(reg, orig) == Some(r.value.value.0)
              && FindByName(r.value.value.0, Some(name)) == Some(r.value.value.1)
    ensures r.Success? && r.value.None? ==>
              var (name, orig) := Decode(scheme, filename, true).value;
              Get(reg, orig).None? || FindByName(Get(reg, orig).value, Some(name)).None?
  {
    var (segmentName, origFilepath) :- match Decode(scheme, filename, true)
      case Failure(e) => Failure(Codec(e))
      case Success(v) => Success(v);
    match Get(reg, origFilepath)
    case None => Success(None)
    case Some(segs) =>
      match FindByName(segs, Some(segmentName))
      case None => Success(None)
      case Some(i) => Success(Some((segs, i)))
  }

  /** A virtual filename is decoded and served from the registry: the first segment of that
      name of the registered file, shown by `transformSegmentText` without a file content, so
      in the texts of the registered segments joined without their headers; no snapshot when
      the file or the segment is unknown. */
  function ServeVirtual(scheme: Scheme, reg: Registry, filename: string): (r: Result<Option<string>, HostError>)
    ensures r.Failure? <==> Decode(scheme, filename, true).Failure?
    ensures r.Success? && r.value.Some? ==>
              var (name, orig) := Decode(scheme, filename, true).value;
              && Get(reg, orig).Some? && FindByName(Get(reg, orig).value, Some(name)).Some?
              && r.value.value == Transform(Get(reg, orig).value[FindByName(Get(reg, orig).value, Some(name)).value],
                                            TextsOnly(Get(reg, orig).value))
  {
    var found :- VirtualSegment(scheme, reg, filename);
    match found
    case None => Success(None)
    case Some((segs, i)) => Success(Some(TransformSegmentText(segs, i, None)))
  }

  /** The same with the corrected fallback: the segment shown in the headers and texts of
      the registered segments, which is the file. */
  function ServeVirtualFixed(scheme: Scheme, reg: Registry, filename: string): (r: Result<Option<string>, HostError>)
    ensures r.Failure? <==> Decode(scheme, filename, true).Failure?
    ensures r.Success? && r.value.Some? ==>
              var (name, orig) := Decode(scheme, filename, true).value;
              && Get(reg, orig).Some? && FindByName(Get(reg, orig).value, Some(name)).Some?
              && r.value.value == Transform(Get(reg, orig).value[FindByName(Get(reg, orig).value, Some(name)).value],
                                            HeadersAndTexts(Get(reg, orig).value))
  {
    var found :- VirtualSegment(scheme, reg, filename);
    match found
    case None => Success(None)
    case Some((segs, i)) => Success(Some(TransformSegmentTextFixed(segs, i, None)))
  }

  /** A real file is split; with more than one segment it is registered and served with its
      other segments blanked, otherwise the host's snapshot stands. */
  function ServeReal(p: Parsers, reg: Registry, filename: string, text: string): (r: Result<(Registry, Option<string>), HostError>)
    ensures r.Failure? <==> SplitSegments(TemplateId, p, text).Failure?
    ensures r.Success? && |SplitSegments(TemplateId, p, text).value.1| <= 1 ==> r.value == (reg, Some(text))
    ensures r.Success? && |SplitSegments(TemplateId, p, text).value.1| > 1 ==>
              var segs := SplitSegments(TemplateId, p, text).value.1;
              r.value == (Save(reg, filename, segs), Some(Transform(segs[0], text)))
  {
    var (_, segs) :- match SplitSegments(TemplateId, p, text)
      case Failure(e) => Failure(Split(e))
      case Success(v) => Success(v);
    if |segs| <= 1 then Success((reg, Some(text)))
    else Success((Save(reg, filename, segs), Some(TransformSegmentText(segs, 0, Some(text)))))
  }

  /** The overridden `getScriptSnapshot(filename)`, a snapshot taken as its text; `prior` is
      the host's snapshot. Files in the skipped directories keep the host's snapshot; a
      virtual filename never changes the registry; a real file without a host snapshot has
      none. */
  function GetScriptSnapshot(scheme: Scheme, p: Parsers, reg: Registry, filename: string,
                             prior: Option<string>): (r: Result<(Registry, Option<string>), HostError>)
    ensures Skipped(filename) ==> r == Success((reg, prior))
    ensures !Skipped(filename) && !IsVirtual(filename) && prior.None? ==> r == Success((reg, None))
    ensures !Skipped(filename) && IsVirtual(filename) ==>
              r == (match ServeVirtual(scheme, reg, filename)
                    case Failure(e) => Failure(e)
                    case Success(v) => Success((reg, v)))
    ensures !Skipped(filename) && !IsVirtual(filename) && prior.Some? ==> r == ServeReal(p, reg, filename, prior.value)
  {
    if Skipped(filename) then Success((reg, prior))
    else if IsVirtual(filename) then
      var v :- ServeVirtual(scheme, reg, filename);
      Success((reg, v))
    else if prior.Some? then ServeReal(p, reg, filename, prior.value)
    else Success((reg, None))
  }

  /** A real file with named segments is registered under its name, and its snapshot is the
      main segment's text followed by the rest of the file blanked, as long as the file. */
  lemma RealFileSnapshot(p: Parsers, reg: Registry, filename: string, text: string, main: Segment, segs: seq<Segment>)
    requires SplitSegments(TemplateId, p, text) == Success((main, segs)) && |segs| > 1
    ensures Splits(TemplateId, text, main, segs)
    ensures ServeReal(p, reg, filename, text)
            == Success((Save(reg, filename, segs), Some(segs[0].text + Blanked(text[segs[0].end..]))))
    ensures |segs[0].text + Blanked(text[segs[0].end..])| == |text|
  {
    SplitTiles(TemplateId, p, text);
    assert segs[0].header + segs[0].text == segs[0].text;
    MainSnapshot(text, segs[0]);
  }

  lemma MainSnapshot(text: string, sg: Segment)
    requires Spans(text, sg) && sg.start == 0 && sg.header == ""
    ensures Transform(sg, text) == sg.text + Blanked(text[sg.end..])
    ensures |Transform(sg, text)| == |text|
  {
    TransformLayout(text, sg);
    assert Blanked(text[..0]) == [];
  }

  /** After a file is registered, the virtual filename of one of its named segments is served
      as that segment (the first of that name, names not being checked for uniqueness) shown
      in the segment texts joined without their headers. */
  lemma VirtualFileSnapshot(scheme: Scheme, p: Parsers, reg: Registry, file: string, text: string, name: string,
                            main: Segment, segs: seq<Segment>, k: nat)
    requires !IsVirtual(file)
    requires SpecifierName(name) == name && DecodedName(name) == name
    requires RoundTrips(scheme, file, name)
    requires SplitSegments(TemplateId, p, text) == Success((main, segs))
    requires FindByName(segs, Some(name)) == Some(k)
    ensures ServeVirtual(scheme, Save(reg, file, segs), Encode(scheme, name, file)) == Success(Some(Transform(segs[k], TextsOnly(segs))))
  {
    SavedSegment(scheme, reg, file, name, segs, k);
    ServedSegment(scheme, Save(reg, file, segs), Encode(scheme, name, file), segs, k);
  }

  /** Both ways of serving a virtual filename show the segment it names. */
  lemma ServedSegment(scheme: Scheme, reg: Registry, filename: string, segs: seq<Segment>, k: nat)
    requires VirtualSegment(scheme, reg, filename) == Success(Some((segs, k)))
    ensures k < |segs|
    ensures ServeVirtual(scheme, reg, filename) == Success(Some(TransformSegmentText(segs, k, None)))
    ensures ServeVirtualFixed(scheme, reg, filename) == Success(Some(TransformSegmentTextFixed(segs, k, None)))
  {
  }

  /** The virtual filename of a segment of a registered file names that segment. */
  lemma SavedSegment(scheme: Scheme, reg: Registry, file: string, name: string, segs: seq<Segment>, k: nat)
    requires !IsVirtual(file)
    requires SpecifierName(name) == name && DecodedName(name) == name
    requires RoundTrips(scheme, file, name)
    requires FindByName(segs, Some(name)) == Some(k)
    ensures VirtualSegment(scheme, Save(reg, file, segs), Encode(scheme, name, file)) == Success(Some((segs, k)))
  {
    DecodeEncode(scheme, name, file, true);
  }

  /** With the corrected fallback the segment is served in a text as long as the file, with
      everything but that segment's text blanked and the text at its own offsets. */
  lemma VirtualFileSnapshotFixed(scheme: Scheme, p: Parsers, reg: Registry, file: string, text: string, name: string,
                                 main: Segment, segs: seq<Segment>, k: nat)
    requires !IsVirtual(file)
    requires SpecifierName(name) == name && DecodedName(name) == name
    requires RoundTrips(scheme, file, name)
    requires SplitSegments(TemplateId, p, text) == Success((main, segs))
    requires FindByName(segs, Some(name)) == Some(k)
    ensures Splits(TemplateId, text, main, segs)
    ensures ServeVirtualFixed(scheme, Save(reg, file, segs), Encode(scheme, name, file)) == Success(Some(Transform(segs[k], text)))
    ensures |Transform(segs[k], text)| == |text|
    ensures TextInPlace(Transform(segs[k], text), segs[k])
  {
    SplitTiles(TemplateId, p, text);
    SavedSegment(scheme, reg, file, name, segs, k);
    ServedSegment(scheme, Save(reg, file, segs), Encode(scheme, name, file), segs, k);
    FixedSnapshotOfSplit(text, main, segs, k);
  }

  // ---------------------------------------------------------------------------------------
  // Routing queries

  /** `findSegmentWithVirtualFilename(fileName, position)`: the named segment at a position,
      with its virtual filename. */
  function VirtualTarget(scheme: Scheme, reg: Registry, file: string, pos: int): (r: Option<(string, Segment)>)
    ensures r.Some? ==> Named(r.value.1) && r.value.0 == Encode(scheme, r.value.1.name.value, file)
    ensures r.Some? <==> FindSegmentWithIndexFromPos(reg, file, pos).Some? && Named(FindSegmentWithIndexFromPos(reg, file, pos).value.0)
    ensures r.Some? ==> r.value.1 == FindSegmentWithIndexFromPos(reg, file, pos).value.0
  {
    match FindSegmentWithIndexFromPos(reg, file, pos)
    case None => None
    case Some((sg, _)) =>
      if Named(sg) then Some((Encode(scheme, sg.name.value, file), sg)) else None
  }

  datatype Span = Span(start: int, length: int)
  datatype Location = Location(fileName: string, textSpan: Span)
  datatype ReferencedSymbol = ReferencedSymbol(definition: Location, references: seq<Location>)

  /** `findReferences(fileName, position)` of the underlying service. */
  type ReferenceService = (string, int) -> Option<seq<ReferencedSymbol>>

  function Moved(l: Location, file: string): Location {
    l.(fileName := file)
  }

  function MoveSymbol(s: ReferencedSymbol, file: string): ReferencedSymbol {
    ReferencedSymbol(Moved(s.definition, file), seq(|s.references|, k requires 0 <= k < |s.references| => Moved(s.references[k], file)))
  }

  /** `moved` is `refs` with every definition and reference in `file`, spans unchanged. */
  predicate MovedTo(moved: seq<ReferencedSymbol>, refs: seq<ReferencedSymbol>, file: string) {
    && |moved| == |refs|
    && forall k :: 0 <= k < |refs| ==>
         && moved[k].definition == refs[k].definition.(fileName := file)
         && |moved[k].references| == |refs[k].references|
         && forall j :: 0 <= j < |refs[k].references| ==> moved[k].references[j] == refs[k].references[j].(fileName := file)
  }

  /** The overridden `findReferences`: the service's own answer, unless it has none and the
      position lies in a named segment; then the segment's virtual file is asked at the same
      position and every definition and reference is moved to the decoded file. */
  function FindReferences(scheme: Scheme, reg: Registry, service: ReferenceService, file: string, pos: int)
    : (r: Result<Option<seq<ReferencedSymbol>>, CodecError>)
    ensures service(file, pos).Some? ==> r == Success(service(file, pos))
    ensures service(file, pos).None? && VirtualTarget(scheme, reg, file, pos).None? ==> r == Success(None)
    ensures service(file, pos).None? && r.Success? && r.value.Some? ==>
              var v := VirtualTarget(scheme, reg, file, pos).value.0;
              && service(v, pos).Some? && Decode(scheme, v, true).Success?
              && MovedTo(r.value.value, service(v, pos).value, Decode(scheme, v, true).value.1)
  {
    var prior := service(file, pos);
    if prior.Some? then Success(prior)
    else
      match VirtualTarget(scheme, reg, file, pos)
      case None => Success(None)
      case Some((v, _)) =>
        match service(v, pos)
        case None => Success(None)
        case Some(refs) =>
          var (_, orig) :- Decode(scheme, v, true);
          Success(Some(seq(|refs|, k requires 0 <= k < |refs| => MoveSymbol(refs[k], orig))))
  }

  /** The fallback lands in the real file: with a name the scheme round-trips, the decoded
      file is the file asked about. */
  lemma FindReferencesInFile(scheme: Scheme, reg: Registry, service: ReferenceService, file: string, pos: int)
    requires !IsVirtual(file) && service(file, pos).None?
    requires VirtualTarget(scheme, reg, file, pos).Some?
    requires RoundTrips(scheme, file, SpecifierName(VirtualTarget(scheme, reg, file, pos).value.1.name.value))
    requires service(VirtualTarget(scheme, reg, file, pos).value.0, pos).Some?
    ensures var r := FindReferences(scheme, reg, service, file, pos);
            r.Success? && r.value.Some?
            && MovedTo(r.value.value, service(VirtualTarget(scheme, reg, file, pos).value.0, pos).value, file)
  {
    var (v, sg) := VirtualTarget(scheme, reg, file, pos).value;
    DecodeEncode(scheme, sg.name.value, file, true);
    FindReferencesFallback(scheme, reg, service, file, pos, v, sg, service(v, pos).value, DecodedName(sg.name.value), file);
  }

  /** The fallback of `findReferences` once the virtual file answers and its name decodes. */
  lemma FindReferencesFallback(scheme: Scheme, reg: Registry, service: ReferenceService, file: string, pos: int,
                               v: string, sg: Segment, refs: seq<ReferencedSymbol>, name: string, orig: string)
    requires service(file, pos).None? && VirtualTarget(scheme, reg, file, pos) == Some((v, sg))
    requires service(v, pos) == Some(refs) && Decode(scheme, v, true) == Success((name, orig))
    ensures var r := FindReferences(scheme, reg, service, file, pos);
            r.Success? && r.value.Some? && MovedTo(r.value.value, refs, orig)
  {
  }

  /** `findRenameLocations(fileName, position, ...)` of the underlying service. */
  type RenameService = (string, int) -> Option<seq<Location>>

  /** The overridden `findRenameLocations`: the same fallback, each location moved with
      `replace(loc, 'fileName', originalFile)`. */
  function FindRenameLocations(scheme: Scheme, reg: Registry, service: RenameService, file: string, pos: int)
    : (r: Result<Option<seq<Location>>, CodecError>)
    ensures service(file, pos).Some? ==> r == Success(service(file, pos))
    ensures service(file, pos).None? && VirtualTarget(scheme, reg, file, pos).None? ==> r == Success(None)
    ensures service(file, pos).None? && r.Success? && r.value.Some? ==>
              var v := VirtualTarget(scheme, reg, file, pos).value.0;
              && service(v, pos).Some? && Decode(scheme, v, true).Success?
              && |r.value.value| == |service(v, pos).value|
              && forall k :: 0 <= k < |r.value.value| ==>
                   r.value.value[k] == service(v, pos).value[k].(fileName := Decode(scheme, v, true).value.1)
  {
    var prior := service(file, pos);
    if prior.Some? then Success(prior)
    else
      match VirtualTarget(scheme, reg, file, pos)
      case None => Success(None)
      case Some((v, _)) =>
        match service(v, pos)
        case None => Success(None)
        case Some(locs) =>
          var (_, orig) :- Decode(scheme, v, true);
          Success(Some(seq(|locs|, k requires 0 <= k < |locs| => Moved(locs[k], orig))))
  }

  datatype DocumentHighlights = DocumentHighlights(fileName: string, highlightSpans: seq<Span>)

  /** `getDocumentHighlights(fileName, position, filesToSearch)` of the underlying service. */
  type HighlightService = (string, int, seq<string>) -> Option<seq<DocumentHighlights>>

  /** The virtual filenames of the same segment name in each file to search. */
  function VirtualFiles(scheme: Scheme, name: string, files: seq<string>): (r: seq<string>)
    ensures |r| == |files| && forall k :: 0 <= k < |files| ==> IsVirtual(r[k])
  {
    seq(|files|, k requires 0 <= k < |files| => Encode(scheme, name, files[k]))
  }

  /** The overridden `getDocumentHighlights`: the same fallback, asking the segment's virtual
      file and searching the virtual files of that segment name. */
  function GetDocumentHighlights(scheme: Scheme, reg: Registry, service: HighlightService, file: string, pos: int,
                                 filesToSearch: seq<string>): (r: Result<Option<seq<DocumentHighlights>>, CodecError>)
    ensures service(file, pos, filesToSearch).Some? ==> r == Success(service(file, pos, filesToSearch))
    ensures service(file, pos, filesToSearch).None? && VirtualTarget(scheme, reg, file, pos).None? ==> r == Success(None)
    ensures service(file, pos, filesToSearch).None? && r.Success? && r.value.Some? ==>
              var (v, sg) := VirtualTarget(scheme, reg, file, pos).value;
              var answer := service(v, pos, VirtualFiles(scheme, sg.name.value, filesToSearch));
              && answer.Some? && Decode(scheme, v, true).Success?
              && |r.value.value| == |answer.value|
              && forall k :: 0 <= k < |r.value.value| ==>
                   r.value.value[k] == answer.value[k].(fileName := Decode(scheme, v, true).value.1)
  {
    var prior := service(file, pos, filesToSearch);
    if prior.Some? then Success(prior)
    else
      match VirtualTarget(scheme, reg, file, pos)
      case None => Success(None)
      case Some((v, sg)) =>
        match service(v, pos, VirtualFiles(scheme, sg.name.value, filesToSearch))
        case None => Success(None)
        case Some(hs) =>
          var (_, orig) :- Decode(scheme, v, true);
          Success(Some(seq(|hs|, k requires 0 <= k < |hs| => hs[k].(fileName := orig))))
  }

  // ---------------------------------------------------------------------------------------
  // getDefinitionAndBoundSpan

  datatype DefinitionInfo = DefinitionInfo(
    fileName: string,
    textSpan: Span,
    contextSpan: Option<Span>,
    unverified: Option<bool>,
    failedAliasResolution: Option<bool>,
    containerName: Option<string>)

  datatype DefinitionAndBoundSpan = DefinitionAndBoundSpan(definitions: Option<seq<DefinitionInfo>>, textSpan: Span)

  /** `getDefinitionAndBoundSpan(fileName, position)` of the underlying service. */
  type DefinitionService = (string, int) -> Option<DefinitionAndBoundSpan>

  /** A definition in a registered segment's virtual file moved to the real file, the
      container named by `quote` applied to the file without its `.js` suffix. */
  predicate MovedDefinition(d: DefinitionInfo, before: DefinitionInfo, file: string, quote: string -> string) {
    && d.fileName == file && d.textSpan == before.textSpan
    && d.contextSpan == Some(before.textSpan) && d.failedAliasResolution == Some(false)
    && d.unverified == before.unverified
    && d.containerName == Some(quote(StripSuffix(file, JsSuffix)))
  }

  /** `mapDefinitionEntry(defEntry)`: a definition in a virtual file whose segment is
      registered moves to the real file, with `contextSpan` a copy of `textSpan` and the
      container named after the file (`JSON.stringify` is the parameter `quote`); any other
      definition is returned as it is. */
  function MapDefinitionEntry(scheme: Scheme, reg: Registry, quote: string -> string, d: DefinitionInfo)
    : (r: Result<DefinitionInfo, CodecError>)
    ensures !IsVirtual(d.fileName) ==> r == Success(d)
    ensures r.Success? && r.value != d ==>
              && IsVirtual(d.fileName) && Decode(scheme, d.fileName, true).Success?
              && MovedDefinition(r.value, d, Decode(scheme, d.fileName, true).value.1, quote)
              && !IsVirtual(r.value.fileName)
    ensures r.Failure? <==> IsVirtual(d.fileName) && Decode(scheme, d.fileName, true).Failure?
  {
    if !IsVirtual(d.fileName) then Success(d)
    else
      var (segmentName, orig) :- Decode(scheme, d.fileName, true);
      match GetSegmentFromFile(reg, ByName(orig), Some(segmentName))
      case None => Success(d)
      case Some(_) =>
        Success(d.(fileName := orig, failedAliasResolution := Some(false),
                   containerName := Some(quote(StripSuffix(orig, JsSuffix))), contextSpan := Some(d.textSpan)))
  }

  /** `definitions.map(mapDefinitionEntry)`: the first throw escapes. */
  function MapDefinitions(scheme: Scheme, reg: Registry, quote: string -> string, ds: seq<DefinitionInfo>)
    : (r: Result<seq<DefinitionInfo>, CodecError>)
    ensures r.Success? ==> |r.value| == |ds|
    ensures r.Success? <==> forall k :: 0 <= k < |ds| ==> MapDefinitionEntry(scheme, reg, quote, ds[k]).Success?
    ensures r.Success? ==> forall k :: 0 <= k < |ds| ==> r.value[k] == MapDefinitionEntry(scheme, reg, quote, ds[k]).value
  {
    MapResults((d: DefinitionInfo) => MapDefinitionEntry(scheme, reg, quote, d), ds)
  }

  /** The named-segment answer with every definition marked `unverified: false`. */
  function MarkVerified(info: Option<DefinitionAndBoundSpan>): (r: Option<DefinitionAndBoundSpan>)
    ensures r.Some? <==> info.Some?
    ensures r.Some? ==> r.value.textSpan == info.value.textSpan && (r.value.definitions.Some? <==> info.value.definitions.Some?)
    ensures r.Some? && r.value.definitions.Some? ==>
              var ds := info.value.definitions.value;
              |r.value.definitions.value| == |ds|
              && forall k :: 0 <= k < |ds| ==> r.value.definitions.value[k] == ds[k].(unverified := Some(false))
  {
    match info
    case None => None
    case Some(i) =>
      match i.definitions
      case None => info
      case Some(ds) =>
        Some(i.(definitions := Some(seq(|ds|, k requires 0 <= k < |ds| => ds[k].(unverified := Some(false))))))
  }

  /** The overridden `getDefinitionAndBoundSpan`: nothing when no segment contains the
      position; a named segment is asked through its virtual file, the main segment through
      the file itself; the definitions are then mapped back to real files. */
  function GetDefinitionAndBoundSpan(scheme: Scheme, reg: Registry, service: DefinitionService, quote: string -> string,
                                     file: string, pos: int): (r: Result<Option<DefinitionAndBoundSpan>, CodecError>)
    ensures FindSegmentWithIndexFromPos(reg, file, pos).None? ==> r == Success(None)
    ensures r.Success? && r.value.Some? ==>
              var sg := FindSegmentWithIndexFromPos(reg, file, pos).value.0;
              var asked := if Named(sg) then MarkVerified(service(Encode(scheme, sg.name.value, file), pos))
                           else service(file, pos);
              && asked.Some? && r.value.value.textSpan == asked.value.textSpan
              && (r.value.value.definitions.Some? <==> asked.value.definitions.Some?)
              && (r.value.value.definitions.Some? ==>
                    MapDefinitions(scheme, reg, quote, asked.value.definitions.value).Success? &&
                    r.value.value.definitions == Some(MapDefinitions(scheme, reg, quote, asked.value.definitions.value).value))
  {
    match FindSegmentWithIndexFromPos(reg, file, pos)
    case None => Success(None)
    case Some((sg, _)) =>
      var prior := if Named(sg) then MarkVerified(service(Encode(scheme, sg.name.value, file), pos))
                   else service(file, pos);
      match prior
      case None => Success(None)
      case Some(info) =>
        match info.definitions
        case None => Success(prior)
        case Some(ds) =>
          var mapped :- MapDefinitions(scheme, reg, quote, ds);
          Success(Some(info.(definitions := Some(mapped))))
  }

  /** A definition the service places in a registered segment of a real file is reported in
      that file, at the span the service gave. */
  lemma DefinitionInSegment(scheme: Scheme, reg: Registry, quote: string -> string, d: DefinitionInfo,
                            name: string, file: string)
    requires !IsVirtual(file) && RoundTrips(scheme, file, SpecifierName(name))
    requires d.fileName == Encode(scheme, name, file)
    requires GetSegmentFromFile(reg, ByName(file), Some(DecodedName(name))).Some?
    ensures var r := MapDefinitionEntry(scheme, reg, quote, d);
            r.Success? && MovedDefinition(r.value, d, file, quote)
  {
    DecodeEncode(scheme, name, file, true);
  }
}

=== FILE: splitter.dfy ===
/** `split_segments`: `splitSegmentsWithPosition` cuts a file at every segment marker into
    snippets, regroups the snippets until each group parses (a group that fails because of a
    separator line stays open for the next snippet), and turns each group into a segment with
    its offsets in the file. The two splitters differ only in their marker (`Markers`) and in
    which part of a match is the header. */
module Splitter {
  import opened Wrappers
  import opened JsString
  import opened Estree
  import opened ParseUtils
  import opened ParseHelpers
  import opened Markers

  /** A piece of the input between markers, with its range `[start, end)`. */
  datatype Snippet = Snippet(text: string, start: nat, end: nat)

  datatype Segment = Segment(
    name: Option<string>,     // `undefined` for the main segment
    header: string,
    text: string,
    start: nat,
    end: nat,
    names: seq<LocalName>,
    importedNames: seq<ImportName>,
    exportedNames: seq<ExportName>)

  /** The classification `checkDashedError` makes of a strict-parse error message, given the
      whole input (it reads line `L` of the input, not of the group). The message sniffing is
      a parameter. */
  type DashedCheck = (string, string) -> bool

  /** The collaborators of the splitter. */
  datatype Parsers = Parsers(strict: StrictParser, dashed: DashedCheck, loose: LooseParser)

  function Texts(sn: seq<Snippet>): (r: seq<string>)
    ensures |r| == |sn| && forall k :: 0 <= k < |sn| ==> r[k] == sn[k].text
  {
    seq(|sn|, k requires 0 <= k < |sn| => sn[k].text)
  }

  /** The texts rejoined with `THREE_DASHES`. */
  function JoinTexts(sn: seq<Snippet>): string {
    Join(Texts(sn), Separator)
  }

  // ---------------------------------------------------------------------------------------
  // Step 1: snippets

  /** `restCode.search(SPLIT_PATTERN)`, taken as a value so that the cutting loop is reasoned
      about once for any marker: all it needs is that the dashes sit where a match starts. */
  type CutFinder = string -> Option<nat>

  ghost predicate FindsDashes(find: CutFinder) {
    forall s :: find(s).Some? ==> OccursAt(s, Separator, find(s).value)
  }

  function SearchOf(m: MarkerSyntax): CutFinder {
    s => SearchIndex(m, s)
  }

  lemma SearchFindsDashes(m: MarkerSyntax)
    ensures FindsDashes(SearchOf(m))
  {
    forall s ensures SearchOf(m)(s).Some? ==> OccursAt(s, Separator, SearchOf(m)(s).value) {
      assert SearchOf(m)(s) == SearchIndex(m, s);
    }
  }

  /** The loop of `splitCodeIntoSnippets` from a remaining text whose first character sits at
      `start` in the input: cut before each match, skip the five dashes, go on. */
  function CutFrom(find: CutFinder, rest: string, start: nat): (r: seq<Snippet>)
    requires FindsDashes(find)
    decreases |rest|
    ensures |r| >= 1 && r[0].start == start
    ensures r[|r| - 1].end == start + |rest|
  {
    match find(rest)
    case None => [Snippet(rest, start, start + |rest|)]
    case Some(i) =>
      [Snippet(rest[..i], start, start + i)] + CutFrom(find, rest[i + 5..], start + i + 5)
  }

  /** `splitCodeIntoSnippets(codeInput).snippets`: `None` (undefined) when nothing matches. */
  function SplitCodeIntoSnippets(m: MarkerSyntax, input: string): (r: Option<seq<Snippet>>)
    ensures r.None? <==> SearchIndex(m, input).None?
    ensures r.Some? ==> |r.value| >= 2
  {
    SearchFindsDashes(m);
    var find := SearchOf(m);
    if find(input).None? then None
    else
      CutFromFound(find, input, 0, find(input).value);
      Some(CutFrom(find, input, 0))
  }

  /** A match in the remaining text makes at least two snippets. */
  lemma CutFromFound(find: CutFinder, rest: string, start: nat, i: nat)
    requires FindsDashes(find) && find(rest) == Some(i)
    ensures |CutFrom(find, rest, start)| >= 2
  {
    assert i + 5 <= |rest|;
    var tail := CutFrom(find, rest[i + 5..], start + i + 5);
    assert CutFrom(find, rest, start) == [Snippet(rest[..i], start, start + i)] + tail;
  }

  /** The snippets lie in the input: each one's text is the input over its range, and the five
      characters between two neighbours are the dashes. */
  predicate Tiled(input: string, sn: seq<Snippet>) {
    && (forall k :: 0 <= k < |sn| ==>
          sn[k].start <= sn[k].end <= |input| && sn[k].text == input[sn[k].start..sn[k].end])
    && (forall k :: 0 <= k < |sn| - 1 ==>
          sn[k + 1].start == sn[k].end + 5 && OccursAt(input, Separator, sn[k].end))
  }

  lemma TiledCons(input: string, h: Snippet, tail: seq<Snippet>)
    requires Tiled(input, tail) && |tail| > 0
    requires h.start <= h.end <= |input| && h.text == input[h.start..h.end]
    requires tail[0].start == h.end + 5 && OccursAt(input, Separator, h.end)
    ensures Tiled(input, [h] + tail)
  {
    var r := [h] + tail;
    forall k | 0 <= k < |r| ensures r[k].start <= r[k].end <= |input| && r[k].text == input[r[k].start..r[k].end] {
      if k > 0 {
        assert r[k] == tail[k - 1];
      }
    }
    forall k | 0 <= k < |r| - 1
      ensures r[k + 1].start == r[k].end + 5 && OccursAt(input, Separator, r[k].end)
    {
      if k > 0 {
        assert r[k] == tail[k - 1] && r[k + 1] == tail[k];
      }
    }
  }

  lemma {:induction false} CutFromTiled(find: CutFinder, input: string, start: nat)
    requires FindsDashes(find) && start <= |input|
    ensures Tiled(input, CutFrom(find, input[start..], start))
    decreases |input| - start
  {
    var rest := input[start..];
    match find(rest)
    case None =>
    case Some(i) =>
      CutInInput(input, start, i);
      CutFromTiled(find, input, start + i + 5);
      CutTiledStep(find, input, start, i, CutFrom(find, input[start + i + 5..], start + i + 5));
  }

  lemma CutTiledStep(find: CutFinder, input: string, start: nat, i: nat, tail: seq<Snippet>)
    requires FindsDashes(find) && start <= |input| && find(input[start..]) == Some(i)
    requires start + i + 5 <= |input| && tail == CutFrom(find, input[start + i + 5..], start + i + 5)
    requires Tiled(input, tail)
    ensures Tiled(input, CutFrom(find, input[start..], start))
  {
    var rest := input[start..];
    CutInInput(input, start, i);
    var h := Snippet(rest[..i], start, start + i);
    assert CutFrom(find, rest, start) == [h] + tail;
    TiledCons(input, h, tail);
  }

  /** A cut at `i` in the rest of the input from `start` is a cut at `start + i` in the input. */
  lemma CutInInput(input: string, start: nat, i: nat)
    requires start <= |input| && OccursAt(input[start..], Separator, i)
    ensures start + i + 5 <= |input|
    ensures input[start..][..i] == input[start..start + i]
    ensures input[start..][i + 5..] == input[start + i + 5..]
    ensures OccursAt(input, Separator, start + i)
  {
    var rest := input[start..];
    assert input[start + i..start + i + 5] == rest[i..i + 5];
  }

  lemma {:induction false} CutFromJoin(find: CutFinder, rest: string, start: nat)
    requires FindsDashes(find)
    ensures JoinTexts(CutFrom(find, rest, start)) == rest
    decreases |rest|
  {
    match find(rest)
    case None =>
    case Some(i) =>
      DashesFit(find, rest, i);
      CutFromJoin(find, rest[i + 5..], start + i + 5);
      CutJoinStep(find, rest, start, i, CutFrom(find, rest[i + 5..], start + i + 5));
  }

  lemma DashesFit(find: CutFinder, rest: string, i: nat)
    requires FindsDashes(find) && find(rest) == Some(i)
    ensures i + 5 <= |rest| && OccursAt(rest, Separator, i)
  {
  }

  lemma CutJoinStep(find: CutFinder, rest: string, start: nat, i: nat, tail: seq<Snippet>)
    requires FindsDashes(find) && find(rest) == Some(i) && i + 5 <= |rest|
    requires tail == CutFrom(find, rest[i + 5..], start + i + 5) && JoinTexts(tail) == rest[i + 5..]
    ensures JoinTexts(CutFrom(find, rest, start)) == rest
  {
    CutFromCons(find, rest, start, i);
    JoinTextsCons(Snippet(rest[..i], start, start + i), tail);
    assert rest == rest[..i] + rest[i..i + 5] + rest[i + 5..];
  }

  lemma CutFromCons(find: CutFinder, rest: string, start: nat, i: nat)
    requires FindsDashes(find) && find(rest) == Some(i)
    ensures i + 5 <= |rest|
    ensures CutFrom(find, rest, start)
              == [Snippet(rest[..i], start, start + i)] + CutFrom(find, rest[i + 5..], start + i + 5)
  {
  }

  lemma JoinTextsCons(h: Snippet, tail: seq<Snippet>)
    requires |tail| > 0
    ensures JoinTexts([h] + tail) == h.text + Separator + JoinTexts(tail)
  {
    assert Texts([h] + tail) == [h.text] + Texts(tail);
    JoinAppend([h.text], Texts(tail), Separator);
  }

  /** The snippets rebuild the input: joined with the dashes they give it back, the first
      starts at 0, each next one five characters after the previous end, the last ends at
      the end of the input, and each text is the input over its range. */
  lemma SnippetsTile(m: MarkerSyntax, input: string)
    requires SplitCodeIntoSnippets(m, input).Some?
    ensures var sn := SplitCodeIntoSnippets(m, input).value;
            && JoinTexts(sn) == input
            && sn[0].start == 0 && sn[|sn| - 1].end == |input|
            && Tiled(input, sn)
  {
    var find := SearchOf(m);
    SearchFindsDashes(m);
    assert SplitCodeIntoSnippets(m, input).value == CutFrom(find, input, 0);
    CutFromTiled(find, input, 0);
    WholeSuffix(input);
    CutFromJoin(find, input, 0);
  }

  lemma WholeSuffix(s: string)
    ensures s[0..] == s
  {
  }

  // ---------------------------------------------------------------------------------------
  // Step 2: groups

  /** The first element of a group tuple: `null`, the parse error that keeps it open, or
      `true`. */
  datatype GroupState = Pending | Open(error: string) | Complete

  datatype Group = Group(state: GroupState, snippets: seq<Snippet>)

  /** The reducer of `groupByVaildJavascript`: the snippet joins the last group unless that
      group is complete; the group is re-parsed; a separator error keeps it open, anything
      else completes it and starts an empty one. A non-`Error` throw escapes. */
  function Step(p: Parsers, input: string, gs: seq<Group>, sn: Snippet): (r: Result<seq<Group>, Exception>)
    requires |gs| > 0
    ensures r.Success? ==> |r.value| > 0
  {
    var last := gs[|gs| - 1];
    if last.state == Complete then Success(gs)
    else
      var snippets := last.snippets + [sn];
      var err :- CheckInvalid(p.strict, JoinTexts(snippets));
      if err.Some? && p.dashed(err.value, input) then
        Success(gs[..|gs| - 1] + [Group(Open(err.value), snippets)])
      else
        Success(gs[..|gs| - 1] + [Group(Complete, snippets), Group(Pending, [])])
  }

  function Fold(p: Parsers, input: string, gs: seq<Group>, sns: seq<Snippet>): (r: Result<seq<Group>, Exception>)
    requires |gs| > 0
    decreases |sns|
    ensures r.Success? ==> |r.value| > 0
  {
    if |sns| == 0 then Success(gs)
    else
      var next :- Step(p, input, gs, sns[0]);
      Fold(p, input, next, sns[1..])
  }

  /** The first group that is not complete, if any. */
  function FirstIncomplete(gs: seq<Group>): (r: Option<Group>)
    ensures r.Some? ==> r.value in gs && r.value.state != Complete
    ensures r.None? ==> forall g :: g in gs ==> g.state == Complete
  {
    if |gs| == 0 then None
    else if gs[0].state != Complete then Some(gs[0])
    else FirstIncomplete(gs[1..])
  }

  /** `groupByVaildJavascript(snippets, codeInput)`: fold, drop a trailing empty group, and
      throw `ParseError` for the first group left incomplete (wrapping its parse error). */
  function GroupByValidJavascript(p: Parsers, input: string, sns: seq<Snippet>): (r: Result<seq<Group>, Exception>)
    ensures r.Success? ==> forall g :: g in r.value ==> g.state == Complete
  {
    var gs :- Fold(p, input, [Group(Pending, [])], sns);
    var trimmed := if |gs[|gs| - 1].snippets| == 0 then gs[..|gs| - 1] else gs;
    match FirstIncomplete(trimmed)
    case Some(Group(Open(e), _)) => Failure(ParseError(e))
    case Some(_) => Failure(ParseError("not a valid snippet"))
    case None => Success(trimmed)
  }

  function Flatten(gs: seq<Group>): seq<Snippet> {
    if |gs| == 0 then [] else gs[0].snippets + Flatten(gs[1..])
  }

  lemma {:induction false} FlattenAppend(a: seq<Group>, b: seq<Group>)
    ensures Flatten(a + b) == Flatten(a) + Flatten(b)
    decreases |a|
  {
    if |a| > 0 {
      assert (a + b)[1..] == a[1..] + b;
      FlattenAppend(a[1..], b);
    } else {
      assert a + b == b;
    }
  }

  /** What the fold keeps true: every group but the last is complete and non-empty; the last
      is the empty pending group, or an open group held open by a separator error of its own
      text; every complete group either parses or fails for a reason other than a separator. */
  predicate Shaped(p: Parsers, input: string, gs: seq<Group>) {
    && |gs| > 0
    && (forall j :: 0 <= j < |gs| - 1 ==> gs[j].state == Complete && |gs[j].snippets| > 0)
    && (gs[|gs| - 1].state == Pending <==> |gs[|gs| - 1].snippets| == 0)
    && gs[|gs| - 1].state != Complete
    && (gs[|gs| - 1].state.Open? ==>
          p.strict(JoinTexts(gs[|gs| - 1].snippets)) == RaisedError(gs[|gs| - 1].state.error)
          && p.dashed(gs[|gs| - 1].state.error, input))
    && (forall j :: 0 <= j < |gs| - 1 ==> ClosedFairly(p, input, gs[j]))
  }

  /** A complete group parses, or fails with an error that is not a separator error. */
  predicate ClosedFairly(p: Parsers, input: string, g: Group) {
    var o := p.strict(JoinTexts(g.snippets));
    o == Accepted || (o.RaisedError? && !p.dashed(o.message, input))
  }

  lemma StepShaped(p: Parsers, input: string, gs: seq<Group>, sn: Snippet)
    requires Shaped(p, input, gs)
    requires Step(p, input, gs, sn).Success?
    ensures Shaped(p, input, Step(p, input, gs, sn).value)
    ensures Flatten(Step(p, input, gs, sn).value) == Flatten(gs) + [sn]
  {
    var n := |gs| - 1;
    var last := gs[n];
    var snippets := last.snippets + [sn];
    var front := gs[..n];
    assert gs == front + [last];
    FlattenSnoc(front, last);
    var err := CheckInvalid(p.strict, JoinTexts(snippets)).value;
    if err.Some? && p.dashed(err.value, input) {
      StepKeepsOpen(p, input, gs, sn, err.value);
      StepOpenShaped(p, input, front, last, sn, err.value);
    } else {
      StepCloses(p, input, gs, sn, err);
      StepCloseShaped(p, input, front, last, sn);
    }
  }

  lemma StepKeepsOpen(p: Parsers, input: string, gs: seq<Group>, sn: Snippet, e: string)
    requires Shaped(p, input, gs)
    requires var snippets := gs[|gs| - 1].snippets + [sn];
             CheckInvalid(p.strict, JoinTexts(snippets)) == Success(Some(e)) && p.dashed(e, input)
    ensures var snippets := gs[|gs| - 1].snippets + [sn];
            Step(p, input, gs, sn) == Success(gs[..|gs| - 1] + [Group(Open(e), snippets)])
            && p.strict(JoinTexts(snippets)) == RaisedError(e)
  {
  }

  lemma StepCloses(p: Parsers, input: string, gs: seq<Group>, sn: Snippet, err: Option<string>)
    requires Shaped(p, input, gs)
    requires var snippets := gs[|gs| - 1].snippets + [sn];
             CheckInvalid(p.strict, JoinTexts(snippets)) == Success(err)
             && !(err.Some? && p.dashed(err.value, input))
    ensures var snippets := gs[|gs| - 1].snippets + [sn];
            Step(p, input, gs, sn) == Success(gs[..|gs| - 1] + [Group(Complete, snippets), Group(Pending, [])])
            && ClosedFairly(p, input, Group(Complete, snippets))
  {
  }

  lemma FlattenSnoc(front: seq<Group>, g: Group)
    ensures Flatten(front + [g]) == Flatten(front) + g.snippets
  {
    FlattenAppend(front, [g]);
    assert Flatten([g]) == g.snippets + Flatten([]);
  }

  /** A separator error keeps the last group open with the snippet added. */
  lemma StepOpenShaped(p: Parsers, input: string, front: seq<Group>, last: Group, sn: Snippet, e: string)
    requires Shaped(p, input, front + [last])
    requires p.strict(JoinTexts(last.snippets + [sn])) == RaisedError(e) && p.dashed(e, input)
    ensures Shaped(p, input, front + [Group(Open(e), last.snippets + [sn])])
    ensures Flatten(front + [Group(Open(e), last.snippets + [sn])]) == Flatten(front) + last.snippets + [sn]
  {
    var gs, r := front + [last], front + [Group(Open(e), last.snippets + [sn])];
    assert forall j :: 0 <= j < |front| ==> gs[j] == front[j] == r[j];
    FlattenSnoc(front, Group(Open(e), last.snippets + [sn]));
  }

  /** Any other outcome completes the last group and opens an empty one. */
  lemma StepCloseShaped(p: Parsers, input: string, front: seq<Group>, last: Group, sn: Snippet)
    requires Shaped(p, input, front + [last])
    requires ClosedFairly(p, input, Group(Complete, last.snippets + [sn]))
    ensures Shaped(p, input, front + [Group(Complete, last.snippets + [sn]), Group(Pending, [])])
    ensures Flatten(front + [Group(Complete, last.snippets + [sn]), Group(Pending, [])])
              == Flatten(front) + last.snippets + [sn]
  {
    var gs := front + [last];
    var closed := Group(Complete, last.snippets + [sn]);
    var r := front + [closed, Group(Pending, [])];
    assert forall j :: 0 <= j < |front| ==> gs[j] == front[j] == r[j];
    assert r == (front + [closed]) + [Group(Pending, [])];
    FlattenSnoc(front, closed);
    FlattenSnoc(front + [closed], Group(Pending, []));
  }

  lemma {:induction false} FoldShaped(p: Parsers, input: string, gs: seq<Group>, sns: seq<Snippet>)
    requires Shaped(p, input, gs)
    requires Fold(p, input, gs, sns).Success?
    ensures Shaped(p, input, Fold(p, input, gs, sns).value)
    ensures Flatten(Fold(p, input, gs, sns).value) == Flatten(gs) + sns
    decreases |sns|
  {
    if |sns| > 0 {
      var next := FoldCons(p, input, gs, sns);
      StepShaped(p, input, gs, sns[0]);
      FoldShaped(p, input, next, sns[1..]);
      assert sns == [sns[0]] + sns[1..];
    }
  }

  /** A successful fold over a snippet and the rest is a successful step, then the fold. */
  lemma FoldCons(p: Parsers, input: string, gs: seq<Group>, sns: seq<Snippet>) returns (next: seq<Group>)
    requires |gs| > 0 && |sns| > 0 && Fold(p, input, gs, sns).Success?
    ensures Step(p, input, gs, sns[0]) == Success(next) && |next| > 0
    ensures Fold(p, input, gs, sns) == Fold(p, input, next, sns[1..])
  {
    next := Step(p, input, gs, sns[0]).value;
  }

  /** Grouping partitions the snippets into non-empty groups, in order; every group closed
      fairly; and it fails with `ParseError` exactly when the last group is still held open
      by a separator error. A non-`Error` throw of the parser escapes as it is. */
  lemma GroupsPartition(p: Parsers, input: string, sns: seq<Snippet>)
    requires Fold(p, input, [Group(Pending, [])], sns).Success?
    ensures var gs := Fold(p, input, [Group(Pending, [])], sns).value;
            var r := GroupByValidJavascript(p, input, sns);
            && (r.Failure? <==> gs[|gs| - 1].state.Open?)
            && (r.Failure? ==> r.error == ParseError(gs[|gs| - 1].state.error)
                               && p.dashed(gs[|gs| - 1].state.error, input))
            && (r.Success? ==> Flatten(r.value) == sns
                               && (forall j :: 0 <= j < |r.value| ==> |r.value[j].snippets| > 0)
                               && (forall j :: 0 <= j < |r.value| ==> ClosedFairly(p, input, r.value[j])))
  {
    var init := [Group(Pending, [])];
    assert Flatten(init) == [] by { assert Flatten(init[1..]) == []; }
    FoldShaped(p, input, init, sns);
    var gs := Fold(p, input, init, sns).value;
    if gs[|gs| - 1].state.Open? {
      PartitionOpen(p, input, sns, gs);
    } else {
      PartitionClosed(p, input, sns, gs, gs[..|gs| - 1]);
    }
  }

  /** A last group held open makes grouping fail with its error. */
  lemma PartitionOpen(p: Parsers, input: string, sns: seq<Snippet>, gs: seq<Group>)
    requires Fold(p, input, [Group(Pending, [])], sns) == Success(gs)
    requires Shaped(p, input, gs) && gs[|gs| - 1].state.Open?
    ensures GroupByValidJavascript(p, input, sns) == Failure(ParseError(gs[|gs| - 1].state.error))
  {
    FirstIncompleteLast(gs);
  }

  /** An empty pending last group is dropped and every other group is complete. */
  lemma PartitionClosed(p: Parsers, input: string, sns: seq<Snippet>, gs: seq<Group>, front: seq<Group>)
    requires Fold(p, input, [Group(Pending, [])], sns) == Success(gs)
    requires Shaped(p, input, gs) && !gs[|gs| - 1].state.Open? && Flatten(gs) == sns
    requires front == gs[..|gs| - 1]
    ensures GroupByValidJavascript(p, input, sns) == Success(front)
    ensures Flatten(front) == sns
    ensures forall j :: 0 <= j < |front| ==> |front[j].snippets| > 0
    ensures forall j :: 0 <= j < |front| ==> ClosedFairly(p, input, front[j])
  {
    var n := |gs| - 1;
    assert gs == front + [gs[n]];
    FlattenSnoc(front, gs[n]);
    assert gs[n].snippets == [];
    assert forall g :: g in front ==> g.state == Complete;
    assert FirstIncomplete(front).None?;
  }

  lemma {:induction false} FirstIncompleteLast(gs: seq<Group>)
    requires |gs| > 0 && gs[|gs| - 1].state != Complete
    requires forall j :: 0 <= j < |gs| - 1 ==> gs[j].state == Complete
    ensures FirstIncomplete(gs) == Some(gs[|gs| - 1])
    decreases |gs|
  {
    if |gs| > 1 {
      FirstIncompleteLast(gs[1..]);
    }
  }

  // ---------------------------------------------------------------------------------------
  // Step 3: segments

  /** The names `splitSegmentsWithPosition` records for a segment: the locally declared, the
      imported and the exported ones. */
  datatype SegmentNames = SegmentNames(locals: seq<LocalName>, imports: seq<ImportName>, exports: seq<ExportName>)

  /** The name analysis of a segment's text, taken as a value so that the tiling proofs need
      not look into it. */
  type Analyser = string -> Result<SegmentNames, Exception>

  /** The name analysis of one segment's text with the loose parser: it throws exactly when an
      export statement has no case, and then an `UnreachableError`. */
  function NameAnalysis(p: Parsers, text: string): (r: Result<SegmentNames, Exception>)
    ensures r.Success? <==> forall n :: n in p.loose(text).body && IsExport(n.stmt) ==> Handled(n.stmt)
    ensures r.Failure? ==> r.error.Unreachable?
  {
    var tree := p.loose(text);
    var exportedNames :- FindExportNames(tree);
    Success(SegmentNames(FindLocalDeclaredNames(tree), FindImportNames(tree), exportedNames))
  }

  function AnalyserOf(p: Parsers): Analyser {
    text => NameAnalysis(p, text)
  }

  /** One segment: its place in the file and the analysis of its text. */
  function Analyse(an: Analyser, name: Option<string>, header: string, text: string, start: nat,
                   end: nat): (r: Result<Segment, Exception>)
    ensures r.Success? ==> r.value.name == name && r.value.header == header
                           && r.value.text == text && r.value.start == start && r.value.end == end
    ensures r.Failure? <==> an(text).Failure?
  {
    var names :- an(text);
    Success(Segment(name, header, text, start, end, names.locals, names.imports, names.exports))
  }

  function Last(g: Group): Snippet
    requires |g.snippets| > 0
  {
    g.snippets[|g.snippets| - 1]
  }

  /** `fullSnippetText.match(SPLIT_PATTERN)`, taken as a value like `CutFinder`. */
  type Matcher = string -> Option<Match>

  function MatchOf(m: MarkerSyntax): Matcher {
    s => Search(m, s)
  }

  /** The segment of group `j` (the map callback of `groupIntoSegments`). */
  function SegmentOf(matcher: Matcher, an: Analyser, gs: seq<Group>, j: nat): (r: Result<Segment, Exception>)
    requires j < |gs| && forall i :: 0 <= i < |gs| ==> |gs[i].snippets| > 0
    ensures r.Success? && j == 0 ==>
              r.value.name.None? && r.value.header == "" && r.value.text == JoinTexts(gs[0].snippets)
              && r.value.start == gs[0].snippets[0].start && r.value.end == Last(gs[0]).end
    ensures r.Success? && j > 0 ==>
              var full := Separator + JoinTexts(gs[j].snippets);
              && matcher(full).Some?
              && r.value.name == Some(matcher(full).value.name)
              && r.value.header == matcher(full).value.header
              && r.value.text == SliceFrom(full, |r.value.header|)
              && r.value.start == Last(gs[j - 1]).end && r.value.end == Last(gs[j]).end
    ensures r.Failure? && j > 0 && matcher(Separator + JoinTexts(gs[j].snippets)).None? ==>
              r.error == ParseError("cannot extract segment name")
  {
    var g := gs[j];
    if j == 0 then
      Analyse(an, None, "", JoinTexts(g.snippets), g.snippets[0].start, Last(g).end)
    else
      var full := Separator + JoinTexts(g.snippets);
      match matcher(full)
      case None => Failure(ParseError("cannot extract segment name"))
      case Some(x) =>
        Analyse(an, Some(x.name), x.header, SliceFrom(full, |x.header|), Last(gs[j - 1]).end, Last(g).end)
  }

  function SegmentsFrom(matcher: Matcher, an: Analyser, gs: seq<Group>, j: nat): (r: Result<seq<Segment>, Exception>)
    requires j <= |gs| && forall i :: 0 <= i < |gs| ==> |gs[i].snippets| > 0
    decreases |gs| - j
    ensures r.Success? ==> |r.value| == |gs| - j
    ensures r.Success? ==> forall i :: j <= i < |gs| ==> SegmentOf(matcher, an, gs, i) == Success(r.value[i - j])
  {
    if j == |gs| then Success([])
    else
      var s :- SegmentOf(matcher, an, gs, j);
      var rest :- SegmentsFrom(matcher, an, gs, j + 1);
      Success([s] + rest)
  }

  /** `groupIntoSegments(groups)`. */
  function GroupIntoSegments(matcher: Matcher, an: Analyser, gs: seq<Group>): (r: Result<seq<Segment>, Exception>)
    requires forall i :: 0 <= i < |gs| ==> |gs[i].snippets| > 0
    ensures r.Success? ==> |r.value| == |gs|
    ensures r.Success? ==> forall i :: 0 <= i < |gs| ==> SegmentOf(matcher, an, gs, i) == Success(r.value[i])
  {
    SegmentsFrom(matcher, an, gs, 0)
  }

  /** `splitSegmentsWithPosition(codeInput)`: the main segment and the list of all segments
      (the main one first). */
  function SplitSegments(m: MarkerSyntax, p: Parsers, input: string): (r: Result<(Segment, seq<Segment>), Exception>)
    ensures r.Success? ==> |r.value.1| > 0 && r.value.0 == r.value.1[0]
  {
    match SplitCodeIntoSnippets(m, input)
    case None =>
      var s :- Analyse(AnalyserOf(p), None, "", input, 0, |input|);
      Success((s, [s]))
    case Some(sns) =>
      var gs :- GroupByValidJavascript(p, input, sns);
      GroupsNonEmpty(p, input, sns);
      var segs :- GroupIntoSegments(MatchOf(m), AnalyserOf(p), gs);
      if |segs| == 0 then assert false; Failure(ParseError("not a valid snippet"))
      else Success((segs[0], segs))
  }

  lemma GroupsNonEmpty(p: Parsers, input: string, sns: seq<Snippet>)
    requires GroupByValidJavascript(p, input, sns).Success?
    ensures forall i :: 0 <= i < |GroupByValidJavascript(p, input, sns).value| ==>
              |GroupByValidJavascript(p, input, sns).value[i].snippets| > 0
    ensures Flatten(GroupByValidJavascript(p, input, sns).value) == sns
  {
    GroupsPartition(p, input, sns);
  }

  // ---------------------------------------------------------------------------------------
  // The segments tile the file

  /** A run of neighbouring snippets, rejoined with the dashes, is the input over the run. */
  lemma {:induction false} JoinRun(input: string, run: seq<Snippet>)
    requires Tiled(input, run) && |run| > 0
    ensures run[0].start <= run[|run| - 1].end <= |input|
    ensures JoinTexts(run) == input[run[0].start..run[|run| - 1].end]
    decreases |run|
  {
    if |run| > 1 {
      JoinRunSplit(input, run);
      JoinRun(input, run[1..]);
      JoinRunStep(input, run);
    } else {
      TiledOne(input, run[0]);
      assert Texts(run) == [run[0].text];
    }
  }

  lemma JoinRunSplit(input: string, run: seq<Snippet>)
    requires Tiled(input, run) && |run| > 1
    ensures Tiled(input, run[1..]) && |run[1..]| > 0
    ensures run[0].start <= run[0].end <= |input| && run[0].text == input[run[0].start..run[0].end]
    ensures run[1..][0].start == run[0].end + 5 && OccursAt(input, Separator, run[0].end)
  {
    assert run == [run[0]] + run[1..];
    TiledSplit(input, [run[0]], run[1..]);
    TiledOne(input, run[0]);
  }

  lemma JoinRunStep(input: string, run: seq<Snippet>)
    requires |run| > 1
    requires run[0].start <= run[0].end <= |input| && run[0].text == input[run[0].start..run[0].end]
    requires run[1..][0].start == run[0].end + 5 && OccursAt(input, Separator, run[0].end)
    requires run[1..][0].start <= run[1..][|run[1..]| - 1].end <= |input|
    requires JoinTexts(run[1..]) == input[run[1..][0].start..run[1..][|run[1..]| - 1].end]
    ensures run[0].start <= run[|run| - 1].end <= |input|
    ensures JoinTexts(run) == input[run[0].start..run[|run| - 1].end]
  {
    var h, tail := run[0], run[1..];
    assert run == [h] + tail;
    JoinTextsCons(h, tail);
    assert tail[|tail| - 1] == run[|run| - 1];
    Abut(input, h.start, h.end, run[|run| - 1].end);
  }

  lemma TiledOne(input: string, h: Snippet)
    requires Tiled(input, [h])
    ensures h.start <= h.end <= |input| && h.text == input[h.start..h.end]
  {
    assert [h][0] == h;
  }

  lemma Abut(input: string, a: nat, b: nat, c: nat)
    requires a <= b && b + 5 <= c <= |input| && OccursAt(input, Separator, b)
    ensures input[a..b] + Separator + input[b + 5..c] == input[a..c]
  {
    assert input[b..b + 5] == Separator;
    assert input[a..c] == input[a..b] + input[b..b + 5] + input[b + 5..c];
  }

  /** Two runs whose concatenation is tiled are each tiled, and meet across the dashes. */
  lemma TiledSplit(input: string, a: seq<Snippet>, b: seq<Snippet>)
    requires Tiled(input, a + b) && |a| > 0 && |b| > 0
    ensures Tiled(input, a) && Tiled(input, b)
    ensures b[0].start == a[|a| - 1].end + 5 && OccursAt(input, Separator, a[|a| - 1].end)
  {
    var r := a + b;
    assert r[|a| - 1] == a[|a| - 1] && r[|a|] == b[0];
    forall k | 0 <= k < |a| - 1
      ensures a[k + 1].start == a[k].end + 5 && OccursAt(input, Separator, a[k].end)
    {
      assert r[k] == a[k] && r[k + 1] == a[k + 1];
    }
    forall k | 0 <= k < |b| - 1
      ensures b[k + 1].start == b[k].end + 5 && OccursAt(input, Separator, b[k].end)
    {
      assert r[|a| + k] == b[k] && r[|a| + k + 1] == b[k + 1];
    }
    forall k | 0 <= k < |a| ensures a[k].start <= a[k].end <= |input| && a[k].text == input[a[k].start..a[k].end] {
      assert r[k] == a[k];
    }
    forall k | 0 <= k < |b| ensures b[k].start <= b[k].end <= |input| && b[k].text == input[b[k].start..b[k].end] {
      assert r[|a| + k] == b[k];
    }
  }

  predicate NonEmptyGroups(gs: seq<Group>) {
    forall j :: 0 <= j < |gs| ==> |gs[j].snippets| > 0
  }

  /** The groups of a tiled run: each group is a tiled run, and neighbouring groups meet
      across the dashes. */
  predicate GroupsTiled(input: string, gs: seq<Group>)
    requires NonEmptyGroups(gs)
  {
    && (forall j :: 0 <= j < |gs| ==> Tiled(input, gs[j].snippets))
    && (forall j :: 0 <= j < |gs| - 1 ==>
          gs[j + 1].snippets[0].start == Last(gs[j]).end + 5 && OccursAt(input, Separator, Last(gs[j]).end))
  }

  lemma {:induction false} FlattenTiled(input: string, gs: seq<Group>)
    requires NonEmptyGroups(gs) && |gs| > 0 && Tiled(input, Flatten(gs))
    ensures GroupsTiled(input, gs)
    ensures Flatten(gs)[0] == gs[0].snippets[0]
    ensures Flatten(gs)[|Flatten(gs)| - 1] == Last(gs[|gs| - 1])
    decreases |gs|
  {
    if |gs| == 1 {
      FlattenTiledOne(input, gs);
    } else {
      FlattenTiledSplit(input, gs);
      FlattenTiled(input, gs[1..]);
      FlattenTiledStep(input, gs);
    }
  }

  lemma FlattenTiledOne(input: string, gs: seq<Group>)
    requires |gs| == 1 && NonEmptyGroups(gs) && Tiled(input, Flatten(gs))
    ensures GroupsTiled(input, gs)
    ensures Flatten(gs)[0] == gs[0].snippets[0]
    ensures Flatten(gs)[|Flatten(gs)| - 1] == Last(gs[|gs| - 1])
  {
    FlattenCons(gs);
    assert Flatten(gs[1..]) == [];
    assert Flatten(gs) == gs[0].snippets;
    GroupsTiledOne(input, gs);
  }

  /** The first group and the flattened rest of a tiled flattening. */
  lemma FlattenTiledSplit(input: string, gs: seq<Group>)
    requires |gs| > 1 && NonEmptyGroups(gs) && Tiled(input, Flatten(gs))
    ensures NonEmptyGroups(gs[1..]) && |gs[1..]| > 0 && Tiled(input, Flatten(gs[1..]))
    ensures Tiled(input, gs[0].snippets)
    ensures Flatten(gs) == gs[0].snippets + Flatten(gs[1..]) && |Flatten(gs[1..])| > 0
    ensures Flatten(gs[1..])[0].start == Last(gs[0]).end + 5
    ensures OccursAt(input, Separator, Last(gs[0]).end)
  {
    var tail := gs[1..];
    NonEmptyTail(gs);
    FlattenCons(gs);
    FlattenCons(tail);
    TiledSplit(input, gs[0].snippets, Flatten(tail));
  }

  lemma FlattenTiledStep(input: string, gs: seq<Group>)
    requires |gs| > 1 && NonEmptyGroups(gs) && NonEmptyGroups(gs[1..])
    requires Tiled(input, gs[0].snippets) && GroupsTiled(input, gs[1..])
    requires Flatten(gs) == gs[0].snippets + Flatten(gs[1..]) && |Flatten(gs[1..])| > 0
    requires Flatten(gs[1..])[0].start == Last(gs[0]).end + 5
    requires OccursAt(input, Separator, Last(gs[0]).end)
    requires Flatten(gs[1..])[0] == gs[1..][0].snippets[0]
    requires Flatten(gs[1..])[|Flatten(gs[1..])| - 1] == Last(gs[1..][|gs[1..]| - 1])
    ensures GroupsTiled(input, gs)
    ensures Flatten(gs)[0] == gs[0].snippets[0]
    ensures Flatten(gs)[|Flatten(gs)| - 1] == Last(gs[|gs| - 1])
  {
    assert gs[1..][0] == gs[1];
    GroupsTiledCons(input, gs);
  }

  lemma FlattenCons(gs: seq<Group>)
    requires |gs| > 0
    ensures Flatten(gs) == gs[0].snippets + Flatten(gs[1..])
  {
  }

  lemma NonEmptyTail(gs: seq<Group>)
    requires |gs| > 0 && NonEmptyGroups(gs)
    ensures NonEmptyGroups(gs[1..])
  {
    assert forall j :: 0 <= j < |gs| - 1 ==> gs[1..][j] == gs[j + 1];
  }

  lemma GroupsTiledOne(input: string, gs: seq<Group>)
    requires |gs| == 1 && NonEmptyGroups(gs) && Tiled(input, gs[0].snippets)
    ensures GroupsTiled(input, gs)
  {
  }

  /** A tiled first group that meets the tiled rest across the dashes. */
  lemma GroupsTiledCons(input: string, gs: seq<Group>)
    requires |gs| > 1 && NonEmptyGroups(gs) && NonEmptyGroups(gs[1..])
    requires Tiled(input, gs[0].snippets) && GroupsTiled(input, gs[1..])
    requires gs[1].snippets[0].start == Last(gs[0]).end + 5 && OccursAt(input, Separator, Last(gs[0]).end)
    ensures GroupsTiled(input, gs)
  {
    var tail := gs[1..];
    forall j | 0 <= j < |gs| ensures Tiled(input, gs[j].snippets) {
      if j > 0 {
        assert gs[j] == tail[j - 1];
      }
    }
    forall j | 0 <= j < |gs| - 1
      ensures gs[j + 1].snippets[0].start == Last(gs[j]).end + 5 && OccursAt(input, Separator, Last(gs[j]).end)
    {
      if j > 0 {
        assert gs[j] == tail[j - 1] && gs[j + 1] == tail[j];
      }
    }
  }

  /** The segments follow one another without gap or overlap from the start of the input to
      its end. */
  predicate Contiguous(input: string, segs: seq<Segment>) {
    && |segs| > 0
    && segs[0].start == 0
    && segs[|segs| - 1].end == |input|
    && (forall k :: 0 <= k < |segs| ==> segs[k].start <= segs[k].end <= |input|)
    && (forall k :: 0 <= k < |segs| - 1 ==> segs[k + 1].start == segs[k].end)
  }

  /** A named segment: its range starts with the dashes, and its name, header and text come
      from the leftmost match of the marker in that range. */
  predicate NamedSegmentOf(m: MarkerSyntax, input: string, sg: Segment)
    requires sg.start <= sg.end <= |input|
  {
    var full := input[sg.start..sg.end];
    && OccursAt(input, Separator, sg.start)
    && Search(m, full).Some?
    && sg.name == Some(Search(m, full).value.name)
    && sg.header == Search(m, full).value.header
    && sg.text == SliceFrom(full, |sg.header|)
  }

  /** What `splitSegmentsWithPosition` returns when it returns: segments that tile the file;
      the main one first, unnamed, without header, holding the text up to the first named
      segment; every other one named by the marker found in its own range. */
  predicate Splits(m: MarkerSyntax, input: string, main: Segment, segs: seq<Segment>) {
    && Contiguous(input, segs)
    && main == segs[0]
    && main.name.None? && main.header == "" && main.text == input[..main.end]
    && (forall k :: 1 <= k < |segs| ==> NamedSegmentOf(m, input, segs[k]))
  }

  lemma SegmentInInput(matcher: Matcher, an: Analyser, input: string, gs: seq<Group>, j: nat)
    requires NonEmptyGroups(gs) && GroupsTiled(input, gs) && 0 < j < |gs|
    requires SegmentOf(matcher, an, gs, j).Success?
    ensures var sg := SegmentOf(matcher, an, gs, j).value;
            && sg.start == Last(gs[j - 1]).end && sg.end == Last(gs[j]).end
            && sg.start <= sg.end <= |input|
            && OccursAt(input, Separator, sg.start)
            && Separator + JoinTexts(gs[j].snippets) == input[sg.start..sg.end]
  {
    var sg := SegmentOf(matcher, an, gs, j).value;
    var run := gs[j].snippets;
    JoinRun(input, run);
    var a := sg.start;
    assert input[a..a + 5] == Separator;
    assert input[a..sg.end] == input[a..a + 5] + input[a + 5..sg.end];
  }

  /** The segments of tiled groups, mapped one to one. */
  predicate SegmentsOfGroups(matcher: Matcher, an: Analyser, gs: seq<Group>, segs: seq<Segment>)
    requires NonEmptyGroups(gs)
  {
    |segs| == |gs| && forall k :: 0 <= k < |gs| ==> SegmentOf(matcher, an, gs, k) == Success(segs[k])
  }

  lemma SegmentsContiguous(matcher: Matcher, an: Analyser, input: string, gs: seq<Group>, segs: seq<Segment>)
    requires NonEmptyGroups(gs) && GroupsTiled(input, gs) && |gs| > 0
    requires SegmentsOfGroups(matcher, an, gs, segs)
    requires gs[0].snippets[0].start == 0 && Last(gs[|gs| - 1]).end == |input|
    ensures Contiguous(input, segs)
  {
    forall k | 0 <= k < |segs| ensures segs[k].start <= segs[k].end <= |input| {
      assert SegmentOf(matcher, an, gs, k) == Success(segs[k]);
      if k == 0 {
        JoinRun(input, gs[0].snippets);
      } else {
        SegmentInInput(matcher, an, input, gs, k);
      }
    }
    forall k | 0 <= k < |segs| - 1 ensures segs[k + 1].start == segs[k].end {
      assert SegmentOf(matcher, an, gs, k) == Success(segs[k]);
      assert SegmentOf(matcher, an, gs, k + 1) == Success(segs[k + 1]);
    }
    assert SegmentOf(matcher, an, gs, 0) == Success(segs[0]);
    assert SegmentOf(matcher, an, gs, |gs| - 1) == Success(segs[|segs| - 1]);
  }

  lemma SegmentsNamed(m: MarkerSyntax, an: Analyser, input: string, gs: seq<Group>, segs: seq<Segment>)
    requires NonEmptyGroups(gs) && GroupsTiled(input, gs)
    requires SegmentsOfGroups(MatchOf(m), an, gs, segs) && Contiguous(input, segs)
    ensures forall k :: 1 <= k < |segs| ==> NamedSegmentOf(m, input, segs[k])
  {
    forall k | 1 <= k < |segs| ensures NamedSegmentOf(m, input, segs[k]) {
      assert SegmentOf(MatchOf(m), an, gs, k) == Success(segs[k]);
      SegmentInInput(MatchOf(m), an, input, gs, k);
      assert MatchOf(m)(Separator + JoinTexts(gs[k].snippets)) == Search(m, input[segs[k].start..segs[k].end]);
    }
  }

  lemma MainSegment(matcher: Matcher, an: Analyser, input: string, gs: seq<Group>, segs: seq<Segment>)
    requires NonEmptyGroups(gs) && GroupsTiled(input, gs) && |gs| > 0
    requires SegmentsOfGroups(matcher, an, gs, segs)
    requires gs[0].snippets[0].start == 0
    ensures segs[0].name.None? && segs[0].header == ""
    ensures segs[0].end <= |input| && segs[0].text == input[..segs[0].end]
  {
    assert SegmentOf(matcher, an, gs, 0) == Success(segs[0]);
    JoinRun(input, gs[0].snippets);
  }

  lemma SplitsFromGroups(m: MarkerSyntax, an: Analyser, input: string, sns: seq<Snippet>,
                         gs: seq<Group>, segs: seq<Segment>)
    requires Tiled(input, sns) && |sns| > 0 && sns[0].start == 0 && sns[|sns| - 1].end == |input|
    requires NonEmptyGroups(gs) && Flatten(gs) == sns
    requires SegmentsOfGroups(MatchOf(m), an, gs, segs)
    ensures Splits(m, input, segs[0], segs)
  {
    assert |gs| > 0;
    FlattenTiled(input, gs);
    SegmentsContiguous(MatchOf(m), an, input, gs, segs);
    SegmentsNamed(m, an, input, gs, segs);
    MainSegment(MatchOf(m), an, input, gs, segs);
  }

  /** Splitting a file that holds a marker: the segments tile it as `Splits` says. */
  lemma GroupedSplits(m: MarkerSyntax, p: Parsers, input: string)
    requires SplitCodeIntoSnippets(m, input).Some?
    requires SplitSegments(m, p, input).Success?
    ensures Splits(m, input, SplitSegments(m, p, input).value.0, SplitSegments(m, p, input).value.1)
  {
    var sns := SplitCodeIntoSnippets(m, input).value;
    SplitSegmentsGrouped(m, p, input, sns);
    var gs := GroupByValidJavascript(p, input, sns).value;
    GroupsNonEmpty(p, input, sns);
    SplitSegmentsOfGroups(m, p, input, sns, gs);
    GroupedSplitsFrom(m, AnalyserOf(p), input, sns, gs, SplitSegments(m, p, input).value.1);
  }

  lemma GroupedSplitsFrom(m: MarkerSyntax, an: Analyser, input: string, sns: seq<Snippet>, gs: seq<Group>, segs: seq<Segment>)
    requires SplitCodeIntoSnippets(m, input) == Some(sns)
    requires forall i :: 0 <= i < |gs| ==> |gs[i].snippets| > 0
    requires Flatten(gs) == sns
    requires GroupIntoSegments(MatchOf(m), an, gs) == Success(segs)
    ensures |segs| > 0 && Splits(m, input, segs[0], segs)
  {
    SnippetsTile(m, input);
    SplitsFromGroups(m, an, input, sns, gs, segs);
  }

  /** A successful split that found a marker grouped its snippets successfully. */
  lemma SplitSegmentsGrouped(m: MarkerSyntax, p: Parsers, input: string, sns: seq<Snippet>)
    requires SplitCodeIntoSnippets(m, input) == Some(sns)
    requires SplitSegments(m, p, input).Success?
    ensures GroupByValidJavascript(p, input, sns).Success?
  {
  }

  /** With a marker found, a successful split is the list of segments of the groups, with its
      first segment as the main one. */
  lemma SplitSegmentsOfGroups(m: MarkerSyntax, p: Parsers, input: string, sns: seq<Snippet>, gs: seq<Group>)
    requires SplitCodeIntoSnippets(m, input) == Some(sns)
    requires GroupByValidJavascript(p, input, sns) == Success(gs)
    requires forall i :: 0 <= i < |gs| ==> |gs[i].snippets| > 0
    requires SplitSegments(m, p, input).Success?
    ensures GroupIntoSegments(MatchOf(m), AnalyserOf(p), gs) == Success(SplitSegments(m, p, input).value.1)
  {
  }

  /** `splitSegmentsWithPosition` tiles the file whenever it returns, with or without a
      marker. */
  lemma SplitTiles(m: MarkerSyntax, p: Parsers, input: string)
    requires SplitSegments(m, p, input).Success?
    ensures Splits(m, input, SplitSegments(m, p, input).value.0, SplitSegments(m, p, input).value.1)
    ensures SplitCodeIntoSnippets(m, input).None? ==> |SplitSegments(m, p, input).value.1| == 1
  {
    if SplitCodeIntoSnippets(m, input).Some? {
      GroupedSplits(m, p, input);
    } else {
      assert input[..|input|] == input;
    }
  }

  /** With the `<template id>` marker the header is the dashes alone, so a named segment's
      header and text are exactly the file over its range. */
  lemma TemplateSegmentText(input: string, sg: Segment)
    requires sg.start <= sg.end <= |input| && NamedSegmentOf(TemplateId, input, sg)
    ensures sg.header == Separator
    ensures sg.header + sg.text == input[sg.start..sg.end]
  {
    var full := input[sg.start..sg.end];
    TemplateHeader(full, Search(TemplateId, full).value);
    RangePrefix(input, sg.start, sg.end, |Separator|);
    HeaderThenText(full, Separator, sg.text);
  }

  lemma RangePrefix(s: string, a: nat, b: nat, n: nat)
    requires a + n <= b <= |s|
    ensures s[a..b][..n] == s[a..a + n]
  {
  }

  lemma TemplateHeader(full: string, x: Match)
    requires Search(TemplateId, full) == Some(x)
    ensures x.header == Separator && |Separator| <= |full|
  {
    assert MatchAt(TemplateId, full, x.index) == Some(x);
  }

  lemma HeaderThenText(full: string, h: string, text: string)
    requires |h| <= |full| && full[..|h|] == h && text == SliceFrom(full, |h|)
    ensures h + text == full
  {
    assert full == full[..|h|] + full[|h|..];
  }
}

=== FILE: ts_utils.dfy ===
/** The string and object helpers of the TypeScript language-service plugin: `split` with a
    limit, `omit`, `replace`, `getProperty` and `unreachable`. A plain JavaScript object is
    its own-key entries in `Object.keys` order. */
module TsUtils {
  import opened Wrappers
  import opened JsString

  /** `split(str, sep, limit)`: `str.split(sep)`, except that with a limit no larger than the
      number of pieces, the pieces from position `limit - 1` on are joined back into one. A
      limit of 0 follows `Array.prototype.slice` with a negative index (`-1`). */
  function SplitLimit(s: string, sep: string, limit: Option<nat>): (r: seq<string>)
    ensures Join(r, sep) == s
    ensures limit.None? ==> r == SplitAll(s, sep)
    ensures limit.Some? && limit.value > |SplitAll(s, sep)| ==> r == SplitAll(s, sep)
    ensures limit.Some? && 1 <= limit.value <= |SplitAll(s, sep)| ==>
              |r| == limit.value && r[..|r| - 1] == SplitAll(s, sep)[..|r| - 1]
  {
    var all := SplitAll(s, sep);
    JoinSplitAll(s, sep);
    match limit
    case None => all
    case Some(l) =>
      if l > |all| then all
      else
        var cut := if l == 0 then (if |all| == 0 then 0 else |all| - 1) else l - 1;
        JoinRest(all, cut, sep);
        all[..cut] + [Join(all[cut..], sep)]
  }

  /** Joining the tail back into one piece does not change the joined string. */
  lemma JoinRest(all: seq<string>, cut: nat, sep: string)
    requires cut < |all| || (cut == 0 && |all| == 0)
    ensures Join(all[..cut] + [Join(all[cut..], sep)], sep) == Join(all, sep)
  {
    if cut > 0 {
      JoinAppend(all[..cut], [Join(all[cut..], sep)], sep);
      JoinAppend(all[..cut], all[cut..], sep);
      assert all[..cut] + all[cut..] == all;
    } else {
      assert all[..cut] + [Join(all[cut..], sep)] == [Join(all, sep)];
    }
  }

  /** With a limit of 2 the result is the text before the first separator and the rest. */
  lemma SplitTwo(a: string, sep: string, b: string)
    requires |sep| > 0
    requires forall j :: 0 <= j < |a| ==> !OccursAt(a + sep + b, sep, j)
    ensures SplitLimit(a + sep + b, sep, Some(2)) == [a, b]
  {
    SplitOnFirst(a, sep, b);
    var all := SplitAll(a + sep + b, sep);
    var tail := SplitOn(b, sep);
    assert all == [a] + tail;
    JoinSplitOn(b, sep);
    assert all[1..] == tail;
  }

  /** Without the separator, a limit of 2 gives the string alone (the second element of the
      destructuring is then `undefined`). */
  lemma SplitTwoNoSep(s: string, sep: string)
    requires |sep| > 0
    requires forall j :: 0 <= j < |s| ==> !OccursAt(s, sep, j)
    ensures SplitLimit(s, sep, Some(2)) == [s]
  {
    SplitOnNone(s, sep);
  }

  // ---------------------------------------------------------------------------------------
  // Objects

  type Entries<V> = seq<(string, V)>

  function Keys<V>(o: Entries<V>): seq<string> {
    seq(|o|, i requires 0 <= i < |o| => o[i].0)
  }

  /** Own keys are distinct. */
  predicate WellFormed<V>(o: Entries<V>) {
    forall i, j :: 0 <= i < j < |o| ==> o[i].0 != o[j].0
  }

  /** The value stored under `key`, if the key is an own key. */
  function Lookup<V>(o: Entries<V>, key: string): (r: Option<V>)
    ensures r.Some? <==> key in Keys(o)
  {
    if |o| == 0 then None
    else if o[0].0 == key then
      assert Keys(o)[0] == key;
      Some(o[0].1)
    else
      assert Keys(o) == [o[0].0] + Keys(o[1..]);
      Lookup(o[1..], key)
  }

  /** `omit(obj, ...omitKeys)`: the entries whose key is not omitted, in their order. */
  function Omit<V>(o: Entries<V>, omitKeys: seq<string>): (r: Entries<V>)
    ensures WellFormed(o) ==> WellFormed(r)
    ensures forall k :: Lookup(r, k) == if k in omitKeys then None else Lookup(o, k)
    ensures forall k :: k in Keys(r) <==> k in Keys(o) && k !in omitKeys
    ensures |r| <= |o|
  {
    if |o| == 0 then []
    else
      var rest := Omit(o[1..], omitKeys);
      assert Keys(o) == [o[0].0] + Keys(o[1..]);
      if o[0].0 in omitKeys then rest
      else
        var r := [o[0]] + rest;
        assert r[1..] == rest;
        assert Keys(r) == [o[0].0] + Keys(rest);
        assert WellFormed(o) ==> WellFormed(r) by {
          if WellFormed(o) {
            HeadKeyFresh(o);
            forall i, j | 0 <= i < j < |r| ensures r[i].0 != r[j].0 {
              if i == 0 {
                assert r[j].0 == Keys(rest)[j - 1];
              }
            }
          }
        }
        r
  }

  lemma HeadKeyFresh<V>(o: Entries<V>)
    requires WellFormed(o) && |o| > 0
    ensures o[0].0 !in Keys(o[1..])
  {
    forall j | 0 <= j < |o| - 1
      ensures Keys(o[1..])[j] != o[0].0
    {
      assert Keys(o[1..])[j] == o[1 + j].0;
    }
  }

  /** `replace(obj, key, value)`: same keys in the same order; the entry under `key` (when
      there is one) now holds `value`; no key is added. */
  function Replace<V>(o: Entries<V>, key: string, value: V): (r: Entries<V>)
    ensures Keys(r) == Keys(o)
    ensures Lookup(r, key) == if key in Keys(o) then Some(value) else None
    ensures forall k :: k != key ==> Lookup(r, k) == Lookup(o, k)
  {
    if |o| == 0 then []
    else
      var rest := Replace(o[1..], key, value);
      var r := [if o[0].0 == key then (key, value) else o[0]] + rest;
      assert r[1..] == rest;
      assert Keys(r) == [r[0].0] + Keys(rest);
      assert Keys(o) == [o[0].0] + Keys(o[1..]);
      r
  }

  /** `getProperty(obj, key)`: the own value, or `undefined`. */
  function GetProperty<V>(o: Entries<V>, key: string): (r: Option<V>)
    ensures r.Some? <==> key in Keys(o)
    ensures r.Some? ==> (key, r.value) in o
  {
    LookupIn(o, key);
    Lookup(o, key)
  }

  lemma {:induction false} LookupIn<V>(o: Entries<V>, key: string)
    ensures Lookup(o, key).Some? ==> (key, Lookup(o, key).value) in o
    decreases |o|
  {
    if |o| > 0 && o[0].0 != key {
      LookupIn(o[1..], key);
    }
  }

  /** Replacing the value under a key with the value it already holds gives the object back. */
  lemma ReplaceSame<V>(o: Entries<V>, key: string)
    requires WellFormed(o) && key in Keys(o)
    ensures Replace(o, key, Lookup(o, key).value) == o
  {
    ReplaceSameAt(o, key);
  }

  lemma {:induction false} ReplaceSameAt<V>(o: Entries<V>, key: string)
    requires WellFormed(o)
    ensures key in Keys(o) ==> Replace(o, key, Lookup(o, key).value) == o
    decreases |o|
  {
    if |o| > 0 && key in Keys(o) {
      assert Keys(o) == [o[0].0] + Keys(o[1..]);
      if o[0].0 == key {
        ReplaceAbsent(o[1..], key, o[0].1);
      } else {
        ReplaceSameAt(o[1..], key);
      }
    }
  }

  lemma {:induction false} ReplaceAbsent<V>(o: Entries<V>, key: string, value: V)
    requires forall i :: 0 <= i < |o| ==> o[i].0 != key
    ensures Replace(o, key, value) == o
    decreases |o|
  {
    if |o| > 0 {
      ReplaceAbsent(o[1..], key, value);
    }
  }

  /** `unreachable(msg)` throws `Error(msg)`, by default with this message. */
  const UnreachableMessage: string := "unreachable case"
}

=== FILE: utf8.dfy ===
/** UTF-8 (RFC 3629): the byte encoding that `Buffer.from(string)`, `Buffer#toString('utf-8')`
    and `encodeURIComponent` / `decodeURIComponent` apply to text. Decoding is strict: an
    ill-formed sequence is `None`. */
module Utf8 {
  import opened Wrappers

  type byte = x: int | 0 <= x < 256

  predicate IsContinuation(b: byte) {
    0x80 <= b < 0xC0
  }

  /** The length of the sequence a leading byte announces (the number of its leading one bits,
      or 1 for none); 0 for a continuation byte or a lead of five or more one bits. */
  function LeadLength(b: byte): nat {
    if b < 0x80 then 1
    else if b < 0xC0 then 0
    else if b < 0xE0 then 2
    else if b < 0xF0 then 3
    else if b < 0xF8 then 4
    else 0
  }

  /** The bytes of one character, shortest form. */
  function EncodeChar(c: char): (r: seq<byte>)
    ensures 1 <= |r| <= 4
    ensures |r| == 1 <==> (c as int) < 0x80
    ensures LeadLength(r[0]) == |r|
    ensures forall i :: 1 <= i < |r| ==> IsContinuation(r[i])
  {
    var n := c as int;
    if n < 0x80 then [n]
    else if n < 0x800 then [0xC0 + n / 64, 0x80 + n % 64]
    else if n < 0x1_0000 then [0xE0 + n / 4096, 0x80 + (n / 64) % 64, 0x80 + n % 64]
    else [0xF0 + n / 262144, 0x80 + (n / 4096) % 64, 0x80 + (n / 64) % 64, 0x80 + n % 64]
  }

  function EncodeString(s: string): (r: seq<byte>)
    ensures |s| <= |r| <= 4 * |s|
  {
    if |s| == 0 then [] else EncodeChar(s[0]) + EncodeString(s[1..])
  }

  predicate IsScalar(n: int) {
    (0 <= n < 0xD800) || (0xE000 <= n < 0x11_0000)
  }

  /** The character the bytes start with and how many bytes it takes; `None` when the bytes
      do not start with a well-formed, shortest-form sequence. */
  function DecodeFirst(bs: seq<byte>): (r: Option<(char, nat)>)
    ensures r.Some? ==> 1 <= r.value.1 <= |bs| && r.value.1 <= 4
  {
    if |bs| == 0 then None
    else
      var b: int := bs[0];
      var b1: int := if |bs| > 1 then bs[1] else 0;
      var b2: int := if |bs| > 2 then bs[2] else 0;
      var b3: int := if |bs| > 3 then bs[3] else 0;
      if b < 0x80 then Some((b as char, 1))
      else if 0xC2 <= b < 0xE0 then
        if |bs| < 2 || !IsContinuation(bs[1]) then None
        else Some((((b - 0xC0) * 64 + (b1 - 0x80)) as char, 2))
      else if 0xE0 <= b < 0xF0 then
        if |bs| < 3 || !IsContinuation(bs[1]) || !IsContinuation(bs[2]) then None
        else
          var n := ((b - 0xE0) * 64 + (b1 - 0x80)) * 64 + (b2 - 0x80);
          if n < 0x800 || !IsScalar(n) then None else Some((n as char, 3))
      else if 0xF0 <= b < 0xF5 then
        if |bs| < 4 || !IsContinuation(bs[1]) || !IsContinuation(bs[2])
           || !IsContinuation(bs[3]) then None
        else
          var n := (((b - 0xF0) * 64 + (b1 - 0x80)) * 64 + (b2 - 0x80)) * 64 + (b3 - 0x80);
          if n < 0x1_0000 || n >= 0x11_0000 then None else Some((n as char, 4))
      else None
  }

  function DecodeString(bs: seq<byte>): (r: Option<string>)
    decreases |bs|
    ensures r.Some? ==> |r.value| <= |bs|
  {
    if |bs| == 0 then Some([])
    else
      var (c, k) :- DecodeFirst(bs);
      var rest :- DecodeString(bs[k..]);
      Some([c] + rest)
  }

  /** Decoding the start of an encoded character gives that character back. */
  lemma DecodeEncodeChar(c: char, rest: seq<byte>)
    ensures DecodeFirst(EncodeChar(c) + rest) == Some((c, |EncodeChar(c)|))
  {
    var n := c as int;
    var bs := EncodeChar(c) + rest;
    if n < 0x80 {
    } else if n < 0x800 {
      assert (n / 64 - 0) * 64 + n % 64 == n;
    } else if n < 0x1_0000 {
      var hi := n / 4096;
      assert ((n / 64) / 64) == hi;
      assert (hi * 64 + (n / 64) % 64) * 64 + n % 64 == n;
      assert bs[0] == 0xE0 + hi;
    } else {
      var hi := n / 262144;
      assert (n / 4096) / 64 == hi;
      assert ((n / 64) / 64) == n / 4096;
      assert ((hi * 64 + (n / 4096) % 64) * 64 + (n / 64) % 64) * 64 + n % 64 == n;
      assert bs[0] == 0xF0 + hi;
    }
  }

  /** Strict decoding inverts encoding. */
  lemma {:induction false} DecodeEncodeString(s: string)
    ensures DecodeString(EncodeString(s)) == Some(s)
    decreases |s|
  {
    if |s| > 0 {
      var e := EncodeChar(s[0]);
      var bs := EncodeString(s);
      assert bs == e + EncodeString(s[1..]);
      DecodeEncodeChar(s[0], EncodeString(s[1..]));
      assert bs[|e|..] == EncodeString(s[1..]);
      DecodeEncodeString(s[1..]);
      assert s == [s[0]] + s[1..];
    }
  }

  lemma {:induction false} EncodeStringAppend(a: string, b: string)
    ensures EncodeString(a + b) == EncodeString(a) + EncodeString(b)
    decreases |a|
  {
    if |a| > 0 {
      assert (a + b)[1..] == a[1..] + b;
      EncodeStringAppend(a[1..], b);
    } else {
      assert a + b == b;
    }
  }
}

=== FILE: vite_plugin.dfy ===
/** The vite plugin `infileComponentsVitePlugin` (`packages/vite-plugin/src/lib/plugin.ts`).
    An `infile:Name` import in a file is resolved to the id `\0infile:<importer>!Name`;
    transforming a `.svelte` file with segments records its full text under its id and hands
    on the main segment alone; loading a virtual id finds the importer's recorded text and
    returns the text of the segment of that name. The plugin's `Map` of recorded texts is a
    `map` threaded through the hooks. */
module VitePlugin {
  import opened Wrappers
  import opened JsString
  import opened Markers
  import opened ParseUtils
  import opened Splitter
  import opened SegmentHelpers

  const InfilePrefix: string := "infile:"
  /** `\0infile:`, the prefix of every id this plugin resolves. */
  const VirtualPrefix: string := "\0infile:"
  /** `SEP`. */
  const Sep: string := "!"

  datatype PluginError =
    | NoImporter            // `Unable to resolve virtual import without an importer.`
    | TooManyNestings       // `too many nestings`
    | NotFound(name: string)   // `Virtual module "<name>" not found.`
    | NoInnerContent        // `cannot find inner content`
    | Split(exception: Exception)
    | NoModules             // `modules[0]` is `undefined`: reading `.id` throws

  // ---------------------------------------------------------------------------------------
  // resolveId

  /** The sources and importers `resolveId` leaves to other plugins. */
  predicate IgnoredSource(source: string) {
    || StartsWith(source, "__sveltekit/server")
    || StartsWith(source, "\0virtual:__sveltekit/")
    || StartsWith(source, "svelte/internal")
    || Includes(source, "/.svelte-kit/generated/")
  }

  predicate IgnoredImporter(importer: Option<string>) {
    importer.Some? && (Includes(importer.value, "/node_modules/") || Includes(importer.value, "/.svelte-kit/generated/"))
  }

  /** `!importer`: no importer, or the empty one, which is falsy too. */
  predicate NoImporterGiven(importer: Option<string>) {
    importer.None? || importer.value == ""
  }

  /** `resolveId(source, importer)`: `None` is `null`. */
  function ResolveId(source: string, importer: Option<string>): (r: Result<Option<string>, PluginError>)
    ensures IgnoredSource(source) || IgnoredImporter(importer) || !StartsWith(source, InfilePrefix) ==> r == Success(None)
    ensures r == Failure(NoImporter) <==>
              !IgnoredSource(source) && !IgnoredImporter(importer) && StartsWith(source, InfilePrefix) && NoImporterGiven(importer)
    ensures r.Success? && r.value.Some? ==>
              && importer.Some? && importer.value != "" && StartsWith(r.value.value, VirtualPrefix)
              && EndsWith(r.value.value, importer.value + Sep + source[|InfilePrefix|..])
    ensures r.Success? && r.value.Some? && StartsWith(importer.value, VirtualPrefix) ==>
              r.value.value == importer.value + Sep + source[|InfilePrefix|..]
    ensures r.Success? && r.value.Some? && !StartsWith(importer.value, VirtualPrefix) ==>
              r.value.value == VirtualPrefix + importer.value + Sep + source[|InfilePrefix|..]
  {
    if IgnoredSource(source) || IgnoredImporter(importer) || !StartsWith(source, InfilePrefix) then Success(None)
    else if NoImporterGiven(importer) then Failure(NoImporter)
    else
      var resolved := importer.value + Sep + source[|InfilePrefix|..];
      if StartsWith(importer.value, VirtualPrefix) then
        Success(Some(resolved))
      else
        var r := VirtualPrefix + resolved;
        assert r[|r| - |resolved|..] == resolved;
        Success(Some(r))
  }

  // ---------------------------------------------------------------------------------------
  // load

  function LowerAscii(c: char): char {
    if 'A' <= c <= 'Z' then (c as int + 32) as char else c
  }

  /** `s.replace(/[.]svelte$/i, '')`: a final `.svelte`, in any mix of cases, removed. */
  function StripSvelte(s: string): (r: string)
    ensures StartsWith(s, r) && (r == s || |r| + 7 == |s|)
  {
    if |s| >= 7 && s[|s| - 7] == '.' && forall k :: |s| - 6 <= k < |s| ==> LowerAscii(s[k]) == ".svelte"[k - (|s| - 7)]
    then s[..|s| - 7] else s
  }

  /** The importer and the segment name an id carries: after the prefix, the first piece
      between `!` is the importer and the last one, without `.svelte`, the name. */
  function ParseId(id: string): (r: (string, string))
    ensures var pieces := SplitOn(SliceFrom(id, |VirtualPrefix|), Sep);
            r == (pieces[0], StripSvelte(pieces[|pieces| - 1]))
  {
    var pieces := SplitOn(SliceFrom(id, |VirtualPrefix|), Sep);
    (pieces[0], StripSvelte(pieces[|pieces| - 1]))
  }

  /** The sources `load` leaves to other plugins. */
  predicate IgnoredId(id: string) {
    || StartsWith(id, "__sveltekit/server")
    || StartsWith(id, "\0virtual:__sveltekit/")
    || StartsWith(id, "svelte/internal")
    || Includes(id, "/.svelte-kit/generated/")
    || !StartsWith(id, VirtualPrefix)
  }

  /** The greatest number of `svelte!` on one line of `s` from `i` on, counting `cur` for
      the line under way. The pattern cannot overlap itself, so counting leftmost
      occurrences counts as many as `(svelte!.*){n}` can match. */
  function NestingsFrom(s: string, i: nat, cur: nat): nat
    decreases |s| - i
  {
    if i >= |s| then cur
    else if IsLineTerminator(s[i]) then
      var rest := NestingsFrom(s, i + 1, 0);
      if cur < rest then rest else cur
    else if OccursAt(s, "svelte!", i) then NestingsFrom(s, i + 7, cur + 1)
    else NestingsFrom(s, i + 1, cur)
  }

  /** `id.match(/(svelte!.*){5,}/)`: five `svelte!` on one line. */
  predicate TooNested(id: string) {
    NestingsFrom(id, 0, 0) >= 5
  }

  /** `load(id)`: `None` (`null`) for ids of other plugins and for importers with no
      recorded text; otherwise the text of the first later segment of the importer's text
      with the id's name. */
  function Load(m: MarkerSyntax, p: Parsers, contents: map<string, string>, id: string): (r: Result<Option<string>, PluginError>)
    ensures IgnoredId(id) || ParseId(id).0 !in contents ==> r == Success(None)
    ensures r.Success? && r.value.Some? ==>
              && !TooNested(id) && ParseId(id).0 in contents
              && var found := FindVirtualSegmentFromFileContent(m, p, contents[ParseId(id).0], ParseId(id).1);
                 found.Success? && found.value.Some? && r.value.value == found.value.value.1 && r.value.value != ""
    ensures r == Failure(TooManyNestings) ==> TooNested(id)
  {
    if IgnoredId(id) then Success(None)
    else
      var (importer, virtualName) := ParseId(id);
      if importer !in contents then Success(None)
      else
        var found :- match FindVirtualSegmentFromFileContent(m, p, contents[importer], virtualName)
          case Failure(e) => Failure(Split(e))
          case Success(v) => Success(v);
        if TooNested(id) then Failure(TooManyNestings)
        else if found.None? || found.value.0 == "" || found.value.1 == "" then Failure(NotFound(virtualName))
        else Success(Some(found.value.1))
  }

  /** A first-level id gives back the importer and the name it was resolved from (without
      `.svelte`), when neither holds a `!`. */
  lemma ParseResolvedId(importer: string, name: string)
    requires !StartsWith(importer, VirtualPrefix) && Sep[0] !in importer && Sep[0] !in name
    ensures ParseId(VirtualPrefix + importer + Sep + name) == (importer, StripSvelte(name))
  {
    var id := VirtualPrefix + importer + Sep + name;
    assert SliceFrom(id, |VirtualPrefix|) == importer + Sep + name;
    NoOccurrenceBefore(importer, Sep, name);
    SplitOnFirst(importer, Sep, name);
    NoSepOnePiece(name);
  }

  lemma NoSepOnePiece(s: string)
    requires Sep[0] !in s
    ensures SplitOn(s, Sep) == [s]
  {
    forall j | 0 <= j < |s| ensures !OccursAt(s, Sep, j) {
      assert j + 1 <= |s| ==> s[j..j + 1][0] == s[j];
    }
    SplitOnNone(s, Sep);
  }

  /** `resolveId` then `load`'s parsing: the importer and the name come back. */
  lemma ResolveThenParse(source: string, importer: string)
    requires StartsWith(source, InfilePrefix) && !IgnoredSource(source) && !IgnoredImporter(Some(importer))
    requires importer != "" && !StartsWith(importer, VirtualPrefix) && Sep[0] !in importer && Sep[0] !in source
    ensures ResolveId(source, Some(importer)).Success?
    ensures ParseId(ResolveId(source, Some(importer)).value.value) == (importer, StripSvelte(source[|InfilePrefix|..]))
  {
    assert Sep[0] !in source[|InfilePrefix|..] by {
      forall j | 0 <= j < |source| - |InfilePrefix| ensures source[|InfilePrefix|..][j] != Sep[0] {
        assert source[|InfilePrefix|..][j] == source[j + |InfilePrefix|];
      }
    }
    ParseResolvedId(importer, source[|InfilePrefix|..]);
  }

  /** An import made inside a virtual module: the id keeps a single prefix, and parsing it
      yields the real file and the innermost name. */
  lemma NestedResolve(file: string, outer: string, inner: string)
    requires file != "" && !StartsWith(file, VirtualPrefix) && Sep[0] !in file && !IgnoredImporter(Some(file))
    requires Sep[0] !in outer && Sep[0] !in inner
    requires !IgnoredSource(InfilePrefix + outer) && !IgnoredSource(InfilePrefix + inner)
    requires !IgnoredImporter(Some(VirtualPrefix + file + Sep + outer))
    ensures ResolveId(InfilePrefix + outer, Some(file)) == Success(Some(VirtualPrefix + file + Sep + outer))
    ensures ResolveId(InfilePrefix + inner, Some(VirtualPrefix + file + Sep + outer))
            == Success(Some(VirtualPrefix + file + Sep + outer + Sep + inner))
    ensures ParseId(VirtualPrefix + file + Sep + outer + Sep + inner) == (file, StripSvelte(inner))
  {
    ResolveInfile(file, outer);
    var mid := VirtualPrefix + file + Sep + outer;
    assert StartsWith(mid, VirtualPrefix) by { assert mid[..|VirtualPrefix|] == VirtualPrefix; }
    ResolveInVirtual(mid, inner);
    ParseNested(file, outer, inner);
  }

  /** `infile:name` imported from a virtual module appends the name to the module's id. */
  lemma ResolveInVirtual(importer: string, name: string)
    requires StartsWith(importer, VirtualPrefix) && !IgnoredImporter(Some(importer))
    requires !IgnoredSource(InfilePrefix + name)
    ensures ResolveId(InfilePrefix + name, Some(importer)) == Success(Some(importer + Sep + name))
  {
    var source := InfilePrefix + name;
    assert source[|InfilePrefix|..] == name;
    assert StartsWith(source, InfilePrefix) by { assert source[..|InfilePrefix|] == InfilePrefix; }
  }

  /** Parsing a twice-nested id gives the real file and the innermost name. */
  lemma ParseNested(file: string, outer: string, inner: string)
    requires Sep[0] !in file && Sep[0] !in outer && Sep[0] !in inner
    ensures ParseId(VirtualPrefix + file + Sep + outer + Sep + inner) == (file, StripSvelte(inner))
  {
    var id := VirtualPrefix + file + Sep + outer + Sep + inner;
    assert SliceFrom(id, |VirtualPrefix|) == file + Sep + (outer + Sep + inner);
    NoOccurrenceBefore(file, Sep, outer + Sep + inner);
    SplitOnFirst(file, Sep, outer + Sep + inner);
    NoOccurrenceBefore(outer, Sep, inner);
    SplitOnFirst(outer, Sep, inner);
    NoSepOnePiece(inner);
  }

  // ---------------------------------------------------------------------------------------
  // transform

  /** What `transform` hands on: nothing (`null`), the inner content of a virtual module
      (which the plugin then compiles), or the main segment of a file with segments. */
  datatype TransformOutput = Unchanged | Compile(code: string) | MainText(code: string)

  /** The ids `transform` leaves alone. */
  predicate IgnoredTransform(id: string) {
    || Includes(id, "/node_modules/")
    || Includes(id, "/.svelte-kit/generated/")
    || StartsWith(id, "\0virtual:__sveltekit/")
    || !EndsWith(id, ".svelte")
  }

  /** Where `/^\s*<template[^>]*>(.*)<\/template>\s*$/s` matches: the start of the opening
      tag, its closing `>`, and the end of the closing tag. */
  function TemplateBounds(code: string): (r: Option<(nat, nat, nat)>)
    ensures r.Some? ==> TemplateAt(code, r.value.0, r.value.1, r.value.2)
  {
    var t := TrimStart(code);
    var lead: nat := |code| - |t|;
    if !StartsWith(t, TemplateOpen) then None
    else
      var close: nat := FindChar(code, '>', lead + |TemplateOpen|);
      var e: nat := |TrimEnd(code)|;
      if close == |code| || e < close + 1 + 11 || code[e - 11..e] != "</template>" then None
      else
        BoundsFound(code, t, lead, close, e);
        Some((lead, close, e))
  }

  /** The code is white space up to `lead`, the opening tag with no `>` before the one at
      `close`, and ends at `e` with `</template>` followed by white space. */
  predicate TemplateAt(code: string, lead: nat, close: nat, e: nat) {
    && lead + |TemplateOpen| <= close && close + 1 + 11 <= e <= |code|
    && AllWhitespace(code[..lead]) && code[lead..lead + |TemplateOpen|] == TemplateOpen
    && code[close] == '>' && (forall j :: lead + |TemplateOpen| <= j < close ==> code[j] != '>')
    && code[e - 11..e] == "</template>" && AllWhitespace(code[e..])
  }

  /** The positions the matcher computes bound a template. */
  lemma BoundsFound(code: string, t: string, lead: nat, close: nat, e: nat)
    requires t == TrimStart(code) && lead == |code| - |t| && StartsWith(t, TemplateOpen)
    requires lead + |TemplateOpen| <= |code| && close == FindChar(code, '>', lead + |TemplateOpen|)
    requires e == |TrimEnd(code)| && close < |code| && close + 1 + 11 <= e
    requires code[e - 11..e] == "</template>"
    ensures TemplateAt(code, lead, close, e)
  {
    LeadingSpace(code, t, lead);
    TrailingSpace(code, e);
    OpenAtLead(code, t, lead);
  }

  /** What `trimStart` removed is white space. */
  lemma LeadingSpace(code: string, t: string, lead: nat)
    requires t == TrimStart(code) && lead == |code| - |t|
    ensures AllWhitespace(code[..lead]) && t == code[lead..]
  {
    PrefixAllWhitespace(code, lead);
  }

  lemma PrefixAllWhitespace(s: string, n: nat)
    requires n <= |s| && forall i :: 0 <= i < n ==> IsWhitespace(s[i])
    ensures AllWhitespace(s[..n])
  {
    assert forall i :: 0 <= i < n ==> s[..n][i] == s[i];
  }

  /** The opening tag that starts the trimmed text sits at `lead` in the code. */
  lemma OpenAtLead(code: string, t: string, lead: nat)
    requires lead <= |code| && t == code[lead..] && StartsWith(t, TemplateOpen)
    ensures lead + |TemplateOpen| <= |code| && code[lead..lead + |TemplateOpen|] == TemplateOpen
  {
    assert t[..|TemplateOpen|] == TemplateOpen;
    assert code[lead..lead + |TemplateOpen|] == t[..|TemplateOpen|];
  }

  /** What `trimEnd` removed is white space. */
  lemma TrailingSpace(code: string, e: nat)
    requires e == |TrimEnd(code)|
    ensures e <= |code| && AllWhitespace(code[e..])
  {
    assert forall i :: 0 <= i < |code| - e ==> code[e..][i] == code[e + i];
  }

  /** The capture of that pattern: the code is white space, the opening tag, the capture,
      `</template>` and white space. */
  function InnerContent(code: string): (r: Option<string>)
    ensures r.Some? <==> TemplateBounds(code).Some?
    ensures r.Some? ==>
              exists pre, tag, post :: code == pre + TemplateOpen + tag + ">" + r.value + "</template>" + post
                && AllWhitespace(pre) && AllWhitespace(post) && '>' !in tag
  {
    match TemplateBounds(code)
    case None => None
    case Some((lead, close, e)) =>
      TemplateParts(code, lead, close, e);
      var pre, tag, post := code[..lead], code[lead + |TemplateOpen|..close], code[e..];
      assert code == pre + TemplateOpen + tag + ">" + code[close + 1..e - 11] + "</template>" + post;
      assert AllWhitespace(pre) && AllWhitespace(post) && '>' !in tag;
      Some(code[close + 1..e - 11])
  }

  lemma TemplateParts(code: string, lead: nat, close: nat, e: nat)
    requires lead + |TemplateOpen| <= close && close + 1 + 11 <= e <= |code|
    requires code[lead..lead + |TemplateOpen|] == TemplateOpen
    requires code[close] == '>' && code[e - 11..e] == "</template>"
    requires forall j :: lead + |TemplateOpen| <= j < close ==> code[j] != '>'
    ensures code == code[..lead] + TemplateOpen + code[lead + |TemplateOpen|..close] + ">" + code[close + 1..e - 11] + "</template>" + code[e..]
    ensures '>' !in code[lead + |TemplateOpen|..close]
  {
    var tag := code[lead + |TemplateOpen|..close];
    Parts(code, lead, lead + |TemplateOpen|, close, e - 11, e);
    assert code[close..close + 1] == ">";
    assert '>' !in tag by {
      forall j | 0 <= j < |tag| ensures tag[j] != '>' {
        assert tag[j] == code[lead + |TemplateOpen| + j];
      }
    }
  }

  /** A text cut at five points is the concatenation of its six pieces, one of them a single
      character. */
  lemma Parts(s: string, a: nat, b: nat, c: nat, d: nat, e: nat)
    requires a <= b <= c < d <= e <= |s|
    ensures s == s[..a] + s[a..b] + s[b..c] + s[c..c + 1] + s[c + 1..d] + s[d..e] + s[e..]
  {
    assert s[..b] == s[..a] + s[a..b];
    assert s[..c] == s[..b] + s[b..c];
    assert s[..c + 1] == s[..c] + s[c..c + 1];
    assert s[..d] == s[..c + 1] + s[c + 1..d];
    assert s[..e] == s[..d] + s[d..e];
    assert s == s[..e] + s[e..];
  }

  /** `transform(code, id)`: a virtual module must be one `<template>` element, whose content
      is compiled; a `.svelte` file with named segments is recorded and reduced to its main
      segment; anything else is left alone. */
  function Transform(m: MarkerSyntax, p: Parsers, contents: map<string, string>, code: string, id: string)
    : (r: Result<(map<string, string>, TransformOutput), PluginError>)
    ensures r.Success? ==> r.value.0 == contents || r.value.0 == contents[id := code]
    ensures IgnoredTransform(id) ==> r == Success((contents, Unchanged))
    ensures !IgnoredTransform(id) && StartsWith(id, VirtualPrefix) ==>
              r == (if InnerContent(code).None? then Failure(NoInnerContent)
                    else Success((contents, Compile(InnerContent(code).value))))
    ensures r.Success? && r.value.1.MainText? ==>
              && SplitSegments(m, p, code).Success? && |SplitSegments(m, p, code).value.1| > 1
              && r.value.0 == contents[id := code] && r.value.1.code == SplitSegments(m, p, code).value.0.text
    ensures r.Success? && r.value.0 != contents ==> r.value.1.MainText?
  {
    if IgnoredTransform(id) then Success((contents, Unchanged))
    else if StartsWith(id, VirtualPrefix) then
      match InnerContent(code)
      case None => Failure(NoInnerContent)
      case Some(inner) => Success((contents, Compile(inner)))
    else
      var (main, segs) :- match SplitSegments(m, p, code)
        case Failure(e) => Failure(Split(e))
        case Success(v) => Success(v);
      if |segs| > 1 then Success((contents[id := code], MainText(main.text)))
      else Success((contents, Unchanged))
  }

  /** A `.svelte` file with segments, once transformed, serves each of its later named
      segments: `infile:Name` imported from it resolves to an id whose load gives the text of
      the first later segment named `Name`. */
  lemma TransformThenLoad(m: MarkerSyntax, p: Parsers, contents: map<string, string>, code: string,
                          file: string, name: string, main: Segment, segs: seq<Segment>, k: nat)
    requires !IgnoredTransform(file) && !StartsWith(file, VirtualPrefix) && !IgnoredImporter(Some(file))
    requires SplitSegments(m, p, code) == Success((main, segs)) && |segs| > 1
    requires 1 <= k < |segs| && segs[k].name == Some(name) && forall j :: 1 <= j < k ==> segs[j].name != Some(name)
    requires name != "" && segs[k].text != ""
    requires Sep[0] !in file && Sep[0] !in name && StripSvelte(name) == name
    requires !IgnoredSource(InfilePrefix + name)
    requires !IgnoredId(VirtualPrefix + file + Sep + name) && !TooNested(VirtualPrefix + file + Sep + name)
    ensures Transform(m, p, contents, code, file) == Success((contents[file := code], MainText(main.text)))
    ensures ResolveId(InfilePrefix + name, Some(file)) == Success(Some(VirtualPrefix + file + Sep + name))
    ensures Load(m, p, contents[file := code], VirtualPrefix + file + Sep + name) == Success(Some(segs[k].text))
  {
    TransformRecords(m, p, contents, code, file, main, segs);
    ResolveInfile(file, name);
    ParseResolvedId(file, name);
    FoundSegment(m, p, code, name, main, segs, k);
    LoadServes(m, p, contents[file := code], VirtualPrefix + file + Sep + name, file, name, segs[k].text);
  }

  /** A `.svelte` file with segments is recorded and reduced to its main segment. */
  lemma TransformRecords(m: MarkerSyntax, p: Parsers, contents: map<string, string>, code: string,
                         file: string, main: Segment, segs: seq<Segment>)
    requires !IgnoredTransform(file) && !StartsWith(file, VirtualPrefix)
    requires SplitSegments(m, p, code) == Success((main, segs)) && |segs| > 1
    ensures Transform(m, p, contents, code, file) == Success((contents[file := code], MainText(main.text)))
  {
  }

  /** `infile:name` imported from a real file resolves to the virtual id of that name. */
  lemma ResolveInfile(file: string, name: string)
    requires file != "" && !StartsWith(file, VirtualPrefix) && !IgnoredImporter(Some(file))
    requires !IgnoredSource(InfilePrefix + name)
    ensures ResolveId(InfilePrefix + name, Some(file)) == Success(Some(VirtualPrefix + file + Sep + name))
  {
    var source := InfilePrefix + name;
    assert source[|InfilePrefix|..] == name;
    assert StartsWith(source, InfilePrefix) by { assert source[..|InfilePrefix|] == InfilePrefix; }
  }

  /** The search of a split file finds the first later segment with the name. */
  lemma FoundSegment(m: MarkerSyntax, p: Parsers, code: string, name: string, main: Segment, segs: seq<Segment>, k: nat)
    requires SplitSegments(m, p, code) == Success((main, segs))
    requires 1 <= k < |segs| && segs[k].name == Some(name) && forall j :: 1 <= j < k ==> segs[j].name != Some(name)
    ensures FindVirtualSegmentFromFileContent(m, p, code, name) == Success(Some((name, segs[k].text)))
  {
    var found := FindVirtualSegmentFromFileContent(m, p, code, name);
    assert found.Success?;
    assert found.value.Some?;
    var k' :| 1 <= k' < |segs| && segs[k'].name == Some(name) && found.value.value == (name, segs[k'].text)
              && forall j :: 1 <= j < k' ==> segs[j].name != Some(name);
    assert k' == k;
  }

  /** `load` of an id whose importer is recorded and whose segment is found and non-empty
      returns that segment's text. */
  lemma LoadServes(m: MarkerSyntax, p: Parsers, contents: map<string, string>, id: string,
                   importer: string, name: string, text: string)
    requires !IgnoredId(id) && ParseId(id) == (importer, name) && importer in contents && !TooNested(id)
    requires FindVirtualSegmentFromFileContent(m, p, contents[importer], name) == Success(Some((name, text)))
    requires name != "" && text != ""
    ensures Load(m, p, contents, id) == Success(Some(text))
  {
  }

  // ---------------------------------------------------------------------------------------
  // handleHotUpdate

  /** What `handleHotUpdate` asks for: the virtual modules of the changed file, the
      invalidation of a changed virtual module, or nothing. */
  datatype HotUpdate = Reload(ids: seq<string>) | Invalidate(id: Option<string>) | Nothing

  /** `'\x00infile:' + mod.id + SEP`, a `null` id printing as `null`. */
  function ModulePrefix(modId: Option<string>): string {
    VirtualPrefix + (if modId.Some? then modId.value else "null") + Sep
  }

  function FilterPrefixed(ids: seq<string>, prefix: string): (r: seq<string>)
    ensures forall k :: 0 <= k < |r| ==> StartsWith(r[k], prefix) && r[k] in ids
    ensures forall id :: id in ids && StartsWith(id, prefix) ==> id in r
    ensures |r| <= |ids|
  {
    if |ids| == 0 then []
    else
      var rest := FilterPrefixed(ids[1..], prefix);
      if StartsWith(ids[0], prefix) then [ids[0]] + rest else rest
  }

  /** Whether some changed module is a virtual one: `modules.some(mod => mod.id?.startsWith('\0infile:'))`. */
  predicate SomeVirtual(modules: seq<Option<string>>) {
    exists k :: 0 <= k < |modules| && modules[k].Some? && StartsWith(modules[k].value, VirtualPrefix)
  }

  /** `handleHotUpdate(ctx)`: `moduleIds` are the ids of the module graph, `modules` the ids
      of the changed modules. The ids of the first changed module's virtual modules are
      reloaded; failing those, a changed virtual module is invalidated. Without changed
      modules, `mod.id` throws as soon as the filter reads it, which it does only when the
      graph has some module. */
  function HandleHotUpdate(moduleIds: seq<string>, modules: seq<Option<string>>): (r: Result<HotUpdate, PluginError>)
    ensures r.Failure? <==> |modules| == 0 && |moduleIds| > 0
    ensures |modules| == 0 && |moduleIds| == 0 ==> r == Success(Nothing)
    ensures r.Success? && r.value.Reload? ==>
              && |modules| > 0 && |r.value.ids| > 0
              && (forall k :: 0 <= k < |r.value.ids| ==> StartsWith(r.value.ids[k], ModulePrefix(modules[0])) && r.value.ids[k] in moduleIds)
              && (forall id :: id in moduleIds && StartsWith(id, ModulePrefix(modules[0])) ==> id in r.value.ids)
    ensures r.Success? && !r.value.Reload? && |modules| > 0 ==> forall id :: id in moduleIds ==> !StartsWith(id, ModulePrefix(modules[0]))
    ensures r.Success? && r.value.Invalidate? ==> |modules| > 0 && r.value.id == modules[0] && SomeVirtual(modules)
    ensures r.Success? && r.value.Nothing? ==> !SomeVirtual(modules)
  {
    if |modules| == 0 then
      if |moduleIds| > 0 then Failure(NoModules) else Success(Nothing)
    else
      var others := FilterPrefixed(moduleIds, ModulePrefix(modules[0]));
      if |others| > 0 then Success(Reload(others))
      else if SomeVirtual(modules) then Success(Invalidate(modules[0]))
      else Success(Nothing)
  }
}

=== FILE: wrappers.dfy ===
/** Failure-compatible wrappers used for the JavaScript `undefined`/`null` returns and thrown
    exceptions of the modelled code. `:-` propagates a thrown exception to the caller, which
    is what an uncaught `throw` does in the source. */
module Wrappers {

  /** `undefined` / `null` on the JavaScript side is `None`. */
  datatype Option<+T> = None | Some(value: T) {

    predicate IsFailure() {
      None?
    }

    function PropagateFailure<U>(): Option<U>
      requires None?
    {
      None
    }

    function Extract(): T
      requires Some?
    {
      value
    }

    function GetOr(default: T): T {
      match this
      case Some(v) => v
      case None => default
    }
  }

  /** A value, or the exception the source would throw instead. */
  datatype Result<+T, +E> = Success(value: T) | Failure(error: E) {

    predicate IsFailure() {
      Failure?
    }

    function PropagateFailure<U>(): Result<U, E>
      requires Failure?
    {
      Failure(error)
    }

    function Extract(): T
      requires Success?
    {
      value
    }
  }

  /** `xs.map(f)` for an `f` that may throw: the first throw escapes. */
  function MapResults<A, B, E>(f: A -> Result<B, E>, xs: seq<A>): (r: Result<seq<B>, E>)
    ensures r.Success? ==> |r.value| == |xs|
    ensures r.Success? <==> forall k :: 0 <= k < |xs| ==> f(xs[k]).Success?
    ensures r.Success? ==> forall k :: 0 <= k < |xs| ==> r.value[k] == f(xs[k]).value
  {
    if |xs| == 0 then Success([])
    else
      var y :- f(xs[0]);
      var rest :- MapResults(f, xs[1..]);
      assert forall k :: 1 <= k < |xs| ==> xs[k] == xs[1..][k - 1];
      Success([y] + rest)
  }
}
